=== FILE: README.md ===
# GridLamEdit core in Dafny

GridLamEdit edits composite laminates laid out on a grid of cells. Each laminate (Laminado) is an ordered stack of layers (Camada). A layer has a material, an orientation, a ply type and labels. Each cell of the grid is bound to one laminate. This project models the in-memory part of the program in Dafny and proves what each operation promises:

- **Layer lists.** The app-level `Laminate` with its layer list (`laminate.dfy`). The stacking table editor `StackingTableModel` (`stacking_table.dfy`, `stacking_rows.dfy`, `stacking_edits.dfy`, `stacking_changes.dfy`, `labels.dfy`) covers clamped inserts, multi-row deletes, moves, renumbering, the highlight rows, single-cell edits and their undo commands.
- **Cells and laminates.** The cell-to-laminate association of the document (`grid_doc.dfy`). Creating a laminate bound to a cell, the automatic `L<N>[.k][(tag)]` names and material synchronisation (`laminate_service.dfy`). Reassociating laminates to new cell ids by contour signatures (`reassociation.dfy`).
- **Checks.** The structural-ply symmetry and duplicate-stacking checks (`laminate_checks.dfy`). The centre and ±45 balance checks of the grid binding (`symmetry_binding.dfy`). The neighbour map of the cell-neighbours editor with its link/delete commands and connected blocks (`neighbor_graph.dfy`). The AML Hard/Soft/Quasi-iso classification (`aml.dfy`).
- **Views.** The virtual stacking view, with one column per cell and one row per layer position (`virtual_stacking.dfy`).
- **Reading and writing.** The JSON project format and the project manager (`project_manager.dfy`). The Grid Design workbook reader and writer (`grid_workbook.dfy`). The checks before a grid export (`grid_export.dfy`). The virtual stacking export rows (`virtual_export.dfy`). The batch laminate template reader (`batch_import.dfy`).
- **Lists and inputs.** Project-wide material and orientation queries (`project_query.dfy`). The material registry (`material_registry.dfy`). The natural sort key for laminate names (`natural_sort.dfy`). The paste-orientations dialog (`paste_dialog.dfy`). The laminate-name dialog (`name_dialog.dfy`).
- **Shared pieces.** The data records and their normalisers (`grid_model.dfy`). Untyped Python values and `normalize_angle` (`py_values.dfy`). Python strings, lists, dicts and `sorted` (`text.dfy`, `seqs.dfy`, `ordered_map.dfy`, `sorting.dfy`, `wrappers.dfy`).

The modelling choices are:
- Objects whose fields the program updates in place are classes whose methods are proved against specification functions. These are the laminate, the stacking table, the document, the neighbour window, the virtual stacking view, the material settings, the project manager and the dialogs.
- Parsers, normalisers and checks are functions, and the loops of the source are methods with loop invariants.
- A raised exception is a `Result` failure and `None` is an `Option`.
- Orientations are whole degrees held as integers.
- A spreadsheet as pandas reads it is a list of rows, each a map from column name to cell value.

## Model

| member | source | states |
|---|---|---|
| Laminates.Reindexed | gridlamedit/app/models/laminate.py:71-74 | `_reindex_layers` on a list: same length, and layer i is the old layer i with its index set to i and nothing else changed |
| Laminates.ReindexedFollowsPositions | gridlamedit/app/models/laminate.py:71-74 | after reindexing every layer's index equals its position, and the layers differ from the input only in their index fields |
| Laminates.ReindexedRespectsSameUpToIndex | gridlamedit/app/models/laminate.py:71-74 | two layer lists that differ only in index fields reindex to the same list |
| Laminates.MoveToReindexed | gridlamedit/app/models/laminate.py:52-54 | moving a layer in a reindexed list and in the original list gives lists that differ only in index fields |
| Laminates.MoveLayerUndo | gridlamedit/app/models/laminate.py:41-55 | `move_layer(a, b)` followed by `move_layer(b, a)` gives back the original (reindexed) layers |
| Laminates.AddThenRemoveLayer | gridlamedit/app/models/laminate.py:22-39 | `add_layer(x, p)` followed by `remove_layer(p)` gives back the original (reindexed) layers |
| Laminates.Laminate.constructor | gridlamedit/app/models/laminate.py:11-20 | a new laminate has the given name, colour and type, no layers, no associated cells and no symmetry index |
| Laminates.Laminate.ReindexLayers | gridlamedit/app/models/laminate.py:71-74 | the layer list becomes its reindexed form |
| Laminates.Laminate.AddLayer | gridlamedit/app/models/laminate.py:22-31 | succeeds exactly when `pos` is None or in [0, len]; None appends, otherwise the layer is inserted at `pos`; the list is then reindexed so every index follows its position; on failure the layers are unchanged |
| Laminates.Laminate.RemoveLayer | gridlamedit/app/models/laminate.py:33-39 | succeeds exactly when 0 <= pos < len; the layer at `pos` is removed and the rest reindexed; on failure nothing changes |
| Laminates.Laminate.MoveLayer | gridlamedit/app/models/laminate.py:41-55 | succeeds exactly when both indices are in range; `src == dst` changes nothing; otherwise the result is pop(src) then insert(dst), reindexed |
| Laminates.Laminate.DuplicateLayer | gridlamedit/app/models/laminate.py:57-65 | succeeds exactly when `pos` is in range; a field-equal copy of layer `pos` is inserted at `pos + 1` and the list reindexed; on failure nothing changes |
| Laminates.Laminate.SetSymmetryIndex | gridlamedit/app/models/laminate.py:67-69 | the symmetry index becomes the given value, None included, with no validation |
| GridDocs.AssociatedIdsMembers | gridlamedit/app/models/grid_doc.py:28-35 | the list `ensure_associations` builds for a laminate has no duplicates and holds exactly the ids of the cells that name that laminate |
| GridDocs.AssociationsConsistent | gridlamedit/app/models/grid_doc.py:23-35 | the lists built for every laminate agree with the cells' laminate names |
| GridDocs.FindCell | gridlamedit/app/models/grid_doc.py:39 | the position of the first cell with the id, or None when no cell has it |
| GridDocs.ReassignOtherId | gridlamedit/app/models/grid_doc.py:54 | renaming one cell leaves unchanged which laminates every other id names |
| GridDocs.ReassignSameId | gridlamedit/app/models/grid_doc.py:54 | with unique ids, after the rename the cell's id names exactly the target laminate |
| GridDocs.ReassignKeepsConsistency | gridlamedit/app/models/grid_doc.py:47-57 | when the lists agree with the cells before `reassign_cell`, they still agree after it |
| GridDocs.GridDoc.constructor | gridlamedit/app/models/grid_doc.py:12-17 | the document holds the given cells and laminates |
| GridDocs.GridDoc.GetLaminate | gridlamedit/app/models/grid_doc.py:19-21 | the laminate stored under the name, or None exactly when the name is absent |
| GridDocs.GridDoc.EnsureAssociations | gridlamedit/app/models/grid_doc.py:23-35 | every laminate's list becomes the ids of the cells naming it, in cell order, each once; cells with no or an unknown laminate are skipped; the result depends only on the cells, so a second call changes nothing |
| GridDocs.GridDoc.ReassignCell | gridlamedit/app/models/grid_doc.py:37-57 | fails with no change when the cell id or the laminate is unknown; otherwise the first cell with the id names the target, its id leaves its previous laminate's list and is appended to the target's list if absent, and no other list changes |
| GridModels.GridModel.constructor | gridlamedit/io/spreadsheet.py:361-370 | a grid model built from a saved state holds exactly that state, with no contours |
| GridModels.GridModel.MarkDirty | gridlamedit/io/spreadsheet.py:372-373 | the dirty flag becomes the given value |
| GridModels.CountOriented | gridlamedit/io/spreadsheet.py:437-444 | the count of layers with an orientation is at most the number of layers, and zero exactly when no layer has one |
| GridModels.TokenFrom | gridlamedit/io/spreadsheet.py:91-100 | the ply-type token keeps only lower-case ASCII letters and digits |
| GridModels.NormalizePlyTypeLabel | gridlamedit/io/spreadsheet.py:104-120 | the result is always one of the two ply-type options, and it is the non-structural one exactly when the token is one of the non-structural spellings of the canonical map |
| GridModels.TokenOfTokenText | gridlamedit/io/spreadsheet.py:91-100 | a text already made of token characters is its own token |
| GridModels.TokenOfStructural | gridlamedit/io/spreadsheet.py:104-107 | the structural option's own token is "considerar" |
| GridModels.TokenOfNonStructural | gridlamedit/io/spreadsheet.py:108-112 | the non-structural option's own token is "naoconsiderar" (the accent of "Não" is dropped) |
| GridModels.StructuralIsCanonical | gridlamedit/io/spreadsheet.py:116-120 | the structural option normalises to itself |
| GridModels.NonStructuralIsCanonical | gridlamedit/io/spreadsheet.py:116-120 | the non-structural option normalises to itself |
| GridModels.NormalizePlyTypeIdempotent | gridlamedit/io/spreadsheet.py:116-120 | normalising a ply-type label twice gives the same as normalising once |
| GridModels.NormalizeColorIndex | gridlamedit/io/spreadsheet.py:502-562 | the result is the default or an index in 1..150, and a boolean always gives the default |
| GridModels.NormalizeColorText | gridlamedit/io/spreadsheet.py:526-549 | the text branch also gives the default or an index in 1..150 |
| GridModels.ColorIndexRoundTrip | gridlamedit/io/spreadsheet.py:502-562 | an index in 1..150 survives normalisation both as a number and as its decimal text |
| GridModels.ColorOfText | gridlamedit/io/spreadsheet.py:527 | a text is normalised as its stripped form |
| GridModels.HexOfCandidate | gridlamedit/io/spreadsheet.py:574-577 | a colour is produced exactly when the candidate is six hex digits, and it is "#" followed by six hex digits |
| GridModels.HexOfText | gridlamedit/io/spreadsheet.py:571-577 | any colour produced from a text is "#" followed by six hex digits |
| GridModels.NormalizeHexColor | gridlamedit/io/spreadsheet.py:565-577 | None, booleans and floats give no colour; any colour produced is "#" followed by six hex digits |
| GridModels.HexOfHashed | gridlamedit/io/spreadsheet.py:574-577 | "#" followed by six hex digits normalises to its upper-case form |
| GridModels.NormalizeHexOfText | gridlamedit/io/spreadsheet.py:565-577 | on a text, normalize_hex_color is the text rule |
| GridModels.NormalizeHexIdempotent | gridlamedit/io/spreadsheet.py:565-577 | a normalised colour normalises to itself |
| StackingLabels.PrefixEnd | gridlamedit/io/spreadsheet.py:741 | the run of prefix characters (`[A-Za-z0-9_-]`) starting at a position ends at the first character outside the class |
| StackingLabels.DigitRunStart | gridlamedit/io/spreadsheet.py:741 | the digit run that ends a text starts after the last non-digit |
| StackingLabels.MatchLabelAsWritten | gridlamedit/io/spreadsheet.py:741 | any match found is a real match of `_LABEL_PATTERN`: a letter, prefix characters, an optional dot and digits to the end |
| StackingLabels.MatchLabelAsWrittenIsGreedy | gridlamedit/io/spreadsheet.py:741 | the match found is the one Python's backtracking picks: the longest prefix, a dot preferred; no match exactly when the pattern cannot match |
| StackingLabels.MatchLabel | gridlamedit/io/spreadsheet.py:741 | the corrected matcher also returns a real match, and an undotted number starts after a non-digit, so it holds the whole digit run |
| StackingLabels.MatchLabelIsLazy | gridlamedit/io/spreadsheet.py:741 | the corrected matcher fails only when the pattern cannot match, and otherwise picks the shortest prefix |
| StackingLabels.LabelStyleOf | gridlamedit/io/spreadsheet.py:778-786 | `_prefix_and_separator` read with the corrected matcher: the style of the first label that matches, else the default prefix with "."; the style is well formed, so its labels read back, whenever the default prefix is valid and does not end in a digit (corrected, see Findings) |
| StackingLabels.MatchStyleWellFormed | gridlamedit/io/spreadsheet.py:782-785 | the style taken from a matched label is well formed, and it has a dot exactly when the text has one |
| StackingLabels.LabelForDot | gridlamedit/io/spreadsheet.py:790 | a label `prefix + sep + str(n)` has a dot exactly when its separator is one |
| StackingLabels.MatchOfLabelFor | gridlamedit/io/spreadsheet.py:741 | the corrected matcher splits a numbered label at its style's prefix and separator (see also line 790) |
| StackingLabels.MatchDigitsOfLabelFor | gridlamedit/io/spreadsheet.py:805 | the number the corrected matcher reads from a numbered label is the decimal text of n |
| StackingLabels.LabelRoundTrip | gridlamedit/io/spreadsheet.py:796-811 | with the corrected matcher, a label numbered n >= 1 in a well-formed style normalises to itself |
| StackingLabels.NormalizeLabelIdempotent | gridlamedit/io/spreadsheet.py:796-828 | a label the corrected normalisation produced from a non-blank text normalises to itself again |
| StackingLabels.AsWrittenRejectsTrailingZero | gridlamedit/io/spreadsheet.py:800-809 | as written, every undotted label whose number ends in 0 (such as "Seq10") is refused, because the greedy prefix leaves the number "0" (see also line 741) |
| StackingLabels.AsWrittenTakesAllButLast | gridlamedit/io/spreadsheet.py:741 | as written, the greedy prefix of an undotted label takes every digit except the last |
| StackingLabels.Seq10Example | gridlamedit/io/spreadsheet.py:796-811 | "Seq10" is refused as written and kept as "Seq10" by the corrected normalisation |
| StackingLabels.LabelStyleOfAsWritten | gridlamedit/io/spreadsheet.py:778-786 | as written, the style of the first label the greedy pattern matches keeps a valid prefix whenever the default prefix is valid; what it reads from a numbered label is stated by AsWrittenStyleOfNumbered |
| StackingLabels.AsWrittenStyleOfNumbered | gridlamedit/io/spreadsheet.py:778-786 | as written, an undotted first label numbered 10 or more lends a prefix holding all its digits but the last, longer than the column's own prefix, while the corrected style is the column's own (see also line 741) |
| StackingLabels.Seq10StyleExample | gridlamedit/io/spreadsheet.py:778-792 | rows labelled Seq10, Seq11, Seq12 get the style ("Seq1", "") and first default label "Seq11" as written, and ("Seq", "") with "Seq1" corrected |
| StackingRows.EnsureLayerDefaults | gridlamedit/io/spreadsheet.py:1006-1023 | the ply type becomes one of the two options; the rosette is stripped or defaulted; a layer without orientation loses its material and becomes non-structural; orientation, index and labels are kept |
| StackingRows.RosetteOrDefault | gridlamedit/io/spreadsheet.py:1013-1014 | the rosette is the stripped text, or the default label when it is blank; it is never empty and always stripped |
| StackingRows.EnsureLayerDefaultsIdempotent | gridlamedit/io/spreadsheet.py:1006-1023 | applying the layer defaults twice gives the same as applying them once |
| StackingRows.FillMaterial | gridlamedit/io/spreadsheet.py:1350-1356 | `insert_layer`'s fill-in changes only an oriented layer without material, and then only its material, to the suggestion |
| StackingRows.Reindexed | gridlamedit/io/spreadsheet.py:1400-1402 | `_sync_indices`: every layer's idx becomes its row, nothing else changes |
| StackingRows.SequenceStyle | gridlamedit/io/spreadsheet.py:830-833 | the style the sequence column is renumbered in is well formed, so its labels read back (corrected, see Findings) |
| StackingRows.PlyStyle | gridlamedit/io/spreadsheet.py:846-849 | the style the ply column is renumbered in is well formed (corrected, see Findings) |
| StackingRows.SequenceNumbered | gridlamedit/io/spreadsheet.py:835-839 | row i's sequence label becomes the style's label number i + 1, nothing else changes |
| StackingRows.PlyNumbered | gridlamedit/io/spreadsheet.py:851-855 | row i's ply label becomes the style's label number i + 1, nothing else changes |
| StackingRows.ResyncedRows | gridlamedit/io/spreadsheet.py:1359-1361 | after re-indexing and both label syncs, row i has idx i and labels numbered i + 1 in the styles of the original rows, and no other field changes (corrected, see Findings) |
| StackingRows.ResyncedLabelsNormalize | gridlamedit/io/spreadsheet.py:796-860 | every label the renumbering writes is kept unchanged by the (corrected) label normalisation |
| StackingRows.StyleOfLabelFor | gridlamedit/io/spreadsheet.py:778-786 | the style read from a label written in a well-formed style is that style (corrected, see Findings) |
| StackingRows.StylesOfResynced | gridlamedit/io/spreadsheet.py:830-860 | renumbering keeps the sequence and ply styles of the rows (see also lines 778-786) (corrected, see Findings) |
| StackingRows.ResyncedIdempotent | gridlamedit/io/spreadsheet.py:830-860 | renumbering twice gives the same rows as renumbering once (see also lines 1400-1402) |
| StackingRows.HighlightFollowsInsert | gridlamedit/io/spreadsheet.py:1177-1197 | after an insertion, each highlighted row is shifted so it still points at the same layer |
| StackingRows.HighlightFollowsRemove | gridlamedit/io/spreadsheet.py:1199-1223 | after a deletion, a surviving highlighted row moves up by the number of removed rows above it and still points at the same layer |
| StackingRows.HighlightFollowsMove | gridlamedit/io/spreadsheet.py:1225-1254 | after a move, each highlighted row still points at the same layer |
| StackingRows.MoveHighlightsBack | gridlamedit/io/spreadsheet.py:1225-1254 | moving a row back restores every highlight set |
| StackingTables.Clamped | gridlamedit/io/spreadsheet.py:1346 | `insert_layer`'s position is at most the number of layers, and an in-range position is kept |
| StackingTables.InRange | gridlamedit/io/spreadsheet.py:1148 | the requested rows that index a layer, and no others |
| StackingTables.ShiftRows | gridlamedit/io/spreadsheet.py:1182-1192 | the `shift` closure computes the insertion remapping of a highlight set |
| StackingTables.AdjustRows | gridlamedit/io/spreadsheet.py:1206-1218 | the `adjust` closure computes the deletion remapping of a highlight set |
| StackingTables.MoveRows | gridlamedit/io/spreadsheet.py:1230-1249 | the `adjust` closure computes the move remapping of a highlight set |
| StackingTables.ShiftedRowsIn | gridlamedit/io/spreadsheet.py:1177-1197 | after an insertion the highlighted rows still index layers of the longer list |
| StackingTables.MovedRowsIn | gridlamedit/io/spreadsheet.py:1225-1254 | after a move the highlighted rows still index layers |
| StackingTables.AdjustedRowsIn | gridlamedit/io/spreadsheet.py:1199-1223 | after a deletion the remapped highlighted rows still index layers of the shorter list |
| StackingTables.AdjustNothing | gridlamedit/io/spreadsheet.py:1200-1202 | with no non-negative row removed the highlights are unchanged |
| StackingTables.RowOrder | gridlamedit/io/spreadsheet.py:1371 | the requested rows in increasing order, as the same set of values |
| StackingTables.DeleteRows | gridlamedit/io/spreadsheet.py:1369-1378 | the descending delete loop removes exactly the requested rows that index a layer, counts them, and keeps the other layers and flags in order |
| StackingTables.StackingTableModel.constructor | gridlamedit/io/spreadsheet.py:744-761 | a new table has no layers, flags or highlights, no pending suppression and no pushed commands |
| StackingTables.StackingTableModel.SetUndoStack | gridlamedit/io/spreadsheet.py:764-765 | the table records edits from now on exactly when an undo stack is given |
| StackingTables.StackingTableModel.PrefixAndSeparator | gridlamedit/io/spreadsheet.py:778-786 | the loop returns the style of the first label in the column that matches the pattern, else the default prefix with "." (corrected, see Findings) |
| StackingTables.StackingTableModel.SyncIndices | gridlamedit/io/spreadsheet.py:1400-1402 | every layer's idx becomes its row |
| StackingTables.StackingTableModel.ForceSequenceSync | gridlamedit/io/spreadsheet.py:830-844 | every sequence label becomes the column's style with number row + 1 (corrected, see Findings) |
| StackingTables.StackingTableModel.RelabelSequences | gridlamedit/io/spreadsheet.py:835-839 | the loop writes label number idx + 1 into row idx's sequence column |
| StackingTables.StackingTableModel.ForcePlySync | gridlamedit/io/spreadsheet.py:846-860 | every ply label becomes the column's style with number row + 1 (corrected, see Findings) |
| StackingTables.StackingTableModel.RelabelPlies | gridlamedit/io/spreadsheet.py:851-855 | the loop writes label number idx + 1 into row idx's ply column |
| StackingTables.StackingTableModel.Resync | gridlamedit/io/spreadsheet.py:1359-1361 | indices, then sequence labels, then ply labels are renumbered (corrected, see Findings) |
| StackingTables.StackingTableModel.UpdateLayers | gridlamedit/io/spreadsheet.py:987-996 | the layers become the given ones with their defaults, renumbered; nothing is checked and nothing highlighted (corrected, see Findings) |
| StackingTables.StackingTableModel.InsertLayer | gridlamedit/io/spreadsheet.py:1345-1366 | the layer, given its defaults and the suggested material, goes in at the clamped position, unchecked; highlights at or below it move down; the rows are renumbered (corrected, see Findings) |
| StackingTables.StackingTableModel.InsertRow | gridlamedit/io/spreadsheet.py:1347-1361 | the prepared layer goes in at the position with an unchecked flag, and the highlights below it move down |
| StackingTables.StackingTableModel.RemoveRows | gridlamedit/io/spreadsheet.py:1368-1387 | the requested rows that index a layer are deleted and counted; flags go with their layers; when any was deleted the highlights are remapped and the rows renumbered, otherwise nothing changes (corrected, see Findings) |
| StackingTables.StackingTableModel.MoveRow | gridlamedit/io/spreadsheet.py:1424-1444 | refused, with no change, for equal or out-of-range rows; otherwise the layer and its flag move from source to target, the highlights follow and the rows are renumbered (corrected, see Findings) |
| StackingTables.StackingTableModel.ShiftHighlights | gridlamedit/io/spreadsheet.py:1177-1197 | both highlight sets are shifted for an insertion |
| StackingTables.StackingTableModel.AdjustHighlights | gridlamedit/io/spreadsheet.py:1199-1223 | both highlight sets are remapped for a deletion of the non-negative removed rows |
| StackingTables.StackingTableModel.MoveHighlightRows | gridlamedit/io/spreadsheet.py:1225-1254 | both highlight sets are remapped for a move |
| StackingTables.StackingTableModel.ClearAllHighlights | gridlamedit/io/spreadsheet.py:1139-1145 | both highlight sets become empty |
| StackingTables.StackingTableModel.SetRedRows | gridlamedit/io/spreadsheet.py:1147-1152 | the red rows become the requested rows that index a layer |
| StackingTables.StackingTableModel.AddRedRows | gridlamedit/io/spreadsheet.py:1154-1160 | the requested rows that index a layer join the red rows |
| StackingTables.StackingTableModel.SetGreenRows | gridlamedit/io/spreadsheet.py:1162-1167 | the green rows become the requested rows that index a layer |
| StackingTables.StackingTableModel.AddGreenRows | gridlamedit/io/spreadsheet.py:1169-1175 | the requested rows that index a layer join the green rows |
| StackingTables.StackingTableModel.RowDefaultsAt | gridlamedit/io/spreadsheet.py:788-794 | the default sequence and ply labels of a row (corrected, see Findings) |
| StackingTables.StackingTableModel.ApplyFieldValueCore | gridlamedit/io/spreadsheet.py:862-953 | refused for a row outside the table and for a column or value the edit rules refuse; otherwise the edited layer replaces the row, and nothing else changes |
| StackingTables.StackingTableModel.ApplyFieldValue | gridlamedit/io/spreadsheet.py:955-957 | the same edit with undo recording suspended for its duration and restored afterwards |
| StackingTables.StackingTableModel.RedoEdit | gridlamedit/io/spreadsheet.py:2409-2410 | redo applies the command's new value with recording suspended |
| StackingTables.StackingTableModel.UndoEdit | gridlamedit/io/spreadsheet.py:2412-2413 | undo applies the command's old value with recording suspended |
| StackingTables.StackingTableModel.ApplyOrRecordChange | gridlamedit/io/spreadsheet.py:959-974 | with recording on, the edit is pushed as a command and run at once (its redo) and the answer is True; with recording off, the edit is applied and its own answer returned |
| StackingTables.StackingTableModel.SetData | gridlamedit/io/spreadsheet.py:1269-1342 | an index outside the table is refused; a check-state edit of the selection column sets the flag and succeeds exactly when it changes; an edit of a data column is refused when the value normalises to the current one or is invalid, and otherwise goes through `_apply_or_record_change`; other roles change nothing |
| StackingTables.StackingTableModel.CheckedRows | gridlamedit/io/spreadsheet.py:1389-1390 | exactly the checked rows |
| StackingTables.StackingTableModel.SetAllChecked | gridlamedit/io/spreadsheet.py:1404-1416 | every flag becomes the value; checking all of a non-empty table makes it all-checked, unchecking leaves none checked |
| StackingTables.StackingTableModel.ClearChecks | gridlamedit/io/spreadsheet.py:1392-1395 | every flag becomes False |
| StackingTables.StackingTableModel.ToggleCheck | gridlamedit/io/spreadsheet.py:1446-1452 | refused for a row outside the table; otherwise that row's flag is flipped and nothing else changes |
| StackingTables.StackingTableModel.SetUnbalancedWarning | gridlamedit/io/spreadsheet.py:998-1003 | the warning flag becomes the given value |
| StackingEdits.StrOrEmpty | gridlamedit/io/spreadsheet.py:797 | `str(value or "")`: a text is itself and None gives "" (see also line 888) |
| StackingEdits.OrientationFromInput | gridlamedit/io/spreadsheet.py:911-924 | the orientation an edit asks for: None for None, a blank text or "x"; otherwise the normalised angle, which is always in range; nothing when the value does not normalise |
| StackingEdits.AngleOfInput | gridlamedit/io/spreadsheet.py:918-924 | `normalize_angle(value)` with the fallback to its stripped text; any angle produced is in range |
| StackingEdits.AngleInputAccepted | gridlamedit/io/spreadsheet.py:909-924 | an in-range orientation given as a number is taken as it is |
| StackingEdits.EditPlyType | gridlamedit/io/spreadsheet.py:877-886 | the ply-type column always leaves one of the two options, and a foil layer's remembered type follows the edit |
| StackingEdits.ApplyMaterial | gridlamedit/io/spreadsheet.py:887-908 | a material edit is refused exactly when a non-blank material is given to a layer without orientation; otherwise the material becomes the trimmed text |
| StackingEdits.EditOrientation | gridlamedit/io/spreadsheet.py:909-942 | an orientation edit is refused exactly when the value gives no orientation |
| StackingEdits.ApplyOrientation | gridlamedit/io/spreadsheet.py:925-942 | the layer's orientation becomes the requested one |
| StackingEdits.EditRow | gridlamedit/io/spreadsheet.py:862-944 | an edit succeeds only on the sequence, ply, ply-type, material and orientation columns (corrected, see Findings) |
| StackingEdits.ClearOrientation | gridlamedit/io/spreadsheet.py:911-930 | clearing the orientation always succeeds and clears the material; a layer that had a material becomes non-structural |
| StackingEdits.MaterialNeedsOrientation | gridlamedit/io/spreadsheet.py:888-890 | a material edit is accepted exactly when the trimmed material is blank or the layer has an orientation |
| StackingEdits.LabelKeeps | gridlamedit/io/spreadsheet.py:867-876 | the label columns change only their label |
| StackingEdits.MaterialKeeps | gridlamedit/io/spreadsheet.py:887-908 | the material column changes only the material, the ply type and the remembered ply type |
| StackingEdits.MaterialPlyType | gridlamedit/io/spreadsheet.py:893-908 | a foil material remembers the ply type and forces non-structural; any other material restores a remembered ply type and forgets it |
| StackingEdits.OrientationKeeps | gridlamedit/io/spreadsheet.py:909-942 | the orientation column changes only the orientation, the material and the ply type |
| StackingEdits.OrientationMaterial | gridlamedit/io/spreadsheet.py:925-939 | a layer left without orientation has no material; one given an orientation keeps its material or takes the suggestion |
| StackingEdits.FoilRestoresPlyType | gridlamedit/io/spreadsheet.py:893-908 | setting a foil material and then a plain one gives the layer back its ply type |
| StackingEdits.SecondFoilForgets | gridlamedit/io/spreadsheet.py:893-894 | a second foil material overwrites the remembered ply type, so the type before the first foil is lost |
| StackingEdits.SequenceEditUndo | gridlamedit/io/spreadsheet.py:867-871 | a sequence edit followed by the edit back to the old normalised label restores the layer (corrected, see Findings) |
| StackingEdits.PlyEditUndo | gridlamedit/io/spreadsheet.py:872-876 | a ply-label edit followed by the edit back to the old normalised label restores the layer (corrected, see Findings) |
| StackingEdits.PlyTypeEditUndo | gridlamedit/io/spreadsheet.py:877-886 | a ply-type edit on a non-foil layer is undone by the edit back to its old canonical type |
| StackingChanges.Edited | gridlamedit/io/spreadsheet.py:862-953 | `_apply_field_value` on the list: only the edited row can change, and it becomes the edited layer, or stays as it was when the edit is refused |
| StackingChanges.OrientationRequest | gridlamedit/io/spreadsheet.py:1320-1337 | what setData asks for on the orientation column: clearing for None, a blank, "x" or "empty"; otherwise an in-range angle, or nothing when the value does not normalise |
| StackingChanges.LabelChangeStable | gridlamedit/io/spreadsheet.py:1296-1312 | a label that setData records is accepted again by the label normalisation, whatever the row's default (corrected, see Findings) |
| StackingChanges.OrientationInputRoundTrip | gridlamedit/io/spreadsheet.py:909-924 | an orientation field value written back by undo gives the orientation it stands for |
| StackingChanges.OrientationChangeValues | gridlamedit/io/spreadsheet.py:1320-1340 | a recorded orientation change holds the current orientation as its old value and the requested one as its new value |
| StackingChanges.MaterialChangeValues | gridlamedit/io/spreadsheet.py:1314-1318 | a recorded material change holds the trimmed text, so redoing it sets exactly that material |
| StackingChanges.PlyTypeRedo | gridlamedit/io/spreadsheet.py:1290-1294 | redoing a recorded ply-type change sets the normalised label (see also lines 2409-2410) |
| StackingChanges.SequenceRedo | gridlamedit/io/spreadsheet.py:1296-1302 | redoing a recorded sequence change is the edit itself (see also lines 2409-2410) (corrected, see Findings) |
| StackingChanges.PlyRedo | gridlamedit/io/spreadsheet.py:1304-1312 | redoing a recorded ply-label change is the edit itself (see also lines 2409-2410) (corrected, see Findings) |
| StackingChanges.MaterialRedo | gridlamedit/io/spreadsheet.py:1314-1318 | redoing a recorded material change given as text is the edit itself (see also lines 2409-2410) |
| StackingChanges.OrientationRedo | gridlamedit/io/spreadsheet.py:1320-1340 | redoing a recorded orientation change sets the requested orientation; "empty" clears it here, although `_apply_field_value` alone refuses it (see also lines 2409-2410) |
| StackingChanges.PlyTypeChangeUndone | gridlamedit/io/spreadsheet.py:2392-2413 | undoing a ply-type change on a layer without a foil material gives the layer back |
| StackingChanges.SequenceChangeUndone | gridlamedit/io/spreadsheet.py:2392-2413 | a recorded sequence change is accepted when redone, and undone by the old label when that was already in normal form (corrected, see Findings) |
| StackingChanges.PlyChangeUndone | gridlamedit/io/spreadsheet.py:2392-2413 | a recorded ply-label change is accepted when redone, and undone by the old label when that was already in normal form (corrected, see Findings) |
| StackingChanges.MaterialChangeUndone | gridlamedit/io/spreadsheet.py:2392-2413 | undoing a material change gives the layer back when neither material is a foil and no ply type is remembered |
| StackingChanges.OrientationChangeUndone | gridlamedit/io/spreadsheet.py:2392-2413 | undoing a change from one angle to another gives the layer back when it has a material |
| StackingChanges.OrientationSetUndone | gridlamedit/io/spreadsheet.py:925-942 | giving an orientation to a layer without one and undoing it leaves the layer structural, where it was non-structural before: the undo is not exact (see also lines 2412-2413) |
| StackingChanges.OrientationClearUndone | gridlamedit/io/spreadsheet.py:925-942 | undoing the clearing of an orientation does not bring the material back: the layer takes the suggestion, if any (see also lines 2412-2413) |
| GridUiBinding.OrientationToken | gridlamedit/io/spreadsheet.py:2233-2242 | the token of a stored orientation is that orientation when it is in range, and None where `normalize_angle` raises |
| GridUiBinding.OrientationTokenNormalizes | gridlamedit/io/spreadsheet.py:2233-2242 | the token is what `normalize_angle` makes of the stored number |
| GridUiBinding.StructuralRows | gridlamedit/io/spreadsheet.py:2251-2257 | a row is listed exactly when its layer has an orientation and a structural ply type, in increasing order |
| GridUiBinding.KeysOf | gridlamedit/io/spreadsheet.py:2273-2276 | the mirror key of each structural row, in row order |
| GridUiBinding.Centers | gridlamedit/io/spreadsheet.py:2282-2288 | one centre row for an odd count, two for an even one |
| GridUiBinding.DetectSymmetryCenters | gridlamedit/io/spreadsheet.py:2259-2289 | `_detect_symmetry_centers` answers the symmetry specification: no structural row is not symmetric, one is its own centre, more are symmetric when the walk finds no mismatch |
| GridUiBinding.DetectOnRows | gridlamedit/io/spreadsheet.py:2261-2289 | the walk from both ends over the structural rows gives the symmetry specification of those rows |
| GridUiBinding.MirrorWalk | gridlamedit/io/spreadsheet.py:2267-2280 | the while loop reports agreement exactly when every key agrees with its mirror image |
| GridUiBinding.MirroredHalf | gridlamedit/io/spreadsheet.py:2268 | agreement up to the middle is agreement of every key with its mirror image |
| GridUiBinding.MirroredIffReversed | gridlamedit/io/spreadsheet.py:2267-2280 | agreement with the mirror image is being equal to one's own reverse |
| GridUiBinding.SymmetricIffPalindrome | gridlamedit/io/spreadsheet.py:2259-2289 | the structural stack is symmetric exactly when it is non-empty and its keys (trimmed lower-cased material, orientation) read the same reversed |
| GridUiBinding.CentersSplitEvenly | gridlamedit/io/spreadsheet.py:2282-2288 | the centres of a symmetric stack are structural rows, and as many structural rows lie before the first centre as after the last |
| GridUiBinding.CountAngleBefore | gridlamedit/io/spreadsheet.py:2300-2311 | the count of structural rows before the centre with a given orientation token is at most the number of rows |
| GridUiBinding.MinOf | gridlamedit/io/spreadsheet.py:2296 | `min()` of a non-empty list is a member and below every member |
| GridUiBinding.IsUnbalanced | gridlamedit/io/spreadsheet.py:2291-2312 | `_is_unbalanced` answers the balance specification: a symmetric stack is unbalanced when the structural rows before its first centre hold different numbers of +45 and -45 plies |
| GridUiBinding.CountDiagonals | gridlamedit/io/spreadsheet.py:2297-2312 | the loop reports imbalance exactly when the +45 and -45 counts before the first centre differ |
| GridUiBinding.NoDiagonalsNoCount | gridlamedit/io/spreadsheet.py:2305-2311 | with no ply of the angle among the rows, the count is zero |
| GridUiBinding.NoDiagonalsBalanced | gridlamedit/io/spreadsheet.py:2291-2312 | a laminate with no +45 or -45 ply is never unbalanced |
| NeighborGraph.Opposite | gridlamedit/app/cell_neighbors.py:111-117 | the opposite of a direction is a different direction |
| NeighborGraph.OppositeInvolution | gridlamedit/app/cell_neighbors.py:111-117 | `opposite(opposite(d)) == d`, with no fixed point |
| NeighborGraph.OppositeNameMatches | gridlamedit/app/cell_neighbors.py:111-117 | `opposite` is defined exactly on the four direction names (others raise KeyError), agrees with the direction form and undoes itself |
| NeighborGraph.Ensure | gridlamedit/app/cell_neighbors.py:1707-1710 | a missing cell gets an entry with no neighbours; an existing entry is left alone |
| NeighborGraph.Link | gridlamedit/app/cell_neighbors.py:1712-1717 | both entries exist afterwards, src points to dst in the direction and dst back to src in the opposite one, and every other slot is unchanged |
| NeighborGraph.Unlink | gridlamedit/app/cell_neighbors.py:145-151 | the two slots are cleared where their entries exist, no entry is added or removed, and every other slot is unchanged |
| NeighborGraph.UnlinkUndoesLink | gridlamedit/app/cell_neighbors.py:132-151 | undoing a link added over two free slots gives back the map, except that entries the link created stay with no neighbours |
| NeighborGraph.LinkKeepsConsistent | gridlamedit/app/cell_neighbors.py:1712-1717 | linking two free slots keeps every link answered by its reverse link |
| NeighborGraph.WriteBackSlots | gridlamedit/app/cell_neighbors.py:242-246 | the loops over a saved entry write exactly the slots facing a saved neighbour that has an entry (see also lines 186-189) |
| NeighborGraph.DeleteThenRestore | gridlamedit/app/cell_neighbors.py:179-261 | in a consistent map, `DeleteCellCommand.redo` followed by `undo` gives back exactly the neighbour map |
| NeighborGraph.DeleteClearsBackPointers | gridlamedit/app/cell_neighbors.py:179-197 | in a consistent map, after the delete the cell has no entry and no remaining entry names it |
| NeighborGraph.NodesRoundTrip | gridlamedit/app/cell_neighbors.py:208-223 | deleting a node record and putting it back restores the records; its position moves to the end of the iteration order |
| NeighborGraph.ComponentsCoverAssigned | gridlamedit/app/cell_neighbors.py:1299-1338 | when every link names an assigned cell, the blocks found cover exactly the assigned cells |
| NeighborGraph.Unvisited | gridlamedit/app/cell_neighbors.py:1330-1333 | the neighbours queued are the non-empty unvisited ids of the entry, and every such id is queued |
| NeighborGraph.FirstLargest | gridlamedit/app/cell_neighbors.py:1353 | `max(components, key=len)` picks the first block of largest size |
| NeighborGraph.Disconnected | gridlamedit/app/cell_neighbors.py:1354 | the blocks kept are those different from the largest |
| NeighborGraph.DisconnectedAreTheOthers | gridlamedit/app/cell_neighbors.py:1353-1354 | with disjoint non-empty blocks, the disconnected blocks are all blocks but the largest, in order |
| NeighborGraph.RecordsIn | gridlamedit/app/cell_neighbors.py:1445-1448 | `records_to_delete` holds exactly the records, in grid order, whose cell is to be removed |
| NeighborGraph.RecordsInNoDup | gridlamedit/app/cell_neighbors.py:1445-1448 | the records to delete have distinct positions |
| NeighborGraph.RemoveRecordFacts | gridlamedit/app/cell_neighbors.py:1451-1481 | deleting one record drops its cell's entry, keeps every other record, deletes the record unless it is at the origin, where only the cell is cleared |
| NeighborGraph.RemovedCellsLoseEntries | gridlamedit/app/cell_neighbors.py:1451-1459 | after the cleanup no removed record's cell keeps an entry |
| NeighborGraph.OtherRecordsKept | gridlamedit/app/cell_neighbors.py:1451-1481 | the cleanup leaves every other record as it was |
| NeighborGraph.TargetRecordsRemoved | gridlamedit/app/cell_neighbors.py:1470-1481 | every record to delete is deleted, except the origin record, whose cell is cleared |
| NeighborGraph.CleanupEffect | gridlamedit/app/cell_neighbors.py:1438-1481 | the cleanup for a set of cells: each record holding one is deleted (the origin only loses its cell), that cell loses its entry, every other record stays |
| NeighborGraph.OriginNeverDeleted | gridlamedit/app/cell_neighbors.py:1470-1472 | the origin record is never deleted |
| NeighborGraph.ExploreFrom | gridlamedit/app/cell_neighbors.py:1319-1333 | one breadth-first search returns a block holding its start, every cell of which the start reaches by following links, disjoint from earlier blocks and, together with them, closed under links |
| NeighborGraph.NeighborWindow.constructor | gridlamedit/app/cell_neighbors.py:552-641 | a new window has no neighbours, no node records and an empty undo stack |
| NeighborGraph.NeighborWindow.EnsureCellMappingEntry | gridlamedit/app/cell_neighbors.py:1707-1710 | the neighbour map gains an empty entry for a missing cell; nothing else changes |
| NeighborGraph.NeighborWindow.LinkCellsInternal | gridlamedit/app/cell_neighbors.py:1712-1723 | the neighbour map becomes the linked map; records and undo stack are unchanged |
| NeighborGraph.NeighborWindow.AddNeighborUndo | gridlamedit/app/cell_neighbors.py:145-151 | the neighbour map becomes the unlinked map; records and undo stack are unchanged |
| NeighborGraph.NeighborWindow.LinkCells | gridlamedit/app/cell_neighbors.py:1725-1738 | when both cells have a node, an AddNeighborCommand is pushed and its redo links them; otherwise nothing changes |
| NeighborGraph.NeighborWindow.DeleteCellRedo | gridlamedit/app/cell_neighbors.py:179-212 | when the record is still there, the saved neighbours' back-pointers are cleared, the entry dropped and the record deleted; otherwise nothing happens |
| NeighborGraph.NeighborWindow.DeleteCellUndo | gridlamedit/app/cell_neighbors.py:214-261 | the record comes back at its position, the saved entry is restored and its neighbours point back at the cell |
| NeighborGraph.NeighborWindow.DeleteCellAt | gridlamedit/app/cell_neighbors.py:1110-1117 | a record without a cell is left alone; otherwise a DeleteCellCommand saving the cell's current entry is pushed and run |
| NeighborGraph.NeighborWindow.FindConnectedComponents | gridlamedit/app/cell_neighbors.py:1299-1338 | the blocks are disjoint, non-empty, closed under links and cover every assigned cell; each block is connected, every cell in it reached from one of its cells by following links, and each leading run of blocks is closed under links; none when no cell is assigned |
| NeighborGraph.NeighborWindow.ClearOwnLinks | gridlamedit/app/cell_neighbors.py:1454-1458 | the loop over a removed cell's own entry clears the back-pointers as the specification says |
| NeighborGraph.NeighborWindow.RemoveRecordAt | gridlamedit/app/cell_neighbors.py:1451-1481 | deleting one record of `records_to_delete` |
| NeighborGraph.NeighborWindow.RemoveEachRecord | gridlamedit/app/cell_neighbors.py:1451-1481 | the loop over `records_to_delete` |
| NeighborGraph.NeighborWindow.RemoveDisconnectedBlocks | gridlamedit/app/cell_neighbors.py:1438-1488 | every record holding a cell of the given blocks is removed as the cleanup specification says |
| NeighborGraph.NeighborWindow.CheckAndHandleDisconnectedBlocks | gridlamedit/app/cell_neighbors.py:1340-1387 | one block or none always proceeds; with two or more the answer is the user's; on confirmation every block but the first largest is removed, otherwise nothing changes ; the blocks counted are the connected blocks of the search |
| AmlColouring.Closest | gridlamedit/app/cell_neighbors.py:921 | `min(candidates, key=distance)` is a candidate no farther than any other |
| AmlColouring.BucketOf | gridlamedit/app/cell_neighbors.py:905-924 | a layer gets a bucket exactly when it has an orientation that `normalize_angle` accepts |
| AmlColouring.BucketIsNearest | gridlamedit/app/cell_neighbors.py:912-924 | within the orientation range the closest-candidate rule is the rule by ranges: the bucket whose angle lies within 10 degrees (±90 both count as 90, ±180 as 0), else "other" |
| AmlColouring.RangeOfNearest | gridlamedit/app/cell_neighbors.py:921-924 | a candidate no farther than any other decides the bucket as the ranges do |
| AmlColouring.Buckets | gridlamedit/app/cell_neighbors.py:930-931 | the bucket of each layer, in layer order |
| AmlColouring.CountsAreMultiplicities | gridlamedit/app/cell_neighbors.py:929-934 | each bucket's count is the number of layers in that bucket |
| AmlColouring.TotalIsBucketed | gridlamedit/app/cell_neighbors.py:935 | the total counts exactly the layers that have a bucket |
| AmlColouring.ClassifyLaminateAmlType | gridlamedit/app/cell_neighbors.py:926-946 | the counting loop gives the classification of its specification |
| AmlColouring.ClassNoneIffEmpty | gridlamedit/app/cell_neighbors.py:935-937 | there is no type exactly when the total is zero |
| AmlColouring.AmlTypeNoneIffUnbucketed | gridlamedit/app/cell_neighbors.py:929-937 | there is no type exactly when no layer has a bucket |
| AmlColouring.AmlTypeOfLayers | gridlamedit/app/cell_neighbors.py:926-946 | a laminate has an AML type exactly when one of its layers has a bucket |
| AmlColouring.AllZeroIsHard | gridlamedit/app/cell_neighbors.py:942-943 | a laminate whose bucketed layers all lie near 0 degrees is Hard |
| AmlColouring.AllDiagonalIsSoft | gridlamedit/app/cell_neighbors.py:944-945 | a laminate whose bucketed layers are all ±45 is Soft |
| AmlColouring.NoMajorityIsQuasiIso | gridlamedit/app/cell_neighbors.py:941-946 | below 45 per cent of 0 and of ±45 alike, a bucketed laminate is Quasi-iso |
| AmlColouring.QuarterEachIsSoft | gridlamedit/app/cell_neighbors.py:938-946 | one layer each at 0, +45, -45 and 90 is Soft, not Quasi-iso: the two diagonal layers make half the total |
| LaminateChecks.PlyLabelsLowered | gridlamedit/services/laminate_checks.py:15-16 | the lower-cased ply type options are the two labels the checks compare against |
| LaminateChecks.NormalizeMaterialIdempotent | gridlamedit/services/laminate_checks.py:134-137 | normalising a material name a second time changes nothing |
| LaminateChecks.NormalizeMaterialIgnoresCaseAndSpacing | gridlamedit/services/laminate_checks.py:134-137 | names that differ only in letter case or in runs of whitespace normalise to the same text |
| LaminateChecks.StructuralLayers | gridlamedit/services/laminate_checks.py:107 | the layers kept are exactly those whose ply type is structural |
| LaminateChecks.IsLaminateSymmetric | gridlamedit/services/laminate_checks.py:106-120 | the two-ended walk answers true exactly when the structural layers' keys read the same reversed |
| LaminateChecks.FewStructuralSymmetric | gridlamedit/services/laminate_checks.py:108-110 | a laminate with at most one structural layer is symmetric |
| LaminateChecks.NonStructuralIgnored | gridlamedit/services/laminate_checks.py:107 | inserting a non-structural layer anywhere never changes whether a laminate is symmetric |
| LaminateChecks.FlippedSymmetric | gridlamedit/services/laminate_checks.py:106-120 | a laminate turned upside down is symmetric exactly when the original is |
| LaminateChecks.PickSplit | gridlamedit/services/laminate_checks.py:65-69 | the symmetric and non-symmetric lists together hold every element exactly as many times as the input |
| LaminateChecks.PickHolds | gridlamedit/services/laminate_checks.py:65-69 | every element lands in the list its flag chooses |
| LaminateChecks.CheckSymmetry | gridlamedit/services/laminate_checks.py:56-73 | the loop and the two sorts produce the symmetry report of the laminates |
| LaminateChecks.SymmetryReportPartitions | gridlamedit/services/laminate_checks.py:56-73 | both lists are sorted; together they are a permutation of the names; each laminate's name is in the list its symmetry chooses |
| LaminateChecks.PlyToken | gridlamedit/services/laminate_checks.py:182-185 | the ply part is always one of the two labels, and it is the stripped, lower-cased ply type whenever that is not the structural default |
| LaminateChecks.AsWrittenRaisesOnOrientedLayer | gridlamedit/services/laminate_checks.py:180-181 | as written, one layer with a valid orientation is enough for the signature to raise |
| LaminateChecks.AsWrittenAgreesWithoutOrientations | gridlamedit/services/laminate_checks.py:173-187 | where no layer has a valid orientation, the signature as written equals the corrected one |
| LaminateChecks.OrientationTextInjective | gridlamedit/services/laminate_checks.py:181 | two orientations written alike are the same orientation |
| LaminateChecks.LayerTokenSeparatesOrientation | gridlamedit/services/laminate_checks.py:179-186 | layers with the same material and ply type get the same token exactly when their orientations agree |
| LaminateChecks.SignatureEmptyIffNoLayers | gridlamedit/services/laminate_checks.py:173-175 | the signature is "stacking:empty" exactly for a laminate without layers |
| LaminateChecks.RSplitThree | gridlamedit/services/laminate_checks.py:158-161 | a split rejoins to the input, and its last two parts hold no separator |
| LaminateChecks.RSplitOfJoined | gridlamedit/services/laminate_checks.py:154-159 | splitting a joined signature from the right gives back its three parts when the last two hold no separator |
| LaminateChecks.SummarizeSignature | gridlamedit/services/laminate_checks.py:157-170 | a signature that does not split into three parts is its own summary |
| LaminateChecks.SummaryOfLaminate | gridlamedit/services/laminate_checks.py:150-170 | a laminate's summary is built from its own stripped type and colour |
| LaminateChecks.NamesBySignatureHolds | gridlamedit/services/laminate_checks.py:81-87 | a signature is a key exactly when some named laminate has it, and a name is listed under it exactly when such a laminate bears that name |
| LaminateChecks.MakeGroup | gridlamedit/services/laminate_checks.py:91-99 | a group keeps its signature, carries that signature's summary, and lists the distinct names, sorted |
| LaminateChecks.GroupsFromMembers | gridlamedit/services/laminate_checks.py:90-100 | a group is produced exactly for a signature holding at least two distinct names |
| LaminateChecks.GroupsFromDistinct | gridlamedit/services/laminate_checks.py:90-100 | no group is produced twice |
| LaminateChecks.GroupLeIsPreorder | gridlamedit/services/laminate_checks.py:102 | the sort key orders groups totally and transitively |
| LaminateChecks.DuplicateReport | gridlamedit/services/laminate_checks.py:76-103 | the groups are sorted by the key, so larger groups come first (corrected, see Findings) |
| LaminateChecks.CollectNames | gridlamedit/services/laminate_checks.py:81-87 | the first loop builds the names-by-signature dictionary (corrected, see Findings) |
| LaminateChecks.CollectGroups | gridlamedit/services/laminate_checks.py:89-100 | the second loop builds one group per signature with two names or more, in key order |
| LaminateChecks.CheckDuplicates | gridlamedit/services/laminate_checks.py:76-103 | the two loops and the sort produce the duplicate report (corrected, see Findings) |
| LaminateChecks.DuplicateGroupSound | gridlamedit/services/laminate_checks.py:76-103 | every reported group has two or more distinct sorted names, its own summary, and exactly the names of the named laminates with its signature |
| LaminateChecks.DuplicatesReported | gridlamedit/services/laminate_checks.py:76-103 | two named laminates with one signature and different names are reported in the same group |
| LaminateChecks.DuplicateSignaturesDistinct | gridlamedit/services/laminate_checks.py:89-103 | no signature is reported in two groups |
| LaminateChecks.RunAllChecks | gridlamedit/services/laminate_checks.py:45-53 | the report holds the symmetry and duplicate checks of the same laminates (corrected, see Findings) |
| LaminateService.ClampColor | gridlamedit/services/laminate_service.py:87 | the clamped colour is always in the palette range, and a colour already in range is kept |
| LaminateService.CreationColorIsNormalized | gridlamedit/services/laminate_service.py:27-31 | the clamp after normalisation never changes the colour: the normalised index is already in range (see also lines 86-87) |
| LaminateService.CreatedShape | gridlamedit/services/laminate_service.py:105-112 | creation appends the new laminate to the map order, binds it to exactly its cell, takes that cell out of the previous owner's list, and leaves every other laminate as it was |
| LaminateService.CreationKeepsAgreement | gridlamedit/services/laminate_service.py:105-112 | creating a laminate keeps every laminate's cell list in agreement with the cell-to-laminate map |
| LaminateService.CreateLaminateWithAssociation | gridlamedit/services/laminate_service.py:34-119 | fails exactly when one of the checks (no model, blank name, name taken, blank type, blank or unknown cell) fails, in that order, and then leaves the model unchanged; on success the model holds the new laminate bound to the cell and is marked dirty |
| LaminateService.Attach | gridlamedit/services/laminate_service.py:105-118 | the success path stores the laminate, moves the cell to it and marks the model dirty, keeping the model's invariant |
| LaminateService.AutoNameInjective | gridlamedit/services/laminate_service.py:122-126 | different suffix indices give different names, so the search for a free name ends |
| LaminateService.AutoNameShape | gridlamedit/services/laminate_service.py:122-126 | an automatic name starts with its base, ends with the stripped tag in parentheses when there is one, and is the bare base for index 0 without a tag |
| LaminateService.FirstFreeName | gridlamedit/services/laminate_service.py:161-165 | the loop returns the name for the first suffix index, from the start on, that is not taken |
| LaminateService.FirstFreeUnique | gridlamedit/services/laminate_service.py:161-165 | the first free name is unique |
| LaminateService.SameCount | gridlamedit/services/laminate_service.py:150-154 | exactly the laminates with the given number of oriented layers |
| LaminateService.PositionOr | gridlamedit/services/laminate_service.py:155-158 | the first position of the name when present, otherwise the number of same-count laminates |
| LaminateService.UsedNames | gridlamedit/services/laminate_service.py:159 | every laminate's name is taken except the target's own |
| LaminateService.AutoNameForLayers | gridlamedit/services/laminate_service.py:129-165 | without a model the bare `L<count>` name with the tag; with one, the first free name from the target's place among the same-count laminates (or their number) |
| LaminateService.NewLaminateNameIsFresh | gridlamedit/services/laminate_service.py:159-165 | the name proposed for a laminate not yet in the model is none of the model's names |
| LaminateService.AutoNameForLaminate | gridlamedit/services/laminate_service.py:168-178 | the laminate's oriented-layer count and tag drive the automatic name, with the laminate itself as the target |
| LaminateService.SyncRun | gridlamedit/services/laminate_service.py:201-218 | the loop never adds or removes a laminate |
| LaminateService.SyncRunHolds | gridlamedit/services/laminate_service.py:201-218 | over distinct keys, a laminate is updated and reported exactly when it has the row and a different material; unlisted laminates are kept |
| LaminateService.SyncedHolds | gridlamedit/services/laminate_service.py:181-219 | after the sync every laminate that has the row holds the stripped material there and nothing else changes; it is reported exactly when it needed the change |
| LaminateService.SyncedSettles | gridlamedit/services/laminate_service.py:181-219 | after a sync no laminate needs the material any more |
| LaminateService.SyncIdempotent | gridlamedit/services/laminate_service.py:181-219 | syncing twice changes nothing more, and the second run reports no laminate |
| LaminateService.SyncMaterialBySequence | gridlamedit/services/laminate_service.py:181-219 | no model or a negative row changes nothing and reports nothing; otherwise the laminates become the synced map and the changed laminates are returned in map order, nothing else in the model changing |
| Reassociation.NormalizeContourTokenIdempotent | gridlamedit/services/laminate_reassociation.py:15-19 | normalising a contour token a second time changes nothing |
| Reassociation.NormalizedTokenShape | gridlamedit/services/laminate_reassociation.py:15-19 | a normalised token has no whitespace at either end and no upper-case letter |
| Reassociation.DropTrailingEmpty | gridlamedit/services/laminate_reassociation.py:26-27 | the result is a prefix of the tokens that does not end with an empty token, and everything dropped is empty |
| Reassociation.TruncatedTokens | gridlamedit/services/laminate_reassociation.py:23-25 | the truncated list is the first thirty normalised tokens at most, in order |
| Reassociation.SignatureShape | gridlamedit/services/laminate_reassociation.py:22-28 | a signature is a prefix of at most thirty normalised tokens that does not end with an empty token |
| Reassociation.SignatureDropsOnlyEmpty | gridlamedit/services/laminate_reassociation.py:22-28 | every token dropped within the first thirty normalises to empty, so the signature is the longest such prefix |
| Reassociation.ContourSignature | gridlamedit/services/laminate_reassociation.py:22-28 | the normalise, truncate and pop loop yields the signature of the contours |
| Reassociation.AnyIffNotEmpty | gridlamedit/services/laminate_reassociation.py:60 | `any(signature)` holds exactly when the signature is not empty (see also line 96) |
| Reassociation.CellSignatures | gridlamedit/services/laminate_reassociation.py:58-59 | every new cell gets a signature and no other key appears |
| Reassociation.IndexOfHolds | gridlamedit/services/laminate_reassociation.py:56-63 | a cell is listed under a signature exactly when it has that signature and the signature has a non-empty token |
| Reassociation.ContourIndexHolds | gridlamedit/services/laminate_reassociation.py:56-63 | in the contour index a cell is listed under a signature exactly when its own contours give that signature, and only signatures with a side are keys |
| Reassociation.BuildContourIndex | gridlamedit/services/laminate_reassociation.py:56-63 | the loop builds the contour index of the new cells |
| Reassociation.OldSignatures | gridlamedit/services/laminate_reassociation.py:84-95 | every old pair has a signature entry, and no other key appears |
| Reassociation.OneBucketPerPair | gridlamedit/services/laminate_reassociation.py:80-153 | a pair with a laminate adds exactly one entry or issue to the report, unless its one candidate already holds that laminate; a pair without a laminate adds nothing |
| Reassociation.DecideRules | gridlamedit/services/laminate_reassociation.py:107-153 | a pair is reassociated exactly when it has a laminate and a signature with a side, one candidate cell, and that cell is free; an ambiguous signature has several candidates; a taken cell is bound to another laminate |
| Reassociation.Run | gridlamedit/services/laminate_reassociation.py:80-153 | the loop keeps the map being built well formed |
| Reassociation.RunKeepsBound | gridlamedit/services/laminate_reassociation.py:130-145 | a cell bound to a laminate keeps it to the end of the loop: conflicts never overwrite a binding |
| Reassociation.ReassociatedSound | gridlamedit/services/laminate_reassociation.py:129-153 | every reassociated entry comes from a pair of the old map, its new cell is the only cell with that signature, and the final map binds the cell to the entry's laminate |
| Reassociation.IssuesSound | gridlamedit/services/laminate_reassociation.py:80-142 | every conflict, missing-contour and not-found issue names a pair of the old map that has a laminate |
| Reassociation.CellsOfMembers | gridlamedit/services/laminate_reassociation.py:170-182 | a cell is collected for a laminate exactly when it is in the grid and bound to that non-empty name |
| Reassociation.Rebuilt | gridlamedit/services/laminate_reassociation.py:166-182 | the rebuild keeps the laminates and their order and changes only their cell lists |
| Reassociation.RebuiltAgrees | gridlamedit/services/laminate_reassociation.py:166-182 | after the rebuild a laminate lists a cell exactly when the cell is in the grid and the map binds it to that laminate |
| Reassociation.ClearCells | gridlamedit/services/laminate_reassociation.py:167-168 | every laminate's cell list is emptied, and nothing else changes |
| Reassociation.RebuiltStep | gridlamedit/services/laminate_reassociation.py:170-182 | handling one more grid cell appends it to the laminate it is bound to and to no other |
| Reassociation.RebuildLaminateCells | gridlamedit/services/laminate_reassociation.py:166-182 | the two loops turn the laminates into the rebuild from the model's map over its grid cells, keeping the model's invariant |
| Reassociation.Unmapped | gridlamedit/services/laminate_reassociation.py:158-162 | exactly the grid's cells the final map leaves out, in grid order |
| Reassociation.ReassociationPass | gridlamedit/services/laminate_reassociation.py:73-154 | the pass starts from an empty map when applying and from the new model's map otherwise, and keeps it well formed |
| Reassociation.HandlePair | gridlamedit/services/laminate_reassociation.py:81-153 | one loop iteration has the effect its decided outcome prescribes on the report and the map |
| Reassociation.HandleSignature | gridlamedit/services/laminate_reassociation.py:95-153 | the iteration, once the signature is known, has the effect its decided outcome prescribes |
| Reassociation.ReassociateByContours | gridlamedit/services/laminate_reassociation.py:66-163 | the report is the pass's report with the unmapped new cells; applying installs the built map and rebuilds the cell lists from it; otherwise the new model is unchanged |
| VirtualStacking.FirstListing | gridlamedit/app/virtualstacking.py:542-544 | a key found lists the cell and is one of the keys searched |
| VirtualStacking.FirstListingIsFirst | gridlamedit/app/virtualstacking.py:542-545 | nothing is found exactly when no laminate lists the cell; otherwise the key found is the first that lists it |
| VirtualStacking.LaminateForCell | gridlamedit/app/virtualstacking.py:534-545 | a cell only ever resolves to a laminate of the project |
| VirtualStacking.LaminateForCellCases | gridlamedit/app/virtualstacking.py:534-545 | the mapped laminate wins when it exists; otherwise the cell resolves exactly when some laminate lists it, to the first such laminate in map order |
| VirtualStacking.ResolveCell | gridlamedit/app/virtualstacking.py:534-545 | the early-return lookup resolves the cell as the lookup rule says |
| VirtualStacking.VirtualCells | gridlamedit/app/virtualstacking.py:349-354 | each column is a grid cell with the laminate it resolves to, no more columns than cells |
| VirtualStacking.VirtualCellsComplete | gridlamedit/app/virtualstacking.py:349-354 | every grid cell that resolves to a laminate has a column |
| VirtualStacking.VirtualCellsResolved | gridlamedit/app/virtualstacking.py:349-354 | every column names a laminate of the project |
| VirtualStacking.MaxLayers | gridlamedit/app/virtualstacking.py:356 | the row count is at least every laminate's layer count and equals one of them, or 0 without laminates |
| VirtualStacking.FirstAtHolds | gridlamedit/app/virtualstacking.py:359-370 | a row's material or label is empty exactly when no laminate has one there, and otherwise is that of the first laminate that has one |
| VirtualStacking.FirstAtSettles | gridlamedit/app/virtualstacking.py:369-370 | once a value has been found, the laminates after it do not change it, so the early break is sound |
| VirtualStacking.VirtualRow | gridlamedit/app/virtualstacking.py:371-378 | a row's sequence label is never empty: it defaults to `Seq.<row + 1>` |
| VirtualStacking.VirtualLayers | gridlamedit/app/virtualstacking.py:356-378 | one view row per layer position of the deepest laminate |
| VirtualStacking.SymmetryFrom | gridlamedit/app/virtualstacking.py:547-554 | the result is the smallest row in range where some laminate's layer is the symmetry layer, or None when there is none |
| VirtualStacking.DetectSymmetryRow | gridlamedit/app/virtualstacking.py:547-554 | the nested loop returns the first symmetry row |
| VirtualStacking.CollectRow | gridlamedit/app/virtualstacking.py:358-378 | the inner loop, with its break, builds the view row for that position |
| VirtualStacking.CollectCells | gridlamedit/app/virtualstacking.py:347-354 | the first loop keeps exactly the resolving cells, in grid order, with their laminates' layers |
| VirtualStacking.CollectVirtualData | gridlamedit/app/virtualstacking.py:344-381 | the columns, the rows and the symmetry row are those of the project |
| VirtualStacking.CollectLayers | gridlamedit/app/virtualstacking.py:357-378 | the second loop builds one view row per layer position |
| VirtualStacking.EditedText | gridlamedit/app/virtualstacking.py:177-179 | the edited text has no surrounding whitespace |
| VirtualStacking.RequestedAngle | gridlamedit/app/virtualstacking.py:181-187 | an empty text asks to clear the orientation; an accepted angle is always in range |
| VirtualStacking.WithOrientationHolds | gridlamedit/app/virtualstacking.py:189-192 | the edited row holds the requested orientation; every other row is as the fresh table renumbered it; the length is kept |
| VirtualStacking.FreshOrientationIs | gridlamedit/app/virtualstacking.py:189-192 | a fresh table always accepts an orientation in range, and its layers become the edited ones |
| VirtualStacking.EditRowOrientation | gridlamedit/app/virtualstacking.py:190 | editing the orientation column with an orientation applies that orientation |
| VirtualStacking.InsertBlank | gridlamedit/app/virtualstacking.py:463-475 | one insertion adds exactly one layer |
| VirtualStacking.InsertBlanks | gridlamedit/app/virtualstacking.py:462-476 | the list grows by one layer per selected row (corrected, see Findings) |
| VirtualStacking.InsertionOrderHolds | gridlamedit/app/virtualstacking.py:461 | every selected row is taken once; below takes them from the bottom up, above from the top down |
| VirtualStacking.InsertedLayerBlank | gridlamedit/app/virtualstacking.py:465-475 | every inserted layer has orientation 0, no material and the structural ply type, active and not the symmetry layer |
| VirtualStacking.InsertBlankLayers | gridlamedit/app/virtualstacking.py:459-478 | the loop gives the fresh table's layers with one blank layer inserted per row, in insertion order (corrected, see Findings) |
| VirtualStacking.InsertOneBlank | gridlamedit/app/virtualstacking.py:463-475 | one pass inserts the blank layer at the clamped position, keeping the table's invariant |
| VirtualStacking.ApplyToFresh | gridlamedit/app/virtualstacking.py:189-192 | a fresh table's verdict and layers after one field edit |
| VirtualStacking.FreshTable | gridlamedit/app/virtualstacking.py:189 | a new table holds the laminate's layers with defaults applied and renumbered (see also line 459) (corrected, see Findings) |
| VirtualStacking.FreshOrientation | gridlamedit/app/virtualstacking.py:189-192 | an orientation in range is always accepted, giving the edited layers |
| VirtualStacking.SelectedTargetsAsWritten | gridlamedit/app/virtualstacking.py:398-410 | as written, a selection that succeeds has no target at all |
| VirtualStacking.AsWrittenSelectionRaises | gridlamedit/app/virtualstacking.py:398-410 | as written, `_selected_targets` fails exactly when some valid index lies in a cell column, which is exactly when the corrected grouping has a target; so `_insert_layer` never inserts a layer (see also line 449) |
| VirtualStacking.SelectedTargets | gridlamedit/app/virtualstacking.py:398-410 | the corrected grouping is an insertion-ordered map whose row lists hold each row once (corrected, see Findings) |
| VirtualStacking.SelectedTargetsHold | gridlamedit/app/virtualstacking.py:398-410 | a laminate is a target exactly when a valid selected index lies in one of its cell columns, and its rows are exactly those indexes' rows (corrected, see Findings) |
| VirtualStacking.VirtualStackingModel.constructor | gridlamedit/app/virtualstacking.py:44-55 | a new view shows no rows, no cells and no symmetry row |
| VirtualStacking.VirtualStackingModel.SetVirtualStacking | gridlamedit/app/virtualstacking.py:203-213 | the view takes the given rows, cells and symmetry row |
| VirtualStacking.VirtualStackingModel.Rebuild | gridlamedit/app/virtualstacking.py:326-342 | the view shows what the project's collected data says |
| VirtualStacking.VirtualStackingModel.EditText | gridlamedit/app/virtualstacking.py:96-129 | there is a value exactly inside the table, and an orientation cell past its laminate's layers reads "" |
| VirtualStacking.VirtualStackingModel.SetData | gridlamedit/app/virtualstacking.py:153-199 | an edit succeeds exactly for the edit role, a cell column, a row both the view and the laminate have, and a text that normalises; on success only that laminate's layers change, to the edited ones, and otherwise nothing changes |
| VirtualStacking.VirtualStackingModel.EditCell | gridlamedit/app/virtualstacking.py:171-199 | once the cell is known, the edit succeeds exactly when the laminate has the row and the text normalises |
| VirtualStacking.VirtualStackingModel.SetOrientation | gridlamedit/app/virtualstacking.py:189-192 | the laminate gets its layers with the row's orientation set, always accepted |
| VirtualStacking.SetDataReadsBack | gridlamedit/app/virtualstacking.py:118-129 | after a successful edit the cell reads back the orientation written (see also lines 189-192) |
| Projects.EmptyGrid | gridlamedit/core/project_manager.py:90-98 | an empty JSON object reads as no laminates, no cells and no source path |
| Projects.Truncate | gridlamedit/core/project_manager.py:39 | `int()` of a float rounds toward zero (see also line 120) |
| Projects.IntOfFloat | gridlamedit/core/project_manager.py:119-122 | a whole number parses as itself; None does not parse |
| Projects.NumberedLabel | gridlamedit/core/project_manager.py:147-150 | the positional label starts with its prefix and adds the number after it |
| Projects.DeserializedColor | gridlamedit/core/project_manager.py:100-128 | a colour read back is a normalised `#RRGGBB` text with no warning or an index in the palette range, with at most one warning |
| Projects.HexWins | gridlamedit/core/project_manager.py:101-104 | a valid color_hex wins over any color_index, with no warning |
| Projects.IndexNormalised | gridlamedit/core/project_manager.py:116-128 | without a usable color_hex the index is normalised, and a warning is recorded exactly when the raw value does not parse to the index used |
| Projects.MissingIndexDefaults | gridlamedit/core/project_manager.py:106-115 | without color_hex and color_index the colour is the default, and only a truthy legacy cor_hex is reported |
| Projects.ColorRoundTrip | gridlamedit/core/project_manager.py:100-128 | a normalised colour written out is read back unchanged, with no warning (see also lines 30-46, lines 73-74) |
| Projects.SerializedColorReadable | gridlamedit/core/project_manager.py:100-128 | a colour written as hex is read back as that hex; an in-range index is read back as that index; neither gives a warning (see also lines 30-46) |
| Projects.HexNormalised | gridlamedit/io/spreadsheet.py:565-577 | what the hex normaliser returns normalises to itself |
| Projects.DeserializedPlyType | gridlamedit/core/project_manager.py:132-138 | the ply type read is always one of the two options; a known option is kept; otherwise it is non-structural exactly when the legacy flag is truthy |
| Projects.TextOr | gridlamedit/core/project_manager.py:145-151 | the stripped text when it is not empty, otherwise the default |
| Projects.DeserializedLayer | gridlamedit/core/project_manager.py:131-164 | a layer read back has a known ply type, non-empty labels and rosette, and an orientation in range or none |
| Projects.LayerDefaults | gridlamedit/core/project_manager.py:139-154 | blank labels get `Seq.<i+1>`, `Ply.<i+1>` and the default rosette; an orientation the normaliser rejects becomes none; a missing idx is the position |
| Projects.DeserializedLayers | gridlamedit/core/project_manager.py:131-164 | one layer per record |
| Projects.SerializedLayers | gridlamedit/core/project_manager.py:53-68 | one record per layer, in order |
| Projects.LayerRoundTrip | gridlamedit/core/project_manager.py:131-164 | a normalised layer written out is read back field for field, wherever it sits (see also lines 53-68) |
| Projects.LayersRoundTrip | gridlamedit/core/project_manager.py:131-164 | a list of normalised layers written out is read back unchanged (see also lines 53-68) |
| Projects.DeserializedLaminate | gridlamedit/core/project_manager.py:98-175 | a laminate read back keeps its name and cells and has one layer per record |
| Projects.LaminateRoundTrip | gridlamedit/core/project_manager.py:98-175 | a normalised laminate written out is read back unchanged, with no warning (see also lines 47-75) |
| Projects.ReadLaminates | gridlamedit/core/project_manager.py:98 | one laminate per record, in file order |
| Projects.ByName | gridlamedit/core/project_manager.py:176 | the laminates are keyed by their own names |
| Projects.DeserializedGrid | gridlamedit/core/project_manager.py:88-181 | a model read back has the file's cells, map and source path, and is not dirty |
| Projects.Records | gridlamedit/core/project_manager.py:28-75 | one record per key, each the laminate under that key written out |
| Projects.SerializedGrid | gridlamedit/core/project_manager.py:27-85 | one record per laminate; the cell map and source path are written as they are |
| Projects.Clean | gridlamedit/core/project_manager.py:98-176 | one laminate read per key |
| Projects.ReadRecords | gridlamedit/core/project_manager.py:98-175 | reading back the records of normalised laminates gives those laminates, with no warning (see also lines 28-75) |
| Projects.ByNameClean | gridlamedit/core/project_manager.py:176 | keying laminates stored under their own names rebuilds the map on those keys, in their order |
| Projects.GridRoundTrip | gridlamedit/core/project_manager.py:27-181 | saving a normalised model and loading it back restores its cells, its map and its laminates (keys, order and fields), with no warning and not dirty |
| Projects.SerializeModel | gridlamedit/core/project_manager.py:27-85 | the loop writes the model's record |
| Projects.SerializeLaminate | gridlamedit/core/project_manager.py:29-75 | one pass writes the laminate's record |
| Projects.DeserializeLayers | gridlamedit/core/project_manager.py:130-164 | the loop reads one layer per record, numbered by position |
| Projects.DeserializeLaminados | gridlamedit/core/project_manager.py:96-176 | the loop reads the laminates keyed by name, with their warnings in order |
| Projects.DeserializeLaminate | gridlamedit/core/project_manager.py:99-175 | one pass reads one laminate and its warnings |
| Projects.DeserializeModel | gridlamedit/core/project_manager.py:88-181 | a new model holding what the file says |
| Projects.SavedFile | gridlamedit/core/project_manager.py:242-252 | the file has the version, the time given, the grid, and the grid's source path |
| Projects.Reread | gridlamedit/core/project_manager.py:262-278 | reading a saved file finds every key it wrote |
| Projects.LoadedGrid | gridlamedit/core/project_manager.py:273-278 | a present source_excel_path overrides the grid's own |
| Projects.BuiltState | gridlamedit/core/project_manager.py:208-215 | a model is built exactly when a grid was captured, and it carries the manager's dirty flag and the grid's map |
| Projects.CaptureThenBuild | gridlamedit/core/project_manager.py:199-215 | building from a captured normalised model gives that model back, warnings cleared and the manager's dirty flag |
| Projects.SaveThenLoad | gridlamedit/core/project_manager.py:234-281 | loading a saved file restores the snapshot's grid; an empty grid comes back holding only a null source path, which build_model accepts |
| Projects.ProjectManager.constructor | gridlamedit/core/project_manager.py:189-197 | a new manager has no path, no snapshot and is clean |
| Projects.ProjectManager.CaptureFromModel | gridlamedit/core/project_manager.py:199-206 | the snapshot holds the model written out |
| Projects.ProjectManager.BuildModel | gridlamedit/core/project_manager.py:208-215 | succeeds exactly when a grid was captured, giving a new model in the built state; otherwise the empty-snapshot error |
| Projects.ProjectManager.MarkDirty | gridlamedit/core/project_manager.py:222-232 | the flag takes the value, and the callback hears of it only when it changed |
| Projects.ProjectManager.Save | gridlamedit/core/project_manager.py:234-258 | records the given path first, even when saving then fails; fails exactly without a path or without a snapshot, with the source's messages, leaving the dirty flag and notifications as they were; otherwise writes the saved file and clears the dirty flag |
| Projects.ProjectManager.Load | gridlamedit/core/project_manager.py:260-281 | the snapshot takes the loaded grid, the path is set, and the manager is clean |
| GridWorkbook.SafeBase | gridlamedit/app/services/excel_io.py:252-253 | the sanitised name has at most 31 characters, keeps a short name's length, and has every forbidden character replaced by "_" and no other change |
| GridWorkbook.NumberedInjective | gridlamedit/app/services/excel_io.py:258 | different counters give different numbered names, so the search ends |
| GridWorkbook.NumberedFitsExcel | gridlamedit/app/services/excel_io.py:253-258 | up to counter 99 a numbered name still fits in 31 characters and holds no forbidden character |
| GridWorkbook.MakeUniqueSheetName | gridlamedit/app/services/excel_io.py:250-261 | the name is never in use; it is the sanitised base when that is free, otherwise the numbered name with the smallest free counter from 1 |
| GridWorkbook.Get | gridlamedit/app/services/excel_io.py:64 | a value is found exactly when the row has the column (see also line 121) |
| GridWorkbook.OrTextAsWritten | gridlamedit/app/services/excel_io.py:129-131 | as written, an empty cell reads as "nan" (see also line 121, line 154) |
| GridWorkbook.OrText | gridlamedit/app/services/excel_io.py:129-131 | an empty cell reads as ""; any other value reads as written (see also line 121, line 154) |
| GridWorkbook.ReadBack | gridlamedit/app/services/excel_io.py:137 | a written text comes back empty exactly when pandas counts it as missing, and unchanged otherwise |
| GridWorkbook.ExactColumn | gridlamedit/app/services/excel_io.py:97-99 | a column found is a candidate and a column; none is found exactly when no candidate is a column |
| GridWorkbook.ExactColumnIsFirst | gridlamedit/app/services/excel_io.py:97-99 | the exact pass picks the earliest candidate that is a column |
| GridWorkbook.LastLowered | gridlamedit/app/services/excel_io.py:100 | the lower-cased lookup holds the last column with that lower-case form, and is missing exactly when no column has it |
| GridWorkbook.LoweredColumn | gridlamedit/app/services/excel_io.py:100-104 | a column found matches some candidate up to case; none is found exactly when no candidate matches any column up to case |
| GridWorkbook.FindFirstColumn | gridlamedit/app/services/excel_io.py:95-105 | a column found is a column of the frame |
| GridWorkbook.FindFirstColumnNone | gridlamedit/app/services/excel_io.py:95-105 | no column is found exactly when no candidate matches any column up to case |
| GridWorkbook.FindFirstColumnMatches | gridlamedit/app/services/excel_io.py:95-105 | the column found matches a candidate up to case, and is a candidate itself whenever some candidate matches exactly |
| GridWorkbook.KeptMaterial | gridlamedit/app/services/excel_io.py:154-159 | a kept row's material is stripped and non-empty (corrected, see Findings) |
| GridWorkbook.KeptViews | gridlamedit/app/services/excel_io.py:150-159 | only kept rows, taken from the sheet |
| GridWorkbook.ParsedLayers | gridlamedit/app/services/excel_io.py:150-191 | the layers are exactly the kept rows, in order, each indexed by its position |
| GridWorkbook.LastFlaggedSpec | gridlamedit/app/services/excel_io.py:175-178 | the last flagged position, or none exactly when no row is flagged |
| GridWorkbook.SymmetryIsLastFlagged | gridlamedit/app/services/excel_io.py:175-178 | the loop's symmetry index is the last flagged position among the kept rows |
| GridWorkbook.ParsedSymmetry | gridlamedit/app/services/excel_io.py:175-178 | the symmetry index is the position among the kept rows of the last one flagged yes, or none when no kept row is flagged |
| GridWorkbook.ParsedMaterials | gridlamedit/app/services/excel_io.py:154-159 | every parsed layer has a stripped non-empty material |
| GridWorkbook.ParsedLayersWellFormed | gridlamedit/app/services/excel_io.py:150-191 | every parsed layer's index is its position, and its material is stripped and non-empty |
| GridWorkbook.ReadStackRow | gridlamedit/app/services/excel_io.py:151-187 | one row gives a layer exactly when it is kept, with the row's fields and its flag (corrected, see Findings) |
| GridWorkbook.ReindexLayers | gridlamedit/app/services/excel_io.py:190-191 | the closing loop sets each layer's index to its position |
| GridWorkbook.ParseStackRows | gridlamedit/app/services/excel_io.py:138-191 | the loop gives the parse of the stacking table (corrected, see Findings) |
| GridWorkbook.StackOutRows | gridlamedit/app/services/excel_io.py:232-242 | one written row per layer, in order |
| GridWorkbook.BuildStackRows | gridlamedit/app/services/excel_io.py:232-242 | the loop writes one row per layer, Symmetry "Yes" only on the symmetry row |
| GridWorkbook.StackFrameRead | gridlamedit/app/services/excel_io.py:244-247 | the table read back has the written headers and one row per written row (see also line 137) |
| GridWorkbook.WrittenColumnsFound | gridlamedit/app/services/excel_io.py:234-241 | the reader finds every column the writer wrote, under its own name (see also lines 145-148) |
| GridWorkbook.YesReadBack | gridlamedit/app/services/excel_io.py:173 | a written "Yes" reads back as yes (see also line 239) |
| GridWorkbook.NoReadBack | gridlamedit/app/services/excel_io.py:173 | a written "No" reads back as not yes (see also line 239) |
| GridWorkbook.EmptyReadBack | gridlamedit/app/services/excel_io.py:177 | a written empty Symmetry cell reads back blank and not yes (see also line 240) |
| GridWorkbook.StackRowCells | gridlamedit/app/services/excel_io.py:234-241 | a written row is never all blank and holds each field under its header |
| GridWorkbook.ViewOfWrittenCells | gridlamedit/app/services/excel_io.py:150-187 | a row holding a layer's written cells is kept, with the layer's material, angle and active flag, and is flagged exactly on the symmetry row (see also lines 234-241) |
| GridWorkbook.WrittenRowView | gridlamedit/app/services/excel_io.py:150-187 | what the loop takes from a written row is the layer written there (see also lines 234-241) |
| GridWorkbook.ParseAllKept | gridlamedit/app/services/excel_io.py:150-191 | rows that are all kept, each flagged only at the symmetry row, parse back to the layers reindexed and the symmetry index when it names a layer |
| GridWorkbook.StackRoundTrip | gridlamedit/app/services/excel_io.py:137-191 | reading back the written stacking table gives the layers reindexed, and the symmetry index when it names a layer (see also lines 232-247) |
| GridWorkbook.CleanParts | gridlamedit/app/services/excel_io.py:132 | every kept piece is stripped and non-empty |
| GridWorkbook.AssociatedCells | gridlamedit/app/services/excel_io.py:131-132 | every associated cell read is stripped and non-empty |
| GridWorkbook.JoinTrimmed | gridlamedit/app/services/excel_io.py:227 | joining stripped ids with ", " gives stripped text, non-empty for a non-empty list |
| GridWorkbook.SplitJoinedCells | gridlamedit/app/services/excel_io.py:131-132 | splitting the joined ids on "," and stripping the pieces gives the ids back (see also line 227) |
| GridWorkbook.MetaRowCells | gridlamedit/app/services/excel_io.py:221-230 | the metadata row holds each field under its header |
| GridWorkbook.LaminateName | gridlamedit/app/services/excel_io.py:121-123 | the stripped Name cell wins when it is not empty, and the name is empty only for an empty sheet name (corrected, see Findings) |
| GridWorkbook.ParseLaminateSheet | gridlamedit/app/services/excel_io.py:108-201 | the sheet reads as the laminate its rows describe, or none without a metadata row (corrected, see Findings) |
| GridWorkbook.TextReadBack | gridlamedit/app/services/excel_io.py:224-226 | a text that survives pandas comes back unchanged (see also line 121, lines 129-130) |
| GridWorkbook.NoCellsReadBack | gridlamedit/app/services/excel_io.py:131-132 | no associated cells written reads back as none (see also line 227) |
| GridWorkbook.CellsReadBack | gridlamedit/app/services/excel_io.py:131-132 | plain cell ids written joined read back as the same list (see also line 227) |
| GridWorkbook.LaminateRoundTrip | gridlamedit/app/services/excel_io.py:108-201 | reading back a laminate sheet gives the same name, colour, type and cells, the layers reindexed, and the symmetry index when it names a layer (see also lines 214-247) |
| GridWorkbook.EmptyMaterialReadsNan | gridlamedit/app/services/excel_io.py:151-159 | as written, a row with an empty Material cell and an angle is kept with material "nan"; the corrected model skips it |
| GridWorkbook.EmptyColorReadsNan | gridlamedit/app/services/excel_io.py:129 | as written, a laminate saved with no colour reads back with colour "nan"; the corrected model gives "" (see also line 225) |
| GridWorkbook.LaminateSheetName | gridlamedit/app/services/excel_io.py:250-261 | a laminate sheet's name starts with "L", so it is never "Cells" (see also line 218) |
| GridWorkbook.WriteLaminateSheet | gridlamedit/app/services/excel_io.py:217-247 | one pass writes the laminate's sheet under a name not yet used: the sanitised base when free, otherwise the smallest free numbered name |
| GridWorkbook.WriteLaminateSheets | gridlamedit/app/services/excel_io.py:214-247 | one sheet per laminate, in order, each named from "Laminate_" and the laminate's name, no two alike; each sheet's name is the one `_make_unique_sheet_name` picks given the names of the sheets before it |
| GridWorkbook.SaveGrid | gridlamedit/app/services/excel_io.py:85-92 | the Cells sheet and one uniquely named sheet per laminate, none of them named "Cells" |
| GridWorkbook.CellOutRows | gridlamedit/app/services/excel_io.py:204-211 | one row per cell with its id and its laminate name, "" when it has none |
| GridWorkbook.CellsFrameRead | gridlamedit/app/services/excel_io.py:210-211 | the Cells sheet read back has one row per written row, and no columns when no cell was written (see also line 52) |
| GridWorkbook.CellFromRow | gridlamedit/app/services/excel_io.py:63-70 | a row gives no cell exactly when its id is empty; the id and any laminate name are stripped, and a name is non-empty and needs the column |
| GridWorkbook.Found | gridlamedit/app/services/excel_io.py:63-70 | no more cells than rows |
| GridWorkbook.ReadCellRow | gridlamedit/app/services/excel_io.py:64-70 | one turn reads the row's cell |
| GridWorkbook.ParseCellsSheet | gridlamedit/app/services/excel_io.py:50-72 | the loop gives the cells of the Cells sheet |
| GridWorkbook.CellRowReadBack | gridlamedit/app/services/excel_io.py:63-70 | a written cell row reads back as the cell (see also lines 206-208) |
| GridWorkbook.CellColumnsFound | gridlamedit/app/services/excel_io.py:55-58 | the reader finds the id and laminate columns the writer wrote; a sheet without columns has no id column (see also line 207) |
| GridWorkbook.CellsRoundTrip | gridlamedit/app/services/excel_io.py:50-72 | reading back the written Cells sheet gives the same cells, in order (see also lines 204-211) |
| GridWorkbook.StoredUnderOwnName | gridlamedit/app/services/excel_io.py:75-79 | every stored laminate sits under its own name and is one of those found |
| GridWorkbook.LastFoundWins | gridlamedit/app/services/excel_io.py:75-79 | the last laminate of a given name decides what is stored under it |
| GridWorkbook.StoreOrdered | gridlamedit/app/services/excel_io.py:75-79 | the dict of laminates holds the same entries as the store by name, its keys the distinct names found in the order first met |
| GridWorkbook.LoadGrid | gridlamedit/app/services/excel_io.py:35-79 | load_grid_xlsx up to, not including, `doc.ensure_associations()` (line 81): a missing file gives no cells and no laminates; otherwise the cells of the Cells sheet, and the laminates of the other sheets with each name stored once, in the order first stored, under the last laminate of that name (corrected, see Findings) |
| GridWorkbook.Stored | gridlamedit/app/services/excel_io.py:189-200 | a laminate read back keeps its name, colour, type and cells, with its layers reindexed |
| GridWorkbook.SheetReadBack | gridlamedit/app/services/excel_io.py:108-201 | each written laminate sheet reads back as the laminate it was written from (see also lines 214-247) |
| GridWorkbook.WorkbookRoundTrip | gridlamedit/app/services/excel_io.py:35-92 | saving and loading gives back the cells in order, and every laminate under its own name, with nothing else stored |
| GridExport.Suffix | gridlamedit/services/excel_io.py:63 | a suffix is a "." and at least one more character, shorter than the name |
| GridExport.Stem | gridlamedit/services/excel_io.py:64 | the stem followed by the suffix is the name, and a non-empty name has a non-empty stem |
| GridExport.XlsxLower | gridlamedit/services/excel_io.py:63 | ".xlsx" is already lower case |
| GridExport.SuffixOfXlsx | gridlamedit/services/excel_io.py:64 | a non-empty stem with ".xlsx" appended has suffix ".xlsx" |
| GridExport.XlsxPathForcesSuffix | gridlamedit/services/excel_io.py:63-64 | the path is refused exactly when its name is empty; otherwise it keeps its directory and ends in ".xlsx" in some case, and is kept unchanged exactly when it already does |
| GridExport.XlsxPathIdempotent | gridlamedit/services/excel_io.py:63-64 | forcing the suffix a second time changes nothing |
| GridExport.OffendersInSound | gridlamedit/services/excel_io.py:107-119 | every label names, by its 1-based number, a layer with an orientation and a blank material |
| GridExport.OffendersInComplete | gridlamedit/services/excel_io.py:107-119 | every layer with an orientation and a blank material is named by its 1-based number |
| GridExport.NoOffendersIff | gridlamedit/services/excel_io.py:106-121 | nothing is listed exactly when every oriented layer of every laminate has a material |
| GridExport.CollectOffenders | gridlamedit/services/excel_io.py:108-119 | one laminate's loop appends its offending layers, in order |
| GridExport.EnsureLayersHaveMaterial | gridlamedit/services/excel_io.py:104-129 | an error exactly when some oriented layer lacks a material, carrying the message built from the list of offenders |
| GridExport.ExportGridXlsx | gridlamedit/services/excel_io.py:36-72 | a missing model is refused, then an unusable path, then layers without material; otherwise the path written is the one forced to .xlsx |
| GridExport.SelectSheetName | gridlamedit/services/excel_io.py:14-33 | an error exactly when the workbook has no sheet; otherwise a sheet of the workbook, the preferred one exactly when it exists, and the first one when it does not |
| VirtualExport.LayerRowEntries | gridlamedit/services/virtual_stacking_export.py:50-71 | the loop over the cells builds the layer's row: the four fixed entries, then one orientation per cell |
| VirtualExport.BuildVirtualStackingRows | gridlamedit/services/virtual_stacking_export.py:38-81 | the rows built are the two headers, one row per layer and the terminator |
| VirtualExport.TerminatorRow | gridlamedit/services/virtual_stacking_export.py:75-79 | the terminator is the full-width empty row with "##" first, or ["##"] alone for a zero width |
| VirtualExport.ExportVirtualStacking | gridlamedit/services/virtual_stacking_export.py:96-143 | refused without cells, then for an unusable path; otherwise the rows are written to the path forced to .xlsx |
| VirtualExport.RowsShape | gridlamedit/services/virtual_stacking_export.py:42-81 | two header rows, one row per layer and one terminator, every row as wide as the four fixed columns plus one per cell |
| VirtualExport.CellColumnReadsBack | gridlamedit/services/virtual_stacking_export.py:56-69 | in cell j's column, row 2 + i carries the orientation of layer i of the cell's laminate, and nothing past the laminate's last layer |
| VirtualExport.RowsLabelled | gridlamedit/services/virtual_stacking_export.py:44-54 | the second header names each cell's column by its id or C1, C2, ...; each layer row starts with its label or Seq.i, an empty column, the material and a non-blank rosette; the terminator starts with "##" (see also lines 75-79) |
| BatchImport.NormalizeText | gridlamedit/services/laminate_batch_import.py:30-32 | a normalised header holds only lower-case letters and digits |
| BatchImport.FilterAll | gridlamedit/services/laminate_batch_import.py:32 | removing the non-alphanumerics from a text that has none changes nothing |
| BatchImport.NormalizeTextIdempotent | gridlamedit/services/laminate_batch_import.py:30-32 | normalising a header twice gives what normalising it once gives |
| BatchImport.BatchTruthyAgrees | gridlamedit/services/laminate_batch_import.py:51-61 | outside text and NaN the flag is Python truthiness; NaN is false although Python counts it true; text is read by its normalised form |
| BatchImport.NormalizedColumns | gridlamedit/services/laminate_batch_import.py:113 | the header lookup is a well-formed ordered map |
| BatchImport.FirstMatch | gridlamedit/services/laminate_batch_import.py:115-139 | the first key of the kind in insertion order, or none exactly when no key is of the kind |
| BatchImport.NumberLeIsPreorder | gridlamedit/services/laminate_batch_import.py:146 | ordering by sequence number is a total preorder |
| BatchImport.OrientationColumns | gridlamedit/services/laminate_batch_import.py:141-146 | the orientation columns are sorted by number and are a permutation of the numbered columns |
| BatchImport.NumberedColumnsSpec | gridlamedit/services/laminate_batch_import.py:142-145 | a column is numbered exactly when its stripped label is all digits, with that number |
| BatchImport.OrientationColumnsSpec | gridlamedit/services/laminate_batch_import.py:141-146 | the orientation columns come in non-decreasing number and are exactly the digit-labelled columns with their numbers |
| BatchImport.ReadOrientation | gridlamedit/services/laminate_batch_import.py:158-167 | an angle read is in the range normalize_angle accepts |
| BatchImport.NormalizeColumns | gridlamedit/services/laminate_batch_import.py:113 | the loop builds the header lookup, a later duplicate key replacing the earlier column in place |
| BatchImport.FindColumn | gridlamedit/services/laminate_batch_import.py:114-139 | the loop returns the column of the first key of the kind |
| BatchImport.CollectOrientationColumns | gridlamedit/services/laminate_batch_import.py:141-146 | the loop and the stable sort give the orientation columns |
| BatchImport.RowOrientationsFailureSticks | gridlamedit/services/laminate_batch_import.py:163-166 | once a cell is invalid, the row's result is that error whatever follows |
| BatchImport.HasAngleSnocNone | gridlamedit/services/laminate_batch_import.py:159-168 | appending a missing orientation does not change whether the row has an angle |
| BatchImport.ReadRowOrientations | gridlamedit/services/laminate_batch_import.py:154-168 | the loop gives the row's orientations or its first invalid cell, and the flag says whether some angle was read |
| BatchImport.ParseRowsFailureSticks | gridlamedit/services/laminate_batch_import.py:163-166 | once a row is rejected, the parse is that error whatever rows follow |
| BatchImport.ReadBatchRow | gridlamedit/services/laminate_batch_import.py:153-184 | one row gives its error, nothing without an angle, or the input with its tag, flags, orientations and sheet row number |
| BatchImport.DetectColumns | gridlamedit/services/laminate_batch_import.py:113-139 | the tag, symmetry and center columns are those the lookups find |
| BatchImport.ReadBatchRows | gridlamedit/services/laminate_batch_import.py:151-186 | the loop over the rows gives the parse of the rows |
| BatchImport.ParseBatchTemplate | gridlamedit/services/laminate_batch_import.py:97-186 | an empty frame gives no inputs; without a numbered column the template is refused; otherwise the rows are parsed |
| BatchImport.RowOrientationsSpec | gridlamedit/services/laminate_batch_import.py:154-168 | a row reads, column by column, one orientation per orientation column; it succeeds exactly when no cell is invalid, and a failure names an invalid cell's column |
| BatchImport.ParsedRowsSound | gridlamedit/services/laminate_batch_import.py:151-186 | the inputs come in sheet order with increasing row numbers from 2, and each is what its own row reads as |
| BatchImport.ParsedRowsIncreasing | gridlamedit/services/laminate_batch_import.py:151-186 | the row numbers of the inputs are sheet rows of the frame, strictly increasing |
| BatchImport.ParsedRowsFromTheirRows | gridlamedit/services/laminate_batch_import.py:151-186 | every input is what the row its number names reads as |
| BatchImport.ParsedRowsComplete | gridlamedit/services/laminate_batch_import.py:151-186 | in a successful parse every row reads without error, and every row that gives an input is among the inputs |
| BatchImport.ParseErrorLocated | gridlamedit/services/laminate_batch_import.py:161-166 | a rejected template names a data row of the sheet and an orientation column whose cell there is not an angle |
| ProjectQueries.CollectMembers | gridlamedit/services/project_query.py:32-38 | a value is collected from a laminate exactly when some layer gives it |
| ProjectQueries.CollectAllMembers | gridlamedit/services/project_query.py:31-38 | a value is collected from the project exactly when some layer of some laminate gives it |
| ProjectQueries.DistinctSnoc | gridlamedit/services/project_query.py:38 | adding a value to the set keeps the first-met order and adds it at the end only when it is new |
| ProjectQueries.AddDistinct | gridlamedit/services/project_query.py:32-38 | one laminate's loop adds its new values to those met so far, each once |
| ProjectQueries.GatherDistinct | gridlamedit/services/project_query.py:30-38 | the nested loop gives every value collected, each once, in first-met order |
| ProjectQueries.OrientedMaterial | gridlamedit/services/project_query.py:33-38 | a layer gives a material only when it has an orientation, and never an empty one |
| ProjectQueries.OrientedMaterialsMembers | gridlamedit/services/project_query.py:31-38 | a material is collected exactly when some oriented layer uses it |
| ProjectQueries.DistinctMaterialsSpec | gridlamedit/services/project_query.py:25-39 | every material some oriented layer uses, each once, nothing else, in case-folded order |
| ProjectQueries.ProjectDistinctMaterials | gridlamedit/services/project_query.py:12-39 | the loops over the project's laminates give its distinct materials |
| ProjectQueries.NormalizedOrientation | gridlamedit/services/project_query.py:50-55 | an orientation kept is the layer's own and lies in the accepted range |
| ProjectQueries.AllOrientationsMembers | gridlamedit/services/project_query.py:48-55 | an angle is collected exactly when some layer has it |
| ProjectQueries.DistinctOrientationsSpec | gridlamedit/services/project_query.py:42-56 | every angle in use, each once, nothing else, in strictly increasing order |
| ProjectQueries.ProjectDistinctOrientations | gridlamedit/services/project_query.py:42-56 | the loops over the project's laminates give its distinct orientations (see also lines 12-22) |
| ProjectQueries.Best | gridlamedit/services/project_query.py:70-71 | none exactly for no candidates; otherwise one of them |
| ProjectQueries.BestIsMaximum | gridlamedit/services/project_query.py:70 | no candidate is counted more often than the one chosen |
| ProjectQueries.BestIsFirst | gridlamedit/services/project_query.py:70 | every candidate before the one chosen is counted strictly less often |
| ProjectQueries.BestOfDistinctIsMax | gridlamedit/services/project_query.py:70 | no value met is met more often than the one chosen |
| ProjectQueries.BestOfDistinctIsFirst | gridlamedit/services/project_query.py:70 | every value met before the first meeting of the one chosen is met strictly less often |
| ProjectQueries.MostUsedSpec | gridlamedit/services/project_query.py:59-71 | none exactly when no oriented layer has a material; otherwise a material in use, met at least as often as any other and the first met among those |
| ProjectQueries.FirstOccurrence | gridlamedit/services/project_query.py:70 | a value met before another's first meeting comes before it among the distinct values |
| ProjectQueries.BumpIsPut | gridlamedit/services/project_query.py:69 | counts[t] += 1 sets t to its old count, 0 when missing, plus one |
| ProjectQueries.CountSnoc | gridlamedit/services/project_query.py:69 | counting one more value bumps its count |
| ProjectQueries.CountAppend | gridlamedit/services/project_query.py:62-69 | counting two runs one after the other is counting them together |
| ProjectQueries.TallyStep | gridlamedit/services/project_query.py:69 | a counter holding the first-met keys and their counts still does after one more value |
| ProjectQueries.TallyCounts | gridlamedit/services/project_query.py:61-69 | counting from an empty counter holds each value met, in first-met order, with the number of times it was met |
| ProjectQueries.MostCommon | gridlamedit/services/project_query.py:70 | the value chosen is among the keys looked at |
| ProjectQueries.MostCommonIsBest | gridlamedit/services/project_query.py:70 | most_common(1) on a counter picks the first key with the highest count |
| ProjectQueries.ProjectMostUsedMaterial | gridlamedit/services/project_query.py:59-71 | the counting loops and most_common(1) give the most used material |
| ProjectQueries.CountLayers | gridlamedit/services/project_query.py:63-69 | one laminate's loop counts its layers' materials into the counter |
| MaterialRegistry.Normalize | gridlamedit/services/material_registry.py:16-29 | the normal form is never longer than the input |
| MaterialRegistry.NormalizeIsNormal | gridlamedit/services/material_registry.py:16-29 | every entry is stripped and non-blank, and no two are equal up to case |
| MaterialRegistry.NormalizeCovers | gridlamedit/services/material_registry.py:20-28 | every non-blank input is kept, up to case |
| MaterialRegistry.NormalizeFrom | gridlamedit/services/material_registry.py:20-28 | every entry kept is an input, stripped |
| MaterialRegistry.NormalizeKeepsFirst | gridlamedit/services/material_registry.py:24-28 | the first input of each case-folded key is kept as written, stripped |
| MaterialRegistry.NormalizeOfNormal | gridlamedit/services/material_registry.py:16-29 | a list already normal is its own normal form |
| MaterialRegistry.NormalizeIdempotent | gridlamedit/services/material_registry.py:16-29 | normalising twice gives what normalising once gives |
| MaterialRegistry.NormalizeMaterials | gridlamedit/services/material_registry.py:16-29 | the loop with its seen set gives the normal form |
| MaterialRegistry.NormalizeAppend | gridlamedit/services/material_registry.py:16-29 | normalising a list followed by a normal list keeps the first list's normal form and adds only the second's entries not met up to case |
| MaterialRegistry.FreshNotIn | gridlamedit/services/material_registry.py:25-28 | an entry of a normal list is not among the new entries before it |
| MaterialRegistry.FilterSorted | gridlamedit/services/material_registry.py:85-86 | dropping entries from a case-folded sorted list keeps it sorted |
| MaterialRegistry.NormalPermutation | gridlamedit/services/material_registry.py:85 | sorting a normal list keeps it normal |
| MaterialRegistry.MergeSplits | gridlamedit/services/material_registry.py:82-86 | the result is the base followed by the sorted extras not already in the base up to case |
| MaterialRegistry.MergeShape | gridlamedit/services/material_registry.py:82-86 | the base comes first and unchanged, the rest is in case-folded order, and no two entries are equal up to case |
| MaterialRegistry.MergeKeeps | gridlamedit/services/material_registry.py:85-86 | every extra is offered, up to case |
| MaterialRegistry.MergeCovers | gridlamedit/services/material_registry.py:82-86 | every base entry and every stripped non-blank extra is offered, up to case |
| MaterialRegistry.MergeFrom | gridlamedit/services/material_registry.py:82-86 | every entry offered is a base entry or an extra, stripped |
| MaterialRegistry.DefaultsAreNormal | gridlamedit/services/material_registry.py:9-11 | the default list is already normal (see also line 82) |
| MaterialRegistry.ProjectMaterialsAreStripped | gridlamedit/services/project_query.py:36-38 | every project material is stripped and non-blank |
| MaterialRegistry.ExtrasAreStripped | gridlamedit/services/material_registry.py:83-85 | every custom or project material merged is stripped and non-blank |
| MaterialRegistry.AvailableShape | gridlamedit/services/material_registry.py:71-86 | the defaults come first, then the custom and project materials in case-folded order, no two equal up to case |
| MaterialRegistry.AvailableCovers | gridlamedit/services/material_registry.py:71-86 | every default, custom and project material is offered, up to case |
| MaterialRegistry.AvailableFrom | gridlamedit/services/material_registry.py:71-86 | every material offered is a default, a custom or a project material |
| MaterialRegistry.MaterialSettings.constructor | gridlamedit/services/material_registry.py:32-33 | the store starts with the given list |
| MaterialRegistry.MaterialSettings.LoadCustomMaterials | gridlamedit/services/material_registry.py:36-46 | the stored list's normal form |
| MaterialRegistry.MaterialSettings.SaveCustomMaterials | gridlamedit/services/material_registry.py:49-56 | the normal form is both stored and returned |
| MaterialRegistry.MaterialSettings.AddCustomMaterial | gridlamedit/services/material_registry.py:59-68 | blank input returns the loaded list and stores nothing; otherwise the stripped text is appended unless present up to case, and the list is stored and returned |
| MaterialRegistry.MaterialSettings.AvailableMaterials | gridlamedit/services/material_registry.py:71-86 | the list offered for the project from the defaults, the stored list and the project's materials |
| MaterialRegistry.WithMaterialSpec | gridlamedit/services/material_registry.py:65-68 | adding keeps the list normal, keeps its entries in place, and holds the text up to case |
| NaturalSort.DigitsLenSpec | gridlamedit/core/utils.py:25 | the digit count covers exactly the leading digits |
| NaturalSort.RunLen | gridlamedit/core/utils.py:25 | a match of the number pattern is at least one character and within the text |
| NaturalSort.GapLen | gridlamedit/core/utils.py:25 | the gap before the next number ends at a digit or at the end of the text |
| NaturalSort.GapLenSpec | gridlamedit/core/utils.py:25 | the gap holds no digit |
| NaturalSort.SplitNumbers | gridlamedit/core/utils.py:25 | re.split with one capturing group gives an odd number of parts |
| NaturalSort.RunOfMatch | gridlamedit/core/utils.py:25 | what the pattern matches is a number run: digits, an optional dot, more digits |
| NaturalSort.SplitJoin | gridlamedit/core/utils.py:25 | the parts joined back give the text |
| NaturalSort.SplitAlternates | gridlamedit/core/utils.py:25 | the parts alternate between gaps without digits and number runs |
| NaturalSort.AlternatesAt | gridlamedit/core/utils.py:25 | even parts hold no digit and odd parts are number runs |
| NaturalSort.RunValue | gridlamedit/core/utils.py:32 | a number run reads as a non-negative float |
| NaturalSort.SpelledFloat | gridlamedit/core/utils.py:32 | `float()` of a signed or unsigned "inf", "infinity" or "nan", in any case, is an infinity or NaN, not a word |
| NaturalSort.NaturalSortKey | gridlamedit/core/utils.py:8-35 | the loop over the parts gives the key: blank parts dropped, number runs as numbers, spelled infinities and NaN as floats, other words stripped and lower-cased |
| NaturalSort.KeyOfWordNumber | gridlamedit/core/utils.py:8-35 | a digit-free word followed by a number keys as the word's part, then the number; the word's part is a float for an infinity or NaN spelling and the lower-cased word otherwise |
| NaturalSort.KeyOfNumberWord | gridlamedit/core/utils.py:8-35 | a number followed by a digit-free word keys as the number, then the word's part: a float for an infinity or NaN spelling, the lower-cased word otherwise |
| NaturalSort.SplitLower | gridlamedit/core/utils.py:25 | lower-casing the text lower-cases the words and leaves the split unchanged |
| NaturalSort.KeyIgnoresCase | gridlamedit/core/utils.py:34 | a name and its lower-cased form have the same key (see also tests/test_natural_sort.py:36-43) |
| NaturalSort.PartLess | gridlamedit/core/utils.py:8-35 | comparing a number with a word has no answer, since Python raises TypeError there; floats, infinities included, compare as Python compares them, NaN never less |
| NaturalSort.NaturalOrder | tests/test_natural_sort.py:8-19 | names that differ only in a whole number compare by that number, so L2 comes before L10; when the shared head spells NaN, neither compares less |
| NaturalSort.KeyOfWordRun | gridlamedit/core/utils.py:25-34 | a stripped text without digits followed by any whole `\d+\.?\d*` run keys as the text's part, then `float` of the run |
| NaturalSort.DecimalRun | gridlamedit/core/utils.py:25-34 | `str(m) + "." + f` is matched as one run, and `float()` reads it as m + int(f) / 10^len(f) |
| NaturalSort.KeyOfWordDecimal | gridlamedit/core/utils.py:8-35 | the key of a dotted name such as L25.1 is the text's part, then the decimal value m + int(f) / 10^len(f) |
| NaturalSort.DecimalBounds | gridlamedit/core/utils.py:25-34 | the value m.f lies in [m, m + 1), above m exactly when the digits after the point are not all zeros |
| NaturalSort.DecimalOrder | gridlamedit/core/utils.py:8-35 | names that differ only in a whole or dotted number compare by the number's value, and neither is less when the head spells NaN |
| NaturalSort.DottedBetween | tests/test_natural_sort.py:8-12 | a dotted name comes after its whole number exactly when its fraction is non-zero (L25 < L25.1, but L25.0 ties with L25), and before a whole number exactly when that number is larger (L25.1 < L35) |
| NaturalSort.DottedOrder | tests/test_natural_sort.py:46-50 | dotted names with the same whole part and fraction width compare by their fraction digits: L25.1 < L25.2 |
| NaturalSort.DecimalNamesOrdered | tests/test_natural_sort.py:46-50 | for any stripped prefix without digits that is not NaN, the keys of L25, L25.1, L25.2, L25.3, L35 are pairwise strictly increasing, so `sorted` returns them in that order |
| NaturalSort.SameHead | tests/test_natural_sort.py:15-19 | keys with the same first part, not a NaN, compare by their second |
| NaturalSort.WordHeadsOrder | tests/test_natural_sort.py:15-19 | names with different word heads compare by their lower-cased heads whatever their numbers, so A10 comes before B1 |
| NaturalSort.LetterNamesOrdered | tests/test_natural_sort.py:15-19 | for two word heads in lower-case order, the keys of A1, A2, A10, B1 are pairwise strictly increasing |
| NaturalSort.LetterExampleOrdered | tests/test_natural_sort.py:17-19 | the test's own names A1, A2, A10, B1 have pairwise strictly increasing keys, so `sorted` returns that list |
| NaturalSort.DecimalExampleOrdered | tests/test_natural_sort.py:46-50 | with the literal head L, the keys of L25, L25.1, L25.2, L25.3, L35 are pairwise strictly increasing, so `sorted` returns the test's list |
| NaturalSort.MixedNamesRaise | gridlamedit/core/utils.py:31-34 | as written, comparing a name that starts with a number with one that starts with a word raises TypeError exactly when the word does not spell a float such as "inf" or "nan" |
| NaturalSort.StrLessTrichotomy | gridlamedit/core/utils.py:34 | exactly one of equal, less or greater holds between two words |
| NaturalSort.StrLessTrans | gridlamedit/core/utils.py:34 | the word order is transitive |
| NaturalSort.FixedPartOrder | gridlamedit/core/utils.py:31-34 | the corrected part order (minus infinity, numbers, plus infinity, NaN, then words) is a strict total order; it contains Python's order and, away from NaN, agrees with it where Python answers |
| NaturalSort.FixedKeyLeTotal | gridlamedit/core/utils.py:8-35 | any two keys are comparable under the corrected order |
| NaturalSort.FixedKeyLeTrans | gridlamedit/core/utils.py:8-35 | the corrected key order is transitive |
| NaturalSort.FixedKeyLeAntisym | gridlamedit/core/utils.py:8-35 | keys ordered both ways are equal |
| NaturalSort.FixedAgrees | gridlamedit/core/utils.py:8-35 | wherever Python's comparison says less, the corrected order says so too; between keys without NaN, wherever Python answers, the two agree |
| NaturalSort.NaturalLeIsPreorder | gridlamedit/core/utils.py:8-35 | ordering names by their keys is a total preorder |
| NaturalSort.SortNatural | gridlamedit/core/utils.py:8-35 | the names are sorted by key and are a permutation of the input (see also tests/test_natural_sort.py:8-50) |
| NaturalSort.MixedNamesOrdered | gridlamedit/core/utils.py:31-34 | under the corrected order a name starting with a number sorts strictly before the same parts swapped, such as "1A" before "A1", also for "inf" and "nan"; only a word spelling minus infinity is excluded |
| PasteDialogs.TokenLen | gridlamedit/app/dialogs/new_laminate_paste_dialog.py:102 | a token runs up to the next separator or the end of the text, holding no separator |
| PasteDialogs.Tokens | gridlamedit/app/dialogs/new_laminate_paste_dialog.py:102-107 | every token kept is non-empty and holds no separator |
| PasteDialogs.TokensOfJoin | gridlamedit/app/dialogs/new_laminate_paste_dialog.py:102 | a word followed by a separator splits off as the first token |
| PasteDialogs.TokensOfWord | gridlamedit/app/dialogs/new_laminate_paste_dialog.py:102 | a word without separators is its own single token |
| PasteDialogs.RoundHalfEven | gridlamedit/app/dialogs/new_laminate_paste_dialog.py:115 | round() lands within a half of the number, and leaves a whole number as it is |
| PasteDialogs.TokenOrientation | gridlamedit/app/dialogs/new_laminate_paste_dialog.py:105-119 | a token gives an orientation only when it reads as a number, and then it is that number rounded and lies in the accepted range |
| PasteDialogs.Contribution | gridlamedit/app/dialogs/new_laminate_paste_dialog.py:104-120 | a token adds at most one orientation, in the accepted range |
| PasteDialogs.Orientations | gridlamedit/app/dialogs/new_laminate_paste_dialog.py:104-120 | no more orientations than tokens, all in the accepted range |
| PasteDialogs.OrientationsAppend | gridlamedit/app/dialogs/new_laminate_paste_dialog.py:104-120 | the tokens of two runs give the orientations of each, in order |
| PasteDialogs.ParseOrientations | gridlamedit/app/dialogs/new_laminate_paste_dialog.py:101-121 | the loop gives the parse of the text, every orientation in the accepted range |
| PasteDialogs.IntTextHasNoSeparator | gridlamedit/app/dialogs/new_laminate_paste_dialog.py:102-110 | a written integer is one token and does not end in a degree sign |
| PasteDialogs.ParseDecimalOfInt | gridlamedit/app/dialogs/new_laminate_paste_dialog.py:112 | float() of a written integer is that integer |
| PasteDialogs.IntTokenOrientation | gridlamedit/app/dialogs/new_laminate_paste_dialog.py:105-119 | a written integer in the accepted range reads back as itself |
| PasteDialogs.CommaListCons | gridlamedit/app/dialogs/new_laminate_paste_dialog.py:102 | a comma list of several angles is the first angle, a comma, and the rest |
| PasteDialogs.PasteRoundTrip | gridlamedit/app/dialogs/new_laminate_paste_dialog.py:101-121 | pasting angles in the accepted range written with commas gives them back, in order |
| PasteDialogs.SymmetricSequenceShape | gridlamedit/app/dialogs/new_laminate_paste_dialog.py:128-138 | the mirrored stacking is a palindrome starting with the pasted layers, twice as long, or one shorter when the last layer is the centre |
| PasteDialogs.PasteDialog.constructor | gridlamedit/app/dialogs/new_laminate_paste_dialog.py:29-32 | a new dialog has no result and is not accepted |
| PasteDialogs.PasteDialog.AcceptClicked | gridlamedit/app/dialogs/new_laminate_paste_dialog.py:80-99 | accepted exactly when some orientation parses, the result then being the parsed list, mirrored when symmetric; otherwise nothing changes |
| NameDialogs.ExistingNames | gridlamedit/app/dialogs/name_laminate_dialog.py:59-65 | every non-blank name is held stripped and lower-cased, and nothing else is |
| NameDialogs.ResultName | gridlamedit/app/dialogs/name_laminate_dialog.py:67-69 | the result has no surrounding blanks |
| NameDialogs.Validate | gridlamedit/app/dialogs/name_laminate_dialog.py:71-92 | missing exactly when the stripped text is empty, invalid exactly when it breaks the name pattern, duplicate exactly when it is valid and taken up to case, and accepted exactly when it is valid and free |
| NameDialogs.AcceptedIsUnused | gridlamedit/app/dialogs/name_laminate_dialog.py:59-92 | an accepted name differs, up to case and surrounding blanks, from every existing name |
| NameDialogs.ValidateIgnoresBlanks | gridlamedit/app/dialogs/name_laminate_dialog.py:67-72 | surrounding blanks do not change the verdict |
| NameDialogs.NameLaminateDialog.constructor | gridlamedit/app/dialogs/name_laminate_dialog.py:25-33 | a new dialog has no existing names, an empty field and is not accepted |
| NameDialogs.NameLaminateDialog.SetExistingNames | gridlamedit/app/dialogs/name_laminate_dialog.py:59-65 | the reference set becomes the names, stripped and lower-cased |
| NameDialogs.NameLaminateDialog.ValidateAndAccept | gridlamedit/app/dialogs/name_laminate_dialog.py:71-92 | the verdict on the field, and the dialog is accepted when the verdict is Accepted |
| PyValues.IndexOf | gridlamedit/io/spreadsheet.py:412-414 | the first position holding the character, or none exactly when it does not occur |
| PyValues.ParseDecimalOfNat | gridlamedit/io/spreadsheet.py:412-414 | float() of a written whole number is that number |
| PyValues.NormalizeAngle | gridlamedit/io/spreadsheet.py:388-423 | an orientation accepted lies in [-100, 100] |
| PyValues.NormalizeAngleAccepts | gridlamedit/io/spreadsheet.py:388-423 | every whole orientation in range is accepted as an int and as a float, unchanged |
| PyValues.NormalizeAngleRejectsOutOfRange | gridlamedit/io/spreadsheet.py:416-419 | every whole orientation outside the range is refused as an int and as a float |

## Left out

- Qt presentation is not modelled: painting, headers, flags, scene items, zoom, signals such as `dataChanged`, message boxes and the QUndoStack itself. Only the data effect of each command's redo and undo is modelled. Pushing a command runs its redo at once, as QUndoStack does.
- File and settings I/O is not modelled. This covers opening, reading and writing workbooks (pandas, openpyxl, xlrd, xlwt), the preserved-column restore helpers, the JSON file write and read in `ProjectManager.save`/`load`, QSettings access and `create_blank_batch_template`. A sheet is given as the rows pandas would read. The settings store is the `stored` list of `MaterialRegistry.MaterialSettings`. Files are stood in for by values (`Projects.SavedFile`) or are left out.
- Finding a file, `mkdir` of the output folder and the choice of sheet (`sheet or 0`) in the readers are not modelled. A missing grid workbook is given as `None`.
- `PyValues.NormalizeAngle`: the orientation is whole degrees. A fractional orientation in range, such as 22.5, is refused here but accepted by `normalize_angle`, because floating point is not modelled. `math.isclose` comparisons become exact integer equality.
- `GridWorkbook.AngleOf`: a text angle cell reads as 0. The regex parsing of `_normalize_angle` in app/services/excel_io.py is not modelled; numeric cells are read exactly.
- `BatchImport.ValueText`: `str()` of a non-whole float cell, such as a tag typed as 1.5, reads as "" instead of its decimal text.
- `GridWorkbook.ReadBack` models the texts pandas reads as missing (its default `na_values`). Stripping of header names on reading is taken as already done.
- The text helpers treat characters as ASCII. `lower`, `upper` and `casefold` change only A-Z and a-z. NFKD folding of the ply-type labels is reduced to the accented letters those labels use.
- The paste dialog's `round()` is modelled as round-half-even on exact reals (`PasteDialogs.RoundHalfEven`), not on binary floats.
- The AML 0.45 share threshold is compared by integer cross-multiplication.
- Laminates inside the grid model are values. Two cells or dictionaries holding the same `Laminado` object alias it in Python; here that aliasing holds only in the virtual stacking view, which refers to laminates by key.
- `VirtualStacking`: only the selection, the positioning of `_insert_layer` and the orientation edit of `setData` are modelled. `_change_orientation` (app/virtualstacking.py:412-446) and `_clear_selected_layers` (app/virtualstacking.py:483-507) are not part of this model; both start from `_selected_targets`, so as written they fail in the same way as `_insert_layer`.
- InsertBlankLayers (`VirtualStacking.InsertBlankLayers`, with `InsertBlanks`): models the per-laminate insertion of the corrected program. As written, `_selected_targets` fails before any insertion (see Findings), so the source never reaches it.
- AutoNameForLayers (`LaminateService.AutoNameForLayers`, with `AutoNameForLaminate`): the target laminate is named by its key, so the same-count position and the used names are found by key. The source finds the position with `target in same_count` and `same_count.index(target)`, which use dataclass field equality, and drops the used names with `lam is not target`, which uses identity. The two differ only when two stored laminates are field-equal, or when a new laminate is field-equal to a stored one. Then Python takes the first equal laminate's place, which the model does not capture.
- `LaminateService.SyncMaterialBySequence` covers the path without a stacking-model provider. The provider callback is foreign code and is left out.
- `Projects`: the `cell_neighbor_nodes` and `cell_neighbors` entries of the JSON file are copied through unread by the program and are not modelled. `ui_state`, `get_ui_state` and the version-mismatch log message of `load` are not modelled either. The dirty callback is modelled by the list of values passed to it.
- `NeighborGraph`: the grid drawing and the mapping from clicks to cells are left out. So is the colouring by laminate symmetry, whose `evaluate_symmetry_for_layers` import in app/cell_neighbors.py:53 fails, so its stub fallback runs.
- FindConnectedComponents (`NeighborGraph.NeighborWindow.FindConnectedComponents`): the blocks cover every assigned cell and every cell reached from one by links. They are exactly the assigned cells only when every linked id is an assigned cell (`NeighborGraph.ComponentsCoverAssigned`); the model does not require that of the neighbour map, as the source does not.
- `PyValues.NormalizeAngle` stands for every caller's `normalize_angle`. The stub `float(value)` fallback of app/cell_neighbors.py:59-60 is not modelled separately.
- `format_orientation_value` and logging are not modelled.
- `ExportGridXlsx` and `ExportVirtualStacking` end with the path and rows that would be written. A writer failure ("Falha ao exportar") cannot arise without I/O.
- `GridExport.EnsureLayersHaveMaterial`: an orientation is an `Option<int>`, so the branch for a text orientation that is blank or "empty" cannot arise.
- `MaterialRegistry.MaterialSettings.LoadCustomMaterials`: the stored value is a list of strings. A stored single string or a value of another type, which the source turns into a one-item or empty list, is not modelled.
- `ProjectQueries.DistinctMaterials`: `sorted(set, key=str.casefold)` leaves entries equal up to case in set order. The model keeps them in first-met order.
- LabelStyleOf (`StackingLabels.LabelStyleOf`): reads the column's style with the corrected matcher. As written, an undotted first label numbered 10 or more lends a longer prefix (`StackingLabels.LabelStyleOfAsWritten`, see Findings). Every renumbering below uses the corrected style.
- PrefixAndSeparator (`StackingTables.StackingTableModel.PrefixAndSeparator`): returns the corrected style, so a first label "Seq10" gives the prefix "Seq", where the source gives "Seq1".
- SequenceStyle (`StackingRows.SequenceStyle`): the corrected style of the sequence column, not the greedy one of the source.
- PlyStyle (`StackingRows.PlyStyle`): the corrected style of the ply column; as written, a first label "Ply10" gives the prefix "Ply1".
- StyleOfLabelFor (`StackingRows.StyleOfLabelFor`): holds of the corrected style reading only; as written, the style ("Seq", "") with a number of 10 or more reads back with the prefix "Seq1".
- ResyncedRows (`StackingRows.ResyncedRows`): renumbers in the corrected style; as written, a table whose first sequence label is "Seq10" is relabelled "Seq11", "Seq12", and so on.
- StylesOfResynced (`StackingRows.StylesOfResynced`): a property of the corrected style reading, not of `_prefix_and_separator` as written.
- ForceSequenceSync (`StackingTables.StackingTableModel.ForceSequenceSync`): relabels in the corrected style; on rows Seq10, Seq11, Seq12 it writes Seq1, Seq2, Seq3, where the source writes Seq11, Seq12, Seq13.
- ForcePlySync (`StackingTables.StackingTableModel.ForcePlySync`): relabels the ply column in the corrected style, as ForceSequenceSync does.
- Resync (`StackingTables.StackingTableModel.Resync`): relabels in the corrected style, through ForceSequenceSync and ForcePlySync.
- UpdateLayers (`StackingTables.StackingTableModel.UpdateLayers`): its final renumbering uses the corrected style.
- InsertLayer (`StackingTables.StackingTableModel.InsertLayer`): the renumbering after the insertion uses the corrected style.
- RemoveRows (`StackingTables.StackingTableModel.RemoveRows`): the renumbering uses the corrected style; removing rows 0 to 8 of a table labelled Seq1 to Seq12 leaves Seq1, Seq2, Seq3, where the source leaves Seq11, Seq12, Seq13.
- MoveRow (`StackingTables.StackingTableModel.MoveRow`): the renumbering after the move uses the corrected style.
- RowDefaultsAt (`StackingTables.StackingTableModel.RowDefaultsAt`): the default labels come from the corrected style; as written, a first label "Seq10" makes row 0's default "Seq11".
- FreshTable (`VirtualStacking.FreshTable`): loads the layers through UpdateLayers, so it renumbers in the corrected style.
- RunValue (`NaturalSort.RunValue`): a number run reads as an exact real, not the nearest binary float. Two long runs that Python rounds to the same float compare as different here.
- ValueText (`Projects.ValueText`): a float that is not whole is written as the placeholder "float" instead of its decimal text, because floating point is not modelled; it only appears inside warning messages (gridlamedit/core/project_manager.py:111, 125).
- SortBy (`Sorting.SortBy`): the result is stated sorted and a permutation of the input; the stability of Python's `sorted` (equal keys keep their input order) is not stated.
- Valid (`GridDocs.GridDoc.Valid`): requires a distinct `Laminate` object under each name. Python allows one object under two names; such a document is outside this model.
- DeleteCellRedo (`NeighborGraph.NeighborWindow.DeleteCellRedo`): when the deleted cell had no entry, the command saves `{}` in the source and the entry with four empty directions here; both hold no link, and the model does not distinguish them.
- Integer widths do not arise: Python integers are unbounded, as Dafny's are.

## Findings

| source | as written | input that shows it | evidently intended | confidence | as-written member | corrected member |
|---|---|---|---|---|---|---|
| gridlamedit/io/spreadsheet.py:741 | `_LABEL_PATTERN` backtracks a greedy prefix, so an undotted label whose number ends in 0 is read with number 0 and refused | the sequence label "Seq10" | "Seq10" is accepted unchanged, like "Seq.10" | high, not executed | StackingLabels.AsWrittenRejectsTrailingZero, StackingLabels.Seq10Example | StackingLabels.LabelRoundTrip |
| gridlamedit/services/laminate_checks.py:181 | `f"{orientation:+d}"` is applied to the float that `normalize_angle` returns, which raises ValueError | any laminate with one layer of orientation 45 | the signed whole angle, such as "+45" | high, not executed | LaminateChecks.AsWrittenRaisesOnOrientedLayer | LaminateChecks.LayerTokenSeparatesOrientation |
| gridlamedit/core/utils.py:25-34 | the key mixes floats and strings, so `sorted` compares a float with a str and raises TypeError, unless the word spells a float such as "inf" | the names "1A" and "A1" | names sort without error, numbers before words | high, not executed | NaturalSort.MixedNamesRaise | NaturalSort.SortNatural, NaturalSort.MixedNamesOrdered |
| gridlamedit/io/spreadsheet.py:778-786 | `_prefix_and_separator` reads the column's style with the greedy `_LABEL_PATTERN` (line 741), so an undotted first label numbered 10 or more lends a prefix that keeps its leading digits | a table labelled Seq1 to Seq12 with rows 0 to 8 removed: the rows left, Seq10, Seq11, Seq12, are renumbered Seq11, Seq12, Seq13 | the prefix "Seq", renumbering them Seq1, Seq2, Seq3 | high, not executed | StackingLabels.LabelStyleOfAsWritten, StackingLabels.AsWrittenStyleOfNumbered, StackingLabels.Seq10StyleExample | StackingLabels.LabelStyleOf |
| gridlamedit/app/virtualstacking.py:398-410 | `targets.setdefault(laminate, set())` keys a dict by a `Laminado`, a dataclass with eq=True and therefore no `__hash__` (gridlamedit/io/spreadsheet.py:348-349), which raises TypeError | any selected cell of the virtual stacking, then "insert layer" | the selected rows grouped per laminate, then one blank layer inserted per row | high, not executed | VirtualStacking.SelectedTargetsAsWritten, VirtualStacking.AsWrittenSelectionRaises | VirtualStacking.SelectedTargets, VirtualStacking.SelectedTargetsHold |
| gridlamedit/app/services/excel_io.py:121-131 | `str(x or "")` on an empty cell, which pandas reads as NaN, gives "nan" because NaN is truthy | a layer row with an empty Material cell; a laminate saved without a colour | an empty cell reads as "" and the layer row is skipped | high, not executed | GridWorkbook.EmptyMaterialReadsNan, GridWorkbook.EmptyColorReadsNan | GridWorkbook.OrText |

=== FILE: aml.dfy ===
// AML colouring of the cell-neighbours editor
// (gridlamedit/app/cell_neighbors.py): each layer's orientation falls in a
// bucket (0, +45, -45, 90 or other), and a laminate is Hard, Soft or
// Quasi-iso by the share of its bucketed layers in each bucket.
module AmlColouring {
  import opened Wrappers
  import opened PyValues
  import opened GridModels

  datatype Bucket = Zero | Plus45 | Minus45 | Ninety | Other

  /** The label _aml_orientation_bucket returns for each bucket. */
  function BucketLabel(b: Bucket): string
  {
    match b
    case Zero => "0"
    case Plus45 => "+45"
    case Minus45 => "-45"
    case Ninety => "90"
    case Other => "other"
  }

  datatype AmlType = Hard | Soft | QuasiIso

  function AmlTypeLabel(t: AmlType): string
  {
    match t
    case Hard => "Hard"
    case Soft => "Soft"
    case QuasiIso => "Quasi-iso"
  }

  /** How far an angle may lie from a candidate and still take its bucket. */
  const Tolerance: int := 10

  /** The candidate angles, in the order min() scans them. */
  const Candidates: seq<(int, Bucket)> :=
    [(0, Zero), (45, Plus45), (-45, Minus45), (90, Ninety), (-90, Ninety), (180, Zero), (-180, Zero)]

  function Dist(a: int, b: int): nat
  {
    if a >= b then a - b else b - a
  }

  /** min(candidates, key=distance): the first candidate at the least distance. */
  function Closest(a: int, cs: seq<(int, Bucket)>): (r: (int, Bucket))
    requires |cs| > 0
    ensures r in cs
    ensures forall c :: c in cs ==> Dist(a, r.0) <= Dist(a, c.0)
  {
    if |cs| == 1 then cs[0]
    else
      var rest := Closest(a, cs[1..]);
      if Dist(a, cs[0].0) <= Dist(a, rest.0) then cs[0] else rest
  }

  /**
   * _aml_orientation_bucket on a layer's orientation: None without one or
   * when normalize_angle rejects it, otherwise the closest candidate's bucket
   * when it lies within the tolerance, else Other.
   */
  function BucketOf(o: Option<int>): (r: Option<Bucket>)
    ensures r.Some? <==> o.Some? && InOrientationRange(o.value)
  {
    match o
    case None => None
    case Some(a) =>
      if !InOrientationRange(a) then None
      else
        var c := Closest(a, Candidates);
        if Dist(a, c.0) <= Tolerance then Some(c.1) else Some(Other)
  }

  /**
   * The buckets by range: the one whose angle lies within 10 degrees (90
   * standing for both +90 and -90), and Other when there is none.
   */
  function NearestByRange(a: int): Bucket
  {
    if -10 <= a <= 10 then Zero
    else if 35 <= a <= 55 then Plus45
    else if -55 <= a <= -35 then Minus45
    else if a >= 80 || a <= -80 then Ninety
    else Other
  }

  /** Within the orientation range, the closest-candidate rule is the rule by ranges. */
  lemma BucketIsNearest(a: int)
    requires InOrientationRange(a)
    ensures BucketOf(Some(a)) == Some(NearestByRange(a))
  {
    var c := Closest(a, Candidates);
    ClosestBounds(a);
    RangeOfNearest(a, c.0, c.1);
  }

  /** A candidate no farther than any other decides the bucket as the ranges do. */
  lemma RangeOfNearest(a: int, x: int, b: Bucket)
    requires InOrientationRange(a)
    requires (x, b) == (0, Zero) || (x, b) == (45, Plus45) || (x, b) == (-45, Minus45) ||
      (x, b) == (90, Ninety) || (x, b) == (-90, Ninety)
    requires Dist(a, x) <= Dist(a, 0) && Dist(a, x) <= Dist(a, 45) && Dist(a, x) <= Dist(a, -45)
    requires Dist(a, x) <= Dist(a, 90) && Dist(a, x) <= Dist(a, -90)
    ensures (if Dist(a, x) <= Tolerance then b else Other) == NearestByRange(a)
  {
  }

  /** Where Closest lands among the candidates a bucket can come from. */
  lemma ClosestBounds(a: int)
    requires InOrientationRange(a)
    ensures var c := Closest(a, Candidates);
      (c == (0, Zero) || c == (45, Plus45) || c == (-45, Minus45) || c == (90, Ninety) || c == (-90, Ninety)) &&
      Dist(a, c.0) <= Dist(a, 0) && Dist(a, c.0) <= Dist(a, 45) && Dist(a, c.0) <= Dist(a, -45) &&
      Dist(a, c.0) <= Dist(a, 90) && Dist(a, c.0) <= Dist(a, -90)
  {
    var c := Closest(a, Candidates);
    CandidateCases(c);
    assert Candidates[0] == (0, Zero) && Candidates[1] == (45, Plus45) && Candidates[2] == (-45, Minus45);
    assert Candidates[3] == (90, Ninety) && Candidates[4] == (-90, Ninety);
  }

  /** The seven candidates, spelled out. */
  lemma CandidateCases(c: (int, Bucket))
    requires c in Candidates
    ensures c == (0, Zero) || c == (45, Plus45) || c == (-45, Minus45) || c == (90, Ninety) ||
      c == (-90, Ninety) || c == (180, Zero) || c == (-180, Zero)
  {
    var k :| 0 <= k < |Candidates| && Candidates[k] == c;
  }

  /** Counter of buckets over the layers. */
  datatype Counts = Counts(zero: nat, plus45: nat, minus45: nat, ninety: nat, other: nat)
  {
    function Total(): nat
    {
      zero + plus45 + minus45 + ninety + other
    }

    function Add(b: Bucket): Counts
    {
      match b
      case Zero => this.(zero := zero + 1)
      case Plus45 => this.(plus45 := plus45 + 1)
      case Minus45 => this.(minus45 := minus45 + 1)
      case Ninety => this.(ninety := ninety + 1)
      case Other => this.(other := other + 1)
    }
  }

  /** The layers' buckets, as a list with None for unbucketed layers. */
  function Buckets(layers: seq<Camada>): (r: seq<Option<Bucket>>)
    ensures |r| == |layers|
    ensures forall i :: 0 <= i < |layers| ==> r[i] == BucketOf(layers[i].orientacao)
  {
    seq(|layers|, i requires 0 <= i < |layers| => BucketOf(layers[i].orientacao))
  }

  /** The counts over a list of buckets, skipping the Nones. */
  function Tally(bs: seq<Option<Bucket>>): Counts
  {
    if bs == [] then Counts(0, 0, 0, 0, 0)
    else
      var c := Tally(bs[..|bs| - 1]);
      match bs[|bs| - 1]
      case None => c
      case Some(b) => c.Add(b)
  }

  /** The counter _classify_laminate_aml_type builds over the layers. */
  function CountBuckets(layers: seq<Camada>): Counts
  {
    Tally(Buckets(layers))
  }

  /** The count kept for bucket b. */
  function CountOf(c: Counts, b: Bucket): nat
  {
    match b
    case Zero => c.zero
    case Plus45 => c.plus45
    case Minus45 => c.minus45
    case Ninety => c.ninety
    case Other => c.other
  }

  /** Each count is the number of times its bucket occurs. */
  lemma {:induction false} CountsAreMultiplicities(bs: seq<Option<Bucket>>, b: Bucket)
    ensures CountOf(Tally(bs), b) == multiset(bs)[Some(b)]
  {
    if bs != [] {
      var init := bs[..|bs| - 1];
      CountsAreMultiplicities(init, b);
      assert bs == init + [bs[|bs| - 1]];
      assert multiset(bs) == multiset(init) + multiset{bs[|bs| - 1]};
      if bs[|bs| - 1].Some? {
        CountOfAdd(Tally(init), bs[|bs| - 1].value, b);
      }
    }
  }

  /** Adding a bucket raises its own count by one and no other. */
  lemma CountOfAdd(c: Counts, added: Bucket, b: Bucket)
    ensures CountOf(c.Add(added), b) == CountOf(c, b) + (if added == b then 1 else 0)
  {
  }

  /** The total counts the entries that hold a bucket. */
  lemma {:induction false} TotalIsBucketed(bs: seq<Option<Bucket>>)
    ensures Tally(bs).Total() == |bs| - multiset(bs)[None]
  {
    if bs != [] {
      var init := bs[..|bs| - 1];
      TotalIsBucketed(init);
      assert bs == init + [bs[|bs| - 1]];
      assert multiset(bs) == multiset(init) + multiset{bs[|bs| - 1]};
    }
  }

  /**
   * The classification over the counts, with each share compared as
   * count / total against 0.45 by cross-multiplication.
   */
  function ClassOfCounts(c: Counts): Option<AmlType>
  {
    var total := c.Total();
    var diagonal := c.plus45 + c.minus45;
    if total == 0 then None
    else if 100 * c.zero >= 45 * total && c.zero >= diagonal && c.zero >= c.ninety then Some(Hard)
    else if 100 * diagonal >= 45 * total && diagonal >= c.zero && diagonal >= c.ninety then Some(Soft)
    else Some(QuasiIso)
  }

  /** _classify_laminate_aml_type */
  function AmlTypeOf(laminado: Option<Laminado>): Option<AmlType>
  {
    match laminado
    case None => None
    case Some(l) => ClassOfCounts(CountBuckets(l.camadas))
  }

  /** The counting loop of _classify_laminate_aml_type. */
  method ClassifyLaminateAmlType(laminado: Option<Laminado>) returns (r: Option<AmlType>)
    ensures r == AmlTypeOf(laminado)
  {
    if laminado.None? {
      return None;
    }
    var layers := laminado.value.camadas;
    ghost var bs := Buckets(layers);
    var counts := Counts(0, 0, 0, 0, 0);
    for i := 0 to |layers|
      invariant counts == Tally(bs[..i])
    {
      assert bs[..i + 1][..i] == bs[..i];
      var bucket := BucketOf(layers[i].orientacao);
      if bucket.Some? {
        counts := counts.Add(bucket.value);
      }
    }
    assert bs[..|layers|] == bs;
    r := ClassOfCounts(counts);
  }

  lemma ClassNoneIffEmpty(c: Counts)
    ensures ClassOfCounts(c).None? <==> c.Total() == 0
  {
  }

  /** There is no type exactly when no entry holds a bucket. */
  lemma AmlTypeNoneIffUnbucketed(bs: seq<Option<Bucket>>)
    ensures ClassOfCounts(Tally(bs)).None? <==> forall i :: 0 <= i < |bs| ==> bs[i].None?
  {
    TotalIsBucketed(bs);
    ClassNoneIffEmpty(Tally(bs));
    if forall i :: 0 <= i < |bs| ==> bs[i].None? {
      AllNone(bs);
    } else {
      var i :| 0 <= i < |bs| && bs[i].Some?;
      NoneAtMost(bs, i);
    }
  }

  /** A laminate has an AML type exactly when one of its layers has a bucket. */
  lemma AmlTypeOfLayers(layers: seq<Camada>)
    ensures ClassOfCounts(CountBuckets(layers)).Some? <==>
      exists i :: 0 <= i < |layers| && layers[i].orientacao.Some? && InOrientationRange(layers[i].orientacao.value)
  {
    var bs := Buckets(layers);
    AmlTypeNoneIffUnbucketed(bs);
    if ClassOfCounts(CountBuckets(layers)).Some? {
      var i :| 0 <= i < |bs| && bs[i].Some?;
      assert layers[i].orientacao.Some? && InOrientationRange(layers[i].orientacao.value);
    }
  }

  lemma {:induction false} AllNone(bs: seq<Option<Bucket>>)
    requires forall i :: 0 <= i < |bs| ==> bs[i].None?
    ensures multiset(bs)[None] == |bs|
  {
    if bs != [] {
      assert bs == bs[..|bs| - 1] + [bs[|bs| - 1]];
      AllNone(bs[..|bs| - 1]);
    }
  }

  /** A list with a bucket at position i holds fewer Nones than elements. */
  lemma NoneAtMost(bs: seq<Option<Bucket>>, i: nat)
    requires i < |bs| && bs[i].Some?
    ensures multiset(bs)[None] < |bs|
  {
    assert bs == bs[..i] + [bs[i]] + bs[i + 1..];
    assert multiset(bs) == multiset(bs[..i]) + multiset{bs[i]} + multiset(bs[i + 1..]);
  }

  /** A list whose buckets all lie near 0 degrees is Hard. */
  lemma AllZeroIsHard(bs: seq<Option<Bucket>>)
    requires exists i :: 0 <= i < |bs| && bs[i].Some?
    requires forall i :: 0 <= i < |bs| ==> bs[i].None? || bs[i].value == Zero
    ensures ClassOfCounts(Tally(bs)) == Some(Hard)
  {
    AmlTypeNoneIffUnbucketed(bs);
    AllZeroCounts(bs);
  }

  lemma {:induction false} AllZeroCounts(bs: seq<Option<Bucket>>)
    requires forall i :: 0 <= i < |bs| ==> bs[i].None? || bs[i].value == Zero
    ensures Tally(bs).Total() == Tally(bs).zero
  {
    if bs != [] {
      var init := bs[..|bs| - 1];
      assert forall i :: 0 <= i < |init| ==> init[i] == bs[i];
      AllZeroCounts(init);
    }
  }

  /** A list whose buckets are all +45 or -45 is Soft. */
  lemma AllDiagonalIsSoft(bs: seq<Option<Bucket>>)
    requires exists i :: 0 <= i < |bs| && bs[i].Some?
    requires forall i :: 0 <= i < |bs| ==> bs[i].None? || bs[i].value == Plus45 || bs[i].value == Minus45
    ensures ClassOfCounts(Tally(bs)) == Some(Soft)
  {
    AmlTypeNoneIffUnbucketed(bs);
    AllDiagonalCounts(bs);
  }

  lemma {:induction false} AllDiagonalCounts(bs: seq<Option<Bucket>>)
    requires forall i :: 0 <= i < |bs| ==> bs[i].None? || bs[i].value == Plus45 || bs[i].value == Minus45
    ensures Tally(bs).Total() == Tally(bs).plus45 + Tally(bs).minus45
  {
    if bs != [] {
      var init := bs[..|bs| - 1];
      assert forall i :: 0 <= i < |init| ==> init[i] == bs[i];
      AllDiagonalCounts(init);
    }
  }

  /** Below 45 per cent of 0 and of +-45 alike, a bucketed laminate is Quasi-iso. */
  lemma NoMajorityIsQuasiIso(bs: seq<Option<Bucket>>)
    requires exists i :: 0 <= i < |bs| && bs[i].Some?
    requires 100 * Tally(bs).zero < 45 * Tally(bs).Total()
    requires 100 * (Tally(bs).plus45 + Tally(bs).minus45) < 45 * Tally(bs).Total()
    ensures ClassOfCounts(Tally(bs)) == Some(QuasiIso)
  {
    var c := Tally(bs);
    AmlTypeNoneIffUnbucketed(bs);
    ClassNoneIffEmpty(c);
    assert c.Total() > 0;
  }

  /**
   * One bucketed layer each at 0, +45, -45 and 90 is Soft, not Quasi-iso:
   * the two diagonal layers make half the total, above the 45 per cent
   * threshold (BucketIsNearest gives the buckets of the angles themselves).
   */
  lemma QuarterEachIsSoft(bs: seq<Option<Bucket>>)
    requires |bs| == 4
    requires bs[0] == Some(Zero) && bs[1] == Some(Plus45) && bs[2] == Some(Minus45) && bs[3] == Some(Ninety)
    ensures ClassOfCounts(Tally(bs)) == Some(Soft)
  {
    assert bs[..1][..0] == [];
    assert Tally(bs[..1]) == Counts(1, 0, 0, 0, 0);
    assert bs[..2][..1] == bs[..1];
    assert Tally(bs[..2]) == Counts(1, 1, 0, 0, 0);
    assert bs[..3][..2] == bs[..2];
    assert Tally(bs[..3]) == Counts(1, 1, 1, 0, 0);
    assert bs[..|bs| - 1] == bs[..3];
  }
}

=== FILE: batch_import.dfy ===
// gridlamedit/services/laminate_batch_import.py: reading the filled batch
// laminate template. Each data row of the sheet becomes one laminate input:
// its tag, its symmetry flags and one orientation per numbered sequence
// column.
//
// The sheet is given as the frame pandas reads (column labels and rows of
// cells, NaN already replaced by None); finding and opening the file is not
// modelled.
module BatchImport {
  import opened Wrappers
  import opened Text
  import Seqs
  import opened Sorting
  import opened OrderedMaps
  import opened PyValues

  /** A column label as pandas reads it from the header row: text, or an integer for a numeric header. */
  datatype Label = LText(s: string) | LInt(i: int)

  type BatchRow = map<Label, Value>

  datatype BatchFrame = BatchFrame(columns: seq<Label>, rows: seq<BatchRow>)

  /** BatchLaminateInput; orientations hold None where the template leaves a sequence empty. */
  datatype BatchLaminateInput = BatchLaminateInput(
    tag: string,
    isSymmetric: bool,
    centerIsSingle: bool,
    orientations: seq<Option<int>>,
    rowNumber: nat)

  datatype BatchError =
    | NoOrientationColumns
    | InvalidOrientation(rowNumber: nat, column: Label)

  /** row.get(label): None for a column the row does not have. */
  function Cell(row: BatchRow, col: Label): Value
  {
    if col in row then row[col] else VNone
  }

  // ------------------------------------------------------------ headers and tokens

  predicate LabelTruthy(l: Label)
  {
    match l
    case LText(s) => s != ""
    case LInt(i) => i != 0
  }

  /** str(label) */
  function LabelText(l: Label): string
  {
    match l
    case LText(s) => s
    case LInt(i) => IntToString(i)
  }

  /** Lower-cased, with everything but a-z and 0-9 removed. */
  function NormalizeText(s: string): (r: string)
    ensures forall k :: 0 <= k < |r| ==> IsLowerAlnum(r[k])
  {
    Seqs.Filter(Lower(Trim(s)), IsLowerAlnum)
  }

  /** _normalize_header: str(value or "") normalised; a falsy label normalises to "". */
  function NormalizeHeader(l: Label): string
  {
    NormalizeText(if LabelTruthy(l) then LabelText(l) else "")
  }

  lemma {:induction false} FilterAll(s: string)
    requires forall k :: 0 <= k < |s| ==> IsLowerAlnum(s[k])
    ensures Seqs.Filter(s, IsLowerAlnum) == s
  {
    if s != [] {
      FilterAll(s[1..]);
    }
  }

  /** Normalising a normalised header changes nothing. */
  lemma NormalizeTextIdempotent(s: string)
    ensures NormalizeText(NormalizeText(s)) == NormalizeText(s)
  {
    var r := NormalizeText(s);
    assert IsTrimmed(r) by {
      if r != [] {
        assert IsLowerAlnum(r[0]) && IsLowerAlnum(r[|r| - 1]);
      }
    }
    TrimOfTrimmed(r);
    assert Lower(r) == r;
    FilterAll(r);
  }

  /** _is_empty_token: the text "x" or "empty", in any case and with surrounding blanks. */
  predicate IsEmptyToken(v: Value)
  {
    v.VText? && Lower(Trim(v.s)) in {"x", "empty"}
  }

  const YesTokens: set<string> := {"y", "yes", "sim", "s", "true", "1"}

  /** _truthy: bools as they are, numbers when nonzero (NaN false), text by its normalised form. */
  predicate BatchTruthy(v: Value)
  {
    match v
    case VBool(b) => b
    case VNone => false
    case VInt(i) => i != 0
    case VFloat(f) => f.Num? && f.r != 0.0
    case VText(s) => NormalizeText(s) in YesTokens
  }

  /**
   * Except for NaN and text, _truthy is Python truthiness; text is read by
   * its normalised form, so "Sim", " YES " and "s." all count as yes.
   */
  lemma BatchTruthyAgrees(v: Value)
    ensures !v.VText? && v != VFloat(NaN) ==> (BatchTruthy(v) <==> Truthy(v))
    ensures v == VFloat(NaN) ==> !BatchTruthy(v) && Truthy(v)
    ensures v.VText? ==> BatchTruthy(v) == BatchTruthy(VText(NormalizeText(v.s)))
  {
    if v.VText? {
      NormalizeTextIdempotent(v.s);
    }
  }

  /** str(value or "") of a cell. */
  function ValueText(v: Value): string
  {
    match v
    case VNone => ""
    case VBool(b) => if b then "True" else ""
    case VInt(i) => if i == 0 then "" else IntToString(i)
    case VFloat(f) =>
      if f.NaN? then "nan"
      else if f.r == 0.0 || !IsWhole(f.r) then ""
      else IntToString(f.r.Floor) + ".0"
    case VText(s) => s
  }

  // ------------------------------------------------------------ columns

  /** {_normalize_header(col): col for col in df.columns}: a later column with the same key replaces the value in place. */
  function NormalizedColumns(cols: seq<Label>): (m: OMap<string, Label>)
    ensures m.Valid()
  {
    if cols == [] then Empty()
    else NormalizedColumns(cols[..|cols| - 1]).Put(NormalizeHeader(cols[|cols| - 1]), cols[|cols| - 1])
  }

  datatype ColumnKind = TagColumn | SymmetryColumn | CenterColumn

  const SymmetryKeys: set<string> := {"simmetry", "symmetry", "simetria"}

  const CenterKeys: set<string> := {
    "lastsequenceassimmetrycenter", "lastsequenceasimmetrycenter", "lastsequenceasymmetrycenter",
    "sequenciacentral", "centerflag", "centersingle"}

  predicate KeyMatches(kind: ColumnKind, key: string)
  {
    match kind
    case TagColumn => key == "tag" || EndsWith(key, "tag")
    case SymmetryColumn => key in SymmetryKeys
    case CenterColumn => key in CenterKeys || (Contains(key, "center") && Contains(key, "sequence"))
  }

  /** The position of the first key of the kind. */
  function FirstMatch(kind: ColumnKind, keys: seq<string>): (r: Option<nat>)
    ensures r.Some? ==> r.value < |keys| && KeyMatches(kind, keys[r.value])
    ensures r.Some? ==> forall k :: 0 <= k < r.value ==> !KeyMatches(kind, keys[k])
    ensures r.None? ==> forall k :: 0 <= k < |keys| ==> !KeyMatches(kind, keys[k])
  {
    if keys == [] then None
    else if KeyMatches(kind, keys[0]) then Some(0)
    else match FirstMatch(kind, keys[1..])
      case None => None
      case Some(k) => Some(k + 1)
  }

  /** The column the first matching key was recorded for. */
  function ColumnFor(kind: ColumnKind, m: OMap<string, Label>): Option<Label>
    requires m.Valid()
  {
    match FirstMatch(kind, m.keys)
    case None => None
    case Some(i) => Some(m.items[m.keys[i]])
  }

  /** The trimmed text of a label that is a whole number of digits: int(text). */
  predicate IsSequenceLabel(l: Label)
  {
    var t := Trim(LabelText(l));
    t != [] && AllDigits(t)
  }

  /** The numbered columns, with their numbers, in column order. */
  function NumberedColumns(cols: seq<Label>): seq<(nat, Label)>
  {
    if cols == [] then []
    else
      var c := cols[|cols| - 1];
      NumberedColumns(cols[..|cols| - 1])
        + (if IsSequenceLabel(c) then [(ParseNat(Trim(LabelText(c))), c)] else [])
  }

  function NumberLe(a: (nat, Label), b: (nat, Label)): bool
  {
    a.0 <= b.0
  }

  lemma NumberLeIsPreorder()
    ensures TotalPreorder(NumberLe)
  {
  }

  /** orientation_cols sorted by sequence number; the sort keeps columns with equal numbers in order. */
  function OrientationColumns(cols: seq<Label>): (r: seq<(nat, Label)>)
    ensures SortedBy(r, NumberLe)
    ensures multiset(r) == multiset(NumberedColumns(cols))
  {
    NumberLeIsPreorder();
    SortBy(NumberedColumns(cols), NumberLe)
  }

  /** Exactly the columns whose label is a number become orientation columns, each with that number. */
  lemma {:induction false} NumberedColumnsSpec(cols: seq<Label>, n: nat, c: Label)
    ensures (n, c) in NumberedColumns(cols) <==>
      c in cols && IsSequenceLabel(c) && n == ParseNat(Trim(LabelText(c)))
  {
    if cols != [] {
      NumberedColumnsSpec(cols[..|cols| - 1], n, c);
      assert cols == cols[..|cols| - 1] + [cols[|cols| - 1]];
    }
  }

  /** The orientation columns ordered by number, and none other than the numbered ones. */
  lemma OrientationColumnsSpec(cols: seq<Label>)
    ensures forall i, j :: 0 <= i < j < |OrientationColumns(cols)| ==>
      OrientationColumns(cols)[i].0 <= OrientationColumns(cols)[j].0
    ensures forall n: nat, c :: (n, c) in OrientationColumns(cols) <==>
      c in cols && IsSequenceLabel(c) && n == ParseNat(Trim(LabelText(c)))
  {
    var r := OrientationColumns(cols);
    forall n: nat, c ensures (n, c) in r <==> c in cols && IsSequenceLabel(c) && n == ParseNat(Trim(LabelText(c))) {
      NumberedColumnsSpec(cols, n, c);
      assert (n, c) in r <==> (n, c) in multiset(r);
      assert (n, c) in NumberedColumns(cols) <==> (n, c) in multiset(NumberedColumns(cols));
    }
  }

  /** The tag, symmetry and center columns found in the header. */
  datatype Detected = Detected(tag: Option<Label>, symmetry: Option<Label>, center: Option<Label>)

  function Detect(cols: seq<Label>): Detected
  {
    var m := NormalizedColumns(cols);
    Detected(ColumnFor(TagColumn, m), ColumnFor(SymmetryColumn, m), ColumnFor(CenterColumn, m))
  }

  // ------------------------------------------------------------ rows

  /** How one orientation cell reads. */
  datatype Reading = Missing | Read(angle: int) | Invalid

  /** Blank cells and the empty tokens read as no orientation; anything else must be an angle. */
  function ReadOrientation(v: Value): (r: Reading)
    ensures r.Read? ==> InOrientationRange(r.angle)
  {
    if IsBlankValue(v) || IsEmptyToken(v) then Missing
    else match NormalizeAngle(v)
      case None => Invalid
      case Some(a) => Read(a)
  }

  /** A row's orientations, column by column; the first invalid cell is the error. */
  function RowOrientations(row: BatchRow, rowNumber: nat, ocols: seq<(nat, Label)>): Result<seq<Option<int>>, BatchError>
  {
    if ocols == [] then Success([])
    else
      var col := ocols[|ocols| - 1].1;
      match RowOrientations(row, rowNumber, ocols[..|ocols| - 1])
      case Failure(e) => Failure(e)
      case Success(os) =>
        match ReadOrientation(Cell(row, col))
        case Missing => Success(os + [None])
        case Read(a) => Success(os + [Some(a)])
        case Invalid => Failure(InvalidOrientation(rowNumber, col))
  }

  predicate HasAngle(os: seq<Option<int>>)
  {
    exists k :: 0 <= k < |os| && os[k].Some?
  }

  /** A detected column's cell, None when the column is absent (or its label falsy). */
  function ColumnValue(row: BatchRow, col: Option<Label>): Value
  {
    if col.Some? && LabelTruthy(col.value) then Cell(row, col.value) else VNone
  }

  /** One row: an error, nothing when no orientation is given, or the laminate input. */
  function RowInput(row: BatchRow, rowNumber: nat, ocols: seq<(nat, Label)>, det: Detected)
    : Result<Option<BatchLaminateInput>, BatchError>
  {
    match RowOrientations(row, rowNumber, ocols)
    case Failure(e) => Failure(e)
    case Success(os) =>
      if !HasAngle(os) then Success(None)
      else Success(Some(BatchLaminateInput(
        Trim(ValueText(ColumnValue(row, det.tag))),
        BatchTruthy(ColumnValue(row, det.symmetry)),
        BatchTruthy(ColumnValue(row, det.center)),
        os,
        rowNumber)))
  }

  /** The data rows in order; row i of the frame is row i + 2 of the sheet. */
  function ParseRows(rows: seq<BatchRow>, ocols: seq<(nat, Label)>, det: Detected): Result<seq<BatchLaminateInput>, BatchError>
  {
    if rows == [] then Success([])
    else
      match ParseRows(rows[..|rows| - 1], ocols, det)
      case Failure(e) => Failure(e)
      case Success(ls) =>
        match RowInput(rows[|rows| - 1], |rows| + 1, ocols, det)
        case Failure(e) => Failure(e)
        case Success(None) => Success(ls)
        case Success(Some(l)) => Success(ls + [l])
  }

  /** parse_batch_template on the frame read from the sheet. */
  function ParseBatch(frame: BatchFrame): Result<seq<BatchLaminateInput>, BatchError>
  {
    if frame.rows == [] || frame.columns == [] then Success([])
    else
      var ocols := OrientationColumns(frame.columns);
      if ocols == [] then Failure(NoOrientationColumns)
      else ParseRows(frame.rows, ocols, Detect(frame.columns))
  }

  // ------------------------------------------------------------ the reader, step by step

  method NormalizeColumns(cols: seq<Label>) returns (m: OMap<string, Label>)
    ensures m == NormalizedColumns(cols)
  {
    m := Empty();
    for i := 0 to |cols|
      invariant m == NormalizedColumns(cols[..i])
    {
      assert cols[..i + 1][..i] == cols[..i];
      m := m.Put(NormalizeHeader(cols[i]), cols[i]);
    }
    assert cols[..|cols|] == cols;
  }

  /** `for key, original in normalized.items(): if ...: col = original; break` */
  method FindColumn(kind: ColumnKind, m: OMap<string, Label>) returns (col: Option<Label>)
    requires m.Valid()
    ensures col == ColumnFor(kind, m)
  {
    for i := 0 to |m.keys|
      invariant forall k :: 0 <= k < i ==> !KeyMatches(kind, m.keys[k])
    {
      if KeyMatches(kind, m.keys[i]) {
        assert FirstMatch(kind, m.keys) == Some(i);
        return Some(m.items[m.keys[i]]);
      }
    }
    return None;
  }

  method CollectOrientationColumns(cols: seq<Label>) returns (ocols: seq<(nat, Label)>)
    ensures ocols == OrientationColumns(cols)
  {
    ocols := [];
    for i := 0 to |cols|
      invariant ocols == NumberedColumns(cols[..i])
    {
      assert cols[..i + 1][..i] == cols[..i];
      var text := Trim(LabelText(cols[i]));
      if text != [] && AllDigits(text) {
        ocols := ocols + [(ParseNat(text), cols[i])];
      }
    }
    assert cols[..|cols|] == cols;
    NumberLeIsPreorder();
    ocols := SortBy(ocols, NumberLe);
  }

  lemma {:induction false} RowOrientationsFailureSticks(row: BatchRow, rowNumber: nat, ocols: seq<(nat, Label)>, i: nat)
    requires i <= |ocols| && RowOrientations(row, rowNumber, ocols[..i]).Failure?
    ensures RowOrientations(row, rowNumber, ocols) == RowOrientations(row, rowNumber, ocols[..i])
    decreases |ocols| - i
  {
    if i < |ocols| {
      assert ocols[..i + 1][..i] == ocols[..i];
      RowOrientationsFailureSticks(row, rowNumber, ocols, i + 1);
    } else {
      assert ocols[..i] == ocols;
    }
  }

  lemma HasAngleSnocNone(os: seq<Option<int>>)
    ensures HasAngle(os + [None]) == HasAngle(os)
  {
    if HasAngle(os + [None]) {
      var k :| 0 <= k < |os| + 1 && (os + [None])[k].Some?;
      assert os[k].Some?;
    }
    if HasAngle(os) {
      var k :| 0 <= k < |os| && os[k].Some?;
      assert (os + [None])[k].Some?;
    }
  }

  /** The orientation loop of one row; `hasOrientation` is whether some cell gave an angle. */
  method ReadRowOrientations(row: BatchRow, rowNumber: nat, ocols: seq<(nat, Label)>)
    returns (r: Result<seq<Option<int>>, BatchError>, hasOrientation: bool)
    ensures r == RowOrientations(row, rowNumber, ocols)
    ensures r.Success? ==> hasOrientation == HasAngle(r.value)
  {
    var orientations: seq<Option<int>> := [];
    hasOrientation := false;
    for i := 0 to |ocols|
      invariant RowOrientations(row, rowNumber, ocols[..i]) == Success(orientations)
      invariant hasOrientation == HasAngle(orientations)
    {
      assert ocols[..i + 1][..i] == ocols[..i];
      var column := ocols[i].1;
      var raw := Cell(row, column);
      if IsBlankValue(raw) || IsEmptyToken(raw) {
        HasAngleSnocNone(orientations);
        orientations := orientations + [None];
        continue;
      }
      var value := NormalizeAngle(raw);
      if value.None? {
        RowOrientationsFailureSticks(row, rowNumber, ocols, i + 1);
        return Failure(InvalidOrientation(rowNumber, column)), hasOrientation;
      }
      orientations := orientations + [Some(value.value)];
      hasOrientation := true;
      assert orientations[|orientations| - 1].Some?;
    }
    assert ocols[..|ocols|] == ocols;
    r := Success(orientations);
  }

  lemma {:induction false} ParseRowsFailureSticks(rows: seq<BatchRow>, ocols: seq<(nat, Label)>, det: Detected, i: nat)
    requires i <= |rows| && ParseRows(rows[..i], ocols, det).Failure?
    ensures ParseRows(rows, ocols, det) == ParseRows(rows[..i], ocols, det)
    decreases |rows| - i
  {
    if i < |rows| {
      assert rows[..i + 1][..i] == rows[..i];
      ParseRowsFailureSticks(rows, ocols, det, i + 1);
    } else {
      assert rows[..i] == rows;
    }
  }

  /** One data row of the loop: its input, None when it has no orientation, or the error it raises. */
  method ReadBatchRow(row: BatchRow, rowNumber: nat, ocols: seq<(nat, Label)>, det: Detected)
    returns (r: Result<Option<BatchLaminateInput>, BatchError>)
    ensures r == RowInput(row, rowNumber, ocols, det)
  {
    var orientations, hasOrientation := ReadRowOrientations(row, rowNumber, ocols);
    if orientations.Failure? {
      return Failure(orientations.error);
    }
    if !hasOrientation {
      return Success(None);
    }
    var tagValue := if det.tag.Some? && LabelTruthy(det.tag.value) then Trim(ValueText(Cell(row, det.tag.value))) else "";
    var isSymmetric := if det.symmetry.Some? && LabelTruthy(det.symmetry.value) then BatchTruthy(Cell(row, det.symmetry.value)) else false;
    var centerValue := if det.center.Some? && LabelTruthy(det.center.value) then Cell(row, det.center.value) else VNone;
    return Success(Some(BatchLaminateInput(tagValue, isSymmetric, BatchTruthy(centerValue), orientations.value, rowNumber)));
  }

  /** The tag, symmetry and center column searches. */
  method DetectColumns(cols: seq<Label>) returns (det: Detected)
    ensures det == Detect(cols)
  {
    var normalized := NormalizeColumns(cols);
    var tagCol := FindColumn(TagColumn, normalized);
    var symmetryCol := FindColumn(SymmetryColumn, normalized);
    var centerCol := FindColumn(CenterColumn, normalized);
    det := Detected(tagCol, symmetryCol, centerCol);
  }

  /** The row loop: stops at the first row with an invalid orientation. */
  method ReadBatchRows(rows: seq<BatchRow>, ocols: seq<(nat, Label)>, det: Detected)
    returns (r: Result<seq<BatchLaminateInput>, BatchError>)
    ensures r == ParseRows(rows, ocols, det)
  {
    var laminates: seq<BatchLaminateInput> := [];
    for idx := 0 to |rows|
      invariant ParseRows(rows[..idx], ocols, det) == Success(laminates)
    {
      assert rows[..idx + 1][..idx] == rows[..idx];
      var input := ReadBatchRow(rows[idx], idx + 2, ocols, det);
      if input.Failure? {
        ParseRowsFailureSticks(rows, ocols, det, idx + 1);
        return Failure(input.error);
      }
      if input.value.Some? {
        laminates := laminates + [input.value.value];
      }
    }
    assert rows[..|rows|] == rows;
    return Success(laminates);
  }

  /** parse_batch_template from the frame on: columns are detected, then the rows are read in order. */
  method ParseBatchTemplate(frame: BatchFrame) returns (r: Result<seq<BatchLaminateInput>, BatchError>)
    ensures r == ParseBatch(frame)
  {
    if frame.rows == [] || frame.columns == [] {
      return Success([]);
    }
    var det := DetectColumns(frame.columns);
    var ocols := CollectOrientationColumns(frame.columns);
    if ocols == [] {
      return Failure(NoOrientationColumns);
    }
    r := ReadBatchRows(frame.rows, ocols, det);
  }

  // ------------------------------------------------------------ what the reader promises

  /** The orientations of a row are its cells read column by column; a failure names the first invalid cell. */
  lemma {:induction false} RowOrientationsSpec(row: BatchRow, rowNumber: nat, ocols: seq<(nat, Label)>)
    ensures RowOrientations(row, rowNumber, ocols).Success? ==>
      var os := RowOrientations(row, rowNumber, ocols).value;
      |os| == |ocols| &&
      forall k :: 0 <= k < |ocols| ==>
        os[k] == (match ReadOrientation(Cell(row, ocols[k].1)) case Read(a) => Some(a) case _ => None)
    ensures RowOrientations(row, rowNumber, ocols).Success? <==>
      forall k :: 0 <= k < |ocols| ==> !ReadOrientation(Cell(row, ocols[k].1)).Invalid?
    ensures RowOrientations(row, rowNumber, ocols).Failure? ==>
      exists k :: 0 <= k < |ocols| && ReadOrientation(Cell(row, ocols[k].1)).Invalid? &&
        RowOrientations(row, rowNumber, ocols).error == InvalidOrientation(rowNumber, ocols[k].1)
  {
    if ocols != [] {
      var n := |ocols| - 1;
      RowOrientationsSpec(row, rowNumber, ocols[..n]);
      assert forall k :: 0 <= k < n ==> ocols[..n][k] == ocols[k];
      if RowOrientations(row, rowNumber, ocols[..n]).Failure? {
        var k :| 0 <= k < n && ReadOrientation(Cell(row, ocols[..n][k].1)).Invalid? &&
          RowOrientations(row, rowNumber, ocols[..n]).error == InvalidOrientation(rowNumber, ocols[..n][k].1);
        assert ReadOrientation(Cell(row, ocols[k].1)).Invalid?;
      } else if ReadOrientation(Cell(row, ocols[n].1)).Invalid? {
        assert RowOrientations(row, rowNumber, ocols).error == InvalidOrientation(rowNumber, ocols[n].1);
      }
    }
  }

  /** Row numbers of the inputs: sheet rows of the frame, strictly increasing. */
  predicate RowNumbersIncreasing(ls: seq<BatchLaminateInput>, rowCount: nat)
  {
    (forall i :: 0 <= i < |ls| ==> 2 <= ls[i].rowNumber <= rowCount + 1) &&
    (forall i, j :: 0 <= i < j < |ls| ==> ls[i].rowNumber < ls[j].rowNumber)
  }

  /**
   * Every input comes from the row its number names and gives an angle;
   * inputs follow the sheet's order.
   */
  lemma ParsedRowsSound(rows: seq<BatchRow>, ocols: seq<(nat, Label)>, det: Detected)
    requires ParseRows(rows, ocols, det).Success?
    ensures RowNumbersIncreasing(ParseRows(rows, ocols, det).value, |rows|)
    ensures forall l :: l in ParseRows(rows, ocols, det).value ==>
      2 <= l.rowNumber <= |rows| + 1 && RowInput(rows[l.rowNumber - 2], l.rowNumber, ocols, det) == Success(Some(l))
  {
    ParsedRowsIncreasing(rows, ocols, det);
    ParsedRowsFromTheirRows(rows, ocols, det);
  }

  lemma {:induction false} ParsedRowsIncreasing(rows: seq<BatchRow>, ocols: seq<(nat, Label)>, det: Detected)
    requires ParseRows(rows, ocols, det).Success?
    ensures RowNumbersIncreasing(ParseRows(rows, ocols, det).value, |rows|)
  {
    if rows != [] {
      var n := |rows| - 1;
      ParsedRowsIncreasing(rows[..n], ocols, det);
      ParseRowsStep(rows, ocols, det);
      var ri := RowInput(rows[n], n + 2, ocols, det);
      if ri.value.Some? {
        IncreasingSnoc(ParseRows(rows[..n], ocols, det).value, ri.value.value, n);
      }
    }
  }

  lemma {:induction false} ParsedRowsFromTheirRows(rows: seq<BatchRow>, ocols: seq<(nat, Label)>, det: Detected)
    requires ParseRows(rows, ocols, det).Success?
    ensures forall l :: l in ParseRows(rows, ocols, det).value ==>
      2 <= l.rowNumber <= |rows| + 1 && RowInput(rows[l.rowNumber - 2], l.rowNumber, ocols, det) == Success(Some(l))
  {
    if rows != [] {
      var n := |rows| - 1;
      ParsedRowsFromTheirRows(rows[..n], ocols, det);
      ParseRowsStep(rows, ocols, det);
      var ls := ParseRows(rows[..n], ocols, det).value;
      forall l | l in ls
        ensures 2 <= l.rowNumber <= |rows| + 1 && RowInput(rows[l.rowNumber - 2], l.rowNumber, ocols, det) == Success(Some(l))
      {
        assert rows[..n][l.rowNumber - 2] == rows[l.rowNumber - 2];
      }
    }
  }

  /** One more row: the inputs of the shorter sheet, then this row's input when it gives one. */
  lemma ParseRowsStep(rows: seq<BatchRow>, ocols: seq<(nat, Label)>, det: Detected)
    requires rows != [] && ParseRows(rows, ocols, det).Success?
    ensures var n := |rows| - 1;
      var ri := RowInput(rows[n], n + 2, ocols, det);
      ParseRows(rows[..n], ocols, det).Success? && ri.Success? &&
      ParseRows(rows, ocols, det).value ==
        ParseRows(rows[..n], ocols, det).value + (if ri.value.Some? then [ri.value.value] else []) &&
      (ri.value.Some? ==> ri.value.value.rowNumber == n + 2)
  {
  }

  lemma IncreasingSnoc(ls: seq<BatchLaminateInput>, l: BatchLaminateInput, n: nat)
    requires RowNumbersIncreasing(ls, n) && l.rowNumber == n + 2
    ensures RowNumbersIncreasing(ls + [l], n + 1)
  {
    var s := ls + [l];
    forall i, j | 0 <= i < j < |s| ensures s[i].rowNumber < s[j].rowNumber {
      if j < |ls| {
        assert s[i] == ls[i] && s[j] == ls[j];
      } else {
        assert s[i] == ls[i];
      }
    }
  }

  /** Every row that gives an angle in some orientation column is among the inputs. */
  lemma {:induction false} ParsedRowsComplete(rows: seq<BatchRow>, ocols: seq<(nat, Label)>, det: Detected, i: nat)
    requires ParseRows(rows, ocols, det).Success? && i < |rows|
    ensures RowInput(rows[i], i + 2, ocols, det).Success?
    ensures RowInput(rows[i], i + 2, ocols, det).value.Some? ==>
      RowInput(rows[i], i + 2, ocols, det).value.value in ParseRows(rows, ocols, det).value
  {
    var n := |rows| - 1;
    if i < n {
      ParsedRowsComplete(rows[..n], ocols, det, i);
      assert rows[..n][i] == rows[i];
    }
  }

  /** A rejected template names a data row of the sheet and a column whose cell is not an angle. */
  lemma {:induction false} ParseErrorLocated(rows: seq<BatchRow>, ocols: seq<(nat, Label)>, det: Detected)
    requires ParseRows(rows, ocols, det).Failure?
    ensures var e := ParseRows(rows, ocols, det).error;
      e.InvalidOrientation? && 2 <= e.rowNumber <= |rows| + 1 &&
      (exists k :: 0 <= k < |ocols| && ocols[k].1 == e.column) &&
      ReadOrientation(Cell(rows[e.rowNumber - 2], e.column)).Invalid?
  {
    var n := |rows| - 1;
    if ParseRows(rows[..n], ocols, det).Failure? {
      ParseErrorLocated(rows[..n], ocols, det);
      assert rows[..n][ParseRows(rows[..n], ocols, det).error.rowNumber - 2] == rows[ParseRows(rows[..n], ocols, det).error.rowNumber - 2];
    } else {
      RowOrientationsSpec(rows[n], n + 2, ocols);
    }
  }
}

=== FILE: grid_doc.dfy ===
// gridlamedit/app/models/grid_doc.py and cell.py: the document keeps, for
// every laminate, the list of cells assigned to it.
module GridDocs {
  import opened Wrappers
  import opened Seqs
  import Laminates

  datatype Cell = Cell(id: string, laminateName: Option<string>)

  /** The cell names the laminate (an empty name counts as no laminate). */
  predicate NamesLaminate(c: Cell, name: string)
  {
    c.laminateName == Some(name) && name != ""
  }

  /**
   * The list ensure_associations builds for laminate `name`: the ids of the
   * cells naming it, in cell order, each id once.
   */
  function AssociatedIds(cells: seq<Cell>, name: string): seq<string>
  {
    if cells == [] then []
    else
      var prev := AssociatedIds(cells[..|cells| - 1], name);
      var c := cells[|cells| - 1];
      if NamesLaminate(c, name) && c.id !in prev then prev + [c.id] else prev
  }

  lemma {:induction false} AssociatedIdsMembers(cells: seq<Cell>, name: string)
    ensures NoDup(AssociatedIds(cells, name))
    ensures forall x :: x in AssociatedIds(cells, name) <==>
      exists j :: 0 <= j < |cells| && cells[j].id == x && NamesLaminate(cells[j], name)
  {
    if cells != [] {
      var init := cells[..|cells| - 1];
      AssociatedIdsMembers(init, name);
      forall x ensures x in AssociatedIds(cells, name) <==>
        exists j :: 0 <= j < |cells| && cells[j].id == x && NamesLaminate(cells[j], name)
      {
        if exists j :: 0 <= j < |cells| && cells[j].id == x && NamesLaminate(cells[j], name) {
          var j :| 0 <= j < |cells| && cells[j].id == x && NamesLaminate(cells[j], name);
          if j < |cells| - 1 {
            assert init[j] == cells[j];
          }
        }
      }
    }
  }

  /** Each laminate's list holds exactly the ids of the cells naming it. */
  ghost predicate MembershipConsistent(cells: seq<Cell>, assoc: map<string, seq<string>>)
  {
    forall n, x :: n in assoc ==>
      (x in assoc[n] <==> exists j :: 0 <= j < |cells| && cells[j].id == x && NamesLaminate(cells[j], n))
  }

  /** The lists ensure_associations builds are consistent with the cells. */
  lemma AssociationsConsistent(cells: seq<Cell>, names: set<string>)
    ensures MembershipConsistent(cells, map n | n in names :: AssociatedIds(cells, n))
  {
    forall n | n in names {
      AssociatedIdsMembers(cells, n);
    }
  }

  predicate UniqueIds(cells: seq<Cell>)
  {
    forall i, j :: 0 <= i < j < |cells| ==> cells[i].id != cells[j].id
  }

  /** Position of the first cell with the id (next(... for item in cells ...)). */
  function FindCell(cells: seq<Cell>, id: string): (r: Option<nat>)
    ensures r.Some? ==> r.value < |cells| && cells[r.value].id == id
    ensures r.Some? ==> forall k :: 0 <= k < r.value ==> cells[k].id != id
    ensures r.None? ==> forall k :: 0 <= k < |cells| ==> cells[k].id != id
  {
    if cells == [] then None
    else if cells[0].id == id then Some(0)
    else match FindCell(cells[1..], id)
      case None => None
      case Some(k) => Some(k + 1)
  }

  /**
   * The list of laminate `n` after reassign_cell moves cell `id` (which named
   * `previous`) to `target`: dropped from its previous laminate, appended to
   * the target when absent.
   */
  function ReassignedAssoc(assoc: seq<string>, n: string, previous: Option<string>, target: string, id: string): seq<string>
  {
    var afterRemove := if previous == Some(n) && n != "" then Filter(assoc, x => x != id) else assoc;
    if n == target && id !in afterRemove then afterRemove + [id] else afterRemove
  }

  /** Some cell with id x names laminate n. */
  ghost predicate Names(cells: seq<Cell>, x: string, n: string)
  {
    exists j :: 0 <= j < |cells| && cells[j].id == x && NamesLaminate(cells[j], n)
  }

  /** Renaming cell i does not change which laminates the other ids name. */
  lemma ReassignOtherId(cells: seq<Cell>, i: nat, target: string, x: string, n: string)
    requires i < |cells| && x != cells[i].id
    ensures Names(cells[i := cells[i].(laminateName := Some(target))], x, n) <==> Names(cells, x, n)
  {
    var cells' := cells[i := cells[i].(laminateName := Some(target))];
    if Names(cells', x, n) {
      var j :| 0 <= j < |cells'| && cells'[j].id == x && NamesLaminate(cells'[j], n);
      assert cells[j] == cells'[j];
    }
    if Names(cells, x, n) {
      var j :| 0 <= j < |cells| && cells[j].id == x && NamesLaminate(cells[j], n);
      assert cells[j] == cells'[j];
    }
  }

  /** With unique ids, the renamed cell's id names exactly the target. */
  lemma ReassignSameId(cells: seq<Cell>, i: nat, target: string, n: string)
    requires i < |cells| && UniqueIds(cells) && target != ""
    ensures Names(cells[i := cells[i].(laminateName := Some(target))], cells[i].id, n) <==> n == target
    ensures Names(cells, cells[i].id, n) <==> NamesLaminate(cells[i], n)
  {
    var cells' := cells[i := cells[i].(laminateName := Some(target))];
    assert NamesLaminate(cells'[i], target);
    if Names(cells', cells[i].id, n) {
      var j :| 0 <= j < |cells'| && cells'[j].id == cells[i].id && NamesLaminate(cells'[j], n);
      assert j == i;
    }
    if Names(cells, cells[i].id, n) {
      var j :| 0 <= j < |cells| && cells[j].id == cells[i].id && NamesLaminate(cells[j], n);
      assert j == i;
    }
  }

  /** Reassigning a cell keeps the lists consistent with the cells' laminate names. */
  lemma ReassignKeepsConsistency(cells: seq<Cell>, assoc: map<string, seq<string>>, i: nat, target: string)
    requires i < |cells| && UniqueIds(cells)
    requires target in assoc && target != ""
    requires MembershipConsistent(cells, assoc)
    ensures MembershipConsistent(
      cells[i := cells[i].(laminateName := Some(target))],
      map n | n in assoc :: ReassignedAssoc(assoc[n], n, cells[i].laminateName, target, cells[i].id))
  {
    var id := cells[i].id;
    var cells' := cells[i := cells[i].(laminateName := Some(target))];
    var assoc' := map n | n in assoc :: ReassignedAssoc(assoc[n], n, cells[i].laminateName, target, id);
    forall n, x | n in assoc'
      ensures x in assoc'[n] <==> exists j :: 0 <= j < |cells'| && cells'[j].id == x && NamesLaminate(cells'[j], n)
    {
      assert x in assoc[n] <==> Names(cells, x, n);
      if x != id {
        ReassignOtherId(cells, i, target, x, n);
      } else {
        ReassignSameId(cells, i, target, n);
      }
      assert Names(cells', x, n) <==> exists j :: 0 <= j < |cells'| && cells'[j].id == x && NamesLaminate(cells'[j], n);
    }
  }

  class GridDoc {
    var cells: seq<Cell>
    var laminates: map<string, Laminates.Laminate>

    /** Distinct names hold distinct laminate objects. */
    ghost predicate Valid()
      reads this
    {
      forall a, b :: a in laminates && b in laminates && a != b ==> laminates[a] != laminates[b]
    }

    constructor (cells: seq<Cell>, laminates: map<string, Laminates.Laminate>)
      ensures this.cells == cells && this.laminates == laminates
    {
      this.cells := cells;
      this.laminates := laminates;
    }

    /** get_laminate */
    function GetLaminate(name: string): (r: Option<Laminates.Laminate>)
      reads this
      ensures r.Some? <==> name in laminates
      ensures r.Some? ==> r.value == laminates[name]
    {
      if name in laminates then Some(laminates[name]) else None
    }

    /** ensure_associations: rebuild every laminate's cell list from the cells. */
    method EnsureAssociations()
      requires Valid()
      modifies laminates.Values`associatedCells
      ensures forall n :: n in laminates ==> laminates[n].associatedCells == AssociatedIds(cells, n)
    {
      var pending := laminates.Keys;
      while pending != {}
        invariant pending <= laminates.Keys
        invariant forall n :: n in laminates && n !in pending ==> laminates[n].associatedCells == []
        decreases |pending|
      {
        var n :| n in pending;
        laminates[n].associatedCells := [];
        pending := pending - {n};
      }
      var i := 0;
      while i < |cells|
        invariant 0 <= i <= |cells|
        invariant forall n :: n in laminates ==> laminates[n].associatedCells == AssociatedIds(cells[..i], n)
      {
        var cell := cells[i];
        assert cells[..i + 1][..i] == cells[..i];
        if cell.laminateName.Some? && cell.laminateName.value != "" && cell.laminateName.value in laminates {
          var laminate := laminates[cell.laminateName.value];
          if cell.id !in laminate.associatedCells {
            laminate.associatedCells := laminate.associatedCells + [cell.id];
          }
        }
        i := i + 1;
      }
      assert cells[..i] == cells;
    }

    /**
     * reassign_cell: the first cell with the id now names `name`; its id
     * leaves its previous laminate's list and joins the target's.
     */
    method ReassignCell(cellId: string, name: string) returns (ok: bool)
      requires Valid()
      modifies this`cells, laminates.Values`associatedCells
      ensures laminates == old(laminates)
      ensures ok <==> FindCell(old(cells), cellId).Some? && name in laminates
      ensures !ok ==> cells == old(cells)
      ensures !ok ==> forall n :: n in laminates ==> laminates[n].associatedCells == old(laminates[n].associatedCells)
      ensures ok ==> var i := FindCell(old(cells), cellId).value;
        cells == old(cells)[i := old(cells)[i].(laminateName := Some(name))] &&
        forall n :: n in laminates ==>
          laminates[n].associatedCells ==
            ReassignedAssoc(old(laminates[n].associatedCells), n, old(cells)[i].laminateName, name, cellId)
    {
      var found := FindCell(cells, cellId);
      if found.None? {
        return false;
      }
      if name !in laminates {
        return false;
      }
      var i := found.value;
      var cell := cells[i];
      var laminate := laminates[name];
      if cell.laminateName.Some? && cell.laminateName.value != "" && cell.laminateName.value in laminates {
        var current := laminates[cell.laminateName.value];
        if cell.id in current.associatedCells {
          current.associatedCells := Filter(current.associatedCells, x => x != cellId);
        } else {
          assert Filter(current.associatedCells, x => x != cellId) == current.associatedCells by {
            FilterNoOp(current.associatedCells, cellId);
          }
        }
      }
      cells := cells[i := cell.(laminateName := Some(name))];
      if cell.id !in laminate.associatedCells {
        laminate.associatedCells := laminate.associatedCells + [cell.id];
      }
      ok := true;
    }
  }

  lemma {:induction false} FilterNoOp(s: seq<string>, id: string)
    requires id !in s
    ensures Filter(s, x => x != id) == s
  {
    if s != [] {
      FilterNoOp(s[1..], id);
    }
  }
}

=== FILE: grid_export.dfy ===
// gridlamedit/services/excel_io.py: the checks export_grid_xlsx runs before
// it writes a grid workbook. The output path is forced to the .xlsx suffix,
// and the export is refused while an oriented layer has no material. The
// sheet picker used by the readers is here too.
//
// A path is given already split into its directory and its final
// component, as pathlib holds it.
module GridExport {
  import opened Wrappers
  import opened Text
  import opened GridModels

  // ------------------------------------------------------------ paths

  datatype FilePath = FilePath(dir: string, name: string)

  /** PurePath.suffix: from the last "." on, unless that dot starts or ends the name. */
  function Suffix(name: string): (r: string)
    ensures r != "" ==> r[0] == '.' && |r| >= 2 && |r| < |name|
  {
    match LastIndexOf(name, '.')
    case Some(i) => if 0 < i < |name| - 1 then name[i..] else ""
    case None => ""
  }

  /** The name without its suffix. */
  function Stem(name: string): (r: string)
    ensures name != "" ==> r != ""
    ensures r + Suffix(name) == name
  {
    match LastIndexOf(name, '.')
    case Some(i) => if 0 < i < |name| - 1 then name[..i] else name
    case None => name
  }

  /** Why an export stops before anything is written. */
  datatype ExportError =
    | MissingModel
    | EmptyName
    | LayersWithoutMaterial(message: string)
    | NoVirtualStackingColumns

  /**
   * `if path.suffix.lower() != ".xlsx": path = path.with_suffix(".xlsx")`;
   * with_suffix refuses a path whose name is empty.
   */
  function XlsxPath(p: FilePath): Result<FilePath, ExportError>
  {
    if Lower(Suffix(p.name)) == ".xlsx" then Success(p)
    else if p.name == "" then Failure(EmptyName)
    else Success(FilePath(p.dir, Stem(p.name) + ".xlsx"))
  }

  lemma XlsxLower()
    ensures Lower(".xlsx") == ".xlsx"
  {
  }

  /** The suffix of `stem + ".xlsx"` is ".xlsx" when the stem is not empty. */
  lemma SuffixOfXlsx(stem: string)
    requires stem != ""
    ensures Suffix(stem + ".xlsx") == ".xlsx"
  {
    var n := stem + ".xlsx";
    assert n[|stem|] == '.';
    assert forall k :: |stem| < k < |n| ==> n[k] != '.';
    assert LastIndexOf(n, '.') == Some(|stem|);
    assert n[|stem|..] == ".xlsx";
  }

  /**
   * The export path keeps its directory and always ends in ".xlsx" (in any
   * case); a path that already does is kept as it is, and only a path with
   * an empty name is refused.
   */
  lemma XlsxPathForcesSuffix(p: FilePath)
    ensures XlsxPath(p).Failure? <==> p.name == ""
    ensures XlsxPath(p).Success? ==>
      XlsxPath(p).value.dir == p.dir && Lower(Suffix(XlsxPath(p).value.name)) == ".xlsx"
    ensures XlsxPath(p) == Success(p) <==> Lower(Suffix(p.name)) == ".xlsx"
  {
    if Lower(Suffix(p.name)) != ".xlsx" && p.name != "" {
      SuffixOfXlsx(Stem(p.name));
      XlsxLower();
      assert XlsxPath(p).value.name != p.name;
    }
  }

  /** Forcing the suffix twice changes nothing more. */
  lemma XlsxPathIdempotent(p: FilePath)
    requires XlsxPath(p).Success?
    ensures XlsxPath(XlsxPath(p).value) == XlsxPath(p)
  {
    XlsxPathForcesSuffix(p);
  }

  // ------------------------------------------------------------ layers without material

  /** A layer ensure_layers_have_material objects to: it has an orientation but a blank material. */
  predicate LacksMaterial(c: Camada)
  {
    c.orientacao.Some? && Trim(c.material) == ""
  }

  /** f"{laminado.nome} - camada {idx}" */
  function OffenderLabel(nome: string, n: nat): string
  {
    nome + " - camada " + NatToString(n)
  }

  /** The offending layers of one laminate, numbered from 1, in layer order. */
  function OffendersIn(nome: string, cs: seq<Camada>): seq<string>
  {
    if cs == [] then []
    else OffendersIn(nome, cs[..|cs| - 1]) + (if LacksMaterial(cs[|cs| - 1]) then [OffenderLabel(nome, |cs|)] else [])
  }

  /** The offending layers of every laminate, laminate by laminate. */
  function AllOffenders(ls: seq<Laminado>): seq<string>
  {
    if ls == [] then []
    else AllOffenders(ls[..|ls| - 1]) + OffendersIn(ls[|ls| - 1].nome, ls[|ls| - 1].camadas)
  }

  /** Every label names a layer that lacks a material, by its 1-based number. */
  lemma {:induction false} OffendersInSound(nome: string, cs: seq<Camada>)
    ensures forall k :: k in OffendersIn(nome, cs) ==>
      exists j :: 0 <= j < |cs| && LacksMaterial(cs[j]) && k == OffenderLabel(nome, j + 1)
  {
    if cs != [] {
      var n := |cs| - 1;
      OffendersInSound(nome, cs[..n]);
      assert forall j :: 0 <= j < n ==> cs[..n][j] == cs[j];
      var tail := if LacksMaterial(cs[n]) then [OffenderLabel(nome, n + 1)] else [];
      assert OffendersIn(nome, cs) == OffendersIn(nome, cs[..n]) + tail;
      forall k | k in tail
        ensures exists j :: 0 <= j < |cs| && LacksMaterial(cs[j]) && k == OffenderLabel(nome, j + 1)
      {
        assert LacksMaterial(cs[n]) && k == OffenderLabel(nome, n + 1);
      }
    }
  }

  /** Every layer that lacks a material is named, by its 1-based number. */
  lemma {:induction false} OffendersInComplete(nome: string, cs: seq<Camada>)
    ensures forall j :: 0 <= j < |cs| && LacksMaterial(cs[j]) ==> OffenderLabel(nome, j + 1) in OffendersIn(nome, cs)
  {
    if cs != [] {
      var n := |cs| - 1;
      OffendersInComplete(nome, cs[..n]);
      assert forall j :: 0 <= j < n ==> cs[..n][j] == cs[j];
    }
  }

  /** No offender is listed exactly when every oriented layer of every laminate has a material. */
  lemma {:induction false} NoOffendersIff(ls: seq<Laminado>)
    ensures AllOffenders(ls) == [] <==>
      forall i, j :: 0 <= i < |ls| && 0 <= j < |ls[i].camadas| ==> !LacksMaterial(ls[i].camadas[j])
  {
    if ls != [] {
      var n := |ls| - 1;
      NoOffendersIff(ls[..n]);
      OffendersInSound(ls[n].nome, ls[n].camadas);
      OffendersInComplete(ls[n].nome, ls[n].camadas);
      assert forall i :: 0 <= i < n ==> ls[..n][i] == ls[i];
      if OffendersIn(ls[n].nome, ls[n].camadas) != [] {
        var k := OffendersIn(ls[n].nome, ls[n].camadas)[0];
        assert k in OffendersIn(ls[n].nome, ls[n].camadas);
      }
    }
  }

  /** ", ".join(missing[:5]), then " (+k camada(s))" for the k offenders not listed. */
  function Preview(missing: seq<string>): string
  {
    if |missing| <= 5 then JoinWith(", ", missing)
    else JoinWith(", ", missing[..5]) + " (+" + NatToString(|missing| - 5) + " camada(s))"
  }

  function MissingMessage(missing: seq<string>): string
  {
    "Existem camadas sem material aplicado: " + Preview(missing)
      + ". Atribua materiais antes de exportar; o CATIA nao aceita camadas sem material."
  }

  /** The offenders of one laminate, appended to those found so far. */
  method CollectOffenders(nome: string, cs: seq<Camada>, found: seq<string>) returns (missing: seq<string>)
    ensures missing == found + OffendersIn(nome, cs)
  {
    missing := found;
    for idx := 0 to |cs|
      invariant missing == found + OffendersIn(nome, cs[..idx])
    {
      assert cs[..idx + 1][..idx] == cs[..idx];
      var camada := cs[idx];
      if camada.orientacao.Some? && Trim(camada.material) == "" {
        missing := missing + [OffenderLabel(nome, idx + 1)];
      }
    }
    assert cs[..|cs|] == cs;
  }

  /**
   * ensure_layers_have_material: the message of the error it raises, or
   * None when every oriented layer has a material.
   */
  method EnsureLayersHaveMaterial(laminados: seq<Laminado>) returns (error: Option<string>)
    ensures error.None? <==> AllOffenders(laminados) == []
    ensures error.Some? ==> error.value == MissingMessage(AllOffenders(laminados))
  {
    var missing: seq<string> := [];
    for i := 0 to |laminados|
      invariant missing == AllOffenders(laminados[..i])
    {
      assert laminados[..i + 1][..i] == laminados[..i];
      missing := CollectOffenders(laminados[i].nome, laminados[i].camadas, missing);
    }
    assert laminados[..|laminados|] == laminados;
    if missing != [] {
      return Some(MissingMessage(missing));
    }
    return None;
  }

  /**
   * export_grid_xlsx up to the write: a missing model is refused, the
   * path is forced to .xlsx, and the layers are checked for materials; on
   * success, the path the workbook is written to.
   */
  method ExportGridXlsx(model: GridModel?, path: FilePath) returns (r: Result<FilePath, ExportError>)
    requires model != null ==> model.Valid()
    ensures model == null ==> r == Failure(MissingModel)
    ensures model != null && XlsxPath(path).Failure? ==> r == XlsxPath(path)
    ensures model != null && XlsxPath(path).Success? ==>
      r == if AllOffenders(model.laminados.Values()) == [] then XlsxPath(path)
           else Failure(LayersWithoutMaterial(MissingMessage(AllOffenders(model.laminados.Values()))))
  {
    if model == null {
      return Failure(MissingModel);
    }
    var output := XlsxPath(path);
    if output.Failure? {
      return output;
    }
    var error := EnsureLayersHaveMaterial(model.laminados.Values());
    if error.Some? {
      return Failure(LayersWithoutMaterial(error.value));
    }
    return output;
  }

  // ------------------------------------------------------------ sheet selection

  /** _select_sheet_name: the preferred sheet when the workbook has it, else its first sheet. */
  function SelectSheetName(available: seq<string>, preferred: string, context: string, fileName: string)
    : (r: Result<string, string>)
    ensures r.Failure? <==> available == []
    ensures r.Success? ==> r.value in available
    ensures r.Success? ==> (r.value == preferred <==> preferred in available)
    ensures r.Success? && preferred !in available ==> r.value == available[0]
  {
    if preferred in available then Success(preferred)
    else if available == [] then Failure("O " + context + " '" + fileName + "' nao possui abas para leitura.")
    else Success(available[0])
  }
}

=== FILE: grid_model.dfy ===
// gridlamedit/io/spreadsheet.py, data part: layers (Camada), laminates
// (Laminado), the root GridModel, and the normalisers for ply types and
// colours that every loader and editor goes through.
module GridModels {
  import opened Wrappers
  import opened Text
  import opened PyValues
  import opened OrderedMaps

  const Structural: string := "Considerar"
  const NonStructural: string := "N\U{E3}o Considerar"
  const DefaultPlyType: string := Structural
  const DefaultRosette: string := "Rosette.1"
  const DefaultColorIndex: int := 1
  const MinColorIndex: int := 1
  const MaxColorIndex: int := 150

  /**
   * A layer. `symmetryBackup` is the ply type saved while a foil material
   * forces the layer to be non-structural (the `_auto_symmetry_backup`
   * attribute the table model attaches to the object).
   */
  datatype Camada = Camada(
    idx: int,
    material: string,
    orientacao: Option<int>,
    ativo: bool,
    simetria: bool,
    plyType: string,
    plyLabel: string,
    sequence: string,
    rosette: string,
    symmetryBackup: Option<string>)

  /** Camada(idx, material, orientacao, ativo, simetria) with the dataclass defaults. */
  function NewCamada(idx: int, material: string, orientacao: Option<int>, ativo: bool, simetria: bool): Camada
  {
    Camada(idx, material, orientacao, ativo, simetria, DefaultPlyType, "", "", DefaultRosette, None)
  }

  /** Laminado.color_index holds either an index or a text (a hex colour or a numeric string). */
  datatype Color = ColorIndex(i: int) | ColorText(s: string)

  datatype Laminado = Laminado(
    nome: string,
    tipo: string,
    color: Color,
    tag: string,
    celulas: seq<string>,
    camadas: seq<Camada>,
    autoRenameEnabled: bool)

  /** The part of a GridModel that is saved and restored. */
  datatype GridState = GridState(
    laminados: OMap<string, Laminado>,
    celulasOrdenadas: seq<string>,
    cellToLaminate: OMap<string, string>,
    compatWarnings: seq<string>,
    sourceExcelPath: Option<string>,
    dirty: bool)

  class GridModel {
    var laminados: OMap<string, Laminado>
    var celulasOrdenadas: seq<string>
    var cellToLaminate: OMap<string, string>
    var compatWarnings: seq<string>
    var sourceExcelPath: Option<string>
    var dirty: bool
    /** The `cell_contours` attribute the grid loader attaches (cell id -> contour tokens). */
    var cellContours: OMap<string, seq<string>>

    ghost predicate Valid()
      reads this
    {
      laminados.Valid() && cellToLaminate.Valid() && cellContours.Valid()
    }

    constructor FromState(s: GridState)
      requires s.laminados.Valid() && s.cellToLaminate.Valid()
      ensures Valid() && State() == s && cellContours == Empty()
    {
      laminados := s.laminados;
      celulasOrdenadas := s.celulasOrdenadas;
      cellToLaminate := s.cellToLaminate;
      compatWarnings := s.compatWarnings;
      sourceExcelPath := s.sourceExcelPath;
      dirty := s.dirty;
      cellContours := Empty();
    }

    function State(): GridState
      reads this
    {
      GridState(laminados, celulasOrdenadas, cellToLaminate, compatWarnings, sourceExcelPath, dirty)
    }

    /** mark_dirty */
    method MarkDirty(value: bool)
      modifies this`dirty
      ensures dirty == value
    {
      dirty := value;
    }
  }

  // ---------------------------------------------------------------- orientation helpers

  /** layer_has_orientation */
  predicate HasOrientation(c: Camada)
  {
    c.orientacao.Some?
  }

  /** count_oriented_layers */
  function CountOriented(layers: seq<Camada>): (n: nat)
    ensures n <= |layers|
    ensures n == 0 <==> forall i :: 0 <= i < |layers| ==> !HasOrientation(layers[i])
  {
    if layers == [] then 0
    else CountOriented(layers[..|layers| - 1]) + (if HasOrientation(layers[|layers| - 1]) then 1 else 0)
  }

  // ---------------------------------------------------------------- ply type labels

  /** NFKD decomposition followed by dropping combining marks, for the Latin-1 letters. */
  function FoldAccent(c: char): char
  {
    if '\U{C0}' <= c <= '\U{C5}' then 'A'
    else if c == '\U{C7}' then 'C'
    else if '\U{C8}' <= c <= '\U{CB}' then 'E'
    else if '\U{CC}' <= c <= '\U{CF}' then 'I'
    else if c == '\U{D1}' then 'N'
    else if '\U{D2}' <= c <= '\U{D6}' then 'O'
    else if '\U{D9}' <= c <= '\U{DC}' then 'U'
    else if c == '\U{DD}' then 'Y'
    else if '\U{E0}' <= c <= '\U{E5}' then 'a'
    else if c == '\U{E7}' then 'c'
    else if '\U{E8}' <= c <= '\U{EB}' then 'e'
    else if '\U{EC}' <= c <= '\U{EF}' then 'i'
    else if c == '\U{F1}' then 'n'
    else if '\U{F2}' <= c <= '\U{F6}' then 'o'
    else if '\U{F9}' <= c <= '\U{FC}' then 'u'
    else if c == '\U{FD}' || c == '\U{FF}' then 'y'
    else c
  }

  /** The token characters of s[i..]: accents dropped, lower-cased, only [a-z0-9] kept. */
  function TokenFrom(s: string, i: nat): (r: string)
    requires i <= |s|
    ensures forall k :: 0 <= k < |r| ==> IsLowerAlnum(r[k])
    decreases |s| - i
  {
    if i == |s| then []
    else
      var c := LowerChar(FoldAccent(s[i]));
      (if IsLowerAlnum(c) then [c] else []) + TokenFrom(s, i + 1)
  }

  /** _normalize_ply_type_token */
  function PlyTypeToken(s: string): string
  {
    TokenFrom(Trim(s), 0)
  }

  /** _PLY_TYPE_CANONICAL_MAP */
  function CanonicalPlyType(token: string): Option<string>
  {
    if token in {"structuralply", "structural", "considerar"} then Some(Structural)
    else if token in {"nonstructuralply", "nonstructural", "naoconsiderar"} then Some(NonStructural)
    else None
  }

  /** normalize_ply_type_label: one of the two options; unknown or empty text gives the default. */
  function NormalizePlyTypeLabel(s: string): (r: string)
    ensures r == Structural || r == NonStructural
    ensures r == NonStructural <==> PlyTypeToken(s) in {"nonstructuralply", "nonstructural", "naoconsiderar"}
  {
    var token := PlyTypeToken(s);
    if token == [] then DefaultPlyType
    else match CanonicalPlyType(token)
      case None => DefaultPlyType
      case Some(canon) => canon
  }

  /** is_structural_ply_label */
  predicate IsStructuralPlyLabel(s: string)
  {
    NormalizePlyTypeLabel(s) == Structural
  }

  lemma TrimmedLiteral(s: string)
    requires IsTrimmed(s)
    ensures Trim(s) == s
  {
    TrimOfTrimmed(s);
  }

  lemma TokenSkip(t: string, i: nat, rest: string)
    requires i < |t| && !IsLowerAlnum(LowerChar(FoldAccent(t[i])))
    requires TokenFrom(t, i + 1) == rest
    ensures TokenFrom(t, i) == rest
  {
  }

  lemma TokenKeep(t: string, i: nat, c: char, rest: string)
    requires i < |t| && LowerChar(FoldAccent(t[i])) == c && IsLowerAlnum(c)
    requires TokenFrom(t, i + 1) == rest
    ensures TokenFrom(t, i) == [c] + rest
  {
  }

  /** A text already made of token characters is its own token. */
  lemma {:induction false} TokenOfTokenText(s: string, k: nat)
    requires k <= |s| && forall j :: k <= j < |s| ==> IsLowerAlnum(s[j])
    ensures TokenFrom(s, k) == s[k..]
    decreases |s| - k
  {
    if k < |s| {
      TokenOfTokenText(s, k + 1);
      TokenKeep(s, k, s[k], s[k + 1..]);
      assert [s[k]] + s[k + 1..] == s[k..];
    }
  }

  /** The token of a text ending in "Considerar", read from where that word starts. */
  lemma TokenOfConsiderar(s: string, k: nat)
    requires k + 10 == |s| && s[k..] == "Considerar"
    ensures TokenFrom(s, k) == "considerar"
  {
    assert s[k] == 'C';
    assert s[k + 1..] == "onsiderar";
    TokenOfTokenText(s, k + 1);
    TokenKeepC(s, k, "onsiderar");
  }

  lemma TokenKeepC(t: string, i: nat, rest: string)
    requires i < |t| && t[i] == 'C' && TokenFrom(t, i + 1) == rest
    ensures TokenFrom(t, i) == "c" + rest
  {
    TokenKeep(t, i, 'c', rest);
  }

  lemma FoldATilde()
    ensures LowerChar(FoldAccent('\U{E3}')) == 'a'
  {
  }

  lemma TokenSkipSpace(t: string, i: nat, rest: string)
    requires i < |t| && t[i] == ' ' && TokenFrom(t, i + 1) == rest
    ensures TokenFrom(t, i) == rest
  {
    TokenSkip(t, i, rest);
  }

  lemma TokenKeepO(t: string, i: nat, rest: string)
    requires i < |t| && t[i] == 'o' && TokenFrom(t, i + 1) == rest
    ensures TokenFrom(t, i) == "o" + rest
  {
    TokenKeep(t, i, 'o', rest);
  }

  lemma TokenKeepATilde(t: string, i: nat, rest: string)
    requires i < |t| && t[i] == '\U{E3}' && TokenFrom(t, i + 1) == rest
    ensures TokenFrom(t, i) == "a" + rest
  {
    FoldATilde();
    TokenKeep(t, i, 'a', rest);
  }

  lemma TokenKeepN(t: string, i: nat, rest: string)
    requires i < |t| && t[i] == 'N' && TokenFrom(t, i + 1) == rest
    ensures TokenFrom(t, i) == "n" + rest
  {
    TokenKeep(t, i, 'n', rest);
  }

  lemma TokenOfOSpace(t: string, rest: string)
    requires |t| >= 4 && t[2] == 'o' && t[3] == ' ' && TokenFrom(t, 4) == rest
    ensures TokenFrom(t, 2) == "o" + rest
  {
    TokenSkipSpace(t, 3, rest);
    TokenKeepO(t, 2, rest);
  }

  lemma TokenOfNa(t: string, rest: string)
    requires |t| >= 2 && t[0] == 'N' && t[1] == '\U{E3}' && TokenFrom(t, 2) == rest
    ensures TokenFrom(t, 0) == "n" + ("a" + rest)
  {
    TokenKeepATilde(t, 1, rest);
    TokenKeepN(t, 0, "a" + rest);
  }

  lemma TokenOfNaoConsiderar(t: string)
    requires |t| == 14 && t[4..] == "Considerar"
    requires t[0] == 'N' && t[1] == '\U{E3}' && t[2] == 'o' && t[3] == ' '
    ensures TokenFrom(t, 0) == "naoconsiderar"
  {
    TokenOfConsiderar(t, 4);
    TokenOfNaoPrefix(t, "considerar");
  }

  lemma TokenOfNaoPrefix(t: string, rest: string)
    requires |t| >= 4 && t[0] == 'N' && t[1] == '\U{E3}' && t[2] == 'o' && t[3] == ' '
    requires TokenFrom(t, 4) == rest
    ensures TokenFrom(t, 0) == "nao" + rest
  {
    TokenOfOSpace(t, rest);
    TokenOfNa(t, "o" + rest);
    NaoConcat(rest);
  }

  lemma NaoConcat(rest: string)
    ensures "n" + ("a" + ("o" + rest)) == "nao" + rest
  {
    assert "n" + ("a" + ("o" + rest)) == "nao" + rest;
  }

  lemma TokenOfStructural()
    ensures PlyTypeToken(Structural) == "considerar"
  {
    StructuralTrimmed();
    StructuralTokenText();
  }

  lemma StructuralTrimmed()
    ensures Trim(Structural) == Structural
  {
    TrimmedLiteral(Structural);
  }

  lemma StructuralTokenText()
    ensures TokenFrom(Structural, 0) == "considerar"
  {
    TokenOfConsiderar(Structural, 0);
  }

  lemma TokenOfNonStructural()
    ensures PlyTypeToken(NonStructural) == "naoconsiderar"
  {
    NonStructuralTrimmed();
    NonStructuralTokenText();
  }

  lemma NonStructuralTrimmed()
    ensures Trim(NonStructural) == NonStructural
  {
    TrimmedLiteral(NonStructural);
  }

  lemma NonStructuralTokenText()
    ensures TokenFrom(NonStructural, 0) == "naoconsiderar"
  {
    TokenOfNaoConsiderar(NonStructural);
  }

  lemma StructuralIsCanonical()
    ensures NormalizePlyTypeLabel(Structural) == Structural
  {
    TokenOfStructural();
  }

  lemma NonStructuralIsCanonical()
    ensures NormalizePlyTypeLabel(NonStructural) == NonStructural
  {
    TokenOfNonStructural();
  }

  /** The two canonical labels normalise to themselves, so normalising twice changes nothing. */
  lemma NormalizePlyTypeIdempotent(s: string)
    ensures NormalizePlyTypeLabel(NormalizePlyTypeLabel(s)) == NormalizePlyTypeLabel(s)
  {
    StructuralIsCanonical();
    NonStructuralIsCanonical();
  }

  // ---------------------------------------------------------------- colours

  predicate IsHexDigit(c: char)
  {
    IsDigit(c) || ('a' <= c <= 'f') || ('A' <= c <= 'F')
  }

  predicate AllHex(s: string)
  {
    forall i :: 0 <= i < |s| ==> IsHexDigit(s[i])
  }

  /** fullmatch of #?[0-9a-fA-F]{6} */
  predicate IsHexColorText(t: string)
  {
    (|t| == 6 && AllHex(t)) || (|t| == 7 && t[0] == '#' && AllHex(t[1..]))
  }

  predicate InColorRange(n: int)
  {
    MinColorIndex <= n <= MaxColorIndex
  }

  /**
   * normalize_color_index: an integral value in 1..150 is kept; anything
   * else (blank, bool, NaN, non-integral, hex text, unparsable text, out of
   * range) gives the default.
   */
  function NormalizeColorIndex(v: Value, default: int): (r: int)
    ensures r == default || InColorRange(r)
    ensures v.VBool? ==> r == default
  {
    if IsBlankValue(v) then default
    else match v
      case VBool(_) => default
      case VInt(i) => if InColorRange(i) then i else default
      case VFloat(f) =>
        if f.NaN? || !IsWhole(f.r) then default
        else if InColorRange(f.r.Floor) then f.r.Floor else default
      case VNone => default
      case VText(s) => NormalizeColorText(Trim(s), default)
  }

  /** The text branch of normalize_color_index, on the stripped text. */
  function NormalizeColorText(text: string, default: int): (r: int)
    ensures r == default || InColorRange(r)
  {
    if text == [] || IsHexColorText(text) then default
    else match ParseDecimal(text)
      case None => default
      case Some(x) =>
        if !IsWhole(x) then default
        else if InColorRange(x.Floor) then x.Floor else default
  }

  /** An index in range survives normalisation as a number and as its decimal text. */
  lemma ColorIndexRoundTrip(i: int, default: int)
    requires InColorRange(i)
    ensures NormalizeColorIndex(VInt(i), default) == i
    ensures NormalizeColorIndex(VText(NatToString(i)), default) == i
  {
    var t := NatToString(i);
    ColorTextOfNumeral(i, default);
    NumeralTrimmed(i);
    ColorOfText(t, t, default);
  }

  lemma ColorTextOfNumeral(i: int, default: int)
    requires InColorRange(i)
    ensures NormalizeColorText(NatToString(i), default) == i
  {
    ParseDecimalOfNat(i);
    ShortNumeral(i);
    assert !IsHexColorText(NatToString(i));
  }

  lemma NumeralTrimmed(n: nat)
    ensures Trim(NatToString(n)) == NatToString(n)
  {
    var t := NatToString(n);
    assert IsDigit(t[0]) && IsDigit(t[|t| - 1]);
    TrimOfTrimmed(t);
  }

  lemma ColorOfText(s: string, t: string, default: int)
    requires Trim(s) == t
    ensures NormalizeColorIndex(VText(s), default) == NormalizeColorText(t, default)
  {
  }

  lemma ShortNumeral(n: nat)
    requires n < 1000
    ensures |NatToString(n)| <= 3
  {
    if n >= 10 {
      ShortNumeral(n / 10);
      if n < 100 {
        assert |NatToString(n / 10)| == 1;
      }
    }
  }

  function PyStrForHex(v: Value): string
  {
    match v
    case VInt(i) => IntToString(i)
    case VText(s) => s
    case _ => "."
  }

  /** The six hex digits left after stripping and removing '#', as "#RRGGBB" in upper case. */
  function HexOfCandidate(candidate: string): (r: Option<string>)
    ensures r.Some? ==> |r.value| == 7 && r.value[0] == '#' && AllHex(r.value[1..])
    ensures r.Some? <==> |candidate| == 6 && AllHex(candidate)
  {
    if |candidate| == 6 && AllHex(candidate) then
      UpperKeepsHex(candidate);
      Some("#" + Upper(candidate))
    else None
  }

  function HexOfText(s: string): (r: Option<string>)
    ensures r.Some? ==> |r.value| == 7 && r.value[0] == '#' && AllHex(r.value[1..])
  {
    var text := Trim(s);
    if text == [] then None else HexOfCandidate(Trim(RemoveChar(text, '#')))
  }

  /**
   * normalize_hex_color: "#RRGGBB" in upper case when the text (with every
   * '#' removed) is six hex digits; None otherwise.
   */
  function NormalizeHexColor(v: Value): (r: Option<string>)
    ensures r.Some? ==> |r.value| == 7 && r.value[0] == '#' && AllHex(r.value[1..])
    ensures v.VNone? || v.VBool? || v.VFloat? ==> r.None?
  {
    match v
    case VNone => None
    case VBool(_) => None
    case VFloat(_) => None
    case _ => HexOfText(PyStrForHex(v))
  }

  lemma HexTextTrimmed(h: string)
    requires |h| >= 2 && h[0] == '#' && IsHexDigit(h[|h| - 1])
    ensures Trim(h) == h
  {
    TrimOfTrimmed(h);
  }

  lemma HexBodyTrimmed(body: string)
    requires |body| == 6 && AllHex(body)
    ensures Trim(body) == body
  {
    assert IsHexDigit(body[0]) && IsHexDigit(body[5]);
    TrimOfTrimmed(body);
  }

  lemma HashRemoved(body: string)
    requires AllHex(body)
    ensures RemoveChar("#" + body, '#') == body
  {
    assert ("#" + body)[1..] == body;
    NoHashKept(body);
  }

  /** "#" followed by six hex digits normalises to its upper-case form. */
  lemma HexOfHashed(body: string)
    requires |body| == 6 && AllHex(body)
    ensures HexOfText("#" + body) == Some("#" + Upper(body))
  {
    var h := "#" + body;
    HexTextTrimmed(h);
    HashRemoved(body);
    HexBodyTrimmed(body);
  }

  lemma UpperOfHexCandidate(candidate: string)
    requires |candidate| == 6 && AllHex(candidate)
    ensures HexOfText("#" + Upper(candidate)) == Some("#" + Upper(candidate))
  {
    UpperKeepsHex(candidate);
    HexOfHashed(Upper(candidate));
    UpperIdempotent(candidate);
  }

  lemma NormalizeHexOfText(t: string)
    ensures NormalizeHexColor(VText(t)) == HexOfText(t)
  {
  }

  /** A normalised colour normalises to itself. */
  lemma NormalizeHexIdempotent(v: Value)
    requires NormalizeHexColor(v).Some?
    ensures NormalizeHexColor(VText(NormalizeHexColor(v).value)) == NormalizeHexColor(v)
  {
    var candidate := Trim(RemoveChar(Trim(PyStrForHex(v)), '#'));
    assert NormalizeHexColor(v) == HexOfCandidate(candidate);
    var h := "#" + Upper(candidate);
    assert NormalizeHexColor(v) == Some(h);
    UpperOfHexCandidate(candidate);
    NormalizeHexOfText(h);
  }

  lemma UpperKeepsHex(s: string)
    requires AllHex(s)
    ensures AllHex(Upper(s)) && |Upper(s)| == |s|
  {
    forall i | 0 <= i < |s| ensures IsHexDigit(Upper(s)[i]) {
      assert Upper(s)[i] == UpperChar(s[i]);
    }
  }

  lemma {:induction false} NoHashKept(s: string)
    requires AllHex(s)
    ensures RemoveChar(s, '#') == s
  {
    if s != [] {
      NoHashKept(s[1..]);
    }
  }
}

=== FILE: grid_workbook.dfy ===
// gridlamedit/app/services/excel_io.py: the Grid Design workbook. A "Cells"
// sheet maps cell ids to laminate names, and every laminate gets a sheet of
// its own holding one metadata row, a blank row and then one row per layer.
//
// A sheet as pandas reads it back is a `Frame`: the header names, in column
// order, and one row per line, each row a map from header to cell value.
module GridWorkbook {
  import opened Wrappers
  import opened Text
  import Seqs
  import PyValues
  import opened Laminates
  import GridDocs
  import OrderedMaps

  // ------------------------------------------------------------ sheet names

  /** One character of the class `[:\\/?*\[\]]` that Excel refuses in a sheet name. */
  predicate IsForbiddenSheetChar(c: char)
  {
    c == ':' || c == '\\' || c == '/' || c == '?' || c == '*' || c == '[' || c == ']'
  }

  function SheetChar(c: char): char
  {
    if IsForbiddenSheetChar(c) then '_' else c
  }

  /** safe_base: every forbidden character replaced by "_", then cut to 31 characters. */
  function SafeBase(base: string): (r: string)
    ensures |r| <= 31 && (|base| <= 31 ==> |r| == |base|)
    ensures forall i :: 0 <= i < |r| ==> r[i] == SheetChar(base[i]) && !IsForbiddenSheetChar(r[i])
  {
    var m := MapChars(SheetChar, base);
    if |m| <= 31 then m else m[..31]
  }

  /** f"{safe_base[:28]}_{counter}" */
  function Numbered(safe: string, counter: nat): string
  {
    (if |safe| <= 28 then safe else safe[..28]) + "_" + NatToString(counter)
  }

  /** Different counters give different names. */
  lemma NumberedInjective(safe: string, a: nat, b: nat)
    requires Numbered(safe, a) == Numbered(safe, b)
    ensures a == b
  {
    var p := (if |safe| <= 28 then safe else safe[..28]) + "_";
    assert Numbered(safe, a) == p + NatToString(a) && Numbered(safe, b) == p + NatToString(b);
    assert Numbered(safe, a)[|p|..] == NatToString(a);
    assert Numbered(safe, b)[|p|..] == NatToString(b);
    NatToStringInjective(a, b);
  }

  /** Up to counter 99 a numbered name still fits Excel's 31 characters and holds no forbidden character. */
  lemma NumberedFitsExcel(base: string, counter: nat)
    requires counter < 100
    ensures |Numbered(SafeBase(base), counter)| <= 31
    ensures forall i :: 0 <= i < |Numbered(SafeBase(base), counter)| ==>
      !IsForbiddenSheetChar(Numbered(SafeBase(base), counter)[i])
  {
    var safe := SafeBase(base);
    var p := if |safe| <= 28 then safe else safe[..28];
    var d := NatToString(counter);
    if counter >= 10 {
      assert NatToString(counter / 10) == [DigitChar(counter / 10)];
    }
    assert |d| <= 2;
    var n := Numbered(safe, counter);
    assert n == p + "_" + d;
    forall i | 0 <= i < |n| ensures !IsForbiddenSheetChar(n[i]) {
      if i < |p| {
        assert n[i] == safe[i];
      } else if i > |p| {
        assert n[i] == d[i - |p| - 1];
        assert IsDigit(d[i - |p| - 1]);
      }
    }
  }

  /** Every counter below `counter` gives a name already in use. */
  predicate TakenBelow(safe: string, used: set<string>, counter: nat)
  {
    forall j :: 1 <= j < counter ==> Numbered(safe, j) in used
  }

  /**
   * _make_unique_sheet_name: the sanitised base when it is free, otherwise
   * the numbered name with the smallest counter from 1 that is free.
   */
  method MakeUniqueSheetName(base: string, used: set<string>) returns (name: string)
    ensures name !in used
    ensures SafeBase(base) !in used ==> name == SafeBase(base)
    ensures SafeBase(base) in used ==>
      exists k :: 1 <= k && name == Numbered(SafeBase(base), k) && TakenBelow(SafeBase(base), used, k)
  {
    var safe := SafeBase(base);
    if safe !in used {
      return safe;
    }
    var counter := 1;
    ghost var tried: set<string> := {};
    while true
      invariant 1 <= counter
      invariant tried <= used
      invariant forall j :: 1 <= j < counter ==> Numbered(safe, j) in tried
      invariant forall x :: x in tried ==> exists j :: 1 <= j < counter && x == Numbered(safe, j)
      decreases |used - tried|
    {
      var candidate := Numbered(safe, counter);
      if candidate !in used {
        return candidate;
      }
      assert candidate !in tried by {
        if candidate in tried {
          var j :| 1 <= j < counter && candidate == Numbered(safe, j);
          NumberedInjective(safe, j, counter);
        }
      }
      assert used - (tried + {candidate}) == (used - tried) - {candidate};
      forall j | 1 <= j < counter + 1 ensures Numbered(safe, j) in tried + {candidate} {
        if j < counter {
          assert Numbered(safe, j) in tried;
        }
      }
      tried := tried + {candidate};
      counter := counter + 1;
    }
  }

  // ------------------------------------------------------------ cells

  /** A cell as pandas hands it back: an empty cell (NaN), text, or a whole number. */
  datatype CellValue = Blank | Str(s: string) | Num(n: int)

  /** One row: the value under each header. */
  type Row = map<string, CellValue>

  datatype Frame = Frame(columns: seq<string>, rows: seq<Row>)

  /** row.get(column): None when the row has no such column. */
  function Get(row: Row, column: string): (r: Option<CellValue>)
    ensures r.Some? <==> column in row
  {
    if column in row then Some(row[column]) else None
  }

  /** pd.isna(value) */
  predicate IsNa(v: Option<CellValue>)
  {
    v.None? || v == Some(Blank)
  }

  /** row.isna().all() */
  predicate AllBlank(row: Row)
  {
    forall k :: k in row ==> row[k] == Blank
  }

  /** str(value) */
  function PyStr(v: Option<CellValue>): string
  {
    match v
    case None => "None"
    case Some(Blank) => "nan"
    case Some(Str(s)) => s
    case Some(Num(n)) => IntToString(n)
  }

  /** Whether Python counts the value as false: None, "" and 0 (NaN counts as true). */
  predicate IsFalsy(v: Option<CellValue>)
  {
    v.None? || v == Some(Str("")) || v == Some(Num(0))
  }

  /** str(value or "") as written: an empty cell, being NaN, reads as "nan". */
  function OrTextAsWritten(v: Option<CellValue>): (r: string)
    ensures v == Some(Blank) ==> r == "nan"
  {
    if IsFalsy(v) then "" else PyStr(v)
  }

  /** str(value or "") with an empty cell read as "", as the skip of material-less rows intends. */
  function OrText(v: Option<CellValue>): (r: string)
    ensures IsNa(v) ==> r == ""
    ensures !IsNa(v) ==> r == OrTextAsWritten(v)
  {
    if IsNa(v) then "" else OrTextAsWritten(v)
  }

  /** The texts pandas reads back as NaN (its default `na_values`), the empty text among them. */
  predicate ReadsAsMissing(s: string)
  {
    s in {"", "#N/A", "#N/A N/A", "#NA", "-1.#IND", "-1.#QNAN", "-NaN", "-nan", "1.#IND", "1.#QNAN",
          "<NA>", "N/A", "NA", "NULL", "NaN", "None", "n/a", "nan", "null"}
  }

  /** What reading a written text cell back gives. */
  function ReadBack(s: string): (r: CellValue)
    ensures r == Blank <==> ReadsAsMissing(s)
    ensures r != Blank ==> r == Str(s)
  {
    if ReadsAsMissing(s) then Blank else Str(s)
  }

  // ------------------------------------------------------------ columns

  /** The first pass of _find_first_column: the first candidate that is a column name. */
  function ExactColumn(columns: seq<string>, candidates: seq<string>): (r: Option<string>)
    ensures r.Some? ==> r.value in candidates && r.value in columns
    ensures r.None? <==> forall c :: c in candidates ==> c !in columns
  {
    if candidates == [] then None
    else if candidates[0] in columns then Some(candidates[0])
    else ExactColumn(columns, candidates[1..])
  }

  /** The exact pass picks the earliest candidate that is a column. */
  lemma {:induction false} ExactColumnIsFirst(columns: seq<string>, candidates: seq<string>, i: nat)
    requires i < |candidates| && candidates[i] in columns
    requires forall j :: 0 <= j < i ==> candidates[j] !in columns
    ensures ExactColumn(columns, candidates) == Some(candidates[i])
  {
    if i > 0 {
      ExactColumnIsFirst(columns, candidates[1..], i - 1);
    }
  }

  /**
   * {col.lower(): col for col in columns}[key]: the position of the LAST
   * column whose lower-case form is `key`, since a later column overwrites
   * an earlier one in the dict.
   */
  function LastLowered(columns: seq<string>, key: string): (r: Option<nat>)
    ensures r.Some? ==> r.value < |columns| && Lower(columns[r.value]) == key
    ensures r.Some? ==> forall k :: r.value < k < |columns| ==> Lower(columns[k]) != key
    ensures r.None? <==> forall c :: c in columns ==> Lower(c) != key
  {
    if columns == [] then None
    else if Lower(columns[|columns| - 1]) == key then Some(|columns| - 1)
    else
      var r := LastLowered(columns[..|columns| - 1], key);
      assert columns == columns[..|columns| - 1] + [columns[|columns| - 1]];
      r
  }

  /** The second pass: the first candidate whose lower-case form names a column. */
  function LoweredColumn(columns: seq<string>, candidates: seq<string>): (r: Option<string>)
    ensures r.Some? ==> r.value in columns && exists c :: c in candidates && Lower(c) == Lower(r.value)
    ensures r.None? <==> forall c, d :: c in candidates && d in columns ==> Lower(c) != Lower(d)
  {
    if candidates == [] then None
    else
      match LastLowered(columns, Lower(candidates[0]))
      case Some(i) =>
        LowerIdempotent(columns[i]);
        Some(columns[i])
      case None => LoweredColumn(columns, candidates[1..])
  }

  /** _find_first_column: an exact match in candidate order first, then a case-insensitive one, else None. */
  function FindFirstColumn(columns: seq<string>, candidates: seq<string>): (r: Option<string>)
    ensures r.Some? ==> r.value in columns
  {
    match ExactColumn(columns, candidates)
    case Some(c) => Some(c)
    case None => LoweredColumn(columns, candidates)
  }

  /** A column is found exactly when some candidate equals some column up to case. */
  lemma FindFirstColumnNone(columns: seq<string>, candidates: seq<string>)
    ensures FindFirstColumn(columns, candidates).None? <==>
      forall c, d :: c in candidates && d in columns ==> Lower(c) != Lower(d)
  {
    var e := ExactColumn(columns, candidates);
    if e.Some? {
      assert e.value in candidates && e.value in columns && Lower(e.value) == Lower(e.value);
    }
  }

  /** A found column matches some candidate, exactly when any candidate matches exactly. */
  lemma FindFirstColumnMatches(columns: seq<string>, candidates: seq<string>)
    requires FindFirstColumn(columns, candidates).Some?
    ensures var r := FindFirstColumn(columns, candidates).value;
      (exists c :: c in candidates && c in columns) ==> r in candidates
    ensures var r := FindFirstColumn(columns, candidates).value;
      exists c :: c in candidates && Lower(c) == Lower(r)
  {
    var r := FindFirstColumn(columns, candidates).value;
    if ExactColumn(columns, candidates).Some? {
      assert Lower(r) == Lower(r);
    }
  }

  // ------------------------------------------------------------ stacking rows

  /** The columns the layer loop reads, as _find_first_column finds them. */
  datatype StackColumns = StackColumns(index: Option<string>, angle: Option<string>, active: Option<string>, symmetry: Option<string>)

  function StackColumnsOf(columns: seq<string>): StackColumns
  {
    StackColumns(FindFirstColumn(columns, ["Index", "#"]), FindFirstColumn(columns, ["Angle", "Angle Deg"]),
                 FindFirstColumn(columns, ["Active"]), FindFirstColumn(columns, ["Symmetry"]))
  }

  /** str(value).strip().lower() in {"yes", "y", "true", "1"} */
  predicate IsYes(v: Option<CellValue>)
  {
    Lower(Trim(PyStr(v))) in {"yes", "y", "true", "1"}
  }

  /** _normalize_angle on whole-number cells: a missing or empty cell reads as 0. */
  function AngleOf(v: Option<CellValue>): int
  {
    match v
    case Some(Num(n)) => n
    case _ => 0
  }

  /** int(row[index_column]) when the cell holds a readable integer, else the count of layers so far. */
  function IndexFrom(v: Option<CellValue>, count: nat): int
  {
    match v
    case Some(Num(n)) => n
    case Some(Str(s)) => ParseSigned(Trim(s)).GetOr(count)
    case _ => count
  }

  /** str(row.get("Material") or "").strip() */
  function MaterialOf(row: Row): string
  {
    Trim(OrText(Get(row, "Material")))
  }

  /** The loop keeps a row that is not entirely empty and names a material. */
  predicate Keeps(row: Row)
  {
    !AllBlank(row) && MaterialOf(row) != ""
  }

  predicate FlagsSymmetry(row: Row, cols: StackColumns)
  {
    cols.symmetry.Some? && IsYes(Get(row, cols.symmetry.value))
  }

  /** What the layer loop takes from one row; a missing Active column means active. */
  datatype RowView = RowView(kept: bool, material: string, angle: int, active: bool, flagged: bool)

  function ViewOf(row: Row, cols: StackColumns): RowView
  {
    RowView(Keeps(row), MaterialOf(row),
            if cols.angle.Some? then AngleOf(Get(row, cols.angle.value)) else 0,
            if cols.active.Some? then IsYes(Get(row, cols.active.value)) else true,
            FlagsSymmetry(row, cols))
  }

  function Views(rows: seq<Row>, cols: StackColumns): (vs: seq<RowView>)
    ensures |vs| == |rows| && forall i :: 0 <= i < |rows| ==> vs[i] == ViewOf(rows[i], cols)
  {
    seq(|rows|, i requires 0 <= i < |rows| => ViewOf(rows[i], cols))
  }

  /** A kept row's material is stripped and non-empty. */
  lemma KeptMaterial(row: Row, cols: StackColumns)
    requires ViewOf(row, cols).kept
    ensures ViewOf(row, cols).material != "" && IsTrimmed(ViewOf(row, cols).material)
  {
    TrimIdempotent(OrText(Get(row, "Material")));
  }

  datatype Parsed = Parsed(layers: seq<Layer>, symmetry: Option<int>)

  function LayerAt(v: RowView, position: nat): Layer
  {
    Layer(position, v.material, v.angle, v.active)
  }

  /** One turn of the layer loop: a kept row is appended, and a flagged one becomes the symmetry row. */
  function ParseStep(p: Parsed, v: RowView): Parsed
  {
    if !v.kept then p
    else Parsed(p.layers + [LayerAt(v, |p.layers|)], if v.flagged then Some(|p.layers|) else p.symmetry)
  }

  /** The layers (already reindexed) and the symmetry index the layer loop builds. */
  function ParseViews(vs: seq<RowView>): Parsed
  {
    if vs == [] then Parsed([], None) else ParseStep(ParseViews(vs[..|vs| - 1]), vs[|vs| - 1])
  }

  function ParseRows(rows: seq<Row>, cols: StackColumns): Parsed
  {
    ParseViews(Views(rows, cols))
  }

  lemma ParseViewsSnoc(vs: seq<RowView>, i: nat)
    requires i < |vs|
    ensures ParseViews(vs[..i + 1]) == ParseStep(ParseViews(vs[..i]), vs[i])
  {
    assert vs[..i + 1][..i] == vs[..i];
  }

  lemma ParseRowsSnoc(rows: seq<Row>, cols: StackColumns, i: nat)
    requires i < |rows|
    ensures ParseRows(rows[..i + 1], cols) == ParseStep(ParseRows(rows[..i], cols), ViewOf(rows[i], cols))
  {
    var vs := Views(rows[..i + 1], cols);
    assert vs[..i] == Views(rows[..i], cols);
    ParseViewsSnoc(vs, i);
    assert vs[..i + 1] == vs;
  }

  /** Appending a kept row's layer, whatever its index, keeps the loop's layers equal up to index. */
  lemma StepAppends(p: Parsed, layers: seq<Layer>, v: RowView, x: Layer)
    requires SameUpToIndex(layers, p.layers) && v.kept
    requires x.(index := |layers|) == LayerAt(v, |layers|)
    ensures SameUpToIndex(layers + [x], ParseStep(p, v).layers)
    ensures ParseStep(p, v).symmetry == if v.flagged then Some(|layers|) else p.symmetry
  {
    assert x.(index := 0) == LayerAt(v, |layers|).(index := 0);
  }

  /** One turn of the layer loop keeps its layers equal up to index, and its symmetry index equal, to ParseStep's. */
  lemma LoopStep(p: Parsed, layers: seq<Layer>, symmetry: Option<int>, v: RowView, layer: Option<Layer>, flagged: bool)
    requires SameUpToIndex(layers, p.layers) && symmetry == p.symmetry
    requires layer.Some? == v.kept
    requires layer.Some? ==> layer.value.(index := |layers|) == LayerAt(v, |layers|) && flagged == v.flagged
    ensures SameUpToIndex(if layer.Some? then layers + [layer.value] else layers, ParseStep(p, v).layers)
    ensures ParseStep(p, v).symmetry == if layer.Some? && flagged then Some(|layers|) else symmetry
  {
    if layer.Some? {
      StepAppends(p, layers, v, layer.value);
    }
  }

  /** The rows the loop keeps, in order. */
  function KeptViews(vs: seq<RowView>): (r: seq<RowView>)
    ensures |r| <= |vs|
    ensures forall v :: v in r ==> v in vs && v.kept
  {
    if vs == [] then []
    else KeptViews(vs[..|vs| - 1]) + (if vs[|vs| - 1].kept then [vs[|vs| - 1]] else [])
  }

  /** The layers are exactly the kept rows, in order, each indexed by its position. */
  lemma {:induction false} ParsedLayers(vs: seq<RowView>)
    ensures |ParseViews(vs).layers| == |KeptViews(vs)|
    ensures forall i :: 0 <= i < |KeptViews(vs)| ==> ParseViews(vs).layers[i] == LayerAt(KeptViews(vs)[i], i)
  {
    if vs != [] {
      ParsedLayers(vs[..|vs| - 1]);
    }
  }

  /** The position of the last flagged row, or None when none is flagged. */
  function LastFlagged(ks: seq<RowView>): Option<int>
  {
    if ks == [] then None
    else if ks[|ks| - 1].flagged then Some(|ks| - 1)
    else LastFlagged(ks[..|ks| - 1])
  }

  lemma {:induction false} LastFlaggedSpec(ks: seq<RowView>)
    ensures LastFlagged(ks).None? <==> forall j :: 0 <= j < |ks| ==> !ks[j].flagged
    ensures var s := LastFlagged(ks);
      s.Some? ==> (0 <= s.value < |ks| && ks[s.value].flagged &&
        forall j :: s.value < j < |ks| ==> !ks[j].flagged)
  {
    if ks != [] {
      var init := ks[..|ks| - 1];
      LastFlaggedSpec(init);
      assert forall j :: 0 <= j < |init| ==> ks[j] == init[j];
      if ks[|ks| - 1].flagged {
        assert !(forall j :: 0 <= j < |ks| ==> !ks[j].flagged);
      }
    }
  }

  lemma {:induction false} SymmetryIsLastFlagged(vs: seq<RowView>)
    ensures ParseViews(vs).symmetry == LastFlagged(KeptViews(vs))
  {
    if vs != [] {
      var init := vs[..|vs| - 1];
      var v := vs[|vs| - 1];
      SymmetryIsLastFlagged(init);
      ParsedLayers(init);
      var k0 := KeptViews(init);
      var p0 := ParseViews(init);
      assert vs[..|vs| - 1] == init;
      assert ParseViews(vs) == ParseStep(p0, v);
      if v.kept {
        var ks := k0 + [v];
        assert KeptViews(vs) == ks;
        assert ks[..|ks| - 1] == k0 && ks[|ks| - 1] == v;
        if v.flagged {
          assert LastFlagged(ks) == Some(|k0|);
          assert ParseStep(p0, v).symmetry == Some(|p0.layers|);
        } else {
          assert LastFlagged(ks) == LastFlagged(k0);
          assert ParseStep(p0, v).symmetry == p0.symmetry;
        }
      } else {
        assert KeptViews(vs) == k0;
        assert ParseStep(p0, v) == p0;
      }
    }
  }

  /**
   * The symmetry index is the position, among the kept rows, of the last
   * one flagged yes, or None when no kept row is flagged.
   */
  lemma ParsedSymmetry(vs: seq<RowView>)
    ensures var s := ParseViews(vs).symmetry; var kept := KeptViews(vs);
      s.None? <==> forall j :: 0 <= j < |kept| ==> !kept[j].flagged
    ensures var s := ParseViews(vs).symmetry; var kept := KeptViews(vs);
      s.Some? ==> (0 <= s.value < |kept| && kept[s.value].flagged &&
        forall j :: s.value < j < |kept| ==> !kept[j].flagged)
  {
    SymmetryIsLastFlagged(vs);
    LastFlaggedSpec(KeptViews(vs));
  }

  /** A row view whose material, when kept, is stripped and non-empty. */
  predicate GoodView(v: RowView)
  {
    v.kept ==> v.material != "" && IsTrimmed(v.material)
  }

  lemma {:induction false} ParsedMaterials(vs: seq<RowView>)
    requires forall i :: 0 <= i < |vs| ==> GoodView(vs[i])
    ensures forall l :: l in ParseViews(vs).layers ==> l.material != "" && IsTrimmed(l.material)
  {
    if vs != [] {
      ParsedMaterials(vs[..|vs| - 1]);
    }
  }

  /** Every parsed layer's index is its position, and its material is stripped and non-empty. */
  lemma ParsedLayersWellFormed(rows: seq<Row>, cols: StackColumns)
    ensures IndexesFollowPositions(ParseRows(rows, cols).layers)
    ensures forall l :: l in ParseRows(rows, cols).layers ==> l.material != "" && IsTrimmed(l.material)
  {
    var vs := Views(rows, cols);
    ParsedLayers(vs);
    forall i | 0 <= i < |vs| ensures GoodView(vs[i]) {
      if vs[i].kept {
        KeptMaterial(rows[i], cols);
      }
    }
    ParsedMaterials(vs);
  }

  lemma ReindexedOfFollowing(s: seq<Layer>)
    requires IndexesFollowPositions(s)
    ensures Reindexed(s) == s
  {
  }

  /**
   * The body of the layer loop of _parse_laminate_sheet for one row: None
   * for a row entirely empty or without a material, otherwise the layer
   * with the index its Index cell gives (or `count`), and whether the row
   * is flagged in the Symmetry column.
   */
  method ReadStackRow(row: Row, cols: StackColumns, count: nat) returns (layer: Option<Layer>, flagged: bool)
    ensures layer.Some? == ViewOf(row, cols).kept
    ensures layer.Some? ==> layer.value.(index := count) == LayerAt(ViewOf(row, cols), count)
    ensures layer.Some? ==> flagged == ViewOf(row, cols).flagged
  {
    flagged := false;
    if AllBlank(row) {
      return None, flagged;
    }
    var material := MaterialOf(row);
    if material == "" {
      return None, flagged;
    }
    var layerIndex := if cols.index.Some? then IndexFrom(Get(row, cols.index.value), count) else count;
    var angle := if cols.angle.Some? then AngleOf(Get(row, cols.angle.value)) else 0;
    var active := true;
    if cols.active.Some? {
      active := IsYes(Get(row, cols.active.value));
    }
    if cols.symmetry.Some? && IsYes(Get(row, cols.symmetry.value)) {
      flagged := true;
    }
    layer := Some(Layer(layerIndex, material, angle, active));
  }

  /** The closing loop of _parse_laminate_sheet: each layer's index set to its position. */
  method ReindexLayers(s: seq<Layer>) returns (r: seq<Layer>)
    ensures r == Reindexed(s)
  {
    r := s;
    for k := 0 to |r|
      invariant |r| == |s|
      invariant forall j :: 0 <= j < k ==> r[j] == s[j].(index := j)
      invariant forall j :: k <= j < |r| ==> r[j] == s[j]
    {
      r := r[k := r[k].(index := k)];
    }
  }

  /**
   * The layer loop of _parse_laminate_sheet: rows entirely empty or without
   * a material are skipped, each kept row is appended, and a kept row
   * flagged in the Symmetry column sets the symmetry index to its
   * position; the layers are then reindexed 0..n-1.
   */
  method ParseStackRows(frame: Frame) returns (layers: seq<Layer>, symmetry: Option<int>)
    ensures Parsed(layers, symmetry) == ParseRows(frame.rows, StackColumnsOf(frame.columns))
  {
    var cols := StackColumnsOf(frame.columns);
    ghost var vs := Views(frame.rows, cols);
    ghost var acc := Parsed([], None);
    layers := [];
    symmetry := None;
    for i := 0 to |frame.rows|
      invariant acc == ParseViews(vs[..i])
      invariant SameUpToIndex(layers, acc.layers) && symmetry == acc.symmetry
    {
      ParseViewsSnoc(vs, i);
      var layer, flagged := ReadStackRow(frame.rows[i], cols, |layers|);
      LoopStep(acc, layers, symmetry, vs[i], layer, flagged);
      if layer.Some? {
        if flagged {
          symmetry := Some(|layers|);
        }
        layers := layers + [layer.value];
      }
      acc := ParseStep(acc, vs[i]);
    }
    assert vs[..|frame.rows|] == vs;
    ghost var appended := layers;
    layers := ReindexLayers(layers);
    ParsedLayersWellFormed(frame.rows, cols);
    ReindexedRespectsSameUpToIndex(appended, ParseRows(frame.rows, cols).layers);
    ReindexedOfFollowing(ParseRows(frame.rows, cols).layers);
  }

  // ------------------------------------------------------------ writing the stacking table

  /** A laminate as the workbook holds it: the fields of the model's Laminate that are written. */
  datatype SheetLaminate = SheetLaminate(name: string, color: string, kind: string, layers: seq<Layer>,
                                         cells: seq<string>, symmetry: Option<int>)

  /** One row of the stacking table as _write_laminate_sheets writes it. */
  datatype StackOut = StackOut(index: nat, material: string, angle: int, active: string, symmetry: string)

  /** Active is "Yes" or "No"; Symmetry is "Yes" on the row whose position is the symmetry index, else "". */
  function StackOutOf(l: Layer, idx: nat, symmetry: Option<int>): StackOut
  {
    StackOut(idx, l.material, l.angleDeg, if l.active then "Yes" else "No", if symmetry == Some(idx) then "Yes" else "")
  }

  function StackOutRows(layers: seq<Layer>, symmetry: Option<int>): (r: seq<StackOut>)
    ensures |r| == |layers| && forall i :: 0 <= i < |r| ==> r[i] == StackOutOf(layers[i], i, symmetry)
  {
    seq(|layers|, i requires 0 <= i < |layers| => StackOutOf(layers[i], i, symmetry))
  }

  /** The stack_rows loop of _write_laminate_sheets. */
  method BuildStackRows(layers: seq<Layer>, symmetry: Option<int>) returns (rows: seq<StackOut>)
    ensures rows == StackOutRows(layers, symmetry)
  {
    rows := [];
    for i := 0 to |layers|
      invariant rows == StackOutRows(layers[..i], symmetry)
    {
      rows := rows + [StackOutOf(layers[i], i, symmetry)];
    }
    assert layers[..|layers|] == layers;
  }

  const StackHeaders: seq<string> := ["Index", "Material", "Angle", "Active", "Symmetry"]

  /** A written stacking row as pandas reads it back. */
  function StackRowRead(o: StackOut): Row
  {
    map["Index" := Num(o.index), "Material" := ReadBack(o.material), "Angle" := Num(o.angle),
        "Active" := ReadBack(o.active), "Symmetry" := ReadBack(o.symmetry)]
  }

  function StackFrameRead(outs: seq<StackOut>): (f: Frame)
    ensures f.columns == StackHeaders && |f.rows| == |outs|
    ensures forall i :: 0 <= i < |outs| ==> f.rows[i] == StackRowRead(outs[i])
  {
    Frame(StackHeaders, seq(|outs|, i requires 0 <= i < |outs| => StackRowRead(outs[i])))
  }

  function WrittenColumns(): StackColumns
  {
    StackColumns(Some("Index"), Some("Angle"), Some("Active"), Some("Symmetry"))
  }

  /** The reader finds every column the writer wrote under its own name. */
  lemma WrittenColumnsFound()
    ensures StackColumnsOf(StackHeaders) == WrittenColumns()
  {
    ExactColumnIsFirst(StackHeaders, ["Index", "#"], 0);
    ExactColumnIsFirst(StackHeaders, ["Angle", "Angle Deg"], 0);
    ExactColumnIsFirst(StackHeaders, ["Active"], 0);
    ExactColumnIsFirst(StackHeaders, ["Symmetry"], 0);
  }

  /** A text that comes back unchanged: stripped, non-empty and not one pandas reads as missing. */
  predicate Survives(s: string)
  {
    s != "" && IsTrimmed(s) && !ReadsAsMissing(s)
  }

  lemma YesReadBack()
    ensures IsYes(Some(ReadBack("Yes")))
  {
    assert !ReadsAsMissing("Yes");
    assert Trim("Yes") == "Yes";
    assert Lower("Yes") == "yes";
  }

  lemma NoReadBack()
    ensures !IsYes(Some(ReadBack("No")))
  {
    assert !ReadsAsMissing("No");
    assert Trim("No") == "No";
    assert Lower("No") == "no";
  }

  lemma EmptyReadBack()
    ensures ReadBack("") == Blank && !IsYes(Some(ReadBack("")))
  {
    assert Trim("nan") == "nan";
  }

  /** The cells of a written row under each header. */
  lemma StackRowCells(o: StackOut)
    ensures !AllBlank(StackRowRead(o))
    ensures Get(StackRowRead(o), "Material") == Some(ReadBack(o.material))
    ensures Get(StackRowRead(o), "Angle") == Some(Num(o.angle))
    ensures Get(StackRowRead(o), "Active") == Some(ReadBack(o.active))
    ensures Get(StackRowRead(o), "Symmetry") == Some(ReadBack(o.symmetry))
  {
    assert StackRowRead(o)["Index"] != Blank;
  }

  /** What the layer loop takes from a row holding a layer's cells as the writer wrote them. */
  lemma ViewOfWrittenCells(row: Row, l: Layer, idx: nat, symmetry: Option<int>)
    requires Survives(l.material)
    requires var o := StackOutOf(l, idx, symmetry);
      !AllBlank(row) && Get(row, "Material") == Some(ReadBack(o.material)) &&
      Get(row, "Angle") == Some(Num(o.angle)) && Get(row, "Active") == Some(ReadBack(o.active)) &&
      Get(row, "Symmetry") == Some(ReadBack(o.symmetry))
    ensures ViewOf(row, WrittenColumns()) == RowView(true, l.material, l.angleDeg, l.active, symmetry == Some(idx))
  {
    TrimOfTrimmed(l.material);
    assert MaterialOf(row) == l.material;
    if l.active { YesReadBack(); } else { NoReadBack(); }
    if symmetry == Some(idx) { YesReadBack(); } else { EmptyReadBack(); }
  }

  /** What the layer loop takes from a written row. */
  lemma WrittenRowView(l: Layer, idx: nat, symmetry: Option<int>)
    requires Survives(l.material)
    ensures ViewOf(StackRowRead(StackOutOf(l, idx, symmetry)), WrittenColumns()) ==
      RowView(true, l.material, l.angleDeg, l.active, symmetry == Some(idx))
  {
    StackRowCells(StackOutOf(l, idx, symmetry));
    ViewOfWrittenCells(StackRowRead(StackOutOf(l, idx, symmetry)), l, idx, symmetry);
  }

  function InRange(symmetry: Option<int>, n: nat): Option<int>
  {
    if symmetry.Some? && 0 <= symmetry.value < n then symmetry else None
  }

  /** Rows that are all kept, with the given layers and the row equal to `symmetry` flagged, parse back to them. */
  lemma {:induction false} ParseAllKept(vs: seq<RowView>, layers: seq<Layer>, symmetry: Option<int>)
    requires |vs| == |layers|
    requires forall i :: 0 <= i < |vs| ==>
      vs[i] == RowView(true, layers[i].material, layers[i].angleDeg, layers[i].active, symmetry == Some(i))
    ensures ParseViews(vs) == Parsed(Reindexed(layers), InRange(symmetry, |layers|))
  {
    if vs != [] {
      var n := |vs| - 1;
      ParseAllKept(vs[..n], layers[..n], symmetry);
      assert Reindexed(layers) == Reindexed(layers[..n]) + [layers[n].(index := n)];
    }
  }

  /**
   * Round trip of the stacking table: reading back what the writer wrote
   * gives the layers reindexed, and the symmetry index when it names a
   * layer (None otherwise).
   */
  lemma StackRoundTrip(layers: seq<Layer>, symmetry: Option<int>)
    requires forall i :: 0 <= i < |layers| ==> Survives(layers[i].material)
    ensures var f := StackFrameRead(StackOutRows(layers, symmetry));
      ParseRows(f.rows, StackColumnsOf(f.columns)) == Parsed(Reindexed(layers), InRange(symmetry, |layers|))
  {
    var f := StackFrameRead(StackOutRows(layers, symmetry));
    WrittenColumnsFound();
    var vs := Views(f.rows, WrittenColumns());
    forall i | 0 <= i < |vs|
      ensures vs[i] == RowView(true, layers[i].material, layers[i].angleDeg, layers[i].active, symmetry == Some(i))
    {
      WrittenRowView(layers[i], i, symmetry);
    }
    ParseAllKept(vs, layers, symmetry);
  }

  // ------------------------------------------------------------ associated cells

  /** [cell.strip() for cell in parts if cell.strip()] */
  function CleanParts(parts: seq<string>): (r: seq<string>)
    ensures forall i :: 0 <= i < |r| ==> r[i] != "" && IsTrimmed(r[i])
  {
    if parts == [] then []
    else (if Trim(parts[0]) == "" then [] else [Trim(parts[0])]) + CleanParts(parts[1..])
  }

  /** The Associated Cells cell: the stripped text split on "," with each piece stripped and blanks dropped. */
  function AssociatedCells(v: Option<CellValue>): (r: seq<string>)
    ensures forall i :: 0 <= i < |r| ==> r[i] != "" && IsTrimmed(r[i])
  {
    CleanParts(Split(Trim(OrText(v)), ','))
  }

  /** A cell id the join and split hand back unchanged: stripped, non-empty, without a comma. */
  predicate IsPlainId(c: string)
  {
    c != "" && IsTrimmed(c) && !HasChar(c, ',')
  }

  lemma TrimAfterSpace(x: string)
    ensures Trim(" " + x) == Trim(x)
  {
    assert (" " + x)[1..] == x;
  }

  /** ", ".join(cells) is stripped when every cell is. */
  lemma {:induction false} JoinTrimmed(cells: seq<string>)
    requires forall i :: 0 <= i < |cells| ==> IsPlainId(cells[i])
    ensures IsTrimmed(JoinWith(", ", cells))
    ensures cells != [] ==> JoinWith(", ", cells) != []
  {
    if |cells| > 1 {
      JoinTrimmed(cells[1..]);
      var j := JoinWith(", ", cells);
      var rest := JoinWith(", ", cells[1..]);
      assert j == cells[0] + ", " + rest;
      assert j[0] == cells[0][0];
      assert j[|j| - 1] == rest[|rest| - 1];
    }
  }

  /** Splitting ", ".join(cells) on "," and stripping each piece gives the cells back. */
  lemma {:induction false} SplitJoinedCells(cells: seq<string>)
    requires cells != []
    requires forall i :: 0 <= i < |cells| ==> IsPlainId(cells[i])
    ensures CleanParts(Split(JoinWith(", ", cells), ',')) == cells
  {
    TrimOfTrimmed(cells[0]);
    if |cells| == 1 {
      SplitWhole(cells[0], ',');
    } else {
      var rest := JoinWith(", ", cells[1..]);
      assert JoinWith(", ", cells) == cells[0] + [','] + (" " + rest);
      SplitAfter(cells[0], " " + rest, ',');
      var pieces := Split(rest, ',');
      assert (" " + rest)[1..] == rest;
      assert Split(" " + rest, ',') == [" " + pieces[0]] + pieces[1..];
      TrimAfterSpace(pieces[0]);
      assert CleanParts([" " + pieces[0]] + pieces[1..]) == CleanParts(pieces) by {
        assert ([" " + pieces[0]] + pieces[1..])[1..] == pieces[1..];
      }
      SplitJoinedCells(cells[1..]);
      assert ([cells[0]] + Split(" " + rest, ','))[1..] == Split(" " + rest, ',');
    }
  }

  // ------------------------------------------------------------ laminate sheets

  /** The metadata row _write_laminate_sheets writes above the stacking table. */
  datatype MetaOut = MetaOut(name: string, color: string, kind: string, cells: string)

  function MetaOutOf(l: SheetLaminate): MetaOut
  {
    MetaOut(l.name, l.color, l.kind, JoinWith(", ", l.cells))
  }

  function MetaRowRead(m: MetaOut): Row
  {
    map["Name" := ReadBack(m.name), "Color" := ReadBack(m.color), "Type" := ReadBack(m.kind),
        "Associated Cells" := ReadBack(m.cells)]
  }

  lemma MetaRowCells(m: MetaOut)
    ensures Get(MetaRowRead(m), "Name") == Some(ReadBack(m.name))
    ensures Get(MetaRowRead(m), "Color") == Some(ReadBack(m.color))
    ensures Get(MetaRowRead(m), "Type") == Some(ReadBack(m.kind))
    ensures Get(MetaRowRead(m), "Associated Cells") == Some(ReadBack(m.cells))
  {
  }

  /**
   * The laminate's name: the stripped Name cell, else the sheet name with
   * every "Laminate_" removed and stripped, else the sheet name itself.
   */
  function LaminateName(v: Option<CellValue>, sheetName: string): (r: string)
    ensures Trim(OrText(v)) != "" ==> r == Trim(OrText(v))
    ensures r == "" ==> sheetName == ""
  {
    var name := Trim(OrText(v));
    if name != "" then name
    else
      var stripped := Trim(PyValues.RemoveAll(sheetName, "Laminate_"));
      if stripped != "" then stripped else sheetName
  }

  /** _parse_laminate_sheet: None for a sheet without a metadata row, else the laminate its rows describe. */
  function LaminateFrom(meta: seq<Row>, stack: Frame, sheetName: string): Option<SheetLaminate>
  {
    if meta == [] then None
    else
      var row := meta[0];
      var p := ParseRows(stack.rows, StackColumnsOf(stack.columns));
      Some(SheetLaminate(LaminateName(Get(row, "Name"), sheetName), Trim(OrText(Get(row, "Color"))),
                         Trim(OrText(Get(row, "Type"))), p.layers, AssociatedCells(Get(row, "Associated Cells")),
                         p.symmetry))
  }

  method ParseLaminateSheet(meta: seq<Row>, stack: Frame, sheetName: string) returns (r: Option<SheetLaminate>)
    ensures r == LaminateFrom(meta, stack, sheetName)
  {
    if meta == [] {
      return None;
    }
    var row := meta[0];
    var name := Trim(OrText(Get(row, "Name")));
    if name == "" {
      name := Trim(PyValues.RemoveAll(sheetName, "Laminate_"));
      if name == "" {
        name := sheetName;
      }
    }
    var color := Trim(OrText(Get(row, "Color")));
    var kind := Trim(OrText(Get(row, "Type")));
    var cells := AssociatedCells(Get(row, "Associated Cells"));
    var layers, symmetry := ParseStackRows(stack);
    r := Some(SheetLaminate(name, color, kind, layers, cells, symmetry));
  }

  /** A text that comes back unchanged, the empty text included. */
  predicate TextSurvives(s: string)
  {
    s == "" || Survives(s)
  }

  /** What a laminate needs for its sheet to read back as itself. */
  predicate RoundTrips(l: SheetLaminate)
  {
    Survives(l.name) && TextSurvives(l.color) && TextSurvives(l.kind) &&
    (forall i :: 0 <= i < |l.cells| ==> IsPlainId(l.cells[i])) &&
    (l.cells == [] || !ReadsAsMissing(JoinWith(", ", l.cells))) &&
    (forall i :: 0 <= i < |l.layers| ==> Survives(l.layers[i].material))
  }

  lemma TextReadBack(s: string)
    requires TextSurvives(s)
    ensures Trim(OrText(Some(ReadBack(s)))) == s
  {
    if s == "" {
      EmptyReadBack();
    } else {
      TrimOfTrimmed(s);
    }
  }

  lemma NoCellsReadBack()
    ensures AssociatedCells(Some(ReadBack(JoinWith(", ", [])))) == []
  {
    EmptyReadBack();
    assert Split("", ',') == [""];
  }

  lemma CellsReadBack(cells: seq<string>)
    requires forall i :: 0 <= i < |cells| ==> IsPlainId(cells[i])
    requires cells == [] || !ReadsAsMissing(JoinWith(", ", cells))
    ensures AssociatedCells(Some(ReadBack(JoinWith(", ", cells)))) == cells
  {
    if cells == [] {
      NoCellsReadBack();
    } else {
      var j := JoinWith(", ", cells);
      JoinTrimmed(cells);
      TextReadBack(j);
      SplitJoinedCells(cells);
    }
  }

  /**
   * Round trip of a laminate sheet: reading back the metadata row and the
   * stacking table the writer wrote gives the same name, colour, type and
   * associated cells, the layers reindexed, and the symmetry index when it
   * names a layer.
   */
  lemma LaminateRoundTrip(l: SheetLaminate, sheetName: string)
    requires RoundTrips(l)
    ensures LaminateFrom([MetaRowRead(MetaOutOf(l))], StackFrameRead(StackOutRows(l.layers, l.symmetry)), sheetName) ==
      Some(l.(layers := Reindexed(l.layers), symmetry := InRange(l.symmetry, |l.layers|)))
  {
    var m := MetaOutOf(l);
    MetaRowCells(m);
    TextReadBack(l.name);
    TextReadBack(l.color);
    TextReadBack(l.kind);
    CellsReadBack(l.cells);
    StackRoundTrip(l.layers, l.symmetry);
  }

  // ------------------------------------------------------------ an empty cell as written

  /**
   * A row whose Material cell is empty but whose Angle is 45 is not entirely
   * empty, and str(NaN or "") is "nan": the loop as written keeps it as a
   * layer of material "nan", where the model skips it.
   */
  lemma EmptyMaterialReadsNan()
    ensures var row := map["Material" := Blank, "Angle" := Num(45)];
      !AllBlank(row) && Trim(OrTextAsWritten(Get(row, "Material"))) == "nan" && !Keeps(row)
  {
    var row := map["Material" := Blank, "Angle" := Num(45)];
    assert row["Angle"] != Blank;
    assert Trim("nan") == "nan";
  }

  /** A laminate saved with no colour: as written, its colour is read back as "nan", where the model gives "". */
  lemma EmptyColorReadsNan(l: SheetLaminate)
    requires l.color == ""
    ensures Trim(OrTextAsWritten(Get(MetaRowRead(MetaOutOf(l)), "Color"))) == "nan"
    ensures Trim(OrText(Get(MetaRowRead(MetaOutOf(l)), "Color"))) == l.color
  {
    MetaRowCells(MetaOutOf(l));
    EmptyReadBack();
  }

  // ------------------------------------------------------------ writing the workbook

  /** One laminate sheet: its name, the metadata row and the stacking table. */
  datatype LaminateSheet = LaminateSheet(name: string, meta: MetaOut, stack: seq<StackOut>)

  function SheetFor(l: SheetLaminate, name: string): LaminateSheet
  {
    LaminateSheet(name, MetaOutOf(l), StackOutRows(l.layers, l.symmetry))
  }

  /** A name _make_unique_sheet_name can give for `base`: its sanitised form, or a numbered one. */
  ghost predicate NameFor(base: string, name: string)
  {
    name == SafeBase(base) || exists k :: 1 <= k && name == Numbered(SafeBase(base), k)
  }

  /** A laminate sheet's name starts with "L", so it is never the "Cells" sheet. */
  lemma LaminateSheetName(laminateName: string, name: string)
    requires NameFor("Laminate_" + laminateName, name)
    ensures name != [] && name[0] == 'L' && name != "Cells"
  {
    var safe := SafeBase("Laminate_" + laminateName);
    assert |safe| >= 9 && safe[0] == SheetChar('L') == 'L';
    if name != safe {
      var k :| 1 <= k && name == Numbered(safe, k);
      assert name[0] == safe[0];
    }
  }

  /** The name _make_unique_sheet_name picks for `base` given the names in use: the base, else the smallest free counter. */
  ghost predicate PicksName(base: string, used: set<string>, name: string)
  {
    var safe := SafeBase(base);
    name !in used &&
    (safe !in used ==> name == safe) &&
    (safe in used ==> exists k :: 1 <= k && name == Numbered(safe, k) && TakenBelow(safe, used, k))
  }

  /** The names of the sheets written so far. */
  function SheetNames(sheets: seq<LaminateSheet>): set<string>
  {
    set j | 0 <= j < |sheets| :: sheets[j].name
  }

  /** Each sheet so far carries the name picked for its laminate given the sheets before it. */
  ghost predicate NamedInOrder(laminates: seq<SheetLaminate>, sheets: seq<LaminateSheet>)
    requires |sheets| <= |laminates|
  {
    forall j :: 0 <= j < |sheets| ==> PicksName("Laminate_" + laminates[j].name, SheetNames(sheets[..j]), sheets[j].name)
  }

  lemma NamedInOrderSnoc(laminates: seq<SheetLaminate>, sheets: seq<LaminateSheet>, sheet: LaminateSheet)
    requires |sheets| < |laminates| && NamedInOrder(laminates, sheets)
    requires PicksName("Laminate_" + laminates[|sheets|].name, SheetNames(sheets), sheet.name)
    ensures NamedInOrder(laminates, sheets + [sheet])
    ensures SheetNames(sheets + [sheet]) == SheetNames(sheets) + {sheet.name}
  {
    var s := sheets + [sheet];
    assert s[..|sheets|] == sheets;
    assert forall j :: 0 <= j < |sheets| ==> s[..j] == sheets[..j] && s[j] == sheets[j];
    forall x | x in SheetNames(s) ensures x in SheetNames(sheets) + {sheet.name} {
      var j :| 0 <= j < |s| && s[j].name == x;
      if j < |sheets| {
        assert sheets[j].name == x;
      }
    }
    forall x | x in SheetNames(sheets) ensures x in SheetNames(s) {
      var j :| 0 <= j < |sheets| && sheets[j].name == x;
      assert s[j].name == x;
    }
    assert s[|sheets|].name == sheet.name;
  }

  /** One turn of the loop of _write_laminate_sheets: the sheet of one laminate, under a name not yet used. */
  method WriteLaminateSheet(l: SheetLaminate, used: set<string>) returns (sheet: LaminateSheet)
    ensures sheet == SheetFor(l, sheet.name)
    ensures sheet.name !in used && NameFor("Laminate_" + l.name, sheet.name)
    ensures PicksName("Laminate_" + l.name, used, sheet.name)
  {
    var name := MakeUniqueSheetName("Laminate_" + l.name, used);
    var stack := BuildStackRows(l.layers, l.symmetry);
    sheet := LaminateSheet(name, MetaOut(l.name, l.color, l.kind, JoinWith(", ", l.cells)), stack);
  }

  /**
   * _write_laminate_sheets: one sheet per laminate, in order, named from
   * "Laminate_" and the laminate's name and kept unique across the
   * workbook; the metadata row and stacking table as the writer lays them out.
   */
  method WriteLaminateSheets(laminates: seq<SheetLaminate>) returns (sheets: seq<LaminateSheet>)
    ensures |sheets| == |laminates|
    ensures forall i :: 0 <= i < |sheets| ==> sheets[i] == SheetFor(laminates[i], sheets[i].name)
    ensures forall i :: 0 <= i < |sheets| ==> NameFor("Laminate_" + laminates[i].name, sheets[i].name)
    ensures forall i, j :: 0 <= i < j < |sheets| ==> sheets[i].name != sheets[j].name
    ensures forall i :: 0 <= i < |sheets| ==> PicksName("Laminate_" + laminates[i].name, SheetNames(sheets[..i]), sheets[i].name)
  {
    var used: set<string> := {};
    sheets := [];
    for i := 0 to |laminates|
      invariant |sheets| == i
      invariant used == SheetNames(sheets)
      invariant NamedInOrder(laminates, sheets)
      invariant forall j :: 0 <= j < i ==> sheets[j].name in used
      invariant forall j :: 0 <= j < i ==> sheets[j] == SheetFor(laminates[j], sheets[j].name)
      invariant forall j :: 0 <= j < i ==> NameFor("Laminate_" + laminates[j].name, sheets[j].name)
      invariant forall j, k :: 0 <= j < k < i ==> sheets[j].name != sheets[k].name
    {
      var sheet := WriteLaminateSheet(laminates[i], used);
      NamedInOrderSnoc(laminates, sheets, sheet);
      used := used + {sheet.name};
      ghost var before := sheets;
      sheets := sheets + [sheet];
      forall j | 0 <= j < i + 1 ensures sheets[j] == SheetFor(laminates[j], sheets[j].name) {
        if j < i {
          assert sheets[j] == before[j];
        }
      }
    }
  }

  /**
   * save_grid_xlsx: the Cells sheet, then one sheet per laminate; no
   * laminate sheet takes the name "Cells", so none replaces the Cells sheet.
   */
  method SaveGrid(cells: seq<GridDocs.Cell>, laminates: seq<SheetLaminate>)
    returns (cellRows: seq<CellOut>, sheets: seq<LaminateSheet>)
    ensures cellRows == CellOutRows(cells)
    ensures |sheets| == |laminates|
    ensures forall i :: 0 <= i < |sheets| ==> sheets[i] == SheetFor(laminates[i], sheets[i].name)
    ensures forall i :: 0 <= i < |sheets| ==> NameFor("Laminate_" + laminates[i].name, sheets[i].name)
    ensures forall i, j :: 0 <= i < j < |sheets| ==> sheets[i].name != sheets[j].name
    ensures forall i :: 0 <= i < |sheets| ==> sheets[i].name != "Cells"
  {
    cellRows := CellOutRows(cells);
    sheets := WriteLaminateSheets(laminates);
    forall i | 0 <= i < |sheets| ensures sheets[i].name != "Cells" {
      LaminateSheetName(laminates[i].name, sheets[i].name);
    }
  }

  /** One row of the Cells sheet: the cell id and its laminate name, "" when it has none. */
  datatype CellOut = CellOut(id: string, laminateName: string)

  /** _write_cells_sheet */
  function CellOutRows(cells: seq<GridDocs.Cell>): (r: seq<CellOut>)
    ensures |r| == |cells|
    ensures forall i :: 0 <= i < |r| ==>
      r[i].id == cells[i].id && r[i].laminateName == cells[i].laminateName.GetOr("")
  {
    seq(|cells|, i requires 0 <= i < |cells| => CellOut(cells[i].id, cells[i].laminateName.GetOr("")))
  }

  const CellHeaders: seq<string> := ["Cell ID", "Laminate Name"]

  function CellRowRead(o: CellOut): Row
  {
    map["Cell ID" := ReadBack(o.id), "Laminate Name" := ReadBack(o.laminateName)]
  }

  /** The Cells sheet as pandas reads it back; written from no cells at all, it has no columns either. */
  function CellsFrameRead(outs: seq<CellOut>): (f: Frame)
    ensures f.columns == if outs == [] then [] else CellHeaders
    ensures |f.rows| == |outs| && forall i :: 0 <= i < |outs| ==> f.rows[i] == CellRowRead(outs[i])
  {
    Frame(if outs == [] then [] else CellHeaders, seq(|outs|, i requires 0 <= i < |outs| => CellRowRead(outs[i])))
  }

  // ------------------------------------------------------------ reading the Cells sheet

  /**
   * One turn of the cells loop of load_grid_xlsx: no cell when the id is
   * empty; otherwise the stripped id, and the stripped laminate name, None
   * when its column is missing, its cell is empty or it is blank.
   */
  function CellFromRow(row: Row, idColumn: string, laminateColumn: Option<string>): (r: Option<GridDocs.Cell>)
    ensures r.None? <==> IsNa(Get(row, idColumn))
    ensures r.Some? ==> IsTrimmed(r.value.id)
    ensures r.Some? && r.value.laminateName.Some? ==>
      r.value.laminateName.value != "" && IsTrimmed(r.value.laminateName.value) && laminateColumn.Some?
  {
    if IsNa(Get(row, idColumn)) then None
    else
      var name := if laminateColumn.Some? && !IsNa(Get(row, laminateColumn.value))
                  then (TrimIdempotent(PyStr(Get(row, laminateColumn.value)));
                        Trim(PyStr(Get(row, laminateColumn.value))))
                  else "";
      TrimIdempotent(PyStr(Get(row, idColumn)));
      Some(GridDocs.Cell(Trim(PyStr(Get(row, idColumn))), if name == "" then None else Some(name)))
  }

  /** The cells the loop appends, in order: one for each row that gives one. */
  function Found(rs: seq<Option<GridDocs.Cell>>): (r: seq<GridDocs.Cell>)
    ensures |r| <= |rs|
  {
    if rs == [] then []
    else Found(rs[..|rs| - 1]) + (if rs[|rs| - 1].Some? then [rs[|rs| - 1].value] else [])
  }

  function CellResults(rows: seq<Row>, idColumn: string, laminateColumn: Option<string>): (rs: seq<Option<GridDocs.Cell>>)
    ensures |rs| == |rows| && forall i :: 0 <= i < |rows| ==> rs[i] == CellFromRow(rows[i], idColumn, laminateColumn)
  {
    seq(|rows|, i requires 0 <= i < |rows| => CellFromRow(rows[i], idColumn, laminateColumn))
  }

  function CellsFrom(rows: seq<Row>, idColumn: string, laminateColumn: Option<string>): seq<GridDocs.Cell>
  {
    Found(CellResults(rows, idColumn, laminateColumn))
  }

  lemma CellsFromSnoc(rows: seq<Row>, idColumn: string, laminateColumn: Option<string>, i: nat)
    requires i < |rows|
    ensures var c := CellFromRow(rows[i], idColumn, laminateColumn);
      CellsFrom(rows[..i + 1], idColumn, laminateColumn) ==
      CellsFrom(rows[..i], idColumn, laminateColumn) + (if c.Some? then [c.value] else [])
  {
    var rs := CellResults(rows[..i + 1], idColumn, laminateColumn);
    assert rs[..i] == CellResults(rows[..i], idColumn, laminateColumn);
  }

  const IdCandidates: seq<string> := ["Cell ID", "Cell", "ID"]
  const LaminateCandidates: seq<string> := ["Laminate Name", "Laminate", "Stack"]

  /** The cells load_grid_xlsx reads: none from a missing Cells sheet or one without an id column. */
  function LoadCells(sheet: Option<Frame>): seq<GridDocs.Cell>
  {
    var f := sheet.GetOr(Frame(CellHeaders, []));
    var idColumn := FindFirstColumn(f.columns, IdCandidates);
    if idColumn.None? then []
    else CellsFrom(f.rows, idColumn.value, FindFirstColumn(f.columns, LaminateCandidates))
  }

  /** The body of the cells loop for one row. */
  method ReadCellRow(row: Row, idColumn: string, laminateColumn: Option<string>) returns (cell: Option<GridDocs.Cell>)
    ensures cell == CellFromRow(row, idColumn, laminateColumn)
  {
    var id := Get(row, idColumn);
    if IsNa(id) {
      return None;
    }
    var name: Option<string> := None;
    if laminateColumn.Some? && !IsNa(Get(row, laminateColumn.value)) {
      var text := Trim(PyStr(Get(row, laminateColumn.value)));
      if text != "" {
        name := Some(text);
      }
    }
    cell := Some(GridDocs.Cell(Trim(PyStr(id)), name));
  }

  /** The Cells part of load_grid_xlsx. */
  method ParseCellsSheet(sheet: Option<Frame>) returns (cells: seq<GridDocs.Cell>)
    ensures cells == LoadCells(sheet)
  {
    var f := sheet.GetOr(Frame(CellHeaders, []));
    var idColumn := FindFirstColumn(f.columns, IdCandidates);
    var laminateColumn := FindFirstColumn(f.columns, LaminateCandidates);
    cells := [];
    if idColumn.None? {
      return;
    }
    for i := 0 to |f.rows|
      invariant cells == CellsFrom(f.rows[..i], idColumn.value, laminateColumn)
    {
      CellsFromSnoc(f.rows, idColumn.value, laminateColumn, i);
      var cell := ReadCellRow(f.rows[i], idColumn.value, laminateColumn);
      if cell.Some? {
        cells := cells + [cell.value];
      }
    }
    assert f.rows[..|f.rows|] == f.rows;
  }

  /** What a cell needs to read back as itself: an id and a laminate name that survive the round trip. */
  predicate CellRoundTrips(c: GridDocs.Cell)
  {
    Survives(c.id) && (c.laminateName.None? || Survives(c.laminateName.value))
  }

  lemma CellRowReadBack(c: GridDocs.Cell)
    requires CellRoundTrips(c)
    ensures CellFromRow(CellRowRead(CellOut(c.id, c.laminateName.GetOr(""))), "Cell ID", Some("Laminate Name")) == Some(c)
  {
    var row := CellRowRead(CellOut(c.id, c.laminateName.GetOr("")));
    assert Get(row, "Cell ID") == Some(Str(c.id));
    assert Get(row, "Laminate Name") == Some(ReadBack(c.laminateName.GetOr("")));
    TrimOfTrimmed(c.id);
    if c.laminateName.Some? {
      TrimOfTrimmed(c.laminateName.value);
    } else {
      EmptyReadBack();
    }
  }

  lemma {:induction false} FoundAll(rs: seq<Option<GridDocs.Cell>>, cells: seq<GridDocs.Cell>)
    requires |rs| == |cells| && forall i :: 0 <= i < |rs| ==> rs[i] == Some(cells[i])
    ensures Found(rs) == cells
  {
    if rs != [] {
      var n := |rs| - 1;
      FoundAll(rs[..n], cells[..n]);
      assert cells == cells[..n] + [cells[n]];
    }
  }

  /** The reader finds the columns the writer wrote. */
  lemma CellColumnsFound()
    ensures FindFirstColumn(CellHeaders, IdCandidates) == Some("Cell ID")
    ensures FindFirstColumn(CellHeaders, LaminateCandidates) == Some("Laminate Name")
    ensures FindFirstColumn([], IdCandidates).None?
  {
    ExactColumnIsFirst(CellHeaders, IdCandidates, 0);
    ExactColumnIsFirst(CellHeaders, LaminateCandidates, 0);
    FindFirstColumnNone([], IdCandidates);
  }

  /** Round trip of the Cells sheet: reading back what _write_cells_sheet wrote gives the same cells, in order. */
  lemma CellsRoundTrip(cells: seq<GridDocs.Cell>)
    requires forall i :: 0 <= i < |cells| ==> CellRoundTrips(cells[i])
    ensures LoadCells(Some(CellsFrameRead(CellOutRows(cells)))) == cells
  {
    CellColumnsFound();
    var outs := CellOutRows(cells);
    var f := CellsFrameRead(outs);
    if cells != [] {
      forall i | 0 <= i < |cells|
        ensures CellFromRow(f.rows[i], "Cell ID", Some("Laminate Name")) == Some(cells[i])
      {
        assert outs[i] == CellOut(cells[i].id, cells[i].laminateName.GetOr(""));
        CellRowReadBack(cells[i]);
      }
      FoundAll(CellResults(f.rows, "Cell ID", Some("Laminate Name")), cells);
    }
  }

  // ------------------------------------------------------------ reading the laminate sheets

  /** A laminate sheet as pandas reads it: its name, the metadata row above the blank row, and the stacking table. */
  datatype ReadSheet = ReadSheet(name: string, meta: seq<Row>, stack: Frame)

  function SheetLaminateOf(s: ReadSheet): Option<SheetLaminate>
  {
    if s.name == "Cells" then None else LaminateFrom(s.meta, s.stack, s.name)
  }

  /** The laminates in order stored by name, a later one replacing an earlier one of the same name. */
  function Store(found: seq<Option<SheetLaminate>>): map<string, SheetLaminate>
  {
    if found == [] then map[]
    else
      var m := Store(found[..|found| - 1]);
      match found[|found| - 1]
      case None => m
      case Some(l) => m[l.name := l]
  }

  function SheetResults(sheets: seq<ReadSheet>): (r: seq<Option<SheetLaminate>>)
    ensures |r| == |sheets| && forall i :: 0 <= i < |sheets| ==> r[i] == SheetLaminateOf(sheets[i])
  {
    seq(|sheets|, i requires 0 <= i < |sheets| => SheetLaminateOf(sheets[i]))
  }

  /**
   * The laminate loop of load_grid_xlsx: every sheet but "Cells" that holds a
   * laminate is stored under the laminate's name, a later sheet replacing an
   * earlier one of the same name.
   */
  function LoadLaminates(sheets: seq<ReadSheet>): map<string, SheetLaminate>
  {
    Store(SheetResults(sheets))
  }

  /** The names of the laminates found, in sheet order, repeats kept. */
  function FoundNames(found: seq<Option<SheetLaminate>>): seq<string>
  {
    if found == [] then []
    else
      var n := |found| - 1;
      FoundNames(found[..n]) + (if found[n].Some? then [found[n].value.name] else [])
  }

  lemma DistinctSnoc(s: seq<string>, x: string)
    ensures Seqs.Distinct(s + [x]) == if x in Seqs.Distinct(s) then Seqs.Distinct(s) else Seqs.Distinct(s) + [x]
  {
    assert (s + [x])[..|s|] == s;
  }

  /**
   * The same store as the dict `doc.laminates` keeps it: the names in the
   * order they were first stored, a later laminate of a name replacing the
   * value but not the position.
   */
  function StoreOrdered(found: seq<Option<SheetLaminate>>): (r: OrderedMaps.OMap<string, SheetLaminate>)
    ensures r.Valid() && r.items == Store(found)
    ensures r.keys == Seqs.Distinct(FoundNames(found))
  {
    if found == [] then OrderedMaps.Empty()
    else
      var n := |found| - 1;
      var m := StoreOrdered(found[..n]);
      match found[n]
      case None =>
        assert FoundNames(found) == FoundNames(found[..n]);
        m
      case Some(l) =>
        DistinctSnoc(FoundNames(found[..n]), l.name);
        m.Put(l.name, l)
  }

  lemma SheetResultsSnoc(sheets: seq<ReadSheet>, i: nat)
    requires i < |sheets|
    ensures var rs := SheetResults(sheets[..i + 1]);
      rs[..i] == SheetResults(sheets[..i]) && rs[i] == SheetLaminateOf(sheets[i])
  {
  }

  /** Every stored laminate sits under its own name, and is one of the laminates found. */
  lemma {:induction false} StoredUnderOwnName(found: seq<Option<SheetLaminate>>)
    ensures forall k :: k in Store(found) ==> Store(found)[k].name == k
    ensures forall k :: k in Store(found) ==> Some(Store(found)[k]) in found
  {
    if found != [] {
      var n := |found| - 1;
      var m0 := Store(found[..n]);
      StoredUnderOwnName(found[..n]);
      assert forall x :: x in found[..n] ==> x in found;
      match found[n]
      case None =>
        assert Store(found) == m0;
      case Some(l) =>
        assert Store(found) == m0[l.name := l];
    }
  }

  /** The last laminate of a given name decides what is stored under it. */
  lemma {:induction false} LastFoundWins(found: seq<Option<SheetLaminate>>, i: nat)
    requires i < |found| && found[i].Some?
    requires forall j :: i < j < |found| && found[j].Some? ==> found[j].value.name != found[i].value.name
    ensures found[i].value.name in Store(found) && Store(found)[found[i].value.name] == found[i].value
  {
    var n := |found| - 1;
    var m0 := Store(found[..n]);
    if i < n {
      LastFoundWins(found[..n], i);
      match found[n]
      case None =>
        assert Store(found) == m0;
      case Some(l) =>
        assert Store(found) == m0[l.name := l];
    } else {
      assert Store(found) == m0[found[i].value.name := found[i].value];
    }
  }

  /** The workbook as load_grid_xlsx sees it: the Cells sheet when there is one, and every other sheet. */
  datatype Workbook = Workbook(cellsSheet: Option<Frame>, sheets: seq<ReadSheet>)

  /**
   * load_grid_xlsx before ensure_associations: an unreadable or missing
   * file gives an empty document; otherwise the cells of the Cells sheet
   * and the laminates of the other sheets.
   */
  method LoadGrid(workbook: Option<Workbook>) returns (cells: seq<GridDocs.Cell>, laminates: OrderedMaps.OMap<string, SheetLaminate>)
    ensures workbook.None? ==> cells == [] && laminates.keys == [] && laminates.items == map[]
    ensures workbook.Some? ==>
      cells == LoadCells(workbook.value.cellsSheet) &&
      laminates.Valid() && laminates.items == LoadLaminates(workbook.value.sheets) &&
      laminates.keys == Seqs.Distinct(FoundNames(SheetResults(workbook.value.sheets)))
  {
    laminates := OrderedMaps.Empty();
    if workbook.None? {
      return [], laminates;
    }
    var wb := workbook.value;
    cells := ParseCellsSheet(wb.cellsSheet);
    var i := 0;
    while i < |wb.sheets|
      invariant 0 <= i <= |wb.sheets|
      invariant laminates == StoreOrdered(SheetResults(wb.sheets[..i]))
    {
      SheetResultsSnoc(wb.sheets, i);
      var sheet := wb.sheets[i];
      if sheet.name != "Cells" {
        var laminate := ParseLaminateSheet(sheet.meta, sheet.stack, sheet.name);
        if laminate.Some? {
          laminates := laminates.Put(laminate.value.name, laminate.value);
        }
      }
      i := i + 1;
    }
    assert wb.sheets[..i] == wb.sheets;
  }

  // ------------------------------------------------------------ the whole round trip

  /** A laminate sheet as pandas reads back what the writer wrote. */
  function SheetRead(s: LaminateSheet): ReadSheet
  {
    ReadSheet(s.name, [MetaRowRead(s.meta)], StackFrameRead(s.stack))
  }

  /** What a saved laminate reads back as: its layers reindexed, its symmetry index kept when it names a layer. */
  function Stored(l: SheetLaminate): (r: SheetLaminate)
    ensures r.name == l.name && r.color == l.color && r.kind == l.kind && r.cells == l.cells
    ensures IndexesFollowPositions(r.layers) && SameUpToIndex(r.layers, l.layers)
  {
    l.(layers := Reindexed(l.layers), symmetry := InRange(l.symmetry, |l.layers|))
  }

  /** The saved workbook as load_grid_xlsx reads it. */
  function WrittenWorkbook(cells: seq<GridDocs.Cell>, sheets: seq<LaminateSheet>): Workbook
  {
    Workbook(Some(CellsFrameRead(CellOutRows(cells))), seq(|sheets|, i requires 0 <= i < |sheets| => SheetRead(sheets[i])))
  }

  /** Each written laminate sheet reads back as the laminate it was written from. */
  lemma SheetReadBack(l: SheetLaminate, name: string)
    requires RoundTrips(l) && NameFor("Laminate_" + l.name, name)
    ensures SheetLaminateOf(SheetRead(SheetFor(l, name))) == Some(Stored(l))
  {
    LaminateSheetName(l.name, name);
    LaminateRoundTrip(l, name);
  }

  /**
   * Round trip of save_grid_xlsx and load_grid_xlsx: the cells come back in
   * order, and every laminate comes back under its own name, with nothing
   * else stored.
   */
  lemma WorkbookRoundTrip(cells: seq<GridDocs.Cell>, laminates: seq<SheetLaminate>, sheets: seq<LaminateSheet>)
    requires forall i :: 0 <= i < |cells| ==> CellRoundTrips(cells[i])
    requires forall i :: 0 <= i < |laminates| ==> RoundTrips(laminates[i])
    requires forall i, j :: 0 <= i < j < |laminates| ==> laminates[i].name != laminates[j].name
    requires |sheets| == |laminates|
    requires forall i :: 0 <= i < |sheets| ==> sheets[i] == SheetFor(laminates[i], sheets[i].name)
    requires forall i :: 0 <= i < |sheets| ==> NameFor("Laminate_" + laminates[i].name, sheets[i].name)
    ensures var wb := WrittenWorkbook(cells, sheets); LoadCells(wb.cellsSheet) == cells
    ensures var m := LoadLaminates(WrittenWorkbook(cells, sheets).sheets);
      forall i :: 0 <= i < |laminates| ==> laminates[i].name in m && m[laminates[i].name] == Stored(laminates[i])
    ensures var m := LoadLaminates(WrittenWorkbook(cells, sheets).sheets);
      forall k :: k in m ==> exists i :: 0 <= i < |laminates| && laminates[i].name == k
  {
    CellsRoundTrip(cells);
    var rs := WrittenWorkbook(cells, sheets).sheets;
    var found := SheetResults(rs);
    forall i | 0 <= i < |found| ensures found[i] == Some(Stored(laminates[i])) {
      SheetReadBack(laminates[i], sheets[i].name);
    }
    forall i | 0 <= i < |laminates|
      ensures laminates[i].name in Store(found) && Store(found)[laminates[i].name] == Stored(laminates[i])
    {
      LastFoundWins(found, i);
    }
    StoredUnderOwnName(found);
    forall k | k in Store(found) ensures exists i :: 0 <= i < |laminates| && laminates[i].name == k {
      var i :| 0 <= i < |found| && found[i] == Some(Store(found)[k]);
      assert laminates[i].name == Stored(laminates[i]).name == k;
    }
  }
}

=== FILE: labels.dfy ===
// Sequence and ply labels of the stacking table (gridlamedit/io/spreadsheet.py,
// StackingTableModel._LABEL_PATTERN and the helpers that use it).
//
// The pattern is  ^(prefix: [A-Za-z][A-Za-z0-9_-]*) \.? (number: \d+)$ .
// A match is described by where the prefix ends (`p`) and whether a dot
// follows it. Python's backtracking tries the longest prefix first, so for
// an undotted label the greedy prefix swallows every digit but the last:
// "Seq10" matches with prefix "Seq1" and number 0 and is then rejected.
// `MatchLabelAsWritten` is that behaviour; `MatchLabel` is the evidently
// intended one (the number is the whole trailing digit run), and it is the
// one the table model uses.
module StackingLabels {
  import opened Wrappers
  import opened Text

  predicate IsPrefixChar(c: char)
  {
    IsLetter(c) || IsDigit(c) || c == '_' || c == '-'
  }

  predicate PrefixCharsBetween(t: string, lo: nat, hi: nat)
    requires lo <= hi <= |t|
  {
    forall k :: lo <= k < hi ==> IsPrefixChar(t[k])
  }

  /** A prefix the pattern accepts: a letter followed by letters, digits, '_' or '-'. */
  predicate ValidPrefix(prefix: string)
  {
    |prefix| >= 1 && IsLetter(prefix[0]) && PrefixCharsBetween(prefix, 1, |prefix|)
  }

  /** The pattern matches t with the prefix t[..p], a dot at t[p] iff `dotted`, and digits after. */
  predicate MatchesAt(t: string, p: nat, dotted: bool)
  {
    1 <= p < |t| && ValidPrefix(t[..p]) &&
    if dotted then t[p] == '.' && p + 1 < |t| && AllDigits(t[p + 1..])
    else AllDigits(t[p..])
  }

  datatype LabelMatch = LabelMatch(p: nat, dotted: bool)

  /** The end of the run of prefix characters that starts at i. */
  function PrefixEnd(t: string, i: nat): (r: nat)
    requires i <= |t|
    ensures i <= r <= |t| && PrefixCharsBetween(t, i, r)
    ensures r == |t| || !IsPrefixChar(t[r])
    decreases |t| - i
  {
    if i < |t| && IsPrefixChar(t[i]) then PrefixEnd(t, i + 1) else i
  }

  /** Where the run of digits that ends the text starts. */
  function DigitRunStart(t: string, j: nat): (r: nat)
    requires j <= |t| && AllDigits(t[j..])
    ensures r <= j && AllDigits(t[r..])
    ensures r == 0 || !IsDigit(t[r - 1])
  {
    if j > 0 && IsDigit(t[j - 1]) then
      assert t[j - 1..] == [t[j - 1]] + t[j..];
      DigitRunStart(t, j - 1)
    else j
  }

  function MatchPrefix(t: string, m: LabelMatch): string
    requires m.p <= |t|
  {
    t[..m.p]
  }

  function MatchDigits(t: string, m: LabelMatch): string
    requires m.p < |t|
  {
    if m.dotted then t[m.p + 1..] else t[m.p..]
  }

  /** _LABEL_PATTERN.fullmatch(t) as Python's backtracking finds it: longest prefix first. */
  function MatchLabelAsWritten(t: string): (r: Option<LabelMatch>)
    ensures r.Some? ==> MatchesAt(t, r.value.p, r.value.dotted)
  {
    if t == [] || !IsLetter(t[0]) then None
    else
      var m := PrefixEnd(t, 1);
      if m < |t| then
        if t[m] == '.' && m + 1 < |t| && AllDigits(t[m + 1..]) then Some(LabelMatch(m, true)) else None
      else if |t| >= 2 && IsDigit(t[|t| - 1]) then Some(LabelMatch(|t| - 1, false))
      else None
  }

  /** The corrected matcher: the number is the whole run of digits that ends the text. */
  function MatchLabel(t: string): (r: Option<LabelMatch>)
    ensures r.Some? ==> MatchesAt(t, r.value.p, r.value.dotted)
    ensures r.Some? && !r.value.dotted ==> !IsDigit(t[r.value.p - 1])
  {
    if t == [] || !IsLetter(t[0]) then None
    else
      var d := DigitRunStart(t, |t|);
      if d == |t| then None
      else if t[d - 1] == '.' then
        if d >= 2 && PrefixCharsBetween(t, 1, d - 1) then Some(LabelMatch(d - 1, true)) else None
      else if PrefixCharsBetween(t, 1, d) then Some(LabelMatch(d, false))
      else None
  }

  lemma PrefixCharsOf(t: string, q: nat)
    requires 1 <= q <= |t| && ValidPrefix(t[..q])
    ensures IsLetter(t[0]) && PrefixCharsBetween(t, 1, q)
  {
    assert t[..q][0] == t[0];
    forall k | 1 <= k < q ensures IsPrefixChar(t[k]) {
      assert t[..q][k] == t[k];
    }
  }

  lemma MatchedDigits(t: string, q: nat, dotted: bool)
    requires MatchesAt(t, q, dotted)
    ensures forall k :: (if dotted then q + 1 else q) <= k < |t| ==> IsDigit(t[k])
  {
    var from := if dotted then q + 1 else q;
    forall k | from <= k < |t| ensures IsDigit(t[k]) {
      assert t[from..][k - from] == t[k];
    }
  }

  lemma {:induction false} PrefixEndCovers(t: string, i: nat, q: nat)
    requires i <= q <= |t| && PrefixCharsBetween(t, i, q)
    ensures q <= PrefixEnd(t, i)
    decreases q - i
  {
    if i < q {
      PrefixEndCovers(t, i + 1, q);
    }
  }

  lemma {:induction false} DigitRunCovers(t: string, j: nat, k: nat)
    requires k <= j <= |t| && AllDigits(t[j..]) && AllDigits(t[k..])
    ensures DigitRunStart(t, j) <= k
    decreases j
  {
    if j > k {
      assert t[k..][j - 1 - k] == t[j - 1];
      assert t[j - 1..] == [t[j - 1]] + t[j..];
      DigitRunCovers(t, j - 1, k);
    }
  }

  /** The match the greedy pattern picks is the one with the longest prefix, a dot preferred. */
  lemma MatchLabelAsWrittenIsGreedy(t: string)
    ensures MatchLabelAsWritten(t).None? ==> forall q: nat, d: bool :: !MatchesAt(t, q, d)
    ensures MatchLabelAsWritten(t).Some? ==>
      var m := MatchLabelAsWritten(t).value;
      (forall q: nat, d: bool :: m.p < q ==> !MatchesAt(t, q, d)) && (!m.dotted ==> !MatchesAt(t, m.p, true))
  {
    if t != [] && IsLetter(t[0]) {
      var m := PrefixEnd(t, 1);
      forall q: nat, d: bool | MatchesAt(t, q, d)
        ensures q <= m && (!d ==> m == |t| && IsDigit(t[|t| - 1]))
      {
        PrefixCharsOf(t, q);
        PrefixEndCovers(t, 1, q);
        MatchedDigits(t, q, d);
        if !d {
          PrefixEndCovers(t, 1, |t|);
        }
      }
    }
  }

  /** The corrected matcher picks the shortest prefix, so the number keeps all its digits. */
  lemma MatchLabelIsLazy(t: string)
    ensures MatchLabel(t).None? ==> forall q: nat, d: bool :: !MatchesAt(t, q, d)
    ensures MatchLabel(t).Some? ==> forall q: nat, d: bool :: q < MatchLabel(t).value.p ==> !MatchesAt(t, q, d)
  {
    if t != [] && IsLetter(t[0]) {
      var d := DigitRunStart(t, |t|);
      forall q: nat, e: bool | MatchesAt(t, q, e)
        ensures d <= (if e then q + 1 else q) && PrefixCharsBetween(t, 1, q)
      {
        PrefixCharsOf(t, q);
        MatchedDigits(t, q, e);
        DigitRunCovers(t, |t|, if e then q + 1 else q);
      }
    }
  }

  // ---------------------------------------------------------------- normalising an edited label

  /** The label rebuilt from a match: prefix, "." when the text has one, and int(number); number 0 is refused. */
  function LabelFromMatch(t: string, m: LabelMatch): Option<string>
    requires MatchesAt(t, m.p, m.dotted)
  {
    var n := ParseNat(MatchDigits(t, m));
    if n <= 0 then None
    else Some(t[..m.p] + (if HasChar(t, '.') then "." else "") + NatToString(n))
  }

  /** _normalize_sequence_input / _normalize_ply_input as written; blank text gives the row's default label. */
  function NormalizeLabelInputAsWritten(value: string, default: string): Option<string>
  {
    var t := Trim(value);
    if t == [] then Some(default)
    else match MatchLabelAsWritten(t)
      case None => None
      case Some(m) => LabelFromMatch(t, m)
  }

  /** The same normalisation over the corrected matcher. */
  function NormalizeLabelInput(value: string, default: string): Option<string>
  {
    var t := Trim(value);
    if t == [] then Some(default)
    else match MatchLabel(t)
      case None => None
      case Some(m) => LabelFromMatch(t, m)
  }

  // ---------------------------------------------------------------- numbering style of a column

  /** How a column numbers its labels: `prefix + sep + str(n)`. */
  datatype LabelStyle = LabelStyle(prefix: string, sep: string)

  /** A style whose labels the corrected matcher reads back: a dot, or a prefix not ending in a digit. */
  predicate WellFormedStyle(st: LabelStyle)
  {
    ValidPrefix(st.prefix) &&
    (st.sep == "." || (st.sep == "" && !IsDigit(st.prefix[|st.prefix| - 1])))
  }

  function LabelFor(st: LabelStyle, n: nat): string
  {
    st.prefix + st.sep + NatToString(n)
  }

  /**
   * _prefix_and_separator: the style of the first label that matches the
   * pattern; the default prefix with "." when none does.
   */
  function LabelStyleOf(labels: seq<string>, defaultPrefix: string): (r: LabelStyle)
    ensures ValidPrefix(defaultPrefix) && !IsDigit(defaultPrefix[|defaultPrefix| - 1]) ==> WellFormedStyle(r)
  {
    if labels == [] then LabelStyle(defaultPrefix, ".")
    else
      var t := Trim(labels[0]);
      match MatchLabel(t)
      case None => LabelStyleOf(labels[1..], defaultPrefix)
      case Some(m) =>
        MatchStyleWellFormed(t, m);
        MatchStyle(t, m)
  }

  /** The style a matched label is written in: its prefix, and "." when the text has a dot. */
  function MatchStyle(t: string, m: LabelMatch): LabelStyle
    requires m.p <= |t|
  {
    LabelStyle(t[..m.p], if HasChar(t, '.') then "." else "")
  }

  lemma MatchStyleWellFormed(t: string, m: LabelMatch)
    requires MatchLabel(t) == Some(m)
    ensures WellFormedStyle(MatchStyle(t, m))
    ensures HasChar(t, '.') <==> m.dotted
  {
    assert MatchesAt(t, m.p, m.dotted);
    assert m.dotted ==> HasChar(t, '.') by {
      if m.dotted {
        assert t[m.p] == '.';
      }
    }
    assert !m.dotted ==> !HasChar(t, '.') by {
      if !m.dotted {
        PrefixCharsOf(t, m.p);
        MatchedDigits(t, m.p, false);
      }
    }
    assert t[..m.p][m.p - 1] == t[m.p - 1];
  }

  /** _default_sequence_label / _default_ply_label for `row`. */
  function DefaultLabel(labels: seq<string>, defaultPrefix: string, row: nat): string
  {
    LabelFor(LabelStyleOf(labels, defaultPrefix), row + 1)
  }

  /** `LabelFor(st, n)` is the prefix, then the separator, then the digits of n. */
  lemma LabelForParts(st: LabelStyle, n: nat)
    ensures var t := LabelFor(st, n);
      var d := |st.prefix| + |st.sep|;
      |t| == d + |NatToString(n)| && t[..|st.prefix|] == st.prefix && t[d..] == NatToString(n)
  {
    var t := LabelFor(st, n);
    var d := |st.prefix| + |st.sep|;
    assert t[..|st.prefix|] == st.prefix;
    assert t[d..] == NatToString(n);
  }

  /** The character just before the digits is the dot, or a prefix character that is not a digit. */
  lemma LabelForSeparator(st: LabelStyle, n: nat)
    requires WellFormedStyle(st)
    ensures var t := LabelFor(st, n);
      var d := |st.prefix| + |st.sep|;
      1 <= d < |t| && !IsDigit(t[d - 1]) && (t[d - 1] == '.' <==> st.sep == ".")
  {
    var t := LabelFor(st, n);
    var d := |st.prefix| + |st.sep|;
    LabelForParts(st, n);
    if st.sep == "." {
      assert t[d - 1] == '.';
    } else {
      assert t[d - 1] == st.prefix[|st.prefix| - 1];
      assert IsPrefixChar(st.prefix[|st.prefix| - 1]) || |st.prefix| == 1;
    }
  }

  lemma LabelForEnds(st: LabelStyle, n: nat)
    requires WellFormedStyle(st)
    ensures var t := LabelFor(st, n); IsLetter(t[0]) && IsDigit(t[|t| - 1])
  {
    var t := LabelFor(st, n);
    LabelForParts(st, n);
    assert t[0] == st.prefix[0];
    assert t[|t| - 1] == NatToString(n)[|NatToString(n)| - 1];
  }

  /** The label has a dot exactly when the style's separator is one. */
  lemma LabelForDot(st: LabelStyle, n: nat)
    requires WellFormedStyle(st)
    ensures HasChar(LabelFor(st, n), '.') <==> st.sep == "."
  {
    var t := LabelFor(st, n);
    var d := |st.prefix| + |st.sep|;
    LabelForParts(st, n);
    if st.sep == "." {
      assert t[d - 1] == '.';
    } else {
      forall k | 0 <= k < |t| ensures t[k] != '.' {
        if k < |st.prefix| {
          assert t[k] == st.prefix[k];
        } else {
          assert t[k] == NatToString(n)[k - d];
        }
      }
    }
  }

  lemma LabelForTrimmed(st: LabelStyle, n: nat)
    requires WellFormedStyle(st)
    ensures Trim(LabelFor(st, n)) == LabelFor(st, n)
  {
    LabelForEnds(st, n);
    TrimOfTrimmed(LabelFor(st, n));
  }

  /** The digit run that ends a label starts right after the separator. */
  lemma LabelForDigitRun(st: LabelStyle, n: nat)
    requires WellFormedStyle(st)
    ensures var t := LabelFor(st, n); DigitRunStart(t, |t|) == |st.prefix| + |st.sep|
  {
    var t := LabelFor(st, n);
    var d := |st.prefix| + |st.sep|;
    LabelForParts(st, n);
    LabelForSeparator(st, n);
    assert t[|t|..] == [];
    DigitRunCovers(t, |t|, d);
  }

  lemma LabelForPrefixChars(st: LabelStyle, n: nat)
    requires WellFormedStyle(st)
    ensures PrefixCharsBetween(LabelFor(st, n), 1, |st.prefix|)
  {
    var t := LabelFor(st, n);
    LabelForParts(st, n);
    forall k | 1 <= k < |st.prefix| ensures IsPrefixChar(t[k]) {
      assert t[k] == st.prefix[k];
    }
  }

  function StyleMatch(st: LabelStyle): LabelMatch
  {
    if st.sep == "." then LabelMatch(|st.prefix|, true) else LabelMatch(|st.prefix|, false)
  }

  lemma MatchOfLabelFor(st: LabelStyle, n: nat)
    requires WellFormedStyle(st)
    ensures MatchLabel(LabelFor(st, n)) == Some(StyleMatch(st))
  {
    LabelForEnds(st, n);
    LabelForSeparator(st, n);
    LabelForDigitRun(st, n);
    LabelForPrefixChars(st, n);
  }

  lemma MatchDigitsOfLabelFor(st: LabelStyle, n: nat)
    requires WellFormedStyle(st)
    ensures StyleMatch(st).p < |LabelFor(st, n)|
    ensures MatchDigits(LabelFor(st, n), StyleMatch(st)) == NatToString(n)
  {
    LabelForParts(st, n);
  }

  lemma MatchStyleOfLabelFor(st: LabelStyle, n: nat)
    requires WellFormedStyle(st)
    ensures MatchStyle(LabelFor(st, n), StyleMatch(st)) == st
  {
    LabelForParts(st, n);
    LabelForDot(st, n);
  }

  /** A label numbered in a well-formed style normalises to itself (the corrected matcher reads back n). */
  lemma LabelRoundTrip(st: LabelStyle, n: nat, default: string)
    requires WellFormedStyle(st) && n >= 1
    ensures NormalizeLabelInput(LabelFor(st, n), default) == Some(LabelFor(st, n))
  {
    LabelForTrimmed(st, n);
    LabelForEnds(st, n);
    MatchOfLabelFor(st, n);
    LabelFromMatchOfLabelFor(st, n);
  }

  lemma LabelFromMatchOfLabelFor(st: LabelStyle, n: nat)
    requires WellFormedStyle(st) && n >= 1
    ensures MatchesAt(LabelFor(st, n), StyleMatch(st).p, StyleMatch(st).dotted)
    ensures LabelFromMatch(LabelFor(st, n), StyleMatch(st)) == Some(LabelFor(st, n))
  {
    var t := LabelFor(st, n);
    var m := StyleMatch(st);
    MatchOfLabelFor(st, n);
    MatchDigitsOfLabelFor(st, n);
    MatchStyleOfLabelFor(st, n);
    ParseNatToString(n);
    var prefix := t[..m.p];
    var sep := if HasChar(t, '.') then "." else "";
    assert prefix == st.prefix && sep == st.sep;
    assert ParseNat(MatchDigits(t, m)) == n;
  }

  /** A label the corrected normalisation produced from a non-blank text normalises to itself. */
  lemma NormalizeLabelIdempotent(value: string, default: string, default2: string)
    requires Trim(value) != [] && NormalizeLabelInput(value, default).Some?
    ensures var l := NormalizeLabelInput(value, default).value;
      NormalizeLabelInput(l, default2) == Some(l)
  {
    var t := Trim(value);
    var m := MatchLabel(t).value;
    MatchStyleWellFormed(t, m);
    var n := ParseNat(MatchDigits(t, m));
    assert NormalizeLabelInput(value, default).value == LabelFor(MatchStyle(t, m), n);
    LabelRoundTrip(MatchStyle(t, m), n, default2);
  }

  /** The greedy matcher refuses every undotted label whose number ends in 0, such as "Seq10". */
  lemma AsWrittenRejectsTrailingZero(st: LabelStyle, n: nat, default: string)
    requires ValidPrefix(st.prefix) && st.sep == "" && n >= 10 && n % 10 == 0
    ensures NormalizeLabelInputAsWritten(LabelFor(st, n), default) == None
  {
    var t := LabelFor(st, n);
    AsWrittenTakesAllButLast(st, n);
    LastDigitZero(st, n);
    LastZeroRefused(t);
  }

  lemma LastDigitZero(st: LabelStyle, n: nat)
    requires n >= 10 && n % 10 == 0
    ensures var t := LabelFor(st, n); |t| >= 2 && t[|t| - 1] == '0'
  {
    var digits := NatToString(n);
    assert digits[|digits| - 1] == '0';
    LabelForParts(st, n);
  }

  /** A number matched as the single digit 0 is refused. */
  lemma LastZeroRefused(t: string)
    requires |t| >= 2 && MatchesAt(t, |t| - 1, false) && t[|t| - 1] == '0'
    ensures LabelFromMatch(t, LabelMatch(|t| - 1, false)) == None
  {
    var digits := MatchDigits(t, LabelMatch(|t| - 1, false));
    assert digits == [t[|t| - 1]];
    assert digits[..0] == [];
    assert ParseNat(digits) == 0;
  }

  /** On an undotted label the greedy prefix swallows every digit but the last. */
  lemma AsWrittenTakesAllButLast(st: LabelStyle, n: nat)
    requires ValidPrefix(st.prefix) && st.sep == "" && n >= 10
    ensures var t := LabelFor(st, n);
      Trim(t) == t && MatchLabelAsWritten(t) == Some(LabelMatch(|t| - 1, false)) && MatchesAt(t, |t| - 1, false)
  {
    var t := LabelFor(st, n);
    var digits := NatToString(n);
    assert IsDigit(digits[|digits| - 1]);
    assert t[|t| - 1] == digits[|digits| - 1];
    assert IsLetter(t[0]) && !IsSpace(t[0]);
    TrimOfTrimmed(t);
    forall k | 1 <= k < |t| ensures IsPrefixChar(t[k]) {
      if k < |st.prefix| {
        assert t[k] == st.prefix[k];
      } else {
        assert t[k] == digits[k - |st.prefix|];
      }
    }
    PrefixEndCovers(t, 1, |t|);
  }

  /** The concrete case: "Seq10" is refused as written and kept by the corrected normalisation. */
  lemma Seq10Example(default: string)
    ensures NormalizeLabelInputAsWritten("Seq10", default) == None
    ensures NormalizeLabelInput("Seq10", default) == Some("Seq10")
  {
    var st := LabelStyle("Seq", "");
    assert NatToString(10) == "10";
    assert LabelFor(st, 10) == "Seq10";
    AsWrittenRejectsTrailingZero(st, 10, default);
    LabelRoundTrip(st, 10, default);
  }
  // ---------------------------------------------------------------- the style as written

  /**
   * _prefix_and_separator as written: the style of the first label the greedy
   * pattern matches, so an undotted "Seq10" lends the prefix "Seq1".
   */
  function LabelStyleOfAsWritten(labels: seq<string>, defaultPrefix: string): (r: LabelStyle)
    ensures ValidPrefix(defaultPrefix) ==> ValidPrefix(r.prefix)
  {
    if labels == [] then LabelStyle(defaultPrefix, ".")
    else
      var t := Trim(labels[0]);
      match MatchLabelAsWritten(t)
      case None => LabelStyleOfAsWritten(labels[1..], defaultPrefix)
      case Some(m) =>
        assert MatchesAt(t, m.p, m.dotted);
        MatchStyle(t, m)
  }

  /**
   * When the first label is undotted and numbered 10 or more, the greedy style
   * takes all its digits but the last into the prefix; the corrected style is
   * the column's own.
   */
  lemma AsWrittenStyleOfNumbered(st: LabelStyle, n: nat, rest: seq<string>, defaultPrefix: string)
    requires WellFormedStyle(st) && st.sep == "" && n >= 10
    ensures var t := LabelFor(st, n);
      LabelStyleOfAsWritten([t] + rest, defaultPrefix) == LabelStyle(t[..|t| - 1], "") &&
      LabelStyleOf([t] + rest, defaultPrefix) == st &&
      |st.prefix| < |t| - 1
  {
    var t := LabelFor(st, n);
    var labels := [t] + rest;
    assert labels[0] == t;
    AsWrittenTakesAllButLast(st, n);
    LabelForTrimmed(st, n);
    LabelForDot(st, n);
    MatchOfLabelFor(st, n);
    MatchStyleOfLabelFor(st, n);
    LabelForParts(st, n);
    assert |NatToString(n)| >= 2 by {
      assert NatToString(n) == NatToString(n / 10) + [DigitChar(n % 10)];
    }
  }

  /**
   * Rows labelled Seq10, Seq11, Seq12 renumber from "Seq11" as written and
   * from "Seq1" in the corrected style.
   */
  lemma Seq10StyleExample(labels: seq<string>)
    requires labels == ["Seq10", "Seq11", "Seq12"]
    ensures LabelStyleOfAsWritten(labels, "Seq") == LabelStyle("Seq1", "")
    ensures LabelFor(LabelStyleOfAsWritten(labels, "Seq"), 1) == "Seq11"
    ensures LabelStyleOf(labels, "Seq") == LabelStyle("Seq", "")
    ensures LabelFor(LabelStyleOf(labels, "Seq"), 1) == "Seq1"
  {
    var st := LabelStyle("Seq", "");
    SeqLabels();
    assert labels == [LabelFor(st, 10)] + labels[1..];
    AsWrittenStyleOfNumbered(st, 10, labels[1..], "Seq");
  }

  lemma SeqLabels()
    ensures LabelFor(LabelStyle("Seq", ""), 10) == "Seq10" && "Seq10"[..4] == "Seq1"
    ensures LabelFor(LabelStyle("Seq1", ""), 1) == "Seq11" && LabelFor(LabelStyle("Seq", ""), 1) == "Seq1"
  {
    assert NatToString(10) == "10";
    assert NatToString(1) == "1";
  }
}

=== FILE: laminate.dfy ===
// gridlamedit/app/models/laminate.py and layer.py: a laminate owns an
// ordered list of layers whose `index` field always follows the position.
module Laminates {
  import opened Wrappers
  import opened Seqs

  datatype Layer = Layer(index: int, material: string, angleDeg: int, active: bool)

  /** _reindex_layers applied to a list: each layer's index becomes its position. */
  function Reindexed(s: seq<Layer>): (r: seq<Layer>)
    ensures |r| == |s|
    ensures forall i :: 0 <= i < |s| ==> r[i] == s[i].(index := i)
  {
    seq(|s|, i requires 0 <= i < |s| => s[i].(index := i))
  }

  predicate IndexesFollowPositions(s: seq<Layer>)
  {
    forall i :: 0 <= i < |s| ==> s[i].index == i
  }

  /** Two layer lists that differ at most in the index fields. */
  predicate SameUpToIndex(s: seq<Layer>, t: seq<Layer>)
  {
    |s| == |t| && forall i :: 0 <= i < |s| ==> s[i].(index := 0) == t[i].(index := 0)
  }

  lemma ReindexedRespectsSameUpToIndex(s: seq<Layer>, t: seq<Layer>)
    requires SameUpToIndex(s, t)
    ensures Reindexed(s) == Reindexed(t)
  {
    forall i | 0 <= i < |s| ensures Reindexed(s)[i] == Reindexed(t)[i] {
      assert s[i].(index := 0) == t[i].(index := 0);
    }
  }

  /** Reindexing a list makes every index its position and changes nothing else. */
  lemma ReindexedFollowsPositions(s: seq<Layer>)
    ensures IndexesFollowPositions(Reindexed(s))
    ensures SameUpToIndex(Reindexed(s), s)
  {
  }

  lemma {:induction false} MoveToReindexed(s: seq<Layer>, a: nat, b: nat)
    requires a < |s| && b < |s|
    ensures SameUpToIndex(MoveTo(Reindexed(s), a, b), MoveTo(s, a, b))
  {
    var r := Reindexed(s);
    forall i | 0 <= i < |s|
      ensures MoveTo(r, a, b)[MovedIndex(i, a, b)].(index := 0) == MoveTo(s, a, b)[MovedIndex(i, a, b)].(index := 0)
    {
      MoveToFollows(r, a, b, i);
      MoveToFollows(s, a, b, i);
    }
    forall k | 0 <= k < |s|
      ensures MoveTo(r, a, b)[k].(index := 0) == MoveTo(s, a, b)[k].(index := 0)
    {
      var i := MovedIndex(k, b, a);
      MoveToFollows(s, b, a, k);
      assert MovedIndex(i, a, b) == k;
    }
  }

  /** move_layer(a, b) followed by move_layer(b, a) gives back the original layers. */
  lemma MoveLayerUndo(s: seq<Layer>, a: nat, b: nat)
    requires a < |s| && b < |s|
    ensures Reindexed(MoveTo(Reindexed(MoveTo(s, a, b)), b, a)) == Reindexed(s)
  {
    var m := MoveTo(s, a, b);
    MoveToReindexed(m, b, a);
    ReindexedRespectsSameUpToIndex(MoveTo(Reindexed(m), b, a), MoveTo(m, b, a));
    MoveBack(s, a, b);
  }

  /** add_layer(x, p) followed by remove_layer(p) gives back the original layers. */
  lemma AddThenRemoveLayer(s: seq<Layer>, p: nat, x: Layer)
    requires p <= |s|
    ensures Reindexed(RemoveAt(Reindexed(InsertAt(s, p, x)), p)) == Reindexed(s)
  {
    var ins := InsertAt(s, p, x);
    var r := Reindexed(ins);
    assert SameUpToIndex(RemoveAt(r, p), RemoveAt(ins, p)) by {
      forall k | 0 <= k < |s| ensures RemoveAt(r, p)[k].(index := 0) == RemoveAt(ins, p)[k].(index := 0) {
        var j := if k < p then k else k + 1;
        assert RemoveAt(r, p)[k] == r[j] && RemoveAt(ins, p)[k] == ins[j];
      }
    }
    ReindexedRespectsSameUpToIndex(RemoveAt(r, p), RemoveAt(ins, p));
    RemoveAfterInsert(s, p, x);
  }

  class Laminate {
    var name: string
    var color: string
    var kind: string
    var layers: seq<Layer>
    var associatedCells: seq<string>
    var symmetryIndex: Option<int>

    constructor (name: string, color: string, kind: string)
      ensures this.name == name && this.color == color && this.kind == kind
      ensures layers == [] && associatedCells == [] && symmetryIndex == None
    {
      this.name := name;
      this.color := color;
      this.kind := kind;
      layers := [];
      associatedCells := [];
      symmetryIndex := None;
    }

    /** _reindex_layers */
    method ReindexLayers()
      modifies this`layers
      ensures layers == Reindexed(old(layers))
    {
      var i := 0;
      while i < |layers|
        invariant 0 <= i <= |layers| == |old(layers)|
        invariant forall k :: 0 <= k < i ==> layers[k] == old(layers)[k].(index := k)
        invariant forall k :: i <= k < |layers| ==> layers[k] == old(layers)[k]
      {
        layers := layers[i := layers[i].(index := i)];
        i := i + 1;
      }
    }

    /** add_layer: append when pos is None, otherwise insert at 0 <= pos <= len. */
    method AddLayer(layer: Layer, pos: Option<int>) returns (ok: bool)
      modifies this`layers
      ensures ok <==> pos.None? || 0 <= pos.value <= |old(layers)|
      ensures ok && pos.None? ==> layers == Reindexed(old(layers) + [layer])
      ensures ok && pos.Some? ==> layers == Reindexed(InsertAt(old(layers), pos.value, layer))
      ensures !ok ==> layers == old(layers)
      ensures IndexesFollowPositions(layers) || !ok
    {
      if pos.None? {
        layers := layers + [layer];
      } else {
        if pos.value < 0 || pos.value > |layers| {
          return false;
        }
        layers := InsertAt(layers, pos.value, layer);
      }
      ReindexLayers();
      ok := true;
    }

    /** remove_layer: delete the layer at 0 <= pos < len. */
    method RemoveLayer(pos: int) returns (ok: bool)
      modifies this`layers
      ensures ok <==> 0 <= pos < |old(layers)|
      ensures ok ==> layers == Reindexed(RemoveAt(old(layers), pos))
      ensures !ok ==> layers == old(layers)
    {
      if pos < 0 || pos >= |layers| {
        return false;
      }
      layers := RemoveAt(layers, pos);
      ReindexLayers();
      ok := true;
    }

    /** move_layer: pop the layer at src and insert it at dst; a move onto itself changes nothing. */
    method MoveLayer(src: int, dst: int) returns (ok: bool)
      modifies this`layers
      ensures ok <==> 0 <= src < |old(layers)| && 0 <= dst < |old(layers)|
      ensures ok && src != dst ==> layers == Reindexed(MoveTo(old(layers), src, dst))
      ensures !ok || src == dst ==> layers == old(layers)
    {
      if src < 0 || src >= |layers| || dst < 0 || dst >= |layers| {
        return false;
      }
      if src == dst {
        return true;
      }
      layers := MoveTo(layers, src, dst);
      ReindexLayers();
      ok := true;
    }

    /** duplicate_layer: insert a copy of the layer at pos right after it. */
    method DuplicateLayer(pos: int) returns (ok: bool)
      modifies this`layers
      ensures ok <==> 0 <= pos < |old(layers)|
      ensures ok ==> layers == Reindexed(InsertAt(old(layers), pos + 1, old(layers)[pos]))
      ensures ok ==> layers[pos + 1] == layers[pos].(index := pos + 1)
      ensures !ok ==> layers == old(layers)
    {
      if pos < 0 || pos >= |layers| {
        return false;
      }
      var clone := layers[pos];
      layers := InsertAt(layers, pos + 1, clone);
      ReindexLayers();
      ok := true;
    }

    /** set_symmetry_index: stored as given, without validation. */
    method SetSymmetryIndex(pos: Option<int>)
      modifies this`symmetryIndex
      ensures symmetryIndex == pos
    {
      symmetryIndex := pos;
    }
  }
}

=== FILE: laminate_checks.dfy ===
// The checks run before export (gridlamedit/services/laminate_checks.py):
// whether each laminate's structural plies read the same from both ends,
// and which laminates share one stacking, type and colour.
module LaminateChecks {
  import opened Wrappers
  import opened Text
  import opened Seqs
  import opened Sorting
  import opened OrderedMaps
  import opened GridModels
  import opened GridUiBinding

  /** PLY_TYPE_OPTIONS lower-cased: STRUCTURAL_LABEL and the other member of PLY_TYPE_TOKENS. */
  const StructuralLabel: string := "considerar"
  const NonStructuralLabel: string := "n\U{E3}o considerar"

  lemma PlyLabelsLowered()
    ensures Lower(Structural) == StructuralLabel
    ensures Lower(NonStructural) == NonStructuralLabel
  {
  }

  // ---------------------------------------------------------------- symmetry

  /** _is_structural: the stripped, lower-cased ply type is the structural label. */
  predicate IsStructural(c: Camada)
  {
    Lower(Trim(c.plyType)) == StructuralLabel
  }

  /** _normalize_material: the words of the text, upper-cased, one space apart. */
  function NormalizeMaterial(s: string): string
  {
    Upper(Collapse(s))
  }

  /** Normalising a material twice changes nothing more. */
  lemma NormalizeMaterialIdempotent(s: string)
    ensures NormalizeMaterial(NormalizeMaterial(s)) == NormalizeMaterial(s)
  {
    UpperKeepsSpaces();
    CollapseMap(UpperChar, Collapse(s));
    CollapseIdempotent(s);
    UpperIdempotent(Collapse(s));
  }

  /** Spelling that differs only in case and spacing normalises alike. */
  lemma NormalizeMaterialIgnoresCaseAndSpacing(s: string)
    ensures NormalizeMaterial(Lower(s)) == NormalizeMaterial(s)
    ensures NormalizeMaterial(JoinSpace(Words(s))) == NormalizeMaterial(s)
  {
    LowerKeepsSpaces();
    CollapseMap(LowerChar, s);
    CollapseIdempotent(s);
    var c := Collapse(s);
    assert Upper(Lower(c)) == Upper(c) by {
      forall i | 0 <= i < |c| ensures UpperChar(LowerChar(c[i])) == UpperChar(c[i]) {
      }
    }
  }

  /** What _layers_match compares: the normalised material and orientation. */
  function LayerKey(c: Camada): MirrorKey
  {
    MirrorKey(NormalizeMaterial(c.material), OrientationToken(c.orientacao))
  }

  /** The structural layers, in stacking order. */
  function StructuralLayers(layers: seq<Camada>): (r: seq<Camada>)
    ensures forall c :: c in r <==> c in layers && IsStructural(c)
  {
    Filter(layers, IsStructural)
  }

  function LayerKeys(layers: seq<Camada>): (r: seq<MirrorKey>)
    ensures |r| == |layers| && forall k {:trigger r[k]} :: 0 <= k < |layers| ==> r[k] == LayerKey(layers[k])
  {
    seq(|layers|, k requires 0 <= k < |layers| => LayerKey(layers[k]))
  }

  /** The keys of the structural stack, top to bottom. */
  function StackKeys(layers: seq<Camada>): seq<MirrorKey>
  {
    LayerKeys(StructuralLayers(layers))
  }

  /** A laminate is symmetric when its structural stack's keys read the same reversed. */
  predicate Symmetric(layers: seq<Camada>)
  {
    StackKeys(layers) == Reverse(StackKeys(layers))
  }

  /**
   * _is_laminate_symmetric: at most one structural layer is symmetric;
   * otherwise the i/j walk from both ends compares each pair of layers.
   */
  method IsLaminateSymmetric(laminado: Laminado) returns (symmetric: bool)
    ensures symmetric <==> Symmetric(laminado.camadas)
  {
    var structural := StructuralLayers(laminado.camadas);
    if |structural| <= 1 {
      FewStructuralSymmetric(laminado.camadas);
      return true;
    }
    var keys := LayerKeys(structural);
    symmetric := MirrorWalk(keys);
    MirroredIffReversed(keys);
  }

  /** A stack with at most one structural layer is symmetric. */
  lemma FewStructuralSymmetric(layers: seq<Camada>)
    requires |StructuralLayers(layers)| <= 1
    ensures Symmetric(layers)
  {
    ShortPalindrome(StackKeys(layers));
  }

  /** Layers that are not structural, wherever they sit, do not change the answer. */
  lemma NonStructuralIgnored(above: seq<Camada>, c: Camada, below: seq<Camada>)
    requires !IsStructural(c)
    ensures Symmetric(above + [c] + below) <==> Symmetric(above + below)
  {
    FilterAppend(above + [c], below, IsStructural);
    FilterAppend(above, [c], IsStructural);
    var none := Filter([c], IsStructural);
    assert none == [];
    assert Filter(above, IsStructural) + none == Filter(above, IsStructural);
    FilterAppend(above, below, IsStructural);
  }

  /** Turning a laminate upside down keeps it symmetric or not. */
  lemma FlippedSymmetric(layers: seq<Camada>)
    ensures Symmetric(Reverse(layers)) <==> Symmetric(layers)
  {
    FilterReverse(layers, IsStructural);
    var keys := StackKeys(layers);
    var flipped := StackKeys(Reverse(layers));
    assert flipped == Reverse(keys);
    if Symmetric(layers) {
      assert flipped == keys;
    }
    if Symmetric(Reverse(layers)) {
      assert keys == Reverse(flipped);
    }
  }

  // ---------------------------------------------------------------- check_symmetry

  datatype SymmetryResult = SymmetryResult(symmetric: seq<string>, notSymmetric: seq<string>)

  function LaminateNames(ls: seq<Laminado>): (r: seq<string>)
    ensures |r| == |ls| && forall i {:trigger r[i]} :: 0 <= i < |ls| ==> r[i] == ls[i].nome
  {
    seq(|ls|, i requires 0 <= i < |ls| => ls[i].nome)
  }

  /** Whether each laminate is symmetric, in list order. */
  function SymmetryFlags(ls: seq<Laminado>): (r: seq<bool>)
    ensures |r| == |ls| && forall i {:trigger r[i]} :: 0 <= i < |ls| ==> r[i] == Symmetric(ls[i].camadas)
  {
    seq(|ls|, i requires 0 <= i < |ls| => Symmetric(ls[i].camadas))
  }

  /** The elements whose flag is `want`, in order. */
  function Pick<T>(s: seq<T>, flags: seq<bool>, want: bool): seq<T>
    requires |s| == |flags|
  {
    if s == [] then []
    else
      var n := |s| - 1;
      Pick(s[..n], flags[..n], want) + (if flags[n] == want then [s[n]] else [])
  }

  lemma PickStep<T>(s: seq<T>, flags: seq<bool>, want: bool, i: nat)
    requires |s| == |flags| && i < |s|
    ensures Pick(s[..i + 1], flags[..i + 1], want) ==
      Pick(s[..i], flags[..i], want) + (if flags[i] == want then [s[i]] else [])
  {
    assert s[..i + 1][..i] == s[..i];
    assert flags[..i + 1][..i] == flags[..i];
  }

  /** The two picks split the elements between them. */
  lemma {:induction false} PickSplit<T>(s: seq<T>, flags: seq<bool>)
    requires |s| == |flags|
    ensures multiset(Pick(s, flags, true)) + multiset(Pick(s, flags, false)) == multiset(s)
  {
    if s != [] {
      var n := |s| - 1;
      PickSplit(s[..n], flags[..n]);
      assert s == s[..n] + [s[n]];
      assert multiset(s) == multiset(s[..n]) + multiset{s[n]};
    }
  }

  /** Each element lands on the side its flag decides. */
  lemma {:induction false} PickHolds<T>(s: seq<T>, flags: seq<bool>, i: nat)
    requires |s| == |flags| && i < |s|
    ensures s[i] in Pick(s, flags, flags[i])
  {
    var n := |s| - 1;
    if i < n {
      PickHolds(s[..n], flags[..n], i);
    }
  }

  /** The names of the laminates that are (or are not) symmetric, in list order. */
  function NamesBySymmetry(ls: seq<Laminado>, symmetric: bool): seq<string>
  {
    Pick(LaminateNames(ls), SymmetryFlags(ls), symmetric)
  }

  /** check_symmetry's result: both lists of names, each sorted. */
  function SymmetryReport(ls: seq<Laminado>): SymmetryResult
  {
    SymmetryResult(SortStrings(NamesBySymmetry(ls, true)), SortStrings(NamesBySymmetry(ls, false)))
  }

  /** check_symmetry */
  method CheckSymmetry(ls: seq<Laminado>) returns (r: SymmetryResult)
    ensures r == SymmetryReport(ls)
  {
    ghost var names, flags := LaminateNames(ls), SymmetryFlags(ls);
    var symmetric: seq<string> := [];
    var notSymmetric: seq<string> := [];
    for i := 0 to |ls|
      invariant symmetric == Pick(names[..i], flags[..i], true)
      invariant notSymmetric == Pick(names[..i], flags[..i], false)
    {
      PickStep(names, flags, true, i);
      PickStep(names, flags, false, i);
      var ok := IsLaminateSymmetric(ls[i]);
      if ok {
        symmetric := symmetric + [ls[i].nome];
      } else {
        notSymmetric := notSymmetric + [ls[i].nome];
      }
    }
    assert names[..|ls|] == names && flags[..|ls|] == flags;
    r := SymmetryResult(SortStrings(symmetric), SortStrings(notSymmetric));
  }

  /**
   * Every laminate name lands in exactly one of the two sorted lists (as
   * many times as it is carried), on the side its symmetry decides.
   */
  lemma SymmetryReportPartitions(ls: seq<Laminado>)
    ensures var r := SymmetryReport(ls);
      SortedBy(r.symmetric, StrLe) && SortedBy(r.notSymmetric, StrLe) &&
      multiset(r.symmetric) + multiset(r.notSymmetric) == multiset(LaminateNames(ls))
    ensures forall i :: 0 <= i < |ls| && Symmetric(ls[i].camadas) ==> ls[i].nome in SymmetryReport(ls).symmetric
    ensures forall i :: 0 <= i < |ls| && !Symmetric(ls[i].camadas) ==> ls[i].nome in SymmetryReport(ls).notSymmetric
  {
    var names, flags := LaminateNames(ls), SymmetryFlags(ls);
    PickSplit(names, flags);
    var r := SymmetryReport(ls);
    forall i | 0 <= i < |ls|
      ensures ls[i].nome in (if flags[i] then r.symmetric else r.notSymmetric)
    {
      PickHolds(names, flags, i);
      assert ls[i].nome in multiset(Pick(names, flags, flags[i]));
    }
  }

  // ---------------------------------------------------------------- signatures

  /**
   * The orientation part of a layer token: "none", or the whole angle with
   * its sign always written ("+45", "-45", "+0").
   */
  function OrientationText(o: Option<int>): string
  {
    match o
    case None => "none"
    case Some(a) => SignedToString(a)
  }

  /**
   * The orientation part as the source writes it: f"{orientation:+d}" on
   * the float normalize_angle returns raises ValueError, shown as None.
   */
  function OrientationTextAsWritten(o: Option<int>): Option<string>
  {
    match o
    case None => Some("none")
    case Some(_) => None
  }

  /** The ply part: the stripped, lower-cased ply type, or the structural label for any other. */
  function PlyToken(plyType: string): (r: string)
    ensures r == StructuralLabel || r == NonStructuralLabel
    ensures r == Lower(Trim(plyType)) || r == StructuralLabel
  {
    var t := Lower(Trim(plyType));
    if t == StructuralLabel || t == NonStructuralLabel then t else StructuralLabel
  }

  /** material@orientation@ply for one layer, given the orientation part. */
  function TokenWith(c: Camada, orientation: string): string
  {
    NormalizeMaterial(c.material) + "@" + orientation + "@" + PlyToken(c.plyType)
  }

  function LayerToken(c: Camada): string
  {
    TokenWith(c, OrientationText(OrientationToken(c.orientacao)))
  }

  function LayerTokens(layers: seq<Camada>): (r: seq<string>)
    ensures |r| == |layers| && forall k {:trigger r[k]} :: 0 <= k < |layers| ==> r[k] == LayerToken(layers[k])
  {
    seq(|layers|, k requires 0 <= k < |layers| => LayerToken(layers[k]))
  }

  const EmptyStacking: string := "stacking:empty"

  /** _stacking_signature, with the orientation written as a signed whole number. */
  function StackingSignature(layers: seq<Camada>): string
  {
    if layers == [] then EmptyStacking else JoinWith(";", LayerTokens(layers))
  }

  /** One layer's token as the source builds it; None where the format raises. */
  function LayerTokenAsWritten(c: Camada): Option<string>
  {
    match OrientationTextAsWritten(OrientationToken(c.orientacao))
    case None => None
    case Some(o) => Some(TokenWith(c, o))
  }

  /** Building a list element by element: None as soon as one element fails. */
  function AllSome<T>(s: seq<Option<T>>): Option<seq<T>>
  {
    if s == [] then Some([])
    else
      var n := |s| - 1;
      match AllSome(s[..n])
      case None => None
      case Some(init) => if s[n].None? then None else Some(init + [s[n].value])
  }

  lemma {:induction false} AllSomeFails<T>(s: seq<Option<T>>, i: nat)
    requires i < |s| && s[i].None?
    ensures AllSome(s).None?
  {
    var n := |s| - 1;
    if i < n {
      AllSomeFails(s[..n], i);
    }
  }

  lemma {:induction false} AllSomeValues<T>(s: seq<Option<T>>, values: seq<T>)
    requires |values| == |s| && forall i :: 0 <= i < |s| ==> s[i] == Some(values[i])
    ensures AllSome(s) == Some(values)
  {
    if s != [] {
      var n := |s| - 1;
      AllSomeValues(s[..n], values[..n]);
      assert values == values[..n] + [values[n]];
    }
  }

  function LayerTokensAsWritten(layers: seq<Camada>): (r: seq<Option<string>>)
    ensures |r| == |layers| && forall k {:trigger r[k]} :: 0 <= k < |layers| ==> r[k] == LayerTokenAsWritten(layers[k])
  {
    seq(|layers|, k requires 0 <= k < |layers| => LayerTokenAsWritten(layers[k]))
  }

  /** _stacking_signature as written; None where it raises. */
  function StackingSignatureAsWritten(layers: seq<Camada>): Option<string>
  {
    if layers == [] then Some(EmptyStacking)
    else
      match AllSome(LayerTokensAsWritten(layers))
      case None => None
      case Some(tokens) => Some(JoinWith(";", tokens))
  }

  /** As written, one layer with a valid orientation is enough to make the signature raise. */
  lemma AsWrittenRaisesOnOrientedLayer(layers: seq<Camada>, i: nat)
    requires i < |layers| && OrientationToken(layers[i].orientacao).Some?
    ensures StackingSignatureAsWritten(layers).None?
  {
    AllSomeFails(LayerTokensAsWritten(layers), i);
  }

  /** Without valid orientations, the signature as written is the corrected one. */
  lemma AsWrittenAgreesWithoutOrientations(layers: seq<Camada>)
    requires forall i :: 0 <= i < |layers| ==> OrientationToken(layers[i].orientacao).None?
    ensures StackingSignatureAsWritten(layers) == Some(StackingSignature(layers))
  {
    AllSomeValues(LayerTokensAsWritten(layers), LayerTokens(layers));
  }

  /** Different orientations are written differently. */
  lemma OrientationTextInjective(a: Option<int>, b: Option<int>)
    requires OrientationText(a) == OrientationText(b)
    ensures a == b
  {
    if a.Some? && b.Some? {
      SignedRoundTrip(a.value);
      SignedRoundTrip(b.value);
    } else if a.Some? {
      SignedIsNotNone(a.value);
    } else if b.Some? {
      SignedIsNotNone(b.value);
    }
  }

  lemma SignedIsNotNone(a: int)
    ensures SignedToString(a) != "none"
  {
    assert SignedToString(a)[0] == '+' || SignedToString(a)[0] == '-';
  }

  /**
   * Two layers of the same material and ply type get the same token exactly
   * when their orientations agree.
   */
  lemma LayerTokenSeparatesOrientation(c: Camada, d: Camada)
    requires NormalizeMaterial(c.material) == NormalizeMaterial(d.material)
    requires PlyToken(c.plyType) == PlyToken(d.plyType)
    ensures LayerToken(c) == LayerToken(d) <==> OrientationToken(c.orientacao) == OrientationToken(d.orientacao)
  {
    var m, p := NormalizeMaterial(c.material), PlyToken(c.plyType);
    var oc, od := OrientationText(OrientationToken(c.orientacao)), OrientationText(OrientationToken(d.orientacao));
    if LayerToken(c) == LayerToken(d) {
      var s := LayerToken(c);
      assert s == m + "@" + oc + "@" + p;
      assert LayerToken(d) == m + "@" + od + "@" + p;
      assert |oc| == |od|;
      assert s[|m| + 1..|m| + 1 + |oc|] == oc;
      assert LayerToken(d)[|m| + 1..|m| + 1 + |od|] == od;
      OrientationTextInjective(OrientationToken(c.orientacao), OrientationToken(d.orientacao));
    }
  }

  /** The signature says "stacking:empty" exactly for a laminate without layers. */
  lemma SignatureEmptyIffNoLayers(layers: seq<Camada>)
    ensures StackingSignature(layers) == EmptyStacking <==> layers == []
  {
    if layers != [] {
      var tokens := LayerTokens(layers);
      var m := NormalizeMaterial(layers[0].material);
      var s := JoinWith(";", tokens);
      assert StartsWith(s, tokens[0]);
      assert tokens[0][|m|] == '@';
      assert s[|m|] == '@';
      assert forall k :: 0 <= k < |EmptyStacking| ==> EmptyStacking[k] != '@';
    }
  }

  // ---------------------------------------------------------------- duplicate signatures

  /** str(color_index or "").strip(): 0 and the empty text are falsy and give "". */
  function ColorField(c: Color): string
  {
    match c
    case ColorIndex(i) => if i == 0 then "" else IntToString(i)
    case ColorText(t) => Trim(t)
  }

  /** _build_duplicate_signature: stacking|type|colour. */
  function DuplicateSignature(l: Laminado): string
  {
    StackingSignature(l.camadas) + "|" + Lower(Trim(l.tipo)) + "|" + ColorField(l.color)
  }

  /** signature.rsplit("|", 2) unpacked into three parts; None where fewer come out (ValueError). */
  function RSplitThree(s: string): (r: Option<(string, string, string)>)
    ensures r.Some? ==> s == r.value.0 + "|" + r.value.1 + "|" + r.value.2
    ensures r.Some? ==> !HasChar(r.value.1, '|') && !HasChar(r.value.2, '|')
  {
    match LastIndexOf(s, '|')
    case None => None
    case Some(j) =>
      match LastIndexOf(s[..j], '|')
      case None => None
      case Some(i) =>
        var r := (s[..i], s[i + 1..j], s[j + 1..]);
        assert s == r.0 + "|" + r.1 + "|" + r.2;
        assert !HasChar(r.1, '|') by {
          forall k | 0 <= k < |r.1| ensures r.1[k] != '|' {
            assert r.1[k] == s[..j][i + 1 + k];
          }
        }
        assert !HasChar(r.2, '|') by {
          forall k | 0 <= k < |r.2| ensures r.2[k] != '|' {
            assert r.2[k] == s[j + 1 + k];
          }
        }
        Some(r)
  }

  /** Splitting from the right recovers the parts joined, when the last two hold no separator. */
  lemma RSplitOfJoined(a: string, b: string, c: string)
    requires !HasChar(b, '|') && !HasChar(c, '|')
    ensures RSplitThree(a + "|" + b + "|" + c) == Some((a, b, c))
  {
    var s := a + "|" + b + "|" + c;
    var j := |a| + 1 + |b|;
    assert s[j] == '|';
    assert forall k :: j < k < |s| ==> s[k] == c[k - j - 1];
    LastIndexAt(s, j);
    var t := s[..j];
    assert t == a + "|" + b;
    assert forall k :: |a| < k < |t| ==> t[k] == b[k - |a| - 1];
    LastIndexAt(t, |a|);
    assert s[..|a|] == a && s[|a| + 1..j] == b && s[j + 1..] == c;
  }

  /** The last occurrence is at j when j holds the character and nothing after it does. */
  lemma LastIndexAt(s: string, j: nat)
    requires j < |s| && s[j] == '|'
    requires forall k :: j < k < |s| ==> s[k] != '|'
    ensures LastIndexOf(s, '|') == Some(j)
  {
    assert HasChar(s, '|');
  }

  /** The summary shown for a duplicate group, from its stripped type and colour parts. */
  function SummaryOf(lamType: string, color: string): string
  {
    if lamType != [] && color != [] then "Tipo: " + Upper(lamType) + " | Cor: " + color
    else if lamType != [] then "Tipo: " + Upper(lamType)
    else if color != [] then "Cor: " + color
    else "Stacking duplicado"
  }

  /** _summarize_duplicate_signature */
  function SummarizeSignature(signature: string): (r: string)
    ensures RSplitThree(signature).None? ==> r == signature
  {
    match RSplitThree(signature)
    case None => signature
    case Some((_, lamType, color)) => SummaryOf(Trim(lamType), Trim(color))
  }

  /**
   * A laminate's summary is read back from its own type and colour, as
   * long as neither holds the separator.
   */
  lemma SummaryOfLaminate(l: Laminado)
    requires !HasChar(Lower(Trim(l.tipo)), '|') && !HasChar(ColorField(l.color), '|')
    ensures SummarizeSignature(DuplicateSignature(l)) ==
      SummaryOf(Trim(Lower(Trim(l.tipo))), Trim(ColorField(l.color)))
  {
    RSplitOfJoined(StackingSignature(l.camadas), Lower(Trim(l.tipo)), ColorField(l.color));
  }

  // ---------------------------------------------------------------- check_duplicates

  datatype DuplicateGroup = DuplicateGroup(signature: string, summary: string, laminates: seq<string>)

  /** str(laminado.nome or "").strip() */
  function GroupName(l: Laminado): string
  {
    Trim(l.nome)
  }

  /** Each laminate's signature, name, and whether it joins a group (both non-empty). */
  function Signatures(ls: seq<Laminado>): (r: seq<string>)
    ensures |r| == |ls| && forall i :: 0 <= i < |ls| ==> r[i] == DuplicateSignature(ls[i])
  {
    seq(|ls|, i requires 0 <= i < |ls| => DuplicateSignature(ls[i]))
  }

  function GroupNames(ls: seq<Laminado>): (r: seq<string>)
    ensures |r| == |ls| && forall i :: 0 <= i < |ls| ==> r[i] == GroupName(ls[i])
  {
    seq(|ls|, i requires 0 <= i < |ls| => GroupName(ls[i]))
  }

  function Grouped(ls: seq<Laminado>): (r: seq<bool>)
    ensures |r| == |ls| &&
      forall i :: 0 <= i < |ls| ==> r[i] == (DuplicateSignature(ls[i]) != "" && GroupName(ls[i]) != "")
  {
    seq(|ls|, i requires 0 <= i < |ls| => DuplicateSignature(ls[i]) != "" && GroupName(ls[i]) != "")
  }

  /** The first loop of check_duplicates: names listed under each signature. */
  function NamesBySignature(ls: seq<Laminado>): (r: OMap<string, seq<string>>)
    ensures r.Valid()
  {
    GroupBy(Signatures(ls), GroupNames(ls), Grouped(ls))
  }

  /** A signature is listed exactly when some named laminate has it, and its names are theirs. */
  lemma NamesBySignatureHolds(ls: seq<Laminado>, sig: string, n: string)
    ensures sig in NamesBySignature(ls).items <==>
      exists i :: 0 <= i < |ls| && DuplicateSignature(ls[i]) == sig && GroupName(ls[i]) != ""
    ensures sig in NamesBySignature(ls).items ==>
      (n in NamesBySignature(ls).items[sig] <==>
       exists i :: 0 <= i < |ls| && DuplicateSignature(ls[i]) == sig && GroupName(ls[i]) == n && n != "")
  {
    var sigs, names, keep := Signatures(ls), GroupNames(ls), Grouped(ls);
    GroupByKeys(sigs, names, keep, sig);
    if sig in NamesBySignature(ls).items {
      GroupByValues(sigs, names, keep, sig, n);
    }
  }

  /** A group from one signature: the distinct names, sorted. */
  function MakeGroup(sig: string, names: seq<string>): (r: DuplicateGroup)
    ensures r.signature == sig && r.summary == SummarizeSignature(sig)
    ensures NoDup(r.laminates) && SortedBy(r.laminates, StrLe)
    ensures forall n :: n in r.laminates <==> n in names
  {
    var unique := Distinct(names);
    var sorted := SortStrings(unique);
    NoDupPermutation(unique, sorted);
    assert forall n :: n in sorted <==> n in multiset(unique);
    DuplicateGroup(sig, SummarizeSignature(sig), sorted)
  }

  /** The second loop: a group for every signature holding at least two distinct names, in key order. */
  function GroupsFrom(keys: seq<string>, items: map<string, seq<string>>): (r: seq<DuplicateGroup>)
    requires forall k <- keys :: k in items
  {
    if keys == [] then []
    else
      var n := |keys| - 1;
      var rest := GroupsFrom(keys[..n], items);
      var g := MakeGroup(keys[n], items[keys[n]]);
      if |g.laminates| >= 2 then rest + [g] else rest
  }

  lemma {:induction false} GroupsFromMembers(keys: seq<string>, items: map<string, seq<string>>, g: DuplicateGroup)
    requires forall k <- keys :: k in items
    ensures g in GroupsFrom(keys, items) <==>
      g.signature in keys && g == MakeGroup(g.signature, items[g.signature]) && |g.laminates| >= 2
  {
    if keys != [] {
      var n := |keys| - 1;
      assert keys == keys[..n] + [keys[n]];
      GroupsFromMembers(keys[..n], items, g);
    }
  }

  lemma {:induction false} GroupsFromDistinct(keys: seq<string>, items: map<string, seq<string>>)
    requires forall k <- keys :: k in items
    requires NoDup(keys)
    ensures NoDup(GroupsFrom(keys, items))
  {
    if keys != [] {
      var n := |keys| - 1;
      var rest := GroupsFrom(keys[..n], items);
      GroupsFromDistinct(keys[..n], items);
      var g := MakeGroup(keys[n], items[keys[n]]);
      if |g.laminates| >= 2 {
        assert keys[n] !in keys[..n];
        GroupsFromMembers(keys[..n], items, g);
        assert g !in rest;
      }
    }
  }

  /** The sort key (-len(laminates), summary.lower()): larger groups first, then by summary. */
  predicate GroupLe(a: DuplicateGroup, b: DuplicateGroup)
  {
    |a.laminates| > |b.laminates| ||
    (|a.laminates| == |b.laminates| && LexLe(Lower(a.summary), Lower(b.summary)))
  }

  lemma GroupLeIsPreorder()
    ensures TotalPreorder(GroupLe)
  {
    forall a, b ensures GroupLe(a, b) || GroupLe(b, a) {
      LexLeTotal(Lower(a.summary), Lower(b.summary));
    }
    forall a, b, c | GroupLe(a, b) && GroupLe(b, c) ensures GroupLe(a, c) {
      if |a.laminates| == |b.laminates| == |c.laminates| {
        LexLeTrans(Lower(a.summary), Lower(b.summary), Lower(c.summary));
      }
    }
  }

  /** check_duplicates */
  function DuplicateReport(ls: seq<Laminado>): (r: seq<DuplicateGroup>)
    ensures SortedBy(r, GroupLe)
    ensures forall i, j :: 0 <= i < j < |r| ==> |r[i].laminates| >= |r[j].laminates|
  {
    var g := NamesBySignature(ls);
    GroupLeIsPreorder();
    SortBy(GroupsFrom(g.keys, g.items), GroupLe)
  }

  /** The first loop of check_duplicates: groups.setdefault(signature, []).append(name). */
  method CollectNames(ls: seq<Laminado>) returns (groups: OMap<string, seq<string>>)
    ensures groups == NamesBySignature(ls)
  {
    ghost var sigs, names, keep := Signatures(ls), GroupNames(ls), Grouped(ls);
    groups := Empty();
    for i := 0 to |ls|
      invariant groups == GroupBy(sigs[..i], names[..i], keep[..i])
    {
      var signature := DuplicateSignature(ls[i]);
      var name := GroupName(ls[i]);
      GroupByStep(sigs, names, keep, i);
      if signature != "" && name != "" {
        groups := groups.Put(signature, groups.GetOr(signature, []) + [name]);
      }
    }
    assert sigs[..|ls|] == sigs && names[..|ls|] == names && keep[..|ls|] == keep;
  }

  /** The second loop of check_duplicates: one group per signature with two names or more. */
  method CollectGroups(groups: OMap<string, seq<string>>) returns (found: seq<DuplicateGroup>)
    requires groups.Valid()
    ensures found == GroupsFrom(groups.keys, groups.items)
  {
    found := [];
    for j := 0 to |groups.keys|
      invariant found == GroupsFrom(groups.keys[..j], groups.items)
    {
      var signature := groups.keys[j];
      var group := MakeGroup(signature, groups.items[signature]);
      assert groups.keys[..j + 1][..j] == groups.keys[..j];
      if |group.laminates| >= 2 {
        found := found + [group];
      }
    }
    assert groups.keys[..|groups.keys|] == groups.keys;
  }

  /** check_duplicates: both loops, then the sort. */
  method CheckDuplicates(ls: seq<Laminado>) returns (r: seq<DuplicateGroup>)
    ensures r == DuplicateReport(ls)
  {
    var groups := CollectNames(ls);
    var found := CollectGroups(groups);
    GroupLeIsPreorder();
    r := SortBy(found, GroupLe);
  }

  /**
   * Every reported group holds at least two distinct, sorted names; its names are
   * exactly those of the named laminates with its signature, and its summary is
   * read from that signature.
   */
  lemma DuplicateGroupSound(ls: seq<Laminado>, g: DuplicateGroup, n: string)
    requires g in DuplicateReport(ls)
    ensures |g.laminates| >= 2 && NoDup(g.laminates) && SortedBy(g.laminates, StrLe)
    ensures g.summary == SummarizeSignature(g.signature)
    ensures n in g.laminates <==>
      exists i :: 0 <= i < |ls| && DuplicateSignature(ls[i]) == g.signature && GroupName(ls[i]) == n && n != ""
  {
    var m := NamesBySignature(ls);
    assert g in multiset(GroupsFrom(m.keys, m.items));
    GroupsFromMembers(m.keys, m.items, g);
    NamesBySignatureHolds(ls, g.signature, n);
  }

  /** Two named laminates with one signature and different names are reported together. */
  lemma DuplicatesReported(ls: seq<Laminado>, i: nat, j: nat)
    requires i < |ls| && j < |ls|
    requires DuplicateSignature(ls[i]) == DuplicateSignature(ls[j])
    requires GroupName(ls[i]) != "" && GroupName(ls[j]) != "" && GroupName(ls[i]) != GroupName(ls[j])
    ensures exists g :: (g in DuplicateReport(ls) && g.signature == DuplicateSignature(ls[i]) &&
                         GroupName(ls[i]) in g.laminates && GroupName(ls[j]) in g.laminates)
  {
    var m := NamesBySignature(ls);
    var sig := DuplicateSignature(ls[i]);
    var a, b := GroupName(ls[i]), GroupName(ls[j]);
    NamesBySignatureHolds(ls, sig, a);
    NamesBySignatureHolds(ls, sig, b);
    var g := MakeGroup(sig, m.items[sig]);
    TwoNamesGroup(g, a, b);
    GroupsFromMembers(m.keys, m.items, g);
    assert g in multiset(DuplicateReport(ls));
  }

  lemma TwoNamesGroup(g: DuplicateGroup, a: string, b: string)
    requires a in g.laminates && b in g.laminates && a != b
    ensures |g.laminates| >= 2
  {
  }

  /** No signature is reported twice. */
  lemma DuplicateSignaturesDistinct(ls: seq<Laminado>)
    ensures forall i, j :: 0 <= i < j < |DuplicateReport(ls)| ==>
      DuplicateReport(ls)[i].signature != DuplicateReport(ls)[j].signature
  {
    var m := NamesBySignature(ls);
    var found := GroupsFrom(m.keys, m.items);
    var r := DuplicateReport(ls);
    GroupsFromDistinct(m.keys, m.items);
    NoDupPermutation(found, r);
    forall i, j | 0 <= i < j < |r| ensures r[i].signature != r[j].signature {
      assert r[i] in multiset(found) && r[j] in multiset(found);
      GroupsFromMembers(m.keys, m.items, r[i]);
      GroupsFromMembers(m.keys, m.items, r[j]);
    }
  }

  // ---------------------------------------------------------------- run_all_checks

  datatype ChecksReport = ChecksReport(symmetry: SymmetryResult, duplicates: seq<DuplicateGroup>)

  /** run_all_checks: both checks over the same laminates. */
  method RunAllChecks(ls: seq<Laminado>) returns (r: ChecksReport)
    ensures r.symmetry == SymmetryReport(ls) && r.duplicates == DuplicateReport(ls)
  {
    var symmetry := CheckSymmetry(ls);
    var duplicates := CheckDuplicates(ls);
    r := ChecksReport(symmetry, duplicates);
  }
}

=== FILE: laminate_service.dfy ===
// Laminate creation helpers (gridlamedit/services/laminate_service.py):
// creating a laminate bound to one cell, the automatic L<N>[.k][(tag)]
// names, and copying a material to the same row of every laminate.
module LaminateService {
  import opened Wrappers
  import opened Text
  import opened Seqs
  import opened PyValues
  import opened OrderedMaps
  import opened GridModels

  // ---------------------------------------------------------------- creation

  /** The LaminateCreationError raised by create_laminate_with_association, by cause. */
  datatype CreationError =
    | NoModel         // no model to create the laminate in
    | BlankName       // the name is empty once stripped
    | DuplicateName   // a laminate with this name exists
    | BlankType       // the type is empty once stripped
    | BlankCell       // the cell id is empty once stripped
    | UnknownCell     // the model lists cells and this is not one of them

  /** The checks of create_laminate_with_association, in the order they run. */
  function CreationCheck(hasModel: bool, laminados: OMap<string, Laminado>, celulas: seq<string>,
                         nome: string, tipo: string, celula: string): Option<CreationError>
  {
    if !hasModel then Some(NoModel)
    else if Trim(nome) == "" then Some(BlankName)
    else if Trim(nome) in laminados.items then Some(DuplicateName)
    else if Trim(tipo) == "" then Some(BlankType)
    else if Trim(celula) == "" then Some(BlankCell)
    else if celulas != [] && Trim(celula) !in celulas then Some(UnknownCell)
    else None
  }

  /** max(MIN_COLOR_INDEX, min(MAX_COLOR_INDEX, c)) */
  function ClampColor(c: int): (r: int)
    ensures InColorRange(r)
    ensures InColorRange(c) ==> r == c
  {
    if c < MinColorIndex then MinColorIndex else if c > MaxColorIndex then MaxColorIndex else c
  }

  /** The colour the new laminate gets: normalised with the default, then clamped. */
  function CreationColor(cor: Value): int
  {
    ClampColor(NormalizeColorIndex(cor, DefaultColorIndex))
  }

  /** The clamp never bites: normalisation already yields an index in range or the (in-range) default. */
  lemma CreationColorIsNormalized(cor: Value)
    ensures CreationColor(cor) == NormalizeColorIndex(cor, DefaultColorIndex)
    ensures InColorRange(CreationColor(cor))
  {
    assert InColorRange(DefaultColorIndex);
  }

  /** The Laminado built for a successful creation: stripped fields, one cell, no layers. */
  function NewLaminado(name: string, lamType: string, cor: Value, cell: string, tag: string): Laminado
  {
    Laminado(name, lamType, ColorIndex(CreationColor(cor)), Trim(tag), [cell], [], true)
  }

  /**
   * The laminate map after creation: the new laminate is appended, the cell
   * leaves the list of the laminate it was mapped to, and the new laminate's
   * list is reset to [cell] (which matters only when a stale map entry
   * already named the new laminate).
   */
  function CreatedLaminados(laminados: OMap<string, Laminado>, cellMap: OMap<string, string>,
                            lam: Laminado, cell: string): OMap<string, Laminado>
    requires laminados.Valid()
  {
    var added := laminados.Put(lam.nome, lam);
    var previous := cellMap.Get(cell);
    var detached :=
      if previous.Some? && previous.value != "" && previous.value in added.items
      then added.Put(previous.value, added.items[previous.value].(celulas := RemoveFirst(added.items[previous.value].celulas, cell)))
      else added;
    detached.Put(lam.nome, lam)
  }

  /**
   * Creation appends the new laminate to the map order, binds it to exactly
   * [cell], takes the cell out of its previous laminate's list and leaves
   * every other laminate as it was.
   */
  lemma CreatedShape(laminados: OMap<string, Laminado>, cellMap: OMap<string, string>, lam: Laminado, cell: string, n: string)
    requires laminados.Valid() && lam.nome !in laminados.items && lam.celulas == [cell]
    ensures var r := CreatedLaminados(laminados, cellMap, lam, cell);
      && r.Valid() && r.keys == laminados.keys + [lam.nome]
      && r.items[lam.nome] == lam
      && (n in laminados.items && n != "" && cellMap.Get(cell) == Some(n) ==>
            r.items[n] == laminados.items[n].(celulas := RemoveFirst(laminados.items[n].celulas, cell)))
      && (n in laminados.items && (n == "" || cellMap.Get(cell) != Some(n)) ==> r.items[n] == laminados.items[n])
  {
    var added := laminados.Put(lam.nome, lam);
    if n in laminados.items {
      assert n != lam.nome;
      assert added.items[n] == laminados.items[n];
    }
  }

  /**
   * The bookkeeping invariant of a grid model: every mapped cell names an
   * existing laminate, no laminate is named "", and each laminate lists,
   * without repetition, exactly the cells mapped to it.
   */
  ghost predicate Agree(laminados: OMap<string, Laminado>, cellMap: OMap<string, string>)
  {
    && "" !in laminados.items
    && (forall c <- cellMap.items :: cellMap.items[c] in laminados.items)
    && (forall n <- laminados.items :: NoDup(laminados.items[n].celulas))
    && (forall n, c :: n in laminados.items ==>
          (c in laminados.items[n].celulas <==> c in cellMap.items && cellMap.items[c] == n))
  }

  /** A successful creation keeps the cell lists in agreement with the cell -> laminate map. */
  lemma CreationKeepsAgreement(laminados: OMap<string, Laminado>, cellMap: OMap<string, string>, lam: Laminado, cell: string)
    requires laminados.Valid() && cellMap.Valid() && Agree(laminados, cellMap)
    requires lam.nome != "" && lam.nome !in laminados.items && lam.celulas == [cell]
    ensures Agree(CreatedLaminados(laminados, cellMap, lam, cell), cellMap.Put(cell, lam.nome))
  {
    var r := CreatedLaminados(laminados, cellMap, lam, cell);
    var m := cellMap.Put(cell, lam.nome);
    forall n | n in r.items
      ensures NoDup(r.items[n].celulas)
      ensures forall c :: c in r.items[n].celulas <==> c in m.items && m.items[c] == n
    {
      CreatedShape(laminados, cellMap, lam, cell, n);
      if n != lam.nome {
        forall c ensures c in r.items[n].celulas <==> c in m.items && m.items[c] == n {
          if cellMap.Get(cell) == Some(n) {
            RemoveFirstNoDup(laminados.items[n].celulas, cell, c);
          } else {
            assert cell !in laminados.items[n].celulas;
          }
        }
        if cellMap.Get(cell) == Some(n) {
          RemoveFirstNoDup(laminados.items[n].celulas, cell, cell);
        }
      }
    }
  }

  /**
   * create_laminate_with_association. On success the model holds the new
   * laminate, maps the cell to it, and is marked dirty; on any error the
   * model is left as it was.
   */
  method CreateLaminateWithAssociation(model: GridModel?, nome: string, cor: Value, tipo: string,
                                       celulaId: string, tag: string)
    returns (r: Result<Laminado, CreationError>)
    requires model != null ==> model.Valid()
    modifies model
    ensures model == null ==> r == Failure(NoModel)
    ensures model != null ==>
      var check := CreationCheck(true, old(model.laminados), old(model.celulasOrdenadas), nome, tipo, celulaId);
      && (r.Failure? <==> check.Some?)
      && (r.Failure? ==> r.error == check.value && unchanged(model))
      && (r.Success? ==>
            var lam := NewLaminado(Trim(nome), Trim(tipo), cor, Trim(celulaId), tag);
            && r.value == lam
            && model.laminados == CreatedLaminados(old(model.laminados), old(model.cellToLaminate), lam, Trim(celulaId))
            && model.cellToLaminate == old(model.cellToLaminate).Put(Trim(celulaId), Trim(nome))
            && model.dirty
            && model.celulasOrdenadas == old(model.celulasOrdenadas)
            && model.cellContours == old(model.cellContours)
            && model.Valid())
  {
    if model == null {
      return Failure(NoModel);
    }
    var name := Trim(nome);
    if name == "" {
      return Failure(BlankName);
    }
    if name in model.laminados.items {
      return Failure(DuplicateName);
    }
    var lamType := Trim(tipo);
    if lamType == "" {
      return Failure(BlankType);
    }
    var colorIndex := ClampColor(NormalizeColorIndex(cor, DefaultColorIndex));
    var cell := Trim(celulaId);
    if cell == "" {
      return Failure(BlankCell);
    }
    if model.celulasOrdenadas != [] && cell !in model.celulasOrdenadas {
      return Failure(UnknownCell);
    }
    var laminado := Laminado(name, lamType, ColorIndex(colorIndex), Trim(tag), [cell], [], true);
    Attach(model, laminado, cell);
    r := Success(laminado);
  }

  /** The success path of create_laminate_with_association: store, detach from the previous laminate, bind, mark dirty. */
  method Attach(model: GridModel, laminado: Laminado, cell: string)
    requires model.Valid()
    modifies model
    ensures model.laminados == CreatedLaminados(old(model.laminados), old(model.cellToLaminate), laminado, cell)
    ensures model.cellToLaminate == old(model.cellToLaminate).Put(cell, laminado.nome)
    ensures model.dirty && model.Valid()
    ensures model.celulasOrdenadas == old(model.celulasOrdenadas) && model.cellContours == old(model.cellContours)
  {
    var name := laminado.nome;
    model.laminados := model.laminados.Put(name, laminado);
    var previous := model.cellToLaminate.Get(cell);
    if previous.Some? && previous.value != "" && previous.value in model.laminados.items {
      var old_ := model.laminados.items[previous.value];
      model.laminados := model.laminados.Put(previous.value, old_.(celulas := RemoveFirst(old_.celulas, cell)));
    }
    model.cellToLaminate := model.cellToLaminate.Put(cell, name);
    model.laminados := model.laminados.Put(name, laminado);
    model.MarkDirty(true);
  }

  // ---------------------------------------------------------------- automatic names

  /** _build_auto_name: base, then ".k" when k > 0, then "(tag)" when the stripped tag is not empty. */
  function AutoName(base: string, k: nat, tag: string): string
  {
    base + (if k > 0 then "." + NatToString(k) else "") + (if Trim(tag) != "" then "(" + Trim(tag) + ")" else "")
  }

  /** Different suffix indices give different names, so the search for a free one ends. */
  lemma AutoNameInjective(base: string, tag: string, j: nat, k: nat)
    requires AutoName(base, j, tag) == AutoName(base, k, tag)
    ensures j == k
  {
    var t := if Trim(tag) != "" then "(" + Trim(tag) + ")" else "";
    var sj := if j > 0 then "." + NatToString(j) else "";
    var sk := if k > 0 then "." + NatToString(k) else "";
    var a := AutoName(base, j, tag);
    assert a == base + sj + t;
    assert AutoName(base, k, tag) == base + sk + t;
    assert |sj| == |sk|;
    assert sj == a[|base|..|base| + |sj|];
    assert sk == a[|base|..|base| + |sk|];
    if j > 0 && k > 0 {
      assert sj[1..] == NatToString(j) && sk[1..] == NatToString(k);
      NatToStringInjective(j, k);
    }
  }

  /** The automatic name always starts with its base and carries the stripped tag in parentheses. */
  lemma AutoNameShape(base: string, k: nat, tag: string)
    ensures StartsWith(AutoName(base, k, tag), base)
    ensures Trim(tag) != "" ==> EndsWith(AutoName(base, k, tag), "(" + Trim(tag) + ")")
    ensures k == 0 && Trim(tag) == "" ==> AutoName(base, k, tag) == base
  {
    var t := if Trim(tag) != "" then "(" + Trim(tag) + ")" else "";
    var s := if k > 0 then "." + NatToString(k) else "";
    var a := AutoName(base, k, tag);
    assert a == base + s + t;
    assert a[..|base|] == base;
    assert a[|a| - |t|..] == t;
  }

  /** The names tried before suffix index n, starting from `start`. */
  function Tried(base: string, start: nat, n: nat, tag: string): set<string>
  {
    if n <= start then {} else Tried(base, start, n - 1, tag) + {AutoName(base, n - 1, tag)}
  }

  /** The name for index n has not been tried before n. */
  lemma {:induction false} NotTried(base: string, start: nat, n: nat, tag: string, m: nat)
    requires n <= m
    ensures AutoName(base, m, tag) !in Tried(base, start, n, tag)
  {
    if n > start {
      NotTried(base, start, n - 1, tag, m);
      if AutoName(base, n - 1, tag) == AutoName(base, m, tag) {
        AutoNameInjective(base, tag, n - 1, m);
      }
    }
  }

  /** Marking one more used name as tried leaves fewer untried ones. */
  lemma FewerLeft(used: set<string>, tried: set<string>, c: string)
    requires c in used && c !in tried
    ensures |used - (tried + {c})| < |used - tried|
  {
    assert used - (tried + {c}) == (used - tried) - {c};
  }

  /** `name` is the first free automatic name from suffix index `start` on. */
  ghost predicate FirstFree(base: string, start: nat, tag: string, used: set<string>, name: string)
  {
    && name !in used
    && exists k: nat :: (start <= k && name == AutoName(base, k, tag) &&
         forall j: nat :: start <= j < k ==> AutoName(base, j, tag) in used)
  }

  /**
   * The while loop of auto_name_for_layers: from `start`, the first suffix
   * index whose name is not taken.
   */
  method FirstFreeName(base: string, start: nat, tag: string, used: set<string>) returns (candidate: string)
    ensures FirstFree(base, start, tag, used, candidate)
  {
    var suffix := start;
    candidate := AutoName(base, suffix, tag);
    while candidate in used
      invariant start <= suffix && candidate == AutoName(base, suffix, tag)
      invariant Tried(base, start, suffix, tag) <= used
      invariant forall j: nat :: start <= j < suffix ==> AutoName(base, j, tag) in used
      decreases |used - Tried(base, start, suffix, tag)|
    {
      NotTried(base, start, suffix, tag, suffix);
      FewerLeft(used, Tried(base, start, suffix, tag), candidate);
      forall j: nat | start <= j < suffix + 1 ensures AutoName(base, j, tag) in used {
        if j == suffix {
          assert AutoName(base, j, tag) == candidate;
        }
      }
      suffix := suffix + 1;
      candidate := AutoName(base, suffix, tag);
    }
  }

  /** A first free name is unique: the search has one answer. */
  lemma FirstFreeUnique(base: string, start: nat, tag: string, used: set<string>, a: string, b: string)
    requires FirstFree(base, start, tag, used, a) && FirstFree(base, start, tag, used, b)
    ensures a == b
  {
    var ka: nat :| start <= ka && a == AutoName(base, ka, tag) && forall j: nat :: start <= j < ka ==> AutoName(base, j, tag) in used;
    var kb: nat :| start <= kb && b == AutoName(base, kb, tag) && forall j: nat :: start <= j < kb ==> AutoName(base, j, tag) in used;
  }

  /** The laminates with `count` oriented layers, in map order. */
  function SameCount(laminados: OMap<string, Laminado>, count: nat): (r: seq<string>)
    ensures forall k :: k in r <==> k in laminados.keys && k in laminados.items && CountOriented(laminados.items[k].camadas) == count
  {
    Filter(laminados.keys, (k: string) => k in laminados.items && CountOriented(laminados.items[k].camadas) == count)
  }

  /** Position of x in s, or |s| when absent (the list.index / len fallback). */
  function PositionOr(s: seq<string>, x: string): (r: nat)
    ensures r <= |s|
    ensures r < |s| <==> x in s
    ensures r < |s| ==> s[r] == x && x !in s[..r]
  {
    if s == [] then 0
    else if s[0] == x then 0
    else
      assert s == [s[0]] + s[1..];
      1 + PositionOr(s[1..], x)
  }

  /** The starting suffix: the target's place among the same-count laminates, else their number. */
  function StartSuffix(same: seq<string>, target: Option<string>): (r: nat)
  {
    if target.Some? then PositionOr(same, target.value) else |same|
  }

  /** The names taken: every laminate's but the target's own. */
  function UsedNames(laminados: OMap<string, Laminado>, target: Option<string>): (r: set<string>)
    ensures forall n :: n in r <==> n in laminados.items && Some(n) != target
  {
    set n | n in laminados.items && Some(n) != target
  }

  /** max(0, layer_count) */
  function ClampCount(layerCount: int): nat
  {
    if layerCount < 0 then 0 else layerCount
  }

  /**
   * auto_name_for_layers. `target` is the key under which the laminate being
   * named sits in the model (None for a laminate not yet in it): its name is
   * not counted as taken, and its place among the laminates with the same
   * count is its starting suffix.
   */
  method AutoNameForLayers(model: GridModel?, layerCount: int, tag: string, target: Option<string>)
    returns (name: string)
    requires model != null ==> model.Valid()
    ensures model == null ==> name == AutoName("L" + NatToString(ClampCount(layerCount)), 0, tag)
    ensures model != null ==>
      var same := SameCount(model.laminados, ClampCount(layerCount));
      FirstFree("L" + NatToString(ClampCount(layerCount)), StartSuffix(same, target), tag, UsedNames(model.laminados, target), name)
  {
    var count := ClampCount(layerCount);
    var base := "L" + NatToString(count);
    if model == null {
      name := AutoName(base, 0, tag);
      return;
    }
    var same := SameCount(model.laminados, count);
    var start := if target.Some? then PositionOr(same, target.value) else |same|;
    var used := set n | n in model.laminados.items && Some(n) != target;
    name := FirstFreeName(base, start, tag, used);
  }

  /** The name proposed for a laminate not yet in the model is none of the model's names. */
  lemma NewLaminateNameIsFresh(laminados: OMap<string, Laminado>, base: string, start: nat, tag: string, name: string)
    requires FirstFree(base, start, tag, UsedNames(laminados, None), name)
    ensures name !in laminados.items
  {
  }

  /**
   * auto_name_for_laminate: the layer count is the laminate's oriented-layer
   * count and the tag is its own.
   */
  method AutoNameForLaminate(model: GridModel?, key: string, laminate: Laminado) returns (name: string)
    requires model != null ==> model.Valid()
    ensures model == null ==> name == AutoName("L" + NatToString(CountOriented(laminate.camadas)), 0, laminate.tag)
    ensures model != null ==>
      var count := CountOriented(laminate.camadas);
      FirstFree("L" + NatToString(count), StartSuffix(SameCount(model.laminados, count), Some(key)), laminate.tag,
                UsedNames(model.laminados, Some(key)), name)
  {
    name := AutoNameForLayers(model, CountOriented(laminate.camadas), laminate.tag, Some(key));
  }

  // ---------------------------------------------------------------- material by row

  /** The laminate has the row and its stripped material differs from the new one. */
  predicate NeedsMaterial(l: Laminado, row: nat, material: string)
  {
    row < |l.camadas| && Trim(l.camadas[row].material) != material
  }

  /** The one laminate's update: layer `row` takes the material when it needs it. */
  function WithMaterial(l: Laminado, row: nat, material: string): Laminado
  {
    if NeedsMaterial(l, row, material)
    then l.(camadas := l.camadas[row := l.camadas[row].(material := material)])
    else l
  }

  /** The loop state of sync_material_by_sequence: the laminates and the list of changed ones. */
  datatype SyncState = SyncState(laminados: OMap<string, Laminado>, updated: seq<string>)

  /** The loop of sync_material_by_sequence over the keys `ks`, in order. */
  function SyncRun(original: OMap<string, Laminado>, ks: seq<string>, row: nat, material: string): (r: SyncState)
    ensures r.laminados.keys == original.keys && r.laminados.items.Keys == original.items.Keys
  {
    if ks == [] then SyncState(original, [])
    else
      var n := |ks| - 1;
      var st := SyncRun(original, ks[..n], row, material);
      var k := ks[n];
      if k in st.laminados.items && NeedsMaterial(st.laminados.items[k], row, material)
      then SyncState(OMap(st.laminados.keys, st.laminados.items[k := WithMaterial(st.laminados.items[k], row, material)]),
                     st.updated + [k])
      else st
  }

  lemma SyncRunStep(original: OMap<string, Laminado>, ks: seq<string>, row: nat, material: string, i: nat)
    requires i < |ks|
    ensures var st := SyncRun(original, ks[..i], row, material);
      var k := ks[i];
      SyncRun(original, ks[..i + 1], row, material) ==
        if k in st.laminados.items && NeedsMaterial(st.laminados.items[k], row, material)
        then SyncState(OMap(st.laminados.keys, st.laminados.items[k := WithMaterial(st.laminados.items[k], row, material)]),
                       st.updated + [k])
        else st
  {
    assert ks[..i + 1][..i] == ks[..i];
  }

  /** The laminate map after sync_material_by_sequence. */
  function Synced(laminados: OMap<string, Laminado>, row: nat, material: string): OMap<string, Laminado>
  {
    SyncRun(laminados, laminados.keys, row, material).laminados
  }

  /** The laminates sync_material_by_sequence reports as changed, in map order. */
  function SyncChanged(laminados: OMap<string, Laminado>, row: nat, material: string): seq<string>
  {
    SyncRun(laminados, laminados.keys, row, material).updated
  }

  /**
   * Over distinct keys the loop touches each listed laminate once: a listed
   * laminate is updated, and reported, exactly when it has the row and a
   * different material; the keys and every unlisted laminate stay as they were.
   */
  lemma {:induction false} SyncRunHolds(original: OMap<string, Laminado>, ks: seq<string>, row: nat, material: string, k: string)
    requires NoDup(ks)
    ensures var st := SyncRun(original, ks, row, material);
      && (k in original.items ==>
            st.laminados.items[k] == if k in ks then WithMaterial(original.items[k], row, material) else original.items[k])
      && (k in st.updated <==> k in ks && k in original.items && NeedsMaterial(original.items[k], row, material))
      && NoDup(st.updated)
  {
    if ks != [] {
      var n := |ks| - 1;
      assert NoDup(ks[..n]);
      assert ks[n] !in ks[..n];
      SyncRunHolds(original, ks[..n], row, material, k);
      SyncRunHolds(original, ks[..n], row, material, ks[n]);
      assert forall x :: x in ks <==> x in ks[..n] || x == ks[n] by {
        assert ks == ks[..n] + [ks[n]];
      }
    }
  }

  /**
   * After the sync every laminate that has the row holds the (stripped)
   * material there; every other layer and field is as before.
   */
  lemma SyncedHolds(laminados: OMap<string, Laminado>, row: nat, material: string, k: string, i: nat)
    requires laminados.Valid() && k in laminados.items && IsTrimmed(material)
    ensures var l := laminados.items[k];
      var s := Synced(laminados, row, material).items[k];
      && |s.camadas| == |l.camadas|
      && (row < |l.camadas| ==> Trim(s.camadas[row].material) == material)
      && (i < |l.camadas| && i != row ==> s.camadas[i] == l.camadas[i])
      && s.(camadas := l.camadas) == l
    ensures k in SyncChanged(laminados, row, material) <==> NeedsMaterial(laminados.items[k], row, material)
  {
    SyncRunHolds(laminados, laminados.keys, row, material, k);
    TrimOfTrimmed(material);
  }

  /** After a sync no laminate needs the material any more. */
  lemma SyncedSettles(laminados: OMap<string, Laminado>, row: nat, material: string, k: string)
    requires laminados.Valid() && IsTrimmed(material) && k in laminados.items
    ensures !NeedsMaterial(Synced(laminados, row, material).items[k], row, material)
  {
    SyncRunHolds(laminados, laminados.keys, row, material, k);
    TrimOfTrimmed(material);
  }

  /** Syncing twice changes nothing more, and the second run reports no laminate. */
  lemma SyncIdempotent(laminados: OMap<string, Laminado>, row: nat, material: string)
    requires laminados.Valid() && IsTrimmed(material)
    ensures Synced(Synced(laminados, row, material), row, material) == Synced(laminados, row, material)
    ensures SyncChanged(Synced(laminados, row, material), row, material) == []
  {
    var s := Synced(laminados, row, material);
    forall k | k in s.items ensures Synced(s, row, material).items[k] == s.items[k] {
      SyncedSettles(laminados, row, material, k);
      SyncRunHolds(s, s.keys, row, material, k);
    }
    assert Synced(s, row, material).items == s.items;
    var changed := SyncChanged(s, row, material);
    if changed != [] {
      var k := changed[0];
      SyncRunHolds(s, s.keys, row, material, k);
      SyncedSettles(laminados, row, material, k);
    }
  }

  /**
   * sync_material_by_sequence without a stacking-model provider: the
   * stripped material is written into layer `row` of every laminate that has
   * it and holds a different material; the changed laminates' names are
   * returned in map order.
   */
  method SyncMaterialBySequence(model: GridModel?, row: int, material: string) returns (updated: seq<string>)
    requires model != null ==> model.Valid()
    modifies model
    ensures model == null || row < 0 ==> updated == [] && (model != null ==> unchanged(model))
    ensures model != null && row >= 0 ==>
      && updated == SyncChanged(old(model.laminados), row, Trim(material))
      && model.laminados == Synced(old(model.laminados), row, Trim(material))
      && model.cellToLaminate == old(model.cellToLaminate)
      && model.celulasOrdenadas == old(model.celulasOrdenadas)
      && model.cellContours == old(model.cellContours)
      && model.dirty == old(model.dirty)
  {
    updated := [];
    if model == null || row < 0 {
      return;
    }
    var newMaterial := Trim(material);
    ghost var original := model.laminados;
    var keys := model.laminados.keys;
    for i := 0 to |keys|
      invariant SyncState(model.laminados, updated) == SyncRun(original, keys[..i], row, newMaterial)
      invariant model.cellToLaminate == old(model.cellToLaminate) && model.celulasOrdenadas == old(model.celulasOrdenadas)
      invariant model.cellContours == old(model.cellContours) && model.dirty == old(model.dirty)
    {
      SyncRunStep(original, keys, row, newMaterial, i);
      var key := keys[i];
      if key !in model.laminados.items {
        continue;
      }
      var laminate := model.laminados.items[key];
      var layers := laminate.camadas;
      if row >= |layers| {
        continue;
      }
      if Trim(layers[row].material) == newMaterial {
        continue;
      }
      model.laminados := OMap(model.laminados.keys, model.laminados.items[key := laminate.(camadas := layers[row := layers[row].(material := newMaterial)])]);
      updated := updated + [key];
    }
    assert keys[..|keys|] == keys;
  }
}

=== FILE: material_registry.dfy ===
// gridlamedit/services/material_registry.py: the default materials, the
// user's custom materials kept in the settings store under
// "Materials/custom_list", and the combined list offered by the UI.
// Lists are normalised by stripping, dropping blanks and keeping the first
// spelling of entries that are equal up to case.
module MaterialRegistry {
  import opened Text
  import Seqs
  import Sorting
  import GridModels
  import ProjectQueries

  /** DEFAULT_MATERIALS: one entry, a part number followed by its description. */
  const DefaultMaterials: seq<string> :=
    ["E1676818" + "   FABRIC,PREPREG,CARBON/EPOXY RESIN-CLASS 1,T830H-6K-PW/3900-2D"]

  /** The case-folded form of every entry of s. */
  function Folded(s: seq<string>): (r: seq<string>)
    ensures |r| == |s|
    ensures forall k :: 0 <= k < |s| ==> r[k] == Lower(s[k])
  {
    seq(|s|, k requires 0 <= k < |s| => Lower(s[k]))
  }

  /** _normalize_materials, one entry at a time from the front. */
  function Normalize(items: seq<string>): (r: seq<string>)
    ensures |r| <= |items|
  {
    if items == [] then []
    else
      var n := |items| - 1;
      var init := Normalize(items[..n]);
      var text := Trim(items[n]);
      if text == "" || Lower(text) in Folded(init) then init else init + [text]
  }

  /** Non-blank, stripped entries, no two equal up to case. */
  predicate IsNormal(s: seq<string>)
  {
    (forall i :: 0 <= i < |s| ==> s[i] != "" && IsTrimmed(s[i])) &&
    (forall i, j :: 0 <= i < j < |s| ==> Lower(s[i]) != Lower(s[j]))
  }

  lemma FoldedSnoc(s: seq<string>, t: string)
    ensures Folded(s + [t]) == Folded(s) + [Lower(t)]
  {
  }

  /** Appending an entry whose case-folded form is new keeps a list normal. */
  lemma NormalSnoc(s: seq<string>, t: string)
    requires IsNormal(s) && t != "" && IsTrimmed(t) && Lower(t) !in Folded(s)
    ensures IsNormal(s + [t])
  {
    var r := s + [t];
    forall i, j | 0 <= i < j < |r| ensures Lower(r[i]) != Lower(r[j]) {
      if j == |s| {
        assert Folded(s)[i] == Lower(r[i]);
      }
    }
  }

  /** The result is normal. */
  lemma {:induction false} NormalizeIsNormal(items: seq<string>)
    ensures IsNormal(Normalize(items))
  {
    if items != [] {
      var n := |items| - 1;
      var init := Normalize(items[..n]);
      var text := Trim(items[n]);
      NormalizeIsNormal(items[..n]);
      if text != "" && Lower(text) !in Folded(init) {
        NormalSnoc(init, text);
      }
    }
  }

  /** Every non-blank entry is kept, up to case. */
  lemma {:induction false} NormalizeCovers(items: seq<string>, i: nat)
    requires i < |items| && Trim(items[i]) != ""
    ensures Lower(Trim(items[i])) in Folded(Normalize(items))
  {
    var n := |items| - 1;
    var init := Normalize(items[..n]);
    if i < n {
      NormalizeCovers(items[..n], i);
      assert items[..n][i] == items[i];
      var k :| 0 <= k < |init| && Folded(init)[k] == Lower(Trim(items[i]));
      assert Folded(Normalize(items))[k] == Lower(Trim(items[i]));
    } else if Lower(Trim(items[n])) !in Folded(init) {
      assert Folded(Normalize(items))[|init|] == Lower(Trim(items[i]));
    }
  }

  /** Every entry of the result is the stripped text of an input entry. */
  lemma {:induction false} NormalizeFrom(items: seq<string>, k: nat)
    requires k < |Normalize(items)|
    ensures exists i :: 0 <= i < |items| && Trim(items[i]) == Normalize(items)[k]
  {
    var n := |items| - 1;
    var init := Normalize(items[..n]);
    if k < |init| {
      NormalizeFrom(items[..n], k);
      var i :| 0 <= i < n && Trim(items[..n][i]) == init[k];
      assert Trim(items[i]) == Normalize(items)[k];
    } else {
      assert Trim(items[n]) == Normalize(items)[k];
    }
  }

  /** The first spelling of every case-folded entry is the one kept. */
  lemma {:induction false} NormalizeKeepsFirst(items: seq<string>, i: nat)
    requires i < |items| && Trim(items[i]) != ""
    requires forall j :: 0 <= j < i ==> Lower(Trim(items[j])) != Lower(Trim(items[i]))
    ensures Trim(items[i]) in Normalize(items)
  {
    var n := |items| - 1;
    var init := Normalize(items[..n]);
    if i < n {
      NormalizeKeepsFirst(items[..n], i);
    } else if Lower(Trim(items[n])) in Folded(init) {
      var k :| 0 <= k < |init| && Folded(init)[k] == Lower(Trim(items[n]));
      NormalizeFrom(items[..n], k);
      assert false;
    }
  }

  /** A normal list is its own normal form. */
  lemma {:induction false} NormalizeOfNormal(s: seq<string>)
    requires IsNormal(s)
    ensures Normalize(s) == s
  {
    if s != [] {
      var n := |s| - 1;
      assert s[..n] + [s[n]] == s;
      assert IsNormal(s[..n]);
      NormalizeOfNormal(s[..n]);
      TrimOfTrimmed(s[n]);
      NormalizeSnoc(s[..n], s[n]);
      assert Lower(s[n]) !in Folded(s[..n]) by {
        forall k | 0 <= k < n ensures Folded(s[..n])[k] != Lower(s[n]) {
          assert Lower(s[k]) != Lower(s[n]);
        }
      }
    }
  }

  /** Normalising twice is normalising once. */
  lemma NormalizeIdempotent(items: seq<string>)
    ensures Normalize(Normalize(items)) == Normalize(items)
  {
    NormalizeIsNormal(items);
    NormalizeOfNormal(Normalize(items));
  }

  /** _normalize_materials: a loop with a `seen` set of case-folded entries. */
  method NormalizeMaterials(items: seq<string>) returns (normalized: seq<string>)
    ensures normalized == Normalize(items)
  {
    normalized := [];
    var seen: set<string> := {};
    for i := 0 to |items|
      invariant normalized == Normalize(items[..i])
      invariant forall k :: k in seen <==> k in Folded(normalized)
    {
      assert items[..i + 1][..i] == items[..i];
      var text := Trim(items[i]);
      if text != "" {
        var key := Lower(text);
        if key !in seen {
          FoldedSnoc(normalized, text);
          seen := seen + {key};
          normalized := normalized + [text];
        }
      }
    }
    assert items[..|items|] == items;
  }

  // ---------------------------------------------------------------- appending a normal list

  /** Keeps the entries of b whose case-folded form is not among keys. */
  function Fresh(b: seq<string>, keys: seq<string>): (r: seq<string>)
  {
    Seqs.Filter(b, x => Lower(x) !in keys)
  }

  lemma FreshSnoc(b: seq<string>, t: string, keys: seq<string>)
    ensures Fresh(b + [t], keys) == Fresh(b, keys) + (if Lower(t) in keys then [] else [t])
  {
    Seqs.FilterAppend(b, [t], x => Lower(x) !in keys);
    assert [t][1..] == [];
  }

  /** Normalising a + b, with b already normal, keeps the normal form of a and then the new entries of b. */
  lemma {:induction false} NormalizeAppend(a: seq<string>, b: seq<string>)
    requires IsNormal(b)
    ensures Normalize(a + b) == Normalize(a) + Fresh(b, Folded(Normalize(a)))
  {
    var keys := Folded(Normalize(a));
    if b == [] {
      assert a + b == a;
    } else {
      var n := |b| - 1;
      assert b[..n] + [b[n]] == b;
      assert (a + b[..n]) + [b[n]] == a + b;
      assert IsNormal(b[..n]);
      NormalizeAppend(a, b[..n]);
      var added := Fresh(b[..n], keys);
      var init := Normalize(a + b[..n]);
      var tail := if Lower(b[n]) in keys then [] else [b[n]];
      FoldedAppend(Normalize(a), added);
      FreshNotIn(b, keys, n);
      assert Lower(b[n]) in Folded(init) <==> Lower(b[n]) in keys;
      TrimOfTrimmed(b[n]);
      NormalizeSnoc(a + b[..n], b[n]);
      assert Normalize(a + b) == init + tail;
      FreshSnoc(b[..n], b[n], keys);
      assert Fresh(b, keys) == added + tail;
      AppendAssoc(Normalize(a), added, tail);
    }
  }

  lemma AppendAssoc(x: seq<string>, y: seq<string>, z: seq<string>)
    ensures (x + y) + z == x + (y + z)
  {
  }

  /** One more entry: the definition read at the end of the list. */
  lemma NormalizeSnoc(s: seq<string>, t: string)
    ensures Normalize(s + [t]) ==
      Normalize(s) + (if Trim(t) == "" || Lower(Trim(t)) in Folded(Normalize(s)) then [] else [Trim(t)])
  {
    assert (s + [t])[..|s|] == s;
  }

  lemma FoldedAppend(s: seq<string>, t: seq<string>)
    ensures Folded(s + t) == Folded(s) + Folded(t)
  {
  }

  /** No kept entry before position n of a normal list folds like entry n. */
  lemma FreshNotIn(b: seq<string>, keys: seq<string>, n: nat)
    requires IsNormal(b) && n < |b|
    ensures Lower(b[n]) !in Folded(Fresh(b[..n], keys))
  {
    var added := Fresh(b[..n], keys);
    forall k | 0 <= k < |added| ensures Folded(added)[k] != Lower(b[n]) {
      assert added[k] in b[..n];
      var j :| 0 <= j < n && b[..n][j] == added[k];
      assert Lower(b[j]) != Lower(b[n]);
    }
  }

  /** Filtering keeps a sorted list sorted. */
  lemma {:induction false} FilterSorted(s: seq<string>, p: string -> bool)
    requires Sorting.SortedBy(s, Sorting.FoldedLe)
    ensures Sorting.SortedBy(Seqs.Filter(s, p), Sorting.FoldedLe)
  {
    if s != [] {
      assert Sorting.SortedBy(s[1..], Sorting.FoldedLe) by {
        forall i, j | 0 <= i < j < |s[1..]| ensures Sorting.FoldedLe(s[1..][i], s[1..][j]) {
          assert s[1..][i] == s[i + 1] && s[1..][j] == s[j + 1];
        }
      }
      FilterSorted(s[1..], p);
      var rest := Seqs.Filter(s[1..], p);
      forall k | 0 <= k < |rest| ensures Sorting.FoldedLe(s[0], rest[k]) {
        assert rest[k] in s[1..];
      }
    }
  }

  /** Reordering keeps a list normal. */
  lemma NormalPermutation(a: seq<string>, b: seq<string>)
    requires IsNormal(a) && multiset(a) == multiset(b)
    ensures IsNormal(b)
  {
    assert Seqs.NoDup(a) by {
      forall i, j | 0 <= i < j < |a| ensures a[i] != a[j] {
        assert Lower(a[i]) != Lower(a[j]);
      }
    }
    Seqs.NoDupPermutation(a, b);
    forall i | 0 <= i < |b| ensures b[i] != "" && IsTrimmed(b[i]) {
      assert b[i] in multiset(a);
    }
    forall i, j | 0 <= i < j < |b| ensures Lower(b[i]) != Lower(b[j]) {
      assert b[i] in multiset(a) && b[j] in multiset(a);
      var p :| 0 <= p < |a| && a[p] == b[i];
      var q :| 0 <= q < |a| && a[q] == b[j];
      assert b[i] != b[j];
      assert p != q;
      if p < q {
        assert Lower(a[p]) != Lower(a[q]);
      } else {
        assert Lower(a[q]) != Lower(a[p]);
      }
    }
  }

  // ---------------------------------------------------------------- available_materials

  /**
   * The base list followed by the entries of `both`, normalised and sorted
   * by case-folded text, with entries equal up to case kept once.
   */
  function Merge(base: seq<string>, both: seq<string>): (r: seq<string>)
  {
    Normalize(base + Sorting.SortFolded(Normalize(both)))
  }

  /** available_materials, given the stored custom list and the project's laminates. */
  function Available(stored: seq<string>, ls: seq<GridModels.Laminado>): (r: seq<string>)
  {
    Merge(Normalize(DefaultMaterials), Normalize(stored) + ProjectQueries.DistinctMaterials(ls))
  }

  /** A merge is the base followed by the new entries of the sorted extras. */
  lemma MergeSplits(base: seq<string>, both: seq<string>)
    requires IsNormal(base)
    ensures var extras := Sorting.SortFolded(Normalize(both));
      IsNormal(extras) && Merge(base, both) == base + Fresh(extras, Folded(base))
  {
    var merged := Normalize(both);
    var extras := Sorting.SortFolded(merged);
    NormalizeIsNormal(both);
    NormalPermutation(merged, extras);
    NormalizeAppend(base, extras);
    NormalizeOfNormal(base);
  }

  /** The base comes first, the rest is in case-folded order, and no two entries are equal up to case. */
  lemma MergeShape(base: seq<string>, both: seq<string>)
    requires IsNormal(base)
    ensures var r := Merge(base, both);
      |base| <= |r| && r[..|base|] == base &&
      Sorting.SortedBy(r[|base|..], Sorting.FoldedLe) && IsNormal(r)
  {
    var extras := Sorting.SortFolded(Normalize(both));
    var keys := Folded(base);
    var r := Merge(base, both);
    MergeSplits(base, both);
    assert r[..|base|] == base;
    assert r[|base|..] == Fresh(extras, keys);
    FilterSorted(extras, x => Lower(x) !in keys);
    NormalizeIsNormal(base + extras);
  }

  lemma FoldedHas(s: seq<string>, x: string)
    requires x in s
    ensures Lower(x) in Folded(s)
  {
    var k :| 0 <= k < |s| && s[k] == x;
    assert Folded(s)[k] == Lower(x);
  }

  /** Every entry of the normalised `both` is kept, up to case. */
  lemma MergeKeeps(base: seq<string>, both: seq<string>, x: string)
    requires IsNormal(base) && x in Normalize(both)
    ensures Lower(x) in Folded(Merge(base, both))
  {
    var extras := Sorting.SortFolded(Normalize(both));
    var keys := Folded(base);
    var added := Fresh(extras, keys);
    MergeSplits(base, both);
    FoldedAppend(base, added);
    assert x in multiset(extras);
    if Lower(x) !in keys {
      FoldedHas(added, x);
    }
  }

  /** Every base entry and every stripped, non-blank entry of `both` is kept, up to case. */
  lemma MergeCovers(base: seq<string>, both: seq<string>, m: string)
    requires IsNormal(base)
    requires m in base || (m in both && m != "" && IsTrimmed(m))
    ensures Lower(m) in Folded(Merge(base, both))
  {
    if m in base {
      MergeSplits(base, both);
      FoldedHas(base + Fresh(Sorting.SortFolded(Normalize(both)), Folded(base)), m);
    } else {
      var merged := Normalize(both);
      var i :| 0 <= i < |both| && both[i] == m;
      TrimOfTrimmed(m);
      NormalizeCovers(both, i);
      var k :| 0 <= k < |merged| && Folded(merged)[k] == Lower(m);
      MergeKeeps(base, both, merged[k]);
    }
  }

  /** Every entry of a merge is a base entry or the stripped text of an entry of `both`. */
  lemma MergeFrom(base: seq<string>, both: seq<string>, y: string)
    requires IsNormal(base) && y in Merge(base, both)
    ensures y in base || exists i :: 0 <= i < |both| && Trim(both[i]) == y
  {
    var merged := Normalize(both);
    var extras := Sorting.SortFolded(merged);
    MergeSplits(base, both);
    if y !in base {
      assert y in Fresh(extras, Folded(base));
      assert y in multiset(merged);
      var k :| 0 <= k < |merged| && merged[k] == y;
      NormalizeFrom(both, k);
    }
  }

  lemma DefaultsAreNormal()
    ensures IsNormal(DefaultMaterials)
    ensures Normalize(DefaultMaterials) == DefaultMaterials
  {
    var d := DefaultMaterials[0];
    assert d[0] == 'E' && d[|d| - 1] == 'D';
    NormalizeOfNormal(DefaultMaterials);
  }

  /** The project's materials are stripped and not blank. */
  lemma ProjectMaterialsAreStripped(ls: seq<GridModels.Laminado>, m: string)
    requires m in ProjectQueries.DistinctMaterials(ls)
    ensures m != "" && IsTrimmed(m)
  {
    ProjectQueries.DistinctMaterialsSpec(ls);
    var i, j :| 0 <= i < |ls| && 0 <= j < |ls[i].camadas|
      && ls[i].camadas[j].orientacao.Some? && Trim(ls[i].camadas[j].material) == m;
  }

  /** The custom and project materials: stripped, not blank. */
  lemma ExtrasAreStripped(stored: seq<string>, ls: seq<GridModels.Laminado>, m: string)
    requires m in Normalize(stored) + ProjectQueries.DistinctMaterials(ls)
    ensures m != "" && IsTrimmed(m)
  {
    if m in Normalize(stored) {
      NormalizeIsNormal(stored);
    } else {
      ProjectMaterialsAreStripped(ls, m);
    }
  }

  /**
   * available_materials: the defaults come first, then the custom and
   * project materials in case-folded order, and no two entries are equal
   * up to case.
   */
  lemma AvailableShape(stored: seq<string>, ls: seq<GridModels.Laminado>)
    ensures var r := Available(stored, ls);
      |DefaultMaterials| <= |r| && r[..|DefaultMaterials|] == DefaultMaterials &&
      Sorting.SortedBy(r[|DefaultMaterials|..], Sorting.FoldedLe) && IsNormal(r)
  {
    DefaultsAreNormal();
    MergeShape(DefaultMaterials, Normalize(stored) + ProjectQueries.DistinctMaterials(ls));
  }

  /** Every default, custom and project material is offered, up to case. */
  lemma AvailableCovers(stored: seq<string>, ls: seq<GridModels.Laminado>, m: string)
    requires m in DefaultMaterials || m in Normalize(stored) + ProjectQueries.DistinctMaterials(ls)
    ensures Lower(m) in Folded(Available(stored, ls))
  {
    DefaultsAreNormal();
    if m !in DefaultMaterials {
      ExtrasAreStripped(stored, ls, m);
    }
    MergeCovers(DefaultMaterials, Normalize(stored) + ProjectQueries.DistinctMaterials(ls), m);
  }

  /** Every material offered is a default, a custom or a project material. */
  lemma AvailableFrom(stored: seq<string>, ls: seq<GridModels.Laminado>, y: string)
    requires y in Available(stored, ls)
    ensures y in DefaultMaterials || y in Normalize(stored) + ProjectQueries.DistinctMaterials(ls)
  {
    var both := Normalize(stored) + ProjectQueries.DistinctMaterials(ls);
    DefaultsAreNormal();
    MergeFrom(DefaultMaterials, both, y);
    if y !in DefaultMaterials {
      var i :| 0 <= i < |both| && Trim(both[i]) == y;
      ExtrasAreStripped(stored, ls, both[i]);
      TrimOfTrimmed(both[i]);
    }
  }

  // ---------------------------------------------------------------- the settings store

  /** The settings store holding the custom material list. */
  class MaterialSettings {
    /** The list stored under Materials/custom_list. */
    var stored: seq<string>

    constructor(initial: seq<string>)
      ensures stored == initial
    {
      stored := initial;
    }

    /** load_custom_materials */
    method LoadCustomMaterials() returns (r: seq<string>)
      ensures r == Normalize(stored)
    {
      r := NormalizeMaterials(stored);
    }

    /** save_custom_materials: stores and returns the normal form. */
    method SaveCustomMaterials(materials: seq<string>) returns (r: seq<string>)
      modifies this
      ensures r == Normalize(materials) && stored == r
    {
      r := NormalizeMaterials(materials);
      stored := r;
    }

    /**
     * add_custom_material: blank input changes nothing; otherwise the
     * stripped text is appended unless an entry equal up to case exists,
     * and the list is saved.
     */
    method AddCustomMaterial(material: string) returns (r: seq<string>)
      modifies this
      ensures Trim(material) == "" ==> r == Normalize(old(stored)) && stored == old(stored)
      ensures Trim(material) != "" ==> stored == r && r == WithMaterial(Normalize(old(stored)), Trim(material))
    {
      var current := LoadCustomMaterials();
      var text := Trim(material);
      if text == "" {
        return current;
      }
      var key := Lower(text);
      if key !in Folded(current) {
        current := current + [text];
      }
      NormalizeIsNormal(old(stored));
      WithMaterialSpec(Normalize(old(stored)), text);
      NormalizeOfNormal(current);
      r := SaveCustomMaterials(current);
    }

    /** available_materials for the given project. */
    method AvailableMaterials(p: ProjectQueries.Project) returns (r: seq<string>)
      requires p.LaminateMap? ==> p.laminados.Valid()
      ensures r == Available(stored, ProjectQueries.IterLaminates(p))
    {
      var base := NormalizeMaterials(DefaultMaterials);
      var custom := LoadCustomMaterials();
      var projectMaterials := ProjectQueries.ProjectDistinctMaterials(p);
      var merged := NormalizeMaterials(custom + projectMaterials);
      var extras := Sorting.SortFolded(merged);
      r := NormalizeMaterials(base + extras);
    }
  }

  /** The custom list with text appended unless an entry equal to it up to case exists. */
  function WithMaterial(current: seq<string>, text: string): (r: seq<string>)
  {
    if Lower(text) in Folded(current) then current else current + [text]
  }

  /** Adding keeps a normal list normal, keeps its entries in place and holds the text up to case. */
  lemma WithMaterialSpec(current: seq<string>, text: string)
    requires IsNormal(current) && text != "" && IsTrimmed(text)
    ensures var r := WithMaterial(current, text);
      IsNormal(r) && Lower(text) in Folded(r) && r[..|current|] == current
  {
    if Lower(text) !in Folded(current) {
      NormalSnoc(current, text);
      assert Folded(current + [text])[|current|] == Lower(text);
      assert (current + [text])[..|current|] == current;
    }
  }
}

=== FILE: name_dialog.dfy ===
// gridlamedit/app/dialogs/name_laminate_dialog.py: the name a user types for
// a cloned laminate, checked for presence, for the allowed characters and
// against the names already in use (case-insensitively).
module NameDialogs {
  import opened Text

  /** One character of the class `[A-Za-z0-9_\-\s\.]` of _NAME_PATTERN. */
  predicate IsNameChar(c: char)
  {
    IsLetter(c) || IsDigit(c) || c == '_' || c == '-' || c == '.' || IsSpace(c)
  }

  /** _NAME_PATTERN.match(text): one or more allowed characters, nothing else. */
  predicate MatchesNamePattern(text: string)
  {
    text != [] && forall i :: 0 <= i < |text| ==> IsNameChar(text[i])
  }

  /** The outcome of _validate_and_accept: accepted, or the warning shown. */
  datatype Verdict = Accepted | MissingName | InvalidName | DuplicateName

  /** set_existing_names: the trimmed, lower-cased form of every non-blank name. */
  function ExistingNames(names: seq<string>): (r: set<string>)
    ensures forall n :: n in names && Trim(n) != "" ==> Lower(Trim(n)) in r
    ensures forall k :: k in r ==> exists n :: n in names && Trim(n) != "" && k == Lower(Trim(n))
  {
    set n | n in names && Trim(n) != "" :: Lower(Trim(n))
  }

  /** result_name */
  function ResultName(input: string): (r: string)
    ensures IsTrimmed(r)
  {
    Trim(input)
  }

  /**
   * _validate_and_accept: the checks run in the order empty, pattern,
   * duplicate, and the first that fails decides the warning.
   */
  function Validate(input: string, existing: set<string>): (v: Verdict)
    ensures v == MissingName <==> ResultName(input) == ""
    ensures v == InvalidName <==> ResultName(input) != "" && !MatchesNamePattern(ResultName(input))
    ensures v == DuplicateName <==>
      MatchesNamePattern(ResultName(input)) && Lower(ResultName(input)) in existing
    ensures v == Accepted <==>
      MatchesNamePattern(ResultName(input)) && Lower(ResultName(input)) !in existing
  {
    var text := ResultName(input);
    if text == "" then MissingName
    else if !MatchesNamePattern(text) then InvalidName
    else if Lower(text) in existing then DuplicateName
    else Accepted
  }

  /** An accepted name differs, ignoring case and surrounding blanks, from every existing name. */
  lemma AcceptedIsUnused(input: string, names: seq<string>, other: string)
    requires Validate(input, ExistingNames(names)) == Accepted
    requires other in names
    ensures Lower(Trim(other)) != Lower(ResultName(input))
  {
    if Trim(other) == "" {
      assert |Lower(Trim(other))| == 0 < |ResultName(input)|;
    }
  }

  /** Surrounding blanks never change the verdict. */
  lemma ValidateIgnoresBlanks(input: string, existing: set<string>)
    ensures Validate(ResultName(input), existing) == Validate(input, existing)
  {
    TrimOfTrimmed(ResultName(input));
  }

  class NameLaminateDialog {
    /** _existing_names */
    var existingNames: set<string>
    /** The text of the name field. */
    var text: string
    var accepted: bool

    constructor()
      ensures existingNames == {} && text == "" && !accepted
    {
      existingNames := {};
      text := "";
      accepted := false;
    }

    method SetExistingNames(names: seq<string>)
      modifies this`existingNames
      ensures existingNames == ExistingNames(names)
    {
      existingNames := set n | n in names && Trim(n) != "" :: Lower(Trim(n));
    }

    /** The OK button: the dialog closes accepted only when the name passes every check. */
    method ValidateAndAccept() returns (v: Verdict)
      modifies this`accepted
      ensures v == Validate(text, existingNames)
      ensures accepted == (old(accepted) || v == Accepted)
    {
      var name := Trim(text);
      if name == "" {
        return MissingName;
      }
      if !MatchesNamePattern(name) {
        return InvalidName;
      }
      if Lower(name) in existingNames {
        return DuplicateName;
      }
      accepted := true;
      return Accepted;
    }
  }
}

=== FILE: natural_sort.dfy ===
// gridlamedit/core/utils.py: natural_sort_key, the sort key that orders
// laminate names such as L1, L2, L10, L25, L25.1 by their numbers. The text
// is cut by re.split(r"(\d+\.?\d*)", text); every non-blank stripped piece
// becomes a float when it parses as one and its lower-cased text otherwise.
// A piece without digits still parses as a float when it spells an infinity
// or a NaN ("inf", "-Infinity", "nan", ...), so those are floats too.
module NaturalSort {
  import opened Wrappers
  import opened Text
  import PyValues
  import Sorting

  /** One element of the key list: a finite float, an infinity, a NaN, or a lower-cased str. */
  datatype KeyPart = Number(value: real) | Infinity(negative: bool) | NotANumber | Word(text: string)

  // ---------------------------------------------------------------- re.split

  predicate NoDigit(s: string)
  {
    forall i :: 0 <= i < |s| ==> !IsDigit(s[i])
  }

  /** Length of the run of decimal digits at the start of s. */
  function DigitsLen(s: string): (n: nat)
    ensures n <= |s|
  {
    if s != [] && IsDigit(s[0]) then 1 + DigitsLen(s[1..]) else 0
  }

  /** The run is all digits and ends at the end of s or at a non-digit. */
  lemma {:induction false} DigitsLenSpec(s: string)
    ensures forall i :: 0 <= i < DigitsLen(s) ==> IsDigit(s[i])
    ensures DigitsLen(s) == |s| || !IsDigit(s[DigitsLen(s)])
  {
    if s != [] && IsDigit(s[0]) {
      DigitsLenSpec(s[1..]);
    }
  }

  /** Length of the greedy match of \d+\.?\d* at the start of s. */
  function RunLen(s: string): (n: nat)
    requires s != [] && IsDigit(s[0])
    ensures 1 <= n <= |s|
  {
    var d := DigitsLen(s);
    if d < |s| && s[d] == '.' then d + 1 + DigitsLen(s[d + 1..]) else d
  }

  /** Length of the text before the first digit. */
  function GapLen(s: string): (n: nat)
    ensures n <= |s|
    ensures n < |s| ==> IsDigit(s[n])
  {
    if s != [] && !IsDigit(s[0]) then 1 + GapLen(s[1..]) else 0
  }

  /** The gap holds no digit. */
  lemma {:induction false} GapLenSpec(s: string)
    ensures NoDigit(s[..GapLen(s)])
  {
    if s != [] && !IsDigit(s[0]) {
      GapLenSpec(s[1..]);
      assert s[..GapLen(s)] == [s[0]] + s[1..][..GapLen(s[1..])];
    }
  }

  /**
   * re.split(r"(\d+\.?\d*)", text): the text between matches and the
   * matches themselves, alternating, first and last a (possibly empty) gap.
   */
  function SplitNumbers(s: string): (parts: seq<string>)
    ensures |parts| % 2 == 1
    decreases |s|
  {
    var g := GapLen(s);
    if g == |s| then [s]
    else
      var n := RunLen(s[g..]);
      [s[..g], s[g..g + n]] + SplitNumbers(s[g + n..])
  }

  /** The whole text matches \d+\.?\d*. */
  predicate IsNumberRun(p: string)
  {
    p != [] && IsDigit(p[0]) && RunLen(p) == |p|
  }

  /** "".join(parts) */
  function Concat(parts: seq<string>): string
  {
    if parts == [] then "" else parts[0] + Concat(parts[1..])
  }

  lemma {:induction false} DigitsLenIs(s: string, k: nat)
    requires k <= |s| && (forall i :: 0 <= i < k ==> IsDigit(s[i])) && (k == |s| || !IsDigit(s[k]))
    ensures DigitsLen(s) == k
    decreases k
  {
    if k > 0 {
      DigitsLenIs(s[1..], k - 1);
    }
  }

  /** The match, cut out of the text, still matches as a whole. */
  lemma RunOfMatch(t: string)
    requires t != [] && IsDigit(t[0])
    ensures IsNumberRun(t[..RunLen(t)])
  {
    var n := RunLen(t);
    var p := t[..n];
    var d := DigitsLen(t);
    DigitsLenSpec(t);
    DigitsLenIs(p, d);
    if d < |t| && t[d] == '.' {
      var e := DigitsLen(t[d + 1..]);
      DigitsLenSpec(t[d + 1..]);
      assert p[d + 1..] == t[d + 1..][..e];
      DigitsLenIs(p[d + 1..], e);
    }
  }

  /** The pieces join back into the text. */
  lemma {:induction false} SplitJoin(s: string)
    ensures Concat(SplitNumbers(s)) == s
    decreases |s|
  {
    var g := GapLen(s);
    if g == |s| {
      assert Concat([s]) == s + Concat([]);
    } else {
      var n := RunLen(s[g..]);
      var parts := SplitNumbers(s);
      var rest := SplitNumbers(s[g + n..]);
      SplitJoin(s[g + n..]);
      assert parts[1..][1..] == rest;
      assert s == s[..g] + (s[g..g + n] + s[g + n..]);
    }
  }

  /** Gap, match, gap, ..., gap: gaps hold no digit and every match is a whole \d+\.?\d* run. */
  predicate Alternates(parts: seq<string>)
  {
    |parts| % 2 == 1 && NoDigit(parts[0]) &&
    (|parts| > 1 ==> IsNumberRun(parts[1]) && Alternates(parts[2..]))
  }

  lemma {:induction false} SplitAlternates(s: string)
    ensures Alternates(SplitNumbers(s))
    decreases |s|
  {
    var g := GapLen(s);
    GapLenSpec(s);
    if g < |s| {
      var n := RunLen(s[g..]);
      var parts := SplitNumbers(s);
      SplitAlternates(s[g + n..]);
      RunOfMatch(s[g..]);
      assert s[g..][..n] == s[g..g + n];
      assert parts[2..] == SplitNumbers(s[g + n..]);
    }
  }

  /** Piece 2k is a gap and piece 2k+1 a match. */
  lemma {:induction false} AlternatesAt(parts: seq<string>, k: nat)
    requires Alternates(parts) && 2 * k < |parts|
    ensures NoDigit(parts[2 * k])
    ensures 2 * k + 1 < |parts| ==> IsNumberRun(parts[2 * k + 1])
  {
    if k > 0 {
      AlternatesAt(parts[2..], k - 1);
    }
  }

  // ---------------------------------------------------------------- the key

  /** float(text) for a whole \d+\.?\d* run ("25." reads as 25.0). */
  function RunValue(p: string): (x: real)
    requires IsNumberRun(p)
    ensures x >= 0.0
  {
    var d := DigitsLen(p);
    assert AllDigits(p[..d]) by {
      DigitsLenSpec(p);
    }
    var whole := ParseNat(p[..d]) as real;
    if d == |p| then whole
    else
      var frac := p[d + 1..];
      assert AllDigits(frac) by {
        DigitsLenSpec(frac);
      }
      whole + (ParseNat(frac) as real) / (PyValues.Pow10(|frac|) as real)
  }

  /** The texts without digits that float() accepts once stripped: an optional sign, then inf, infinity or nan in any case. */
  predicate FloatSpelling(p: string)
  {
    Lower(p) in {"inf", "+inf", "-inf", "infinity", "+infinity", "-infinity", "nan", "+nan", "-nan"}
  }

  /** float() of a spelled infinity or NaN. */
  function SpelledFloat(p: string): (r: KeyPart)
    requires FloatSpelling(p)
    ensures r.Infinity? || r.NotANumber?
  {
    var l := Lower(p);
    if l in {"nan", "+nan", "-nan"} then NotANumber else Infinity(l[0] == '-')
  }

  /** float(part), or part.lower() when float() raises ValueError. */
  function PartKey(p: string): KeyPart
  {
    if IsNumberRun(p) then Number(RunValue(p))
    else if FloatSpelling(p) then SpelledFloat(p)
    else Word(Lower(p))
  }

  /** The loop of natural_sort_key over the pieces, blank pieces skipped. */
  function KeyOf(parts: seq<string>): seq<KeyPart>
  {
    if parts == [] then []
    else
      var n := |parts| - 1;
      var p := Trim(parts[n]);
      KeyOf(parts[..n]) + (if p == "" then [] else [PartKey(p)])
  }

  /** natural_sort_key(text) */
  function Key(text: string): seq<KeyPart>
  {
    KeyOf(SplitNumbers(text))
  }

  method NaturalSortKey(text: string) returns (result: seq<KeyPart>)
    ensures result == Key(text)
  {
    var parts := SplitNumbers(text);
    result := [];
    var i := 0;
    while i < |parts|
      invariant i <= |parts|
      invariant result == KeyOf(parts[..i])
    {
      assert parts[..i + 1][..i] == parts[..i];
      var stripped := Trim(parts[i]);
      if stripped != "" {
        result := result + [PartKey(stripped)];
      }
      i := i + 1;
    }
    assert parts[..i] == parts;
  }

  // ---------------------------------------------------------------- keys of typical names

  lemma {:induction false} GapLenIs(s: string, k: nat)
    requires k <= |s| && (forall i :: 0 <= i < k ==> !IsDigit(s[i])) && (k == |s| || IsDigit(s[k]))
    ensures GapLen(s) == k
    decreases k
  {
    if k > 0 {
      GapLenIs(s[1..], k - 1);
    }
  }

  lemma DigitsAreTrimmed(d: string)
    requires d != [] && AllDigits(d)
    ensures Trim(d) == d
  {
    TrimOfTrimmed(d);
  }

  /** str(n) is a number run that float() reads as n. */
  lemma NatTextIsRun(n: nat)
    ensures IsNumberRun(NatToString(n))
    ensures RunValue(NatToString(n)) == n as real
  {
    var d := NatToString(n);
    DigitsLenIs(d, |d|);
    assert d[..|d|] == d;
    ParseNatToString(n);
  }

  lemma SplitEmpty()
    ensures SplitNumbers("") == [""]
  {
    GapLenIs("", 0);
  }

  lemma RunOfDigits(d: string)
    requires d != [] && AllDigits(d)
    ensures RunLen(d) == |d|
  {
    DigitsLenIs(d, |d|);
  }

  /** A word followed by a number splits into the word, the number and an empty tail. */
  lemma SplitWordNumber(w: string, d: string)
    requires w != [] && NoDigit(w) && d != [] && AllDigits(d)
    ensures SplitNumbers(w + d) == [w, d, ""]
  {
    var s := w + d;
    GapLenIs(s, |w|);
    assert s[|w|..] == d && s[..|w|] == w;
    RunOfDigits(d);
    assert s[|w|..|w| + |d|] == d;
    assert s[|w| + |d|..] == "";
    SplitEmpty();
  }

  /** A number followed by a word that does not start with '.' splits into "", the number and the word. */
  lemma SplitNumberWord(d: string, w: string)
    requires w != [] && NoDigit(w) && w[0] != '.' && d != [] && AllDigits(d)
    ensures SplitNumbers(d + w) == ["", d, w]
  {
    var s := d + w;
    GapLenIs(s, 0);
    assert s[0..] == s && s[..0] == "";
    DigitsLenIs(s, |d|);
    assert RunLen(s) == |d|;
    assert s[0..|d|] == d && s[|d|..] == w;
    GapLenIs(w, |w|);
    assert SplitNumbers(w) == [w];
  }

  /** The key of a gap, a number and a gap. */
  lemma KeyOfThree(a: string, d: string, b: string)
    ensures KeyOf([a, d, b]) == KeyOf([a]) + KeyOf([d]) + KeyOf([b])
  {
    var parts := [a, d, b];
    assert parts[..2] == [a, d] && parts[..2][..1] == [a];
    assert [a][..0] == [] && [d][..0] == [] && [b][..0] == [];
  }

  lemma KeyOfOne(p: string)
    ensures KeyOf([p]) == if Trim(p) == "" then [] else [PartKey(Trim(p))]
  {
    assert [p][..0] == [];
  }

  /**
   * natural_sort_key(w + str(n)) for a stripped text w without digits: the
   * float or lower-cased text of w, then n.
   */
  lemma KeyOfWordNumber(w: string, n: nat)
    requires w != [] && NoDigit(w) && IsTrimmed(w)
    ensures Key(w + NatToString(n)) == [PartKey(w), Number(n as real)]
    ensures PartKey(w) == if FloatSpelling(w) then SpelledFloat(w) else Word(Lower(w))
  {
    var d := NatToString(n);
    SplitWordNumber(w, d);
    KeyOfThree(w, d, "");
    NatTextIsRun(n);
    DigitsAreTrimmed(d);
    KeyOfOne(d);
    TrimOfTrimmed(w);
    KeyOfOne(w);
    TrimOfTrimmed("");
    KeyOfOne("");
  }

  /** natural_sort_key(str(n) + w) for a stripped text w without digits that does not start with '.'. */
  lemma KeyOfNumberWord(n: nat, w: string)
    requires w != [] && NoDigit(w) && IsTrimmed(w) && w[0] != '.'
    ensures Key(NatToString(n) + w) == [Number(n as real), PartKey(w)]
    ensures PartKey(w) == if FloatSpelling(w) then SpelledFloat(w) else Word(Lower(w))
  {
    var d := NatToString(n);
    SplitNumberWord(d, w);
    KeyOfThree("", d, w);
    NatTextIsRun(n);
    DigitsAreTrimmed(d);
    KeyOfOne(d);
    TrimOfTrimmed(w);
    KeyOfOne(w);
    TrimOfTrimmed("");
    KeyOfOne("");
  }

  // ---------------------------------------------------------------- case does not matter

  /** lower() keeps every digit, every non-digit and every '.' where it was. */
  lemma LowerKeepsDigits(s: string)
    ensures forall i :: 0 <= i < |s| ==> (IsDigit(Lower(s)[i]) <==> IsDigit(s[i]))
    ensures forall i :: 0 <= i < |s| ==> (Lower(s)[i] == '.' <==> s[i] == '.')
  {
  }

  lemma LowerSlices(s: string, i: nat, j: nat)
    requires i <= j <= |s|
    ensures Lower(s)[i..j] == Lower(s[i..j]) && Lower(s)[i..] == Lower(s[i..])
  {
  }

  lemma RunLenLower(s: string)
    requires s != [] && IsDigit(s[0])
    ensures IsDigit(Lower(s)[0]) && RunLen(Lower(s)) == RunLen(s)
  {
    var t := Lower(s);
    var d := DigitsLen(s);
    LowerKeepsDigits(s);
    DigitsLenSpec(s);
    DigitsLenIs(t, d);
    if d < |s| {
      LowerSlices(s, d + 1, |s|);
      var e := DigitsLen(s[d + 1..]);
      DigitsLenSpec(s[d + 1..]);
      LowerKeepsDigits(s[d + 1..]);
      DigitsLenIs(t[d + 1..], e);
    }
  }

  lemma GapLenLower(s: string)
    ensures GapLen(Lower(s)) == GapLen(s)
  {
    LowerKeepsDigits(s);
    GapLenSpec(s);
    GapLenIs(Lower(s), GapLen(s));
  }

  /** Splitting the lower-cased text gives the lower-cased pieces. */
  lemma {:induction false} SplitLower(s: string)
    ensures SplitNumbers(Lower(s)) == MapWords(LowerChar, SplitNumbers(s))
    decreases |s|
  {
    var t := Lower(s);
    var g := GapLen(s);
    GapLenLower(s);
    if g < |s| {
      LowerSlices(s, g, |s|);
      RunLenLower(s[g..]);
      var n := RunLen(s[g..]);
      LowerSlices(s, g, g + n);
      LowerSlices(s, 0, g);
      LowerSlices(s, g + n, |s|);
      SplitLower(s[g + n..]);
      var rest := SplitNumbers(s[g + n..]);
      assert SplitNumbers(s) == [s[..g], s[g..g + n]] + rest;
      assert SplitNumbers(t) == [Lower(s[..g]), Lower(s[g..g + n])] + MapWords(LowerChar, rest);
    } else {
      assert t[..g] == t;
    }
  }

  lemma {:induction false} TrimLeftLower(s: string)
    ensures TrimLeft(Lower(s)) == Lower(TrimLeft(s))
    decreases |s|
  {
    if s != [] && IsSpace(s[0]) {
      assert Lower(s)[1..] == Lower(s[1..]);
      TrimLeftLower(s[1..]);
    }
  }

  lemma {:induction false} TrimRightLower(s: string)
    ensures TrimRight(Lower(s)) == Lower(TrimRight(s))
    decreases |s|
  {
    if s != [] && IsSpace(s[|s| - 1]) {
      assert Lower(s)[..|s| - 1] == Lower(s[..|s| - 1]);
      TrimRightLower(s[..|s| - 1]);
    }
  }

  lemma TrimLower(s: string)
    ensures Trim(Lower(s)) == Lower(Trim(s))
  {
    TrimLeftLower(s);
    TrimRightLower(TrimLeft(s));
  }

  /** A number run holds only digits and at most the one '.'. */
  lemma RunChars(p: string)
    requires IsNumberRun(p)
    ensures forall i :: 0 <= i < |p| ==> IsDigit(p[i]) || p[i] == '.'
  {
    var d := DigitsLen(p);
    DigitsLenSpec(p);
    if d < |p| {
      DigitsLenSpec(p[d + 1..]);
      assert forall i :: d + 1 <= i < |p| ==> p[i] == p[d + 1..][i - (d + 1)];
    }
  }

  lemma PartKeyLower(p: string)
    ensures PartKey(Lower(p)) == PartKey(p)
  {
    if p != [] && IsDigit(p[0]) {
      RunLenLower(p);
    }
    LowerIdempotent(p);
    if IsNumberRun(p) {
      RunChars(p);
      assert Lower(p) == p;
    }
  }

  lemma {:induction false} KeyOfLower(parts: seq<string>)
    ensures KeyOf(MapWords(LowerChar, parts)) == KeyOf(parts)
    decreases |parts|
  {
    if parts != [] {
      var n := |parts| - 1;
      var lowered := MapWords(LowerChar, parts);
      assert lowered[..n] == MapWords(LowerChar, parts[..n]);
      KeyOfLower(parts[..n]);
      TrimLower(parts[n]);
      PartKeyLower(Trim(parts[n]));
    }
  }

  /** natural_sort_key ignores case: "l10" and "L10" have the same key. */
  lemma KeyIgnoresCase(s: string)
    ensures Key(Lower(s)) == Key(s)
  {
    SplitLower(s);
    KeyOfLower(SplitNumbers(s));
  }

  // ---------------------------------------------------------------- comparing keys

  /** str < str: code-point order. */
  predicate StrLess(a: string, b: string)
  {
    Sorting.LexLe(a, b) && a != b
  }

  /** float < float: false whenever a NaN is involved. */
  predicate FloatLess(a: KeyPart, b: KeyPart)
    requires !a.Word? && !b.Word?
  {
    match (a, b)
    case (Number(x), Number(y)) => x < y
    case (Infinity(m), Infinity(n)) => m && !n
    case (Infinity(m), Number(_)) => m
    case (Number(_), Infinity(n)) => !n
    case _ => false
  }

  /** Python's < between two key elements; None where it raises TypeError (a float against a str). */
  function PartLess(a: KeyPart, b: KeyPart): (r: Option<bool>)
    ensures r.None? <==> a.Word? != b.Word?
  {
    if a.Word? && b.Word? then Some(StrLess(a.text, b.text))
    else if a.Word? || b.Word? then None
    else Some(FloatLess(a, b))
  }

  /** Python's == between two key elements: a NaN is equal to nothing, itself included. */
  predicate PartEq(a: KeyPart, b: KeyPart)
  {
    a == b && !a.NotANumber?
  }

  /** Python's < on lists: the first unequal elements decide, else the shorter list is smaller. */
  function KeyLess(a: seq<KeyPart>, b: seq<KeyPart>): (r: Option<bool>)
  {
    if a == [] || b == [] then Some(a == [] && b != [])
    else if PartEq(a[0], b[0]) then KeyLess(a[1..], b[1..])
    else PartLess(a[0], b[0])
  }

  /**
   * Names that differ only in their number compare by that number: L2 < L10.
   * A head that reads as NaN never compares less, so those names are unordered.
   */
  lemma NaturalOrder(w: string, m: nat, n: nat)
    requires w != [] && NoDigit(w) && IsTrimmed(w)
    ensures KeyLess(Key(w + NatToString(m)), Key(w + NatToString(n))) == Some(m < n && !PartKey(w).NotANumber?)
  {
    KeyOfWordNumber(w, m);
    KeyOfWordNumber(w, n);
    var h := PartKey(w);
    if !h.NotANumber? {
      SameHead(h, Number(m as real), Number(n as real));
    }
  }

  /** Two-element keys with the same first element, not a NaN, compare by their second. */
  lemma SameHead(h: KeyPart, x: KeyPart, y: KeyPart)
    requires !h.NotANumber?
    ensures KeyLess([h, x], [h, y]) == if PartEq(x, y) then Some(false) else PartLess(x, y)
  {
    assert [h, x][1..] == [x] && [h, y][1..] == [y];
    assert KeyLess([h, x], [h, y]) == KeyLess([x], [y]);
    if PartEq(x, y) {
      assert [x][1..] == [] && [y][1..] == [];
      assert KeyLess([x], [y]) == KeyLess([], []);
    }
  }

  /**
   * Names with different word heads compare by their lower-cased heads,
   * whatever their numbers: A10 < B1.
   */
  lemma WordHeadsOrder(v: string, w: string, m: nat, n: nat)
    requires v != [] && NoDigit(v) && IsTrimmed(v) && !FloatSpelling(v)
    requires w != [] && NoDigit(w) && IsTrimmed(w) && !FloatSpelling(w)
    requires Lower(v) != Lower(w)
    ensures KeyLess(Key(v + NatToString(m)), Key(w + NatToString(n))) == Some(StrLess(Lower(v), Lower(w)))
  {
    KeyOfWordNumber(v, m);
    KeyOfWordNumber(w, n);
  }

  /**
   * A1 < A2 < A10 < B1, for any two word heads whose lower-cased forms are
   * in that order: every earlier key is less than every later one.
   */
  lemma LetterNamesOrdered(v: string, w: string, names: seq<string>)
    requires v != [] && NoDigit(v) && IsTrimmed(v) && !FloatSpelling(v)
    requires w != [] && NoDigit(w) && IsTrimmed(w) && !FloatSpelling(w)
    requires StrLess(Lower(v), Lower(w))
    requires names == [v + "1", v + "2", v + "10", w + "1"]
    ensures forall i, j :: 0 <= i < j < |names| ==> KeyLess(Key(names[i]), Key(names[j])) == Some(true)
  {
    LetterNumbers();
    KeyOfWordNumber(v, 1);
    forall i, j | 0 <= i < j < |names|
      ensures KeyLess(Key(names[i]), Key(names[j])) == Some(true)
    {
      if j == 3 {
        if i == 0 {
          WordHeadsOrder(v, w, 1, 1);
        } else if i == 1 {
          WordHeadsOrder(v, w, 2, 1);
        } else {
          WordHeadsOrder(v, w, 10, 1);
        }
      } else if i == 0 && j == 1 {
        NaturalOrder(v, 1, 2);
      } else if i == 0 {
        NaturalOrder(v, 1, 10);
      } else {
        NaturalOrder(v, 2, 10);
      }
    }
  }

  /** The texts of the numbers in the names above. */
  lemma LetterNumbers()
    ensures NatToString(1) == "1" && NatToString(2) == "2" && NatToString(10) == "10"
  {
  }

  /**
   * Comparing a name that starts with a number with one that starts with a
   * text raises TypeError, unless the text spells a float ("1inf" against "inf1").
   */
  lemma MixedNamesRaise(n: nat, w: string)
    requires w != [] && NoDigit(w) && IsTrimmed(w) && w[0] != '.'
    ensures KeyLess(Key(NatToString(n) + w), Key(w + NatToString(n))) == None <==> !FloatSpelling(w)
  {
    KeyOfNumberWord(n, w);
    KeyOfWordNumber(w, n);
  }

  // ---------------------------------------------------------------- dotted numbers

  /** A number run has no blank at either end, so strip() keeps it. */
  lemma RunIsTrimmed(p: string)
    requires IsNumberRun(p)
    ensures Trim(p) == p
  {
    RunChars(p);
    TrimOfTrimmed(p);
  }

  /** A word followed by a whole number run splits into the word, the run and an empty tail. */
  lemma SplitWordRun(w: string, a: string)
    requires w != [] && NoDigit(w) && IsNumberRun(a)
    ensures SplitNumbers(w + a) == [w, a, ""]
  {
    var s := w + a;
    GapLenIs(s, |w|);
    assert s[..|w|] == w && s[|w|..] == a;
    assert s[|w|..|w| + |a|] == a;
    assert s[|w| + |a|..] == "";
    SplitEmpty();
  }

  /** natural_sort_key(w + run) for a stripped text w without digits: w's part, then float(run). */
  lemma KeyOfWordRun(w: string, a: string)
    requires w != [] && NoDigit(w) && IsTrimmed(w) && IsNumberRun(a)
    ensures Key(w + a) == [PartKey(w), Number(RunValue(a))]
  {
    SplitWordRun(w, a);
    KeyOfThree(w, a, "");
    RunIsTrimmed(a);
    KeyOfOne(a);
    TrimOfTrimmed(w);
    KeyOfOne(w);
    TrimOfTrimmed("");
    KeyOfOne("");
  }

  /** The decimal m.f: m plus f read as digits after the point. */
  function DecimalValue(m: nat, f: string): real
    requires AllDigits(f)
  {
    m as real + (ParseNat(f) as real) / (PyValues.Pow10(|f|) as real)
  }

  /** The text str(m) + "." + f of a dotted number. */
  function Dotted(m: nat, f: string): string
  {
    NatToString(m) + "." + f
  }

  /** A dotted number is one number run, and float() reads it as m + f / 10^|f|. */
  lemma DecimalRun(m: nat, f: string)
    requires AllDigits(f)
    ensures IsNumberRun(Dotted(m, f))
    ensures RunValue(Dotted(m, f)) == DecimalValue(m, f)
  {
    var d := NatToString(m);
    var p := Dotted(m, f);
    DigitsLenIs(p, |d|);
    assert p[|d| + 1..] == f && p[..|d|] == d;
    DigitsLenIs(f, |f|);
    ParseNatToString(m);
  }

  /** natural_sort_key(w + str(m) + "." + f): w's part, then the float m + f / 10^|f|. */
  lemma KeyOfWordDecimal(w: string, m: nat, f: string)
    requires w != [] && NoDigit(w) && IsTrimmed(w) && AllDigits(f)
    ensures Key(w + Dotted(m, f)) == [PartKey(w), Number(DecimalValue(m, f))]
  {
    DecimalRun(m, f);
    KeyOfWordRun(w, Dotted(m, f));
  }

  /**
   * Names that differ only in a whole or dotted number compare by the value
   * of that number: L25 < L25.1 < L25.2 < L35. A head that reads as NaN
   * leaves them unordered.
   */
  lemma DecimalOrder(w: string, a: string, b: string)
    requires w != [] && NoDigit(w) && IsTrimmed(w) && IsNumberRun(a) && IsNumberRun(b)
    ensures KeyLess(Key(w + a), Key(w + b)) == Some(RunValue(a) < RunValue(b) && !PartKey(w).NotANumber?)
  {
    KeyOfWordRun(w, a);
    KeyOfWordRun(w, b);
    var h := PartKey(w);
    if !h.NotANumber? {
      SameHead(h, Number(RunValue(a)), Number(RunValue(b)));
    }
  }

  /** Digits after the point add less than one: int(f) < 10 ** len(f). */
  lemma {:induction false} FractionBelowOne(f: string)
    requires AllDigits(f)
    ensures ParseNat(f) < PyValues.Pow10(|f|)
    decreases |f|
  {
    if f != [] {
      var g := f[..|f| - 1];
      FractionBelowOne(g);
      assert ParseNat(f) == ParseNat(g) * 10 + DigitValue(f[|f| - 1]);
      assert PyValues.Pow10(|f|) == 10 * PyValues.Pow10(|g|);
    }
  }

  /** A fraction x / p with 0 <= x < p lies in [0, 1), and is 0 only for x = 0. */
  lemma FractionRange(x: real, p: real)
    requires 0.0 <= x < p
    ensures 0.0 <= x / p < 1.0
    ensures x / p == 0.0 <==> x == 0.0
  {
    FractionMonotone(x, p, p);
    FractionMonotone(0.0, x, p);
    assert p / p == 1.0 && 0.0 / p == 0.0;
  }

  /** Dividing by the same positive p keeps the order. */
  lemma FractionMonotone(x: real, y: real, p: real)
    requires 0.0 < p
    ensures x / p < y / p <==> x < y
  {
    assert x / p * p == x && y / p * p == y;
  }

  /** m <= m.f < m + 1, with m < m.f exactly when f is not all zeros. */
  lemma DecimalBounds(m: nat, f: string)
    requires AllDigits(f)
    ensures m as real <= DecimalValue(m, f) < (m + 1) as real
    ensures m as real < DecimalValue(m, f) <==> ParseNat(f) > 0
  {
    FractionBelowOne(f);
    FractionRange(ParseNat(f) as real, PyValues.Pow10(|f|) as real);
  }

  /** With as many digits after the point, m.f < m.g exactly when int(f) < int(g). */
  lemma DecimalSameWidth(m: nat, f: string, g: string)
    requires AllDigits(f) && AllDigits(g) && |f| == |g|
    ensures DecimalValue(m, f) < DecimalValue(m, g) <==> ParseNat(f) < ParseNat(g)
  {
    FractionMonotone(ParseNat(f) as real, ParseNat(g) as real, PyValues.Pow10(|f|) as real);
  }

  /**
   * A dotted name sits after its whole number, unless its digits after the
   * point are all zeros ("L25.0" and "L25" have equal keys), and before
   * every larger whole number: L25 < L25.1 < L26.
   */
  lemma DottedBetween(w: string, m: nat, f: string, n: nat)
    requires w != [] && NoDigit(w) && IsTrimmed(w) && AllDigits(f)
    ensures KeyLess(Key(w + NatToString(m)), Key(w + Dotted(m, f))) == Some(ParseNat(f) > 0 && !PartKey(w).NotANumber?)
    ensures KeyLess(Key(w + Dotted(m, f)), Key(w + NatToString(n))) == Some(m < n && !PartKey(w).NotANumber?)
  {
    NatTextIsRun(m);
    NatTextIsRun(n);
    DecimalRun(m, f);
    DecimalBounds(m, f);
    DecimalOrder(w, NatToString(m), Dotted(m, f));
    DecimalOrder(w, Dotted(m, f), NatToString(n));
  }

  /** Two dotted names with the same whole part and as many digits after the point compare by those digits: L25.1 < L25.2. */
  lemma DottedOrder(w: string, m: nat, f: string, g: string)
    requires w != [] && NoDigit(w) && IsTrimmed(w) && AllDigits(f) && AllDigits(g) && |f| == |g|
    ensures KeyLess(Key(w + Dotted(m, f)), Key(w + Dotted(m, g))) == Some(ParseNat(f) < ParseNat(g) && !PartKey(w).NotANumber?)
  {
    DecimalRun(m, f);
    DecimalRun(m, g);
    DecimalOrder(w, Dotted(m, f), Dotted(m, g));
    DecimalSameWidth(m, f, g);
  }

  /**
   * L25 < L25.1 < L25.2 < L25.3 < L35, for L or any other stripped prefix
   * without digits that does not spell a NaN: every earlier key is less than
   * every later one, so sorted() puts these names in this order.
   */
  lemma DecimalNamesOrdered(w: string, names: seq<string>)
    requires w != [] && NoDigit(w) && IsTrimmed(w) && !PartKey(w).NotANumber?
    requires names == [w + "25", w + "25.1", w + "25.2", w + "25.3", w + "35"]
    ensures forall i, j :: 0 <= i < j < |names| ==> KeyLess(Key(names[i]), Key(names[j])) == Some(true)
  {
    DecimalNames();
    var digits := ["1", "2", "3"];
    forall i, j | 0 <= i < j < |names|
      ensures KeyLess(Key(names[i]), Key(names[j])) == Some(true)
    {
      if i == 0 && j == 4 {
        NaturalOrder(w, 25, 35);
      } else if j == 4 {
        assert names[i] == w + Dotted(25, digits[i - 1]);
        DottedBetween(w, 25, digits[i - 1], 35);
      } else if i == 0 {
        assert names[j] == w + Dotted(25, digits[j - 1]);
        DottedBetween(w, 25, digits[j - 1], 35);
      } else {
        assert names[i] == w + Dotted(25, digits[i - 1]) && names[j] == w + Dotted(25, digits[j - 1]);
        DottedOrder(w, 25, digits[i - 1], digits[j - 1]);
      }
    }
  }

  /** The texts of the numbers in the names above. */
  lemma DecimalNames()
    ensures NatToString(25) == "25" && NatToString(35) == "35"
    ensures Dotted(25, "1") == "25.1" && Dotted(25, "2") == "25.2" && Dotted(25, "3") == "25.3"
    ensures ParseNat("1") == 1 && ParseNat("2") == 2 && ParseNat("3") == 3
  {
  }

  /** The names of the mixed-prefix example, A and B, meet the heads' conditions and come out in order. */
  lemma LetterExampleOrdered(names: seq<string>)
    requires names == ["A1", "A2", "A10", "B1"]
    ensures forall i, j :: 0 <= i < j < |names| ==> KeyLess(Key(names[i]), Key(names[j])) == Some(true)
  {
    assert "A" + "1" == "A1" && "A" + "2" == "A2" && "A" + "10" == "A10" && "B" + "1" == "B1";
    LetterNamesOrdered("A", "B", names);
  }

  /** The names of the decimal example, under the head L, come out in order. */
  lemma DecimalExampleOrdered(names: seq<string>)
    requires names == ["L25", "L25.1", "L25.2", "L25.3", "L35"]
    ensures forall i, j :: 0 <= i < j < |names| ==> KeyLess(Key(names[i]), Key(names[j])) == Some(true)
  {
    assert NoDigit("L") && IsTrimmed("L") && !PartKey("L").NotANumber?;
    assert "L" + "25" == "L25" && "L" + "25.1" == "L25.1" && "L" + "25.2" == "L25.2";
    assert "L" + "25.3" == "L25.3" && "L" + "35" == "L35";
    DecimalNamesOrdered("L", names);
  }

  // ---------------------------------------------------------------- a comparator that never raises

  /** Where an element sits in the fixed order: -inf, finite numbers, +inf, NaN, then words. */
  function Rank(a: KeyPart): nat
  {
    match a
    case Infinity(negative) => if negative then 0 else 2
    case Number(_) => 1
    case NotANumber => 3
    case Word(_) => 4
  }

  /** Element order with numbers before words: defined for every pair. */
  predicate FixedPartLess(a: KeyPart, b: KeyPart)
  {
    if Rank(a) != Rank(b) then Rank(a) < Rank(b)
    else match (a, b)
      case (Number(x), Number(y)) => x < y
      case (Word(s), Word(t)) => StrLess(s, t)
      case _ => false
  }

  /** Lexicographic <= on keys under FixedPartLess. */
  predicate FixedKeyLe(a: seq<KeyPart>, b: seq<KeyPart>)
    decreases |a|
  {
    a == [] || (b != [] && (FixedPartLess(a[0], b[0]) || (a[0] == b[0] && FixedKeyLe(a[1..], b[1..]))))
  }

  lemma StrLessTrichotomy(s: string, t: string)
    ensures s == t || StrLess(s, t) || StrLess(t, s)
    ensures !(StrLess(s, t) && StrLess(t, s))
  {
    Sorting.LexLeTotal(s, t);
    if Sorting.LexLe(s, t) && Sorting.LexLe(t, s) {
      Sorting.LexLeAntisym(s, t);
    }
  }

  lemma StrLessTrans(r: string, s: string, t: string)
    requires StrLess(r, s) && StrLess(s, t)
    ensures StrLess(r, t)
  {
    Sorting.LexLeTrans(r, s, t);
    if r == t {
      Sorting.LexLeAntisym(r, s);
    }
  }

  /** FixedPartLess is a strict total order that extends Python's < on floats and on strs. */
  lemma FixedPartOrder(a: KeyPart, b: KeyPart, c: KeyPart)
    ensures a == b || FixedPartLess(a, b) || FixedPartLess(b, a)
    ensures !(FixedPartLess(a, b) && FixedPartLess(b, a))
    ensures FixedPartLess(a, b) && FixedPartLess(b, c) ==> FixedPartLess(a, c)
    ensures PartLess(a, b) == Some(true) ==> FixedPartLess(a, b)
    ensures !a.NotANumber? && !b.NotANumber? && PartLess(a, b) == Some(false) ==> !FixedPartLess(a, b)
  {
    if a.Word? && b.Word? {
      StrLessTrichotomy(a.text, b.text);
      if c.Word? && FixedPartLess(a, b) && FixedPartLess(b, c) {
        StrLessTrans(a.text, b.text, c.text);
      }
    }
  }

  lemma {:induction false} FixedKeyLeTotal(a: seq<KeyPart>, b: seq<KeyPart>)
    ensures FixedKeyLe(a, b) || FixedKeyLe(b, a)
    decreases |a|
  {
    if a != [] && b != [] {
      FixedPartOrder(a[0], b[0], b[0]);
      if a[0] == b[0] {
        FixedKeyLeTotal(a[1..], b[1..]);
      }
    }
  }

  lemma {:induction false} FixedKeyLeTrans(a: seq<KeyPart>, b: seq<KeyPart>, c: seq<KeyPart>)
    requires FixedKeyLe(a, b) && FixedKeyLe(b, c)
    ensures FixedKeyLe(a, c)
    decreases |a|
  {
    if a != [] {
      FixedPartOrder(a[0], b[0], c[0]);
      if a[0] == b[0] && b[0] == c[0] {
        FixedKeyLeTrans(a[1..], b[1..], c[1..]);
      }
    }
  }

  lemma {:induction false} FixedKeyLeAntisym(a: seq<KeyPart>, b: seq<KeyPart>)
    requires FixedKeyLe(a, b) && FixedKeyLe(b, a)
    ensures a == b
    decreases |a|
  {
    if a != [] {
      FixedPartOrder(a[0], b[0], b[0]);
      FixedKeyLeAntisym(a[1..], b[1..]);
    }
  }

  /** A key without a NaN element. */
  predicate NoNaN(k: seq<KeyPart>)
  {
    k == [] || (!k[0].NotANumber? && NoNaN(k[1..]))
  }

  /**
   * Wherever Python's comparison says "less", the fixed order says so too;
   * between keys without a NaN, wherever Python answers, the fixed order
   * gives the same answer. (NaN compares false both ways in Python.)
   */
  lemma {:induction false} FixedAgrees(a: seq<KeyPart>, b: seq<KeyPart>)
    requires KeyLess(a, b).Some?
    ensures KeyLess(a, b).value ==> !FixedKeyLe(b, a)
    ensures NoNaN(a) && NoNaN(b) ==> (KeyLess(a, b).value <==> !FixedKeyLe(b, a))
    decreases |a|
  {
    if a != [] && b != [] {
      FixedPartOrder(a[0], b[0], b[0]);
      FixedPartOrder(b[0], a[0], a[0]);
      if PartEq(a[0], b[0]) {
        FixedAgrees(a[1..], b[1..]);
      }
    }
  }

  /** Names ordered by their keys under the fixed order. */
  predicate NaturalLe(x: string, y: string)
  {
    FixedKeyLe(Key(x), Key(y))
  }

  lemma NaturalLeIsPreorder()
    ensures Sorting.TotalPreorder(NaturalLe)
  {
    forall x, y ensures NaturalLe(x, y) || NaturalLe(y, x) {
      FixedKeyLeTotal(Key(x), Key(y));
    }
    forall x, y, z | NaturalLe(x, y) && NaturalLe(y, z) ensures NaturalLe(x, z) {
      FixedKeyLeTrans(Key(x), Key(y), Key(z));
    }
  }

  /** sorted(names, key=natural_sort_key) with numbers placed before words where Python raises. */
  function SortNatural(names: seq<string>): (r: seq<string>)
    ensures Sorting.SortedBy(r, NaturalLe)
    ensures multiset(r) == multiset(names)
  {
    NaturalLeIsPreorder();
    Sorting.SortBy(names, NaturalLe)
  }

  /**
   * In the fixed order "1A" sorts before "A1" instead of raising; so do "1inf"
   * and "1nan". Only a word spelling minus infinity sorts first.
   */
  lemma MixedNamesOrdered(n: nat, w: string)
    requires w != [] && NoDigit(w) && IsTrimmed(w) && w[0] != '.' && PartKey(w) != Infinity(true)
    ensures NaturalLe(NatToString(n) + w, w + NatToString(n))
    ensures !NaturalLe(w + NatToString(n), NatToString(n) + w)
  {
    KeyOfNumberWord(n, w);
    KeyOfWordNumber(w, n);
  }
}

=== FILE: neighbor_graph.dfy ===
// The neighbour map of the cell-neighbours editor
// (gridlamedit/app/cell_neighbors.py): each assigned cell has up to four
// neighbours, one per direction, and links are added, removed with a
// cell, restored by undo, and checked for disconnected blocks.
module NeighborGraph {
  import opened Wrappers
  import opened Seqs
  import opened OrderedMaps

  datatype Dir = Up | Down | Left | Right

  const AllDirs: seq<Dir> := [Up, Down, Left, Right]

  /** The direction names used as keys of a neighbour entry. */
  function DirName(d: Dir): string
  {
    match d
    case Up => "up"
    case Down => "down"
    case Left => "left"
    case Right => "right"
  }

  /** opposite */
  function Opposite(d: Dir): (r: Dir)
    ensures r != d
  {
    match d
    case Up => Down
    case Down => Up
    case Left => Right
    case Right => Left
  }

  /** opposite(opposite(d)) == d: an involution with no fixed point. */
  lemma OppositeInvolution(d: Dir)
    ensures Opposite(Opposite(d)) == d && Opposite(d) != d
  {
  }

  /** opposite on the direction names; a name outside the four raises KeyError (None here). */
  function OppositeName(s: string): (r: Option<string>)
  {
    if s == "up" then Some("down")
    else if s == "down" then Some("up")
    else if s == "left" then Some("right")
    else if s == "right" then Some("left")
    else None
  }

  /** opposite is defined exactly on the four names, agrees with Opposite and undoes itself. */
  lemma OppositeNameMatches(s: string)
    ensures OppositeName(s).Some? <==> exists d :: DirName(d) == s
    ensures forall d :: DirName(d) == s ==> OppositeName(s) == Some(DirName(Opposite(d)))
    ensures OppositeName(s).Some? ==> OppositeName(OppositeName(s).value) == Some(s)
  {
    if s == "up" { assert DirName(Up) == s; }
    else if s == "down" { assert DirName(Down) == s; }
    else if s == "left" { assert DirName(Left) == s; }
    else if s == "right" { assert DirName(Right) == s; }
  }

  /** A neighbour id counts only when it is a non-empty string (Python truthiness). */
  predicate IsId(o: Option<string>)
  {
    o.Some? && o.value != ""
  }

  /** One entry of _neighbors: the neighbour id stored under each direction. */
  datatype Links = Links(up: Option<string>, down: Option<string>, left: Option<string>, right: Option<string>)
  {
    function Get(d: Dir): Option<string>
    {
      match d
      case Up => up
      case Down => down
      case Left => left
      case Right => right
    }

    function Set(d: Dir, v: Option<string>): (r: Links)
      ensures r.Get(d) == v
      ensures forall e :: e != d ==> r.Get(e) == Get(e)
    {
      match d
      case Up => this.(up := v)
      case Down => this.(down := v)
      case Left => this.(left := v)
      case Right => this.(right := v)
    }

    /** The stored values in iteration order, as neighbors.values(). */
    function Values(): seq<Option<string>>
    {
      [up, down, left, right]
    }
  }

  /** The entry _ensure_cell_mapping_entry creates. */
  const NoLinks: Links := Links(None, None, None, None)

  /** Two entries holding the same value in every direction are equal. */
  lemma LinksExt(a: Links, b: Links)
    requires forall d :: a.Get(d) == b.Get(d)
    ensures a == b
  {
    assert a.Get(Up) == b.Get(Up) && a.Get(Down) == b.Get(Down);
    assert a.Get(Left) == b.Get(Left) && a.Get(Right) == b.Get(Right);
  }

  type Neighbors = map<string, Links>

  /** The neighbour in direction d of cell c is a cell whose opposite slot names c again. */
  predicate PointsBack(n: Neighbors, c: string, d: Dir)
    requires c in n
  {
    var o := n[c].Get(d);
    IsId(o) && o.value in n ==> n[o.value].Get(Opposite(d)) == Some(c)
  }

  /** Every link that leads to a known cell is answered by the reverse link. */
  predicate Consistent(n: Neighbors)
  {
    forall c, d :: c in n ==> PointsBack(n, c, d)
  }

  // ---------- linking (_ensure_cell_mapping_entry, _link_cells_internal) ----------

  /** _ensure_cell_mapping_entry */
  function Ensure(n: Neighbors, c: string): (r: Neighbors)
    ensures r.Keys == n.Keys + {c}
    ensures c in n ==> r == n
    ensures c !in n ==> r == n[c := NoLinks]
  {
    if c in n then n else n[c := NoLinks]
  }

  /** _link_cells_internal: both entries exist afterwards, src points to dst and dst back to src. */
  function Link(n: Neighbors, src: string, d: Dir, dst: string): (r: Neighbors)
    ensures r.Keys == n.Keys + {src, dst}
    ensures r[src].Get(d) == Some(dst) && r[dst].Get(Opposite(d)) == Some(src)
    ensures forall k, e :: k in r && !(k == src && e == d) && !(k == dst && e == Opposite(d)) ==>
      r[k].Get(e) == (if k in n then n[k].Get(e) else None)
  {
    var n1 := Ensure(Ensure(n, src), dst);
    var n2 := n1[src := n1[src].Set(d, Some(dst))];
    n2[dst := n2[dst].Set(Opposite(d), Some(src))]
  }

  /** AddNeighborCommand.undo: clear n[src][d] and n[dst][opposite(d)] where those entries exist. */
  function Unlink(n: Neighbors, src: string, d: Dir, dst: string): (r: Neighbors)
    ensures r.Keys == n.Keys
    ensures src in n ==> r[src].Get(d) == None
    ensures dst in n ==> r[dst].Get(Opposite(d)) == None
    ensures forall k, e :: k in r && !(k == src && e == d) && !(k == dst && e == Opposite(d)) ==>
      r[k].Get(e) == n[k].Get(e)
  {
    var n1 := if src in n then n[src := n[src].Set(d, None)] else n;
    if dst in n1 then n1[dst := n1[dst].Set(Opposite(d), None)] else n1
  }

  /**
   * Undoing a link added over two free slots gives back the map as it was,
   * except that the entries the link created stay, with no neighbours.
   */
  lemma UnlinkUndoesLink(n: Neighbors, src: string, d: Dir, dst: string)
    requires src in n ==> n[src].Get(d) == None
    requires dst in n ==> n[dst].Get(Opposite(d)) == None
    ensures Unlink(Link(n, src, d, dst), src, d, dst) == Ensure(Ensure(n, src), dst)
  {
    var r := Unlink(Link(n, src, d, dst), src, d, dst);
    var e0 := Ensure(Ensure(n, src), dst);
    forall k | k in r ensures r[k] == e0[k] {
      forall e ensures r[k].Get(e) == e0[k].Get(e) {
        if k == src && e == d {
        } else if k == dst && e == Opposite(d) {
        } else {
          assert r[k].Get(e) == Link(n, src, d, dst)[k].Get(e);
        }
      }
      LinksExt(r[k], e0[k]);
    }
  }

  /** No entry names x as a neighbour. */
  predicate Unnamed(n: Neighbors, x: string)
  {
    forall c, e :: c in n ==> n[c].Get(e) != Some(x)
  }

  /**
   * Linking two free slots keeps every link answered by its reverse, when a
   * cell that had no entry yet was not named by anyone either.
   */
  lemma LinkKeepsConsistent(n: Neighbors, src: string, d: Dir, dst: string)
    requires Consistent(n)
    requires src in n ==> n[src].Get(d) == None
    requires dst in n ==> n[dst].Get(Opposite(d)) == None
    requires src !in n ==> Unnamed(n, src)
    requires dst !in n ==> Unnamed(n, dst)
    ensures Consistent(Link(n, src, d, dst))
  {
    var r := Link(n, src, d, dst);
    OppositeInvolution(d);
    forall c, e | c in r ensures PointsBack(r, c, e) {
      var o := r[c].Get(e);
      if IsId(o) && o.value in r {
        if c == src && e == d {
        } else if c == dst && e == Opposite(d) {
        } else {
          // An old link: it is answered in n, and the answering slot was not one of the two written.
          assert c in n && o == n[c].Get(e);
          assert PointsBack(n, c, e);
          assert o.value in n;
          assert n[o.value].Get(Opposite(e)) == Some(c);
          OppositeInvolution(e);
        }
      }
    }
  }

  // ---------- deleting a cell (DeleteCellCommand) ----------

  /** In the saved entry, direction d names cell k. */
  predicate SavedPointsTo(saved: Links, d: Dir, k: string)
  {
    IsId(saved.Get(d)) && saved.Get(d).value == k
  }

  /** Write v into n[nid][opposite(d)] when the saved entry names nid under d and nid has an entry. */
  function BackStep(n: Neighbors, saved: Links, d: Dir, v: Option<string>): Neighbors
  {
    var nid := saved.Get(d);
    if IsId(nid) && nid.value in n then n[nid.value := n[nid.value].Set(Opposite(d), v)] else n
  }

  /** The loop over the saved entry's items, in the directions dirs, writing v. */
  function WriteBack(n: Neighbors, saved: Links, dirs: seq<Dir>, v: Option<string>): Neighbors
  {
    if dirs == [] then n
    else BackStep(WriteBack(n, saved, dirs[..|dirs| - 1], v), saved, dirs[|dirs| - 1], v)
  }

  /** Where the back-writing lands: exactly the slots facing a saved neighbour. */
  lemma {:induction false} WriteBackSlots(n: Neighbors, saved: Links, dirs: seq<Dir>, v: Option<string>)
    ensures WriteBack(n, saved, dirs, v).Keys == n.Keys
    ensures forall k, e :: k in n ==>
      WriteBack(n, saved, dirs, v)[k].Get(e) ==
        (if Opposite(e) in dirs && SavedPointsTo(saved, Opposite(e), k) then v else n[k].Get(e))
  {
    if dirs != [] {
      var init := dirs[..|dirs| - 1];
      var last := dirs[|dirs| - 1];
      WriteBackSlots(n, saved, init, v);
      var m := WriteBack(n, saved, init, v);
      assert dirs == init + [last];
      forall k, e | k in n
        ensures WriteBack(n, saved, dirs, v)[k].Get(e) ==
          if Opposite(e) in dirs && SavedPointsTo(saved, Opposite(e), k) then v else n[k].Get(e)
      {
        OppositeInvolution(e);
        OppositeInvolution(last);
        assert Opposite(e) in dirs <==> Opposite(e) in init || Opposite(e) == last;
      }
    }
  }

  /** DeleteCellCommand.redo on the neighbour map: clear the saved neighbours' back-pointers, drop the entry. */
  function DeleteCellLinks(n: Neighbors, cell: string, saved: Links): Neighbors
  {
    WriteBack(n, saved, AllDirs, None) - {cell}
  }

  /** DeleteCellCommand.undo on the neighbour map: put the saved entry back and point its neighbours at the cell. */
  function RestoreCellLinks(n: Neighbors, cell: string, saved: Links): Neighbors
  {
    WriteBack(n[cell := saved], saved, AllDirs, Some(cell))
  }

  lemma InAllDirs(d: Dir)
    ensures d in AllDirs
  {
    match d
    case Up => assert AllDirs[0] == Up;
    case Down => assert AllDirs[1] == Down;
    case Left => assert AllDirs[2] == Left;
    case Right => assert AllDirs[3] == Right;
  }

  /** In a consistent map, deleting a cell and undoing it gives back exactly the map. */
  lemma DeleteThenRestore(n: Neighbors, cell: string)
    requires Consistent(n) && cell in n
    ensures RestoreCellLinks(DeleteCellLinks(n, cell, n[cell]), cell, n[cell]) == n
  {
    var saved := n[cell];
    var del := DeleteCellLinks(n, cell, saved);
    WriteBackSlots(n, saved, AllDirs, None);
    var base := del[cell := saved];
    WriteBackSlots(base, saved, AllDirs, Some(cell));
    var r := RestoreCellLinks(del, cell, saved);
    assert r.Keys == n.Keys;
    forall k | k in n ensures r[k] == n[k] {
      forall e ensures r[k].Get(e) == n[k].Get(e) {
        InAllDirs(Opposite(e));
        OppositeInvolution(e);
        if SavedPointsTo(saved, Opposite(e), k) {
          // cell's neighbour k had its slot facing cell pointing back at cell.
          assert PointsBack(n, cell, Opposite(e));
        }
      }
      LinksExt(r[k], n[k]);
    }
  }

  /** In a consistent map, after the delete no remaining entry with a non-empty id names the deleted cell. */
  lemma DeleteClearsBackPointers(n: Neighbors, cell: string)
    requires Consistent(n) && cell in n && cell != ""
    ensures cell !in DeleteCellLinks(n, cell, n[cell])
    ensures forall k, e :: k in DeleteCellLinks(n, cell, n[cell]) && k != "" ==>
      DeleteCellLinks(n, cell, n[cell])[k].Get(e) != Some(cell)
  {
    var saved := n[cell];
    WriteBackSlots(n, saved, AllDirs, None);
    var r := DeleteCellLinks(n, cell, saved);
    forall k, e | k in r && k != "" ensures r[k].Get(e) != Some(cell) {
      InAllDirs(Opposite(e));
      OppositeInvolution(e);
      if n[k].Get(e) == Some(cell) {
        assert PointsBack(n, k, e);
      }
    }
  }

  // ---------- the window's grid of node records ----------

  /** A node's grid position (column, row). */
  type Pos = (int, int)

  /** The origin node, which the disconnected-block cleanup never deletes. */
  const Origin: Pos := (0, 0)

  /** _nodes_by_grid, reduced to each record's cell_id. */
  type Nodes = OMap<Pos, Option<string>>

  /** Some node record holds cell c. */
  predicate HoldsCell(nodes: Nodes, c: string)
  {
    exists p :: p in nodes.items && nodes.items[p] == Some(c)
  }

  /** The commands pushed on the undo stack. */
  datatype Command =
    | AddNeighbor(src: string, dir: Dir, dst: string)
    | DeleteCell(cell: string, pos: Pos, saved: Links)

  /** Deleting a record and then putting it back restores the records; the position moves to the end of the order. */
  lemma NodesRoundTrip(nodes: Nodes, pos: Pos, cell: string)
    requires nodes.Valid() && pos in nodes.items && nodes.items[pos] == Some(cell)
    ensures nodes.Remove(pos).Put(pos, Some(cell)).items == nodes.items
    ensures nodes.Remove(pos).Put(pos, Some(cell)).keys == nodes.Remove(pos).keys + [pos]
  {
    var r := nodes.Remove(pos);
    assert pos !in r.items;
  }

  // ---------- connected components (_find_connected_components) ----------

  const DirSet: set<Dir> := {Up, Down, Left, Right}

  lemma InDirSet(d: Dir)
    ensures d in DirSet
  {
  }

  /** The ids an entry names. */
  function LinkIds(l: Links): set<string>
  {
    set d | d in DirSet && IsId(l.Get(d)) :: l.Get(d).value
  }

  /** The cell ids of the node records (all_cells). */
  function AssignedCells(nodes: Nodes): set<string>
  {
    set p | p in nodes.items && IsId(nodes.items[p]) :: nodes.items[p].value
  }

  /** Every id named by some entry. */
  function NeighborIds(n: Neighbors): set<string>
  {
    set c, x | c in n && x in LinkIds(n[c]) :: x
  }

  /** The ids the search can ever meet. */
  function Universe(n: Neighbors, nodes: Nodes): set<string>
  {
    AssignedCells(nodes) + NeighborIds(n)
  }

  /** No id of s has a neighbour outside s. */
  predicate ClosedUnder(n: Neighbors, s: set<string>)
  {
    forall c, d :: c in s && c in n && IsId(n[c].Get(d)) ==> n[c].Get(d).value in s
  }

  function Union(cs: seq<set<string>>): set<string>
  {
    if cs == [] then {} else Union(cs[..|cs| - 1]) + cs[|cs| - 1]
  }

  lemma {:induction false} UnionMembers(cs: seq<set<string>>, x: string)
    ensures x in Union(cs) <==> exists i :: 0 <= i < |cs| && x in cs[i]
  {
    if cs != [] {
      var init := cs[..|cs| - 1];
      UnionMembers(init, x);
      if x in Union(init) {
        var i :| 0 <= i < |init| && x in init[i];
        assert cs[i] == init[i];
      }
      if exists i :: 0 <= i < |cs| && x in cs[i] {
        var i :| 0 <= i < |cs| && x in cs[i];
        if i < |init| {
          assert init[i] == cs[i];
        }
      }
    }
  }

  predicate Disjoint(cs: seq<set<string>>)
  {
    forall i, j :: 0 <= i < j < |cs| ==> cs[i] !! cs[j]
  }

  predicate NonEmpty(cs: seq<set<string>>)
  {
    forall i :: 0 <= i < |cs| ==> cs[i] != {}
  }

  /** What the search returns: disjoint non-empty blocks covering every assigned cell and closed under links. */
  predicate ComponentsOf(n: Neighbors, nodes: Nodes, cs: seq<set<string>>)
  {
    Disjoint(cs) && NonEmpty(cs) && AssignedCells(nodes) <= Union(cs) &&
    Union(cs) <= Universe(n, nodes) && ClosedUnder(n, Union(cs))
  }

  /** When every link names an assigned cell, the blocks cover exactly the assigned cells. */
  lemma ComponentsCoverAssigned(n: Neighbors, nodes: Nodes, cs: seq<set<string>>)
    requires ComponentsOf(n, nodes, cs)
    requires NeighborIds(n) <= AssignedCells(nodes)
    ensures Union(cs) == AssignedCells(nodes)
  {
  }

  /** One neighbour value queued by the search: a non-empty id not yet visited. */
  function PushIf(o: Option<string>, visited: set<string>): seq<string>
  {
    if IsId(o) && o.value !in visited then [o.value] else []
  }

  /** The neighbours the search appends to its queue, in the entry's order. */
  function Unvisited(l: Links, visited: set<string>): (r: seq<string>)
    ensures forall x :: x in r ==> x !in visited && x in LinkIds(l)
    ensures forall d :: IsId(l.Get(d)) && l.Get(d).value !in visited ==> l.Get(d).value in r
  {
    InDirSet(Up);
    InDirSet(Down);
    InDirSet(Left);
    InDirSet(Right);
    PushIf(l.up, visited) + PushIf(l.down, visited) + PushIf(l.left, visited) + PushIf(l.right, visited)
  }

  /** A cell's linked ids belong to the named ids. */
  lemma LinkIdsNamed(n: Neighbors, c: string)
    requires c in n
    ensures LinkIds(n[c]) <= NeighborIds(n)
  {
  }

  /** The size of the first largest block: Python's max(components, key=len). */
  function FirstLargest(cs: seq<set<string>>): (m: nat)
    requires |cs| > 0
    ensures m < |cs|
    ensures forall i :: 0 <= i < |cs| ==> |cs[i]| <= |cs[m]|
    ensures forall i :: 0 <= i < m ==> |cs[i]| < |cs[m]|
  {
    if |cs| == 1 then 0
    else
      var m := FirstLargest(cs[..|cs| - 1]);
      assert forall i :: 0 <= i < |cs| - 1 ==> cs[..|cs| - 1][i] == cs[i];
      if |cs[|cs| - 1]| > |cs[m]| then |cs| - 1 else m
  }

  /** [c for c in components if c != largest] */
  function Disconnected(cs: seq<set<string>>, largest: set<string>): (r: seq<set<string>>)
    ensures forall c :: c in r <==> c in cs && c != largest
  {
    if cs == [] then [] else (if cs[0] != largest then [cs[0]] else []) + Disconnected(cs[1..], largest)
  }

  /** Where exactly one block equals the largest, the filter drops just that block. */
  lemma {:induction false} DisconnectedSkipsOne(cs: seq<set<string>>, largest: set<string>, m: nat)
    requires m < |cs| && cs[m] == largest
    requires forall i :: 0 <= i < |cs| && i != m ==> cs[i] != largest
    ensures Disconnected(cs, largest) == RemoveAt(cs, m)
  {
    if m == 0 {
      DisconnectedKeepsAll(cs[1..], largest);
    } else {
      forall i | 0 <= i < |cs[1..]| && i != m - 1 ensures cs[1..][i] != largest {
        assert cs[1..][i] == cs[i + 1];
      }
      DisconnectedSkipsOne(cs[1..], largest, m - 1);
      assert cs[1..][..m - 1] == cs[1..m] && cs[1..][m..] == cs[m + 1..];
      assert [cs[0]] + cs[1..m] == cs[..m];
    }
  }

  lemma {:induction false} DisconnectedKeepsAll(cs: seq<set<string>>, largest: set<string>)
    requires forall i :: 0 <= i < |cs| ==> cs[i] != largest
    ensures Disconnected(cs, largest) == cs
  {
    if cs != [] {
      DisconnectedKeepsAll(cs[1..], largest);
    }
  }

  /**
   * With disjoint non-empty blocks, the blocks marked disconnected are all
   * the blocks except the largest one, in their order.
   */
  lemma DisconnectedAreTheOthers(cs: seq<set<string>>)
    requires |cs| > 0 && Disjoint(cs) && NonEmpty(cs)
    ensures Disconnected(cs, cs[FirstLargest(cs)]) == RemoveAt(cs, FirstLargest(cs))
    ensures |Disconnected(cs, cs[FirstLargest(cs)])| == |cs| - 1
  {
    var m := FirstLargest(cs);
    forall i | 0 <= i < |cs| && i != m ensures cs[i] != cs[m] {
      if i < m { assert cs[i] !! cs[m]; } else { assert cs[m] !! cs[i]; }
    }
    DisconnectedSkipsOne(cs, cs[m], m);
  }

  // ---------- removing disconnected blocks (_remove_disconnected_blocks) ----------

  /** The window's neighbour map and node records together. */
  datatype Board = Board(neighbors: Neighbors, nodes: Nodes)

  /** One step of the loop over a removed cell's own entry: the entry is read again at each direction. */
  function ClearOwnStep(n: Neighbors, cell: string, d: Dir): (r: Neighbors)
    requires cell in n
    ensures r.Keys == n.Keys
  {
    var o := n[cell].Get(d);
    if IsId(o) && o.value in n then n[o.value := n[o.value].Set(Opposite(d), None)] else n
  }

  /** The loop over a removed cell's own entry, in the directions dirs. */
  function ClearOwn(n: Neighbors, cell: string, dirs: seq<Dir>): (r: Neighbors)
    requires cell in n
    ensures r.Keys == n.Keys
  {
    if dirs == [] then n
    else ClearOwnStep(ClearOwn(n, cell, dirs[..|dirs| - 1]), cell, dirs[|dirs| - 1])
  }

  /** Deleting one record whose cell is removed: its links, its entry, and the record itself unless it is the origin. */
  function RemoveRecord(b: Board, pos: Pos, cell: string): (r: Board)
    requires b.nodes.Valid()
    ensures r.nodes.Valid()
  {
    var n := if cell in b.neighbors then ClearOwn(b.neighbors, cell, AllDirs) - {cell} else b.neighbors;
    Board(n, if pos == Origin then b.nodes.Put(pos, None) else b.nodes.Remove(pos))
  }

  /** The loop over records_to_delete. */
  function RemoveRecords(b: Board, targets: seq<(Pos, string)>): (r: Board)
    requires b.nodes.Valid()
    ensures r.nodes.Valid()
  {
    if targets == [] then b
    else
      var t := targets[|targets| - 1];
      RemoveRecord(RemoveRecords(b, targets[..|targets| - 1]), t.0, t.1)
  }

  /** records_to_delete: the records, in grid order, whose cell is to be removed. */
  function RecordsIn(keys: seq<Pos>, items: map<Pos, Option<string>>, s: set<string>): (r: seq<(Pos, string)>)
    ensures forall t :: t in r <==> t.0 in keys && t.0 in items && items[t.0] == Some(t.1) && t.1 in s
    ensures forall i :: 0 <= i < |r| ==> r[i].0 in keys
  {
    if keys == [] then []
    else
      var p := keys[0];
      (if p in items && items[p].Some? && items[p].value in s then [(p, items[p].value)] else []) + RecordsIn(keys[1..], items, s)
  }

  /** The records' positions are distinct, as the grid order's are. */
  lemma {:induction false} RecordsInNoDup(keys: seq<Pos>, items: map<Pos, Option<string>>, s: set<string>)
    requires NoDup(keys)
    ensures forall i, j :: 0 <= i < j < |RecordsIn(keys, items, s)| ==>
      RecordsIn(keys, items, s)[i].0 != RecordsIn(keys, items, s)[j].0
  {
    if keys != [] {
      assert NoDup(keys[1..]) by {
        forall i, j | 0 <= i < j < |keys[1..]| ensures keys[1..][i] != keys[1..][j] {
          assert keys[1..][i] == keys[i + 1] && keys[1..][j] == keys[j + 1];
        }
      }
      RecordsInNoDup(keys[1..], items, s);
      var rest := RecordsIn(keys[1..], items, s);
      forall i | 0 <= i < |rest| ensures rest[i].0 != keys[0] {
        assert rest[i].0 in keys[1..];
      }
    }
  }

  /** What deleting one record does. */
  lemma RemoveRecordFacts(b: Board, pos: Pos, cell: string)
    requires b.nodes.Valid()
    ensures RemoveRecord(b, pos, cell).neighbors.Keys == b.neighbors.Keys - {cell}
    ensures forall p :: p != pos ==>
      (p in RemoveRecord(b, pos, cell).nodes.items <==> p in b.nodes.items) &&
      (p in b.nodes.items ==> RemoveRecord(b, pos, cell).nodes.items[p] == b.nodes.items[p])
    ensures pos != Origin ==> pos !in RemoveRecord(b, pos, cell).nodes.items
    ensures pos == Origin ==> pos in RemoveRecord(b, pos, cell).nodes.items && RemoveRecord(b, pos, cell).nodes.items[pos] == None
  {
  }

  /** After the cleanup, no removed record's cell keeps an entry in the neighbour map. */
  lemma {:induction false} RemovedCellsLoseEntries(b: Board, targets: seq<(Pos, string)>)
    requires b.nodes.Valid()
    ensures RemoveRecords(b, targets).neighbors.Keys <= b.neighbors.Keys
    ensures forall i :: 0 <= i < |targets| ==> targets[i].1 !in RemoveRecords(b, targets).neighbors
  {
    if targets != [] {
      var init := targets[..|targets| - 1];
      var t := targets[|targets| - 1];
      RemovedCellsLoseEntries(b, init);
      RemoveRecordFacts(RemoveRecords(b, init), t.0, t.1);
      assert forall i :: 0 <= i < |targets| - 1 ==> targets[i] == init[i];
    }
  }

  /** The cleanup leaves every record outside targets as it was. */
  lemma {:induction false} OtherRecordsKept(b: Board, targets: seq<(Pos, string)>, p: Pos)
    requires b.nodes.Valid() && p in b.nodes.items
    requires forall i :: 0 <= i < |targets| ==> targets[i].0 != p
    ensures p in RemoveRecords(b, targets).nodes.items
    ensures RemoveRecords(b, targets).nodes.items[p] == b.nodes.items[p]
  {
    if targets != [] {
      var init := targets[..|targets| - 1];
      var t := targets[|targets| - 1];
      assert forall i :: 0 <= i < |init| ==> init[i] == targets[i];
      OtherRecordsKept(b, init, p);
      RemoveRecordFacts(RemoveRecords(b, init), t.0, t.1);
    }
  }

  /**
   * Each record in targets (distinct positions) is deleted, except the
   * origin record, whose cell is cleared instead.
   */
  lemma {:induction false} TargetRecordsRemoved(b: Board, targets: seq<(Pos, string)>, k: nat)
    requires b.nodes.Valid() && k < |targets|
    requires forall i, j :: 0 <= i < j < |targets| ==> targets[i].0 != targets[j].0
    ensures targets[k].0 != Origin ==> targets[k].0 !in RemoveRecords(b, targets).nodes.items
    ensures targets[k].0 == Origin ==>
      Origin in RemoveRecords(b, targets).nodes.items && RemoveRecords(b, targets).nodes.items[Origin] == None
  {
    var init := targets[..|targets| - 1];
    var t := targets[|targets| - 1];
    RemoveRecordFacts(RemoveRecords(b, init), t.0, t.1);
    if k < |targets| - 1 {
      assert init[k] == targets[k];
      assert targets[k].0 != t.0;
      TargetRecordsRemoved(b, init, k);
    }
  }

  /**
   * The cleanup for a set s of cells: each record holding a cell of s is
   * deleted (the origin record only loses its cell) and that cell loses its
   * entry; every other record is kept as it was.
   */
  lemma CleanupEffect(b: Board, s: set<string>)
    requires b.nodes.Valid()
    ensures var r := RemoveRecords(b, RecordsIn(b.nodes.keys, b.nodes.items, s));
      forall p :: p in b.nodes.items && b.nodes.items[p].Some? && b.nodes.items[p].value in s ==>
        b.nodes.items[p].value !in r.neighbors &&
        (p == Origin ==> p in r.nodes.items && r.nodes.items[p] == None) &&
        (p != Origin ==> p !in r.nodes.items)
    ensures var r := RemoveRecords(b, RecordsIn(b.nodes.keys, b.nodes.items, s));
      forall p :: p in b.nodes.items && !(b.nodes.items[p].Some? && b.nodes.items[p].value in s) ==>
        p in r.nodes.items && r.nodes.items[p] == b.nodes.items[p]
  {
    var targets := RecordsIn(b.nodes.keys, b.nodes.items, s);
    var r := RemoveRecords(b, targets);
    RecordsInNoDup(b.nodes.keys, b.nodes.items, s);
    RemovedCellsLoseEntries(b, targets);
    forall p | p in b.nodes.items && b.nodes.items[p].Some? && b.nodes.items[p].value in s
      ensures b.nodes.items[p].value !in r.neighbors
      ensures p == Origin ==> p in r.nodes.items && r.nodes.items[p] == None
      ensures p != Origin ==> p !in r.nodes.items
    {
      assert (p, b.nodes.items[p].value) in targets;
      var k :| 0 <= k < |targets| && targets[k] == (p, b.nodes.items[p].value);
      TargetRecordsRemoved(b, targets, k);
    }
    forall p | p in b.nodes.items && !(b.nodes.items[p].Some? && b.nodes.items[p].value in s)
      ensures p in r.nodes.items && r.nodes.items[p] == b.nodes.items[p]
    {
      forall i | 0 <= i < |targets| ensures targets[i].0 != p {
        assert targets[i] in targets;
      }
      OtherRecordsKept(b, targets, p);
    }
  }

  /** The origin record is never deleted by the cleanup. */
  lemma {:induction false} OriginNeverDeleted(b: Board, targets: seq<(Pos, string)>)
    requires b.nodes.Valid() && Origin in b.nodes.items
    ensures Origin in RemoveRecords(b, targets).nodes.items
  {
    if targets != [] {
      OriginNeverDeleted(b, targets[..|targets| - 1]);
    }
  }

  /** Every queued id is one the search can meet. */
  predicate QueueWithin(queue: seq<string>, u: set<string>)
  {
    forall i :: 0 <= i < |queue| ==> queue[i] in u
  }

  /** Every neighbour of a visited cell is visited or waiting in the queue. */
  predicate Frontier(n: Neighbors, visited: set<string>, queue: seq<string>)
  {
    forall c, d :: c in visited && c in n && IsId(n[c].Get(d)) ==>
      n[c].Get(d).value in visited || n[c].Get(d).value in queue
  }

  lemma FrontierOfClosed(n: Neighbors, visited: set<string>)
    requires ClosedUnder(n, visited)
    ensures forall q :: Frontier(n, visited, q)
  {
  }

  lemma FrontierEmpty(n: Neighbors, visited: set<string>)
    requires Frontier(n, visited, [])
    ensures ClosedUnder(n, visited)
  {
  }

  /** Dropping an already visited id from the queue keeps the frontier. */
  lemma FrontierPopVisited(n: Neighbors, visited: set<string>, queue: seq<string>)
    requires queue != [] && queue[0] in visited && Frontier(n, visited, queue)
    ensures Frontier(n, visited, queue[1..])
  {
    forall c, d | c in visited && c in n && IsId(n[c].Get(d)) && n[c].Get(d).value !in visited
      ensures n[c].Get(d).value in queue[1..]
    {
      var x := n[c].Get(d).value;
      var k :| 0 <= k < |queue| && queue[k] == x;
      assert queue[1..][k - 1] == x;
    }
  }

  /** Visiting a new id and queueing its unvisited neighbours keeps the frontier. */
  lemma FrontierPopNew(n: Neighbors, visited: set<string>, queue: seq<string>)
    requires queue != [] && queue[0] !in visited && Frontier(n, visited, queue)
    ensures var current := queue[0];
      var links := if current in n then n[current] else NoLinks;
      Frontier(n, visited + {current}, queue[1..] + Unvisited(links, visited + {current}))
  {
    var current := queue[0];
    var v := visited + {current};
    var links := if current in n then n[current] else NoLinks;
    var q := queue[1..] + Unvisited(links, v);
    forall c, d | c in v && c in n && IsId(n[c].Get(d)) && n[c].Get(d).value !in v
      ensures n[c].Get(d).value in q
    {
      var x := n[c].Get(d).value;
      if c == current {
        assert x in Unvisited(links, v);
      } else {
        var k :| 0 <= k < |queue| && queue[k] == x;
        assert k != 0;
        assert q[k - 1] == x;
      }
    }
  }

  /** The ids queued by a step are ones the search can meet. */
  lemma QueuePush(n: Neighbors, u: set<string>, visited: set<string>, queue: seq<string>)
    requires queue != [] && QueueWithin(queue, u) && NamesWithin(n, u)
    ensures var current := queue[0];
      var links := if current in n then n[current] else NoLinks;
      QueueWithin(queue[1..] + Unvisited(links, visited + {current}), u)
  {
    var current := queue[0];
    var links := if current in n then n[current] else NoLinks;
    if current !in n {
      assert LinkIds(NoLinks) == {};
    }
    var q := queue[1..] + Unvisited(links, visited + {current});
    forall i | 0 <= i < |q| ensures q[i] in u {
      if i < |queue| - 1 {
        assert q[i] == queue[i + 1];
      } else {
        assert q[i] in Unvisited(links, visited + {current});
      }
    }
  }

  /** The assigned cells and the named ids hold every id an entry names. */
  lemma UniverseHoldsNames(n: Neighbors, nodes: Nodes)
    ensures NamesWithin(n, Universe(n, nodes))
  {
    forall c | c in n ensures LinkIds(n[c]) <= Universe(n, nodes) {
      LinkIdsNamed(n, c);
    }
  }

  /** Appending a new block disjoint from the earlier ones. */
  lemma AppendComponent(cs: seq<set<string>>, c: set<string>)
    requires Disjoint(cs) && NonEmpty(cs) && c != {} && c !! Union(cs)
    ensures Disjoint(cs + [c]) && NonEmpty(cs + [c])
    ensures Union(cs + [c]) == Union(cs) + c
  {
    assert (cs + [c])[..|cs|] == cs;
    forall i | 0 <= i < |cs| ensures cs[i] !! c {
      forall x | x in cs[i] ensures x !in c {
        UnionMembers(cs, x);
      }
    }
  }

  /**
   * Blocks as the search finds them: each one connected, and each run of
   * blocks from the first on closed under links, so no block reaches a
   * later one.
   */
  ghost predicate Searched(n: Neighbors, cs: seq<set<string>>)
  {
    (forall i :: 0 <= i < |cs| ==> Connected(n, cs[i])) &&
    (forall i :: 0 <= i <= |cs| ==> ClosedUnder(n, Union(cs[..i])))
  }

  /** Appending a block rooted at r that closes the blocks found so far. */
  lemma AppendSearched(n: Neighbors, cs: seq<set<string>>, c: set<string>, r: string)
    requires Searched(n, cs) && RootedAt(n, c, r) && ClosedUnder(n, Union(cs) + c)
    requires Union(cs + [c]) == Union(cs) + c
    ensures Searched(n, cs + [c])
  {
    var ds := cs + [c];
    forall i | 0 <= i < |ds| ensures Connected(n, ds[i]) {
      if i == |cs| {
        assert RootedAt(n, ds[i], r);
      } else {
        assert ds[i] == cs[i];
      }
    }
    forall i | 0 <= i <= |ds| ensures ClosedUnder(n, Union(ds[..i])) {
      if i == |ds| {
        assert ds[..i] == ds;
      } else {
        assert ds[..i] == cs[..i];
      }
    }
  }

  /** Visiting one more id: the bookkeeping of the visited set and the measure. */
  lemma VisitOne(u: set<string>, visited0: set<string>, component: set<string>, current: string)
    requires component !! visited0 && current !in visited0 + component
    ensures (visited0 + component) + {current} == visited0 + (component + {current})
    ensures component + {current} !! visited0
    ensures current in u ==> |u - ((visited0 + component) + {current})| < |u - (visited0 + component)|
  {
    var v := visited0 + component;
    if current in u {
      assert u - v == (u - (v + {current})) + {current};
    }
  }

  /** Every entry names only ids of u. */
  predicate NamesWithin(n: Neighbors, u: set<string>)
  {
    forall c :: c in n ==> LinkIds(n[c]) <= u
  }

  // ---------- reachability ----------

  /** The entry of a names b. */
  predicate Linked(n: Neighbors, a: string, b: string)
  {
    a in n && b in LinkIds(n[a])
  }

  /** A walk: each id after the first is named by the entry of the one before it. */
  predicate IsWalk(n: Neighbors, p: seq<string>)
  {
    |p| >= 1 && forall i :: 0 <= i < |p| - 1 ==> Linked(n, p[i], p[i + 1])
  }

  /** Some walk leads from a to b. */
  ghost predicate Reachable(n: Neighbors, a: string, b: string)
  {
    exists p :: IsWalk(n, p) && p[0] == a && p[|p| - 1] == b
  }

  lemma ReachableFromItself(n: Neighbors, a: string)
    ensures Reachable(n, a, a)
  {
    assert IsWalk(n, [a]);
  }

  /** A walk to b followed by one link from b is a walk. */
  lemma ReachableStep(n: Neighbors, a: string, b: string, c: string)
    requires Reachable(n, a, b) && Linked(n, b, c)
    ensures Reachable(n, a, c)
  {
    var p :| IsWalk(n, p) && p[0] == a && p[|p| - 1] == b;
    var q := p + [c];
    forall i | 0 <= i < |q| - 1 ensures Linked(n, q[i], q[i + 1]) {
      if i < |p| - 1 {
        assert q[i] == p[i] && q[i + 1] == p[i + 1];
      } else {
        assert q[i] == b && q[i + 1] == c;
      }
    }
    assert IsWalk(n, q) && q[0] == a && q[|q| - 1] == c;
  }

  /** Every id of c is reachable from r, which is in c. */
  ghost predicate RootedAt(n: Neighbors, c: set<string>, r: string)
  {
    r in c && forall x :: x in c ==> Reachable(n, r, x)
  }

  /** A connected block: some id of it reaches all of it. */
  ghost predicate Connected(n: Neighbors, c: set<string>)
  {
    exists r :: RootedAt(n, c, r)
  }

  /** The queued neighbours of a reachable id are reachable. */
  lemma PushReachable(n: Neighbors, start: string, queue: seq<string>, visited: set<string>)
    requires queue != [] && forall x :: x in queue ==> Reachable(n, start, x)
    ensures var current := queue[0];
      var links := if current in n then n[current] else NoLinks;
      forall x :: x in queue[1..] + Unvisited(links, visited) ==> Reachable(n, start, x)
  {
    var current := queue[0];
    var links := if current in n then n[current] else NoLinks;
    if current !in n {
      assert LinkIds(NoLinks) == {};
    }
    forall x | x in queue[1..] + Unvisited(links, visited) ensures Reachable(n, start, x) {
      if x in Unvisited(links, visited) {
        assert Linked(n, current, x);
        ReachableStep(n, start, current, x);
      } else {
        var k :| 0 <= k < |queue[1..]| && queue[1..][k] == x;
        assert queue[k + 1] == x;
      }
    }
  }

  /**
   * One breadth-first search from start over cells not yet visited (the
   * body of the loop in _find_connected_components), inside a set u of ids
   * that holds every id an entry names.
   */
  method ExploreFrom(n: Neighbors, u: set<string>, start: string, visited0: set<string>) returns (component: set<string>)
    requires NamesWithin(n, u)
    requires start !in visited0 && start in u
    requires visited0 <= u && ClosedUnder(n, visited0)
    ensures start in component && component !! visited0
    ensures component <= u
    ensures ClosedUnder(n, visited0 + component)
    ensures RootedAt(n, component, start)
  {
    var visited := visited0;
    component := {};
    var queue := [start];
    FrontierOfClosed(n, visited0);
    ReachableFromItself(n, start);
    while queue != []
      invariant visited == visited0 + component && component !! visited0
      invariant start in component || queue == [start]
      invariant component <= u && QueueWithin(queue, u)
      invariant Frontier(n, visited, queue)
      invariant forall x :: x in component ==> Reachable(n, start, x)
      invariant forall x :: x in queue ==> Reachable(n, start, x)
      decreases |u - visited|, |queue|
    {
      var current := queue[0];
      if current in visited {
        FrontierPopVisited(n, visited, queue);
        assert forall x :: x in queue[1..] ==> x in queue;
        queue := queue[1..];
        continue;
      }
      var links := if current in n then n[current] else NoLinks;
      FrontierPopNew(n, visited, queue);
      QueuePush(n, u, visited, queue);
      PushReachable(n, start, queue, visited + {current});
      VisitOne(u, visited0, component, current);
      visited := visited + {current};
      component := component + {current};
      queue := queue[1..] + Unvisited(links, visited);
    }
    FrontierEmpty(n, visited);
  }

  // ---------- the window ----------

  /**
   * The parts of CellNeighborsWindow the commands and the block check touch:
   * _neighbors, _nodes_by_grid (each record's cell_id) and the undo stack.
   */
  class NeighborWindow {
    var neighbors: Neighbors
    var nodes: Nodes
    var undoStack: seq<Command>

    ghost predicate Valid()
      reads this
    {
      nodes.Valid()
    }

    constructor ()
      ensures Valid()
      ensures neighbors == map[] && nodes == Empty() && undoStack == []
    {
      neighbors := map[];
      nodes := Empty();
      undoStack := [];
    }

    /** _ensure_cell_mapping_entry */
    method EnsureCellMappingEntry(c: string)
      modifies this
      ensures neighbors == Ensure(old(neighbors), c)
      ensures nodes == old(nodes) && undoStack == old(undoStack)
    {
      if c !in neighbors {
        neighbors := neighbors[c := NoLinks];
      }
    }

    /** _link_cells_internal, which AddNeighborCommand.redo runs. */
    method LinkCellsInternal(src: string, d: Dir, dst: string)
      modifies this
      ensures neighbors == Link(old(neighbors), src, d, dst)
      ensures nodes == old(nodes) && undoStack == old(undoStack)
    {
      EnsureCellMappingEntry(src);
      EnsureCellMappingEntry(dst);
      neighbors := neighbors[src := neighbors[src].Set(d, Some(dst))];
      neighbors := neighbors[dst := neighbors[dst].Set(Opposite(d), Some(src))];
    }

    /** AddNeighborCommand.undo */
    method AddNeighborUndo(src: string, d: Dir, dst: string)
      modifies this
      ensures neighbors == Unlink(old(neighbors), src, d, dst)
      ensures nodes == old(nodes) && undoStack == old(undoStack)
    {
      if src in neighbors {
        neighbors := neighbors[src := neighbors[src].Set(d, None)];
      }
      if dst in neighbors {
        neighbors := neighbors[dst := neighbors[dst].Set(Opposite(d), None)];
      }
    }

    /** _link_cells: push (and so run) an AddNeighborCommand only when both cells have a node. */
    method LinkCells(src: string, d: Dir, dst: string)
      requires Valid()
      modifies this
      ensures Valid() && nodes == old(nodes)
      ensures HoldsCell(old(nodes), src) && HoldsCell(old(nodes), dst) ==>
        neighbors == Link(old(neighbors), src, d, dst) && undoStack == old(undoStack) + [AddNeighbor(src, d, dst)]
      ensures !(HoldsCell(old(nodes), src) && HoldsCell(old(nodes), dst)) ==>
        neighbors == old(neighbors) && undoStack == old(undoStack)
    {
      var foundSrc, foundDst := false, false;
      for i := 0 to |nodes.keys|
        invariant foundSrc <==> exists j :: 0 <= j < i && nodes.items[nodes.keys[j]] == Some(src)
        invariant foundDst <==> exists j :: 0 <= j < i && nodes.items[nodes.keys[j]] == Some(dst)
      {
        var cellId := nodes.items[nodes.keys[i]];
        if cellId == Some(src) {
          foundSrc := true;
        }
        if cellId == Some(dst) {
          foundDst := true;
        }
      }
      assert foundSrc <==> HoldsCell(nodes, src) by {
        if HoldsCell(nodes, src) {
          var p :| p in nodes.items && nodes.items[p] == Some(src);
          var j :| 0 <= j < |nodes.keys| && nodes.keys[j] == p;
        }
      }
      assert foundDst <==> HoldsCell(nodes, dst) by {
        if HoldsCell(nodes, dst) {
          var p :| p in nodes.items && nodes.items[p] == Some(dst);
          var j :| 0 <= j < |nodes.keys| && nodes.keys[j] == p;
        }
      }
      if foundSrc && foundDst {
        undoStack := undoStack + [AddNeighbor(src, d, dst)];
        LinkCellsInternal(src, d, dst);
      }
    }

    /** DeleteCellCommand.redo: nothing happens when the record has already gone. */
    method DeleteCellRedo(cell: string, pos: Pos, saved: Links)
      requires Valid()
      modifies this
      ensures Valid() && undoStack == old(undoStack)
      ensures pos in old(nodes.items) ==>
        neighbors == DeleteCellLinks(old(neighbors), cell, saved) && nodes == old(nodes).Remove(pos)
      ensures pos !in old(nodes.items) ==> neighbors == old(neighbors) && nodes == old(nodes)
    {
      if pos !in nodes.items {
        return;
      }
      for i := 0 to |AllDirs|
        invariant neighbors == WriteBack(old(neighbors), saved, AllDirs[..i], None)
        invariant nodes == old(nodes) && undoStack == old(undoStack)
      {
        assert AllDirs[..i + 1][..i] == AllDirs[..i];
        var nid := saved.Get(AllDirs[i]);
        if IsId(nid) && nid.value in neighbors {
          neighbors := neighbors[nid.value := neighbors[nid.value].Set(Opposite(AllDirs[i]), None)];
        }
      }
      assert AllDirs[..|AllDirs|] == AllDirs;
      if cell in neighbors {
        neighbors := neighbors - {cell};
      }
      nodes := nodes.Remove(pos);
    }

    /** DeleteCellCommand.undo: the record comes back at its position, then the saved links. */
    method DeleteCellUndo(cell: string, pos: Pos, saved: Links)
      requires Valid()
      modifies this
      ensures Valid() && undoStack == old(undoStack)
      ensures neighbors == RestoreCellLinks(old(neighbors), cell, saved)
      ensures nodes == old(nodes).Put(pos, Some(cell))
    {
      nodes := nodes.Put(pos, Some(cell));
      neighbors := neighbors[cell := saved];
      ghost var base := neighbors;
      for i := 0 to |AllDirs|
        invariant neighbors == WriteBack(base, saved, AllDirs[..i], Some(cell))
        invariant nodes == old(nodes).Put(pos, Some(cell)) && undoStack == old(undoStack)
      {
        assert AllDirs[..i + 1][..i] == AllDirs[..i];
        var nid := saved.Get(AllDirs[i]);
        if IsId(nid) && nid.value in neighbors {
          neighbors := neighbors[nid.value := neighbors[nid.value].Set(Opposite(AllDirs[i]), Some(cell))];
        }
      }
      assert AllDirs[..|AllDirs|] == AllDirs;
    }

    /**
     * _delete_cell: a record without a cell is left alone; otherwise a
     * DeleteCellCommand saving the cell's current entry is pushed and run.
     */
    method DeleteCellAt(pos: Pos)
      requires Valid() && pos in nodes.items
      modifies this
      ensures Valid()
      ensures !IsId(old(nodes.items[pos])) ==>
        neighbors == old(neighbors) && nodes == old(nodes) && undoStack == old(undoStack)
      ensures IsId(old(nodes.items[pos])) ==>
        var cell := old(nodes.items[pos]).value;
        var saved := if cell in old(neighbors) then old(neighbors)[cell] else NoLinks;
        undoStack == old(undoStack) + [DeleteCell(cell, pos, saved)] &&
        neighbors == DeleteCellLinks(old(neighbors), cell, saved) && nodes == old(nodes).Remove(pos)
    {
      var record := nodes.items[pos];
      if !IsId(record) {
        return;
      }
      var cell := record.value;
      var saved := if cell in neighbors then neighbors[cell] else NoLinks;
      undoStack := undoStack + [DeleteCell(cell, pos, saved)];
      DeleteCellRedo(cell, pos, saved);
    }

    /** _find_connected_components: the blocks of linked cells, taken from the assigned cells in set order. */
    method FindConnectedComponents() returns (components: seq<set<string>>)
      ensures ComponentsOf(neighbors, nodes, components)
      ensures AssignedCells(nodes) == {} ==> components == []
      ensures Searched(neighbors, components)
    {
      var allCells := AssignedCells(nodes);
      components := [];
      if allCells == {} {
        return;
      }
      var visited: set<string> := {};
      var remaining := allCells;
      UniverseHoldsNames(neighbors, nodes);
      while remaining != {}
        invariant remaining <= allCells && allCells - remaining <= visited
        invariant visited == Union(components) && visited <= Universe(neighbors, nodes)
        invariant ClosedUnder(neighbors, visited)
        invariant Disjoint(components) && NonEmpty(components)
        invariant Searched(neighbors, components)
        decreases |remaining|
      {
        var cell :| cell in remaining;
        remaining := remaining - {cell};
        if cell in visited {
          continue;
        }
        var component := ExploreFrom(neighbors, Universe(neighbors, nodes), cell, visited);
        AppendComponent(components, component);
        AppendSearched(neighbors, components, component, cell);
        components := components + [component];
        visited := visited + component;
      }
    }

    /** The loop over a removed cell's own entry in _remove_disconnected_blocks. */
    method ClearOwnLinks(cell: string)
      requires cell in neighbors
      modifies this
      ensures neighbors == ClearOwn(old(neighbors), cell, AllDirs)
      ensures nodes == old(nodes) && undoStack == old(undoStack)
    {
      for k := 0 to |AllDirs|
        invariant neighbors == ClearOwn(old(neighbors), cell, AllDirs[..k])
        invariant nodes == old(nodes) && undoStack == old(undoStack)
      {
        assert AllDirs[..k + 1][..k] == AllDirs[..k];
        var nid := neighbors[cell].Get(AllDirs[k]);
        if IsId(nid) && nid.value in neighbors {
          neighbors := neighbors[nid.value := neighbors[nid.value].Set(Opposite(AllDirs[k]), None)];
        }
      }
      assert AllDirs[..|AllDirs|] == AllDirs;
    }

    /** Deleting one record of records_to_delete in _remove_disconnected_blocks. */
    method RemoveRecordAt(pos: Pos, cell: string)
      requires Valid()
      modifies this
      ensures Valid() && undoStack == old(undoStack)
      ensures Board(neighbors, nodes) == RemoveRecord(Board(old(neighbors), old(nodes)), pos, cell)
    {
      if cell in neighbors {
        ClearOwnLinks(cell);
        neighbors := neighbors - {cell};
      }
      if pos == Origin {
        nodes := nodes.Put(pos, None);
      } else {
        nodes := nodes.Remove(pos);
      }
    }

    /** The loop over records_to_delete in _remove_disconnected_blocks. */
    method RemoveEachRecord(targets: seq<(Pos, string)>)
      requires Valid()
      modifies this
      ensures Valid() && undoStack == old(undoStack)
      ensures Board(neighbors, nodes) == RemoveRecords(Board(old(neighbors), old(nodes)), targets)
    {
      for i := 0 to |targets|
        invariant nodes.Valid() && undoStack == old(undoStack)
        invariant Board(neighbors, nodes) == RemoveRecords(Board(old(neighbors), old(nodes)), targets[..i])
      {
        assert targets[..i + 1][..i] == targets[..i];
        RemoveRecordAt(targets[i].0, targets[i].1);
      }
      assert targets[..|targets|] == targets;
    }

    /** _remove_disconnected_blocks */
    method RemoveDisconnectedBlocks(components: seq<set<string>>)
      requires Valid()
      modifies this
      ensures Valid() && undoStack == old(undoStack)
      ensures Board(neighbors, nodes) ==
        RemoveRecords(Board(old(neighbors), old(nodes)), RecordsIn(old(nodes).keys, old(nodes).items, Union(components)))
    {
      var cellsToRemove := Union(components);
      var targets := RecordsIn(nodes.keys, nodes.items, cellsToRemove);
      RemoveEachRecord(targets);
    }

    /**
     * _check_and_handle_disconnected_blocks with the user's answer to the
     * warning as confirm: one block or none always proceeds; otherwise every
     * block but the first largest is removed on confirm, and nothing changes
     * on cancel.
     */
    method CheckAndHandleDisconnectedBlocks(confirm: bool) returns (proceed: bool, ghost components: seq<set<string>>)
      requires Valid()
      modifies this
      ensures Valid() && undoStack == old(undoStack)
      ensures ComponentsOf(old(neighbors), old(nodes), components) && Searched(old(neighbors), components)
      ensures proceed <==> |components| <= 1 || confirm
      ensures |components| >= 2 && confirm ==>
        Board(neighbors, nodes) == RemoveRecords(Board(old(neighbors), old(nodes)),
          RecordsIn(old(nodes).keys, old(nodes).items, Union(RemoveAt(components, FirstLargest(components)))))
      ensures !(|components| >= 2 && confirm) ==> neighbors == old(neighbors) && nodes == old(nodes)
    {
      var found := FindConnectedComponents();
      components := found;
      if |found| <= 1 {
        return true, components;
      }
      var largest := found[FirstLargest(found)];
      var disconnected := Disconnected(found, largest);
      DisconnectedAreTheOthers(found);
      if disconnected == [] {
        return true, components;
      }
      if confirm {
        RemoveDisconnectedBlocks(disconnected);
        return true, components;
      }
      return false, components;
    }
  }
}

=== FILE: ordered_map.dfy ===
// Python dict / OrderedDict: a map that remembers the order in which keys
// were first inserted. Re-assigning an existing key keeps its position.
module OrderedMaps {
  import opened Wrappers
  import Seqs

  datatype OMap<K(!new), V> = OMap(keys: seq<K>, items: map<K, V>)
  {
    ghost predicate Valid()
    {
      Seqs.NoDup(keys) && (forall k :: k in items <==> k in keys)
    }

    function Get(k: K): (r: Option<V>)
      ensures r.Some? <==> k in items
    {
      if k in items then Some(items[k]) else None
    }

    /** d[k] = v */
    function Put(k: K, v: V): (r: OMap<K, V>)
      requires Valid()
      ensures r.Valid()
      ensures r.items == items[k := v]
      ensures k in items ==> r.keys == keys
      ensures k !in items ==> r.keys == keys + [k]
    {
      if k in items then OMap(keys, items[k := v]) else OMap(keys + [k], items[k := v])
    }

    /** del d[k]: the key leaves both the map and the order. */
    function Remove(k: K): (r: OMap<K, V>)
      requires Valid()
      ensures r.Valid() && r.items == items - {k}
      ensures r.keys == Seqs.Filter(keys, (x: K) => x != k)
    {
      Seqs.FilterNoDup(keys, (x: K) => x != k);
      OMap(Seqs.Filter(keys, (x: K) => x != k), items - {k})
    }

    /** d.get(k, default) */
    function GetOr(k: K, default: V): (r: V)
      ensures k in items ==> r == items[k]
      ensures k !in items ==> r == default
    {
      if k in items then items[k] else default
    }

    /** list(d.values()) */
    function Values(): (r: seq<V>)
      requires Valid()
      ensures |r| == |keys|
      ensures forall i :: 0 <= i < |keys| ==> r[i] == items[keys[i]]
    {
      seq(|keys|, i requires 0 <= i < |keys| => items[keys[i]])
    }
  }

  function Empty<K(!new), V>(): (r: OMap<K, V>)
    ensures r.Valid() && r.keys == [] && r.items == map[]
  {
    OMap([], map[])
  }

  /** Reading back a key just written gives the value written; other keys are unchanged. */
  lemma PutGet<K(!new), V>(m: OMap<K, V>, k: K, v: V, j: K)
    requires m.Valid()
    ensures m.Put(k, v).Get(j) == if j == k then Some(v) else m.Get(j)
  {
  }

  /**
   * for k, v, f in zip(ks, vs, keep): if f: d.setdefault(k, []).append(v)
   * starting from an empty dict.
   */
  function GroupBy<K(!new), V>(ks: seq<K>, vs: seq<V>, keep: seq<bool>): (r: OMap<K, seq<V>>)
    requires |ks| == |vs| == |keep|
    ensures r.Valid()
  {
    if ks == [] then Empty()
    else
      var n := |ks| - 1;
      var g := GroupBy(ks[..n], vs[..n], keep[..n]);
      if keep[n] then g.Put(ks[n], g.GetOr(ks[n], []) + [vs[n]]) else g
  }

  /** A key is present exactly when some kept entry carries it. */
  lemma {:induction false} GroupByKeys<K(!new), V>(ks: seq<K>, vs: seq<V>, keep: seq<bool>, k: K)
    requires |ks| == |vs| == |keep|
    ensures k in GroupBy(ks, vs, keep).items <==> exists i :: 0 <= i < |ks| && keep[i] && ks[i] == k
  {
    if ks != [] {
      var n := |ks| - 1;
      GroupByKeys(ks[..n], vs[..n], keep[..n], k);
      if k in GroupBy(ks, vs, keep).items && !(keep[n] && ks[n] == k) {
        var i :| 0 <= i < n && keep[..n][i] && ks[..n][i] == k;
        assert keep[i] && ks[i] == k;
      }
      if exists i :: 0 <= i < |ks| && keep[i] && ks[i] == k {
        var i :| 0 <= i < |ks| && keep[i] && ks[i] == k;
        if i < n {
          assert keep[..n][i] && ks[..n][i] == k;
        }
      }
    }
  }

  /** The list under a key holds exactly the values of the kept entries carrying that key. */
  lemma {:induction false} GroupByValues<K(!new), V>(ks: seq<K>, vs: seq<V>, keep: seq<bool>, k: K, v: V)
    requires |ks| == |vs| == |keep|
    requires k in GroupBy(ks, vs, keep).items
    ensures v in GroupBy(ks, vs, keep).items[k] <==>
      exists i :: 0 <= i < |ks| && keep[i] && ks[i] == k && vs[i] == v
  {
    var n := |ks| - 1;
    var g := GroupBy(ks[..n], vs[..n], keep[..n]);
    var old_ := g.GetOr(k, []);
    assert v in old_ <==> exists i :: 0 <= i < n && keep[i] && ks[i] == k && vs[i] == v by {
      if k in g.items {
        GroupByValues(ks[..n], vs[..n], keep[..n], k, v);
        if v in old_ {
          var i :| 0 <= i < n && keep[..n][i] && ks[..n][i] == k && vs[..n][i] == v;
          assert keep[i] && ks[i] == k && vs[i] == v;
        }
        if exists i :: 0 <= i < n && keep[i] && ks[i] == k && vs[i] == v {
          var i :| 0 <= i < n && keep[i] && ks[i] == k && vs[i] == v;
          assert keep[..n][i] && ks[..n][i] == k && vs[..n][i] == v;
        }
      } else {
        GroupByKeys(ks[..n], vs[..n], keep[..n], k);
        assert forall i :: 0 <= i < n ==> keep[..n][i] == keep[i] && ks[..n][i] == ks[i];
      }
    }
  }

  /** One more entry: the grouping of a longer prefix extends that of the shorter one. */
  lemma GroupByStep<K(!new), V>(ks: seq<K>, vs: seq<V>, keep: seq<bool>, i: nat)
    requires |ks| == |vs| == |keep| && i < |ks|
    ensures var g := GroupBy(ks[..i], vs[..i], keep[..i]);
      GroupBy(ks[..i + 1], vs[..i + 1], keep[..i + 1]) ==
        if keep[i] then g.Put(ks[i], g.GetOr(ks[i], []) + [vs[i]]) else g
  {
    assert ks[..i + 1][..i] == ks[..i] && vs[..i + 1][..i] == vs[..i] && keep[..i + 1][..i] == keep[..i];
  }
}

=== FILE: paste_dialog.dfy ===
// gridlamedit/app/dialogs/new_laminate_paste_dialog.py: reading a pasted
// list of orientations (_parse_orientations), mirroring it into a symmetric
// stacking (_build_symmetric_sequence), and the accept decision of the
// dialog (_on_accept_clicked).
module PasteDialogs {
  import opened Wrappers
  import opened Text
  import opened PyValues
  import Seqs

  // ---------------------------------------------------------------- splitting

  /** One character of the split pattern `[,\s;\/|]`. */
  predicate IsSeparator(c: char)
  {
    c == ',' || c == ';' || c == '/' || c == '|' || IsSpace(c)
  }

  predicate NoSeparator(s: string)
  {
    forall i :: 0 <= i < |s| ==> !IsSeparator(s[i])
  }

  /** The length of the token s starts with. */
  function TokenLen(s: string): (n: nat)
    ensures n <= |s| && NoSeparator(s[..n])
    ensures n < |s| ==> IsSeparator(s[n])
  {
    if s == [] || IsSeparator(s[0]) then 0
    else
      var n := 1 + TokenLen(s[1..]);
      assert s[..n] == [s[0]] + s[1..][..n - 1];
      n
  }

  /**
   * The non-empty pieces of re.split over runs of separators. The pieces
   * hold no whitespace, so strip() leaves each as it is.
   */
  function Tokens(s: string): (r: seq<string>)
    ensures forall i :: 0 <= i < |r| ==> r[i] != [] && NoSeparator(r[i])
    decreases |s|
  {
    if s == [] then []
    else if IsSeparator(s[0]) then Tokens(s[1..])
    else
      var n := TokenLen(s);
      [s[..n]] + Tokens(s[n..])
  }

  lemma TokenLenOfWord(w: string, rest: string)
    requires NoSeparator(w)
    requires rest == [] || IsSeparator(rest[0])
    ensures TokenLen(w + rest) == |w|
    decreases |w|
  {
    if w != [] {
      assert (w + rest)[1..] == w[1..] + rest;
      TokenLenOfWord(w[1..], rest);
    }
  }

  /** A separator between two tokens splits them apart. */
  lemma TokensOfJoin(w: string, sep: char, rest: string)
    requires w != [] && NoSeparator(w) && IsSeparator(sep)
    ensures Tokens(w + [sep] + rest) == [w] + Tokens(rest)
  {
    var s := w + [sep] + rest;
    TokenLenOfWord(w, [sep] + rest);
    assert s == w + ([sep] + rest);
    assert s[..|w|] == w;
    assert s[|w|..] == [sep] + rest;
    assert ([sep] + rest)[1..] == rest;
  }

  lemma TokensOfWord(w: string)
    requires w != [] && NoSeparator(w)
    ensures Tokens(w) == [w]
  {
    TokenLenOfWord(w, []);
    assert w + [] == w;
  }

  // ---------------------------------------------------------------- tokens

  /**
   * float() of a token matching `[+-]?\d+(\.\d+)?°?` once the degree sign is
   * removed; None for a token the pattern rejects.
   */
  function TokenNumber(t: string): (r: Option<real>)
  {
    if t != [] && t[|t| - 1] == '°' then ParseDecimal(t[..|t| - 1]) else ParseDecimal(t)
  }

  /** round(x): to the nearest integer, halves to the even neighbour. */
  function RoundHalfEven(x: real): (r: int)
    ensures x - 1.0 / 2.0 <= r as real <= x + 1.0 / 2.0
    ensures IsWhole(x) ==> r as real == x
  {
    var f := x.Floor;
    var d := x - f as real;
    if d < 1.0 / 2.0 then f
    else if d > 1.0 / 2.0 then f + 1
    else if f % 2 == 0 then f else f + 1
  }

  /** The orientation a token contributes: its rounded value, if normalize_angle accepts it. */
  function TokenOrientation(t: string): (r: Option<int>)
    ensures r.Some? ==> InOrientationRange(r.value)
    ensures r.Some? ==> TokenNumber(t).Some? && r.value == RoundHalfEven(TokenNumber(t).value)
  {
    match TokenNumber(t)
    case None => None
    case Some(x) => NormalizeAngle(VInt(RoundHalfEven(x)))
  }

  /** What one token adds to the result: its orientation, or nothing. */
  function Contribution(t: string): (r: seq<int>)
    ensures |r| <= 1 && forall i :: 0 <= i < |r| ==> InOrientationRange(r[i])
  {
    match TokenOrientation(t)
    case None => []
    case Some(a) => [a]
  }

  /** The orientations the tokens ts contribute, in order. */
  function Orientations(ts: seq<string>): (r: seq<int>)
    ensures |r| <= |ts|
    ensures forall i :: 0 <= i < |r| ==> InOrientationRange(r[i])
  {
    if ts == [] then [] else Orientations(ts[..|ts| - 1]) + Contribution(ts[|ts| - 1])
  }

  lemma {:induction false} OrientationsAppend(a: seq<string>, b: seq<string>)
    ensures Orientations(a + b) == Orientations(a) + Orientations(b)
    decreases |b|
  {
    if b == [] {
      assert a + b == a;
    } else {
      var n := |b| - 1;
      var front, c := Orientations(b[..n]), Contribution(b[n]);
      assert Orientations(b) == front + c;
      assert (a + b)[..|a + b| - 1] == a + b[..n];
      assert (a + b)[|a + b| - 1] == b[n];
      assert Orientations(a + b) == Orientations(a + b[..n]) + c;
      OrientationsAppend(a, b[..n]);
      assert (Orientations(a) + front) + c == Orientations(a) + (front + c);
    }
  }

  /** _parse_orientations */
  function Parsed(text: string): (r: seq<int>)
  {
    Orientations(Tokens(text))
  }

  method ParseOrientations(rawText: string) returns (orientations: seq<int>)
    ensures orientations == Parsed(rawText)
    ensures forall i :: 0 <= i < |orientations| ==> InOrientationRange(orientations[i])
  {
    var tokens := Tokens(rawText);
    orientations := [];
    for i := 0 to |tokens|
      invariant orientations == Orientations(tokens[..i])
    {
      assert tokens[..i + 1][..i] == tokens[..i];
      var cleaned := tokens[i];
      var number := TokenNumber(cleaned);
      if number.Some? {
        var orientation := NormalizeAngle(VInt(RoundHalfEven(number.value)));
        if orientation.Some? {
          orientations := orientations + [orientation.value];
        }
      }
    }
    assert tokens[..|tokens|] == tokens;
  }

  // ---------------------------------------------------------------- round trip

  lemma IntTextHasNoSeparator(a: int)
    ensures IntToString(a) != [] && NoSeparator(IntToString(a))
    ensures IntToString(a)[|IntToString(a)| - 1] != '°'
  {
    var d := NatToString(if a < 0 then -a else a);
    assert IsDigit(d[|d| - 1]);
    forall i | 0 <= i < |d| ensures !IsSeparator(d[i]) { assert IsDigit(d[i]); }
    if a < 0 {
      assert IntToString(a) == "-" + d;
    }
  }

  lemma ParseDecimalOfInt(a: int)
    ensures ParseDecimal(IntToString(a)) == Some(a as real)
  {
    if a < 0 {
      var d := NatToString(-a);
      ParseDecimalOfNat(-a);
      assert IsDigit(d[0]);
      assert IntToString(a)[1..] == d;
    } else {
      ParseDecimalOfNat(a);
    }
  }

  lemma IntTokenOrientation(a: int)
    requires InOrientationRange(a)
    ensures TokenOrientation(IntToString(a)) == Some(a)
  {
    IntTextHasNoSeparator(a);
    ParseDecimalOfInt(a);
    assert TokenNumber(IntToString(a)) == Some(a as real);
    assert RoundHalfEven(a as real) == a;
  }

  /** The text str(a) for each orientation, separated by commas. */
  function CommaList(xs: seq<int>): (r: string)
  {
    JoinWith(",", seq(|xs|, i requires 0 <= i < |xs| => IntToString(xs[i])))
  }

  lemma CommaListCons(xs: seq<int>)
    requires |xs| > 1
    ensures CommaList(xs) == IntToString(xs[0]) + [','] + CommaList(xs[1..])
  {
    var parts := seq(|xs|, i requires 0 <= i < |xs| => IntToString(xs[i]));
    var tail := seq(|xs| - 1, i requires 0 <= i < |xs| - 1 => IntToString(xs[1..][i]));
    assert parts[1..] == tail;
  }

  /** Pasting a comma-separated list of valid orientations gives that list back. */
  lemma {:induction false} PasteRoundTrip(xs: seq<int>)
    requires forall i :: 0 <= i < |xs| ==> InOrientationRange(xs[i])
    ensures Parsed(CommaList(xs)) == xs
  {
    if xs != [] {
      var w := IntToString(xs[0]);
      IntTextHasNoSeparator(xs[0]);
      IntTokenOrientation(xs[0]);
      assert Orientations([w]) == [xs[0]] by {
        assert [w][..0] == [];
      }
      if |xs| == 1 {
        TokensOfWord(w);
      } else {
        var rest := CommaList(xs[1..]);
        CommaListCons(xs);
        TokensOfJoin(w, ',', rest);
        assert Tokens(CommaList(xs)) == [w] + Tokens(rest);
        PasteRoundTrip(xs[1..]);
        OrientationsAppend([w], Tokens(rest));
        assert Parsed(CommaList(xs)) == [xs[0]] + xs[1..];
        assert xs == [xs[0]] + xs[1..];
      }
    }
  }

  // ---------------------------------------------------------------- symmetry

  predicate IsPalindrome(s: seq<int>)
  {
    forall i :: 0 <= i < |s| ==> s[i] == s[|s| - 1 - i]
  }

  /** _build_symmetric_sequence */
  function SymmetricSequence(items: seq<int>, includeCenter: bool): (r: seq<int>)
  {
    if items == [] then []
    else if includeCenter then
      var mirrored := items[..|items| - 1];
      mirrored + [items[|items| - 1]] + Seqs.Reverse(mirrored)
    else items + Seqs.Reverse(items)
  }

  /**
   * The mirrored stacking is a palindrome that starts with the pasted
   * layers; the last pasted layer is not repeated when it is the centre.
   */
  lemma SymmetricSequenceShape(items: seq<int>, includeCenter: bool)
    ensures var r := SymmetricSequence(items, includeCenter);
      IsPalindrome(r)
      && |r| == (if items == [] then 0 else if includeCenter then 2 * |items| - 1 else 2 * |items|)
      && r[..|items|] == items
  {
    var r := SymmetricSequence(items, includeCenter);
    if items != [] && includeCenter {
      var m := items[..|items| - 1];
      assert m + [items[|items| - 1]] == items;
      assert r == items + Seqs.Reverse(m);
      forall i | 0 <= i < |r| ensures r[i] == r[|r| - 1 - i] {
        if i < |m| {
          assert r[|r| - 1 - i] == Seqs.Reverse(m)[|m| - 1 - i];
        } else if i > |m| {
          assert r[i] == Seqs.Reverse(m)[i - |items|];
        }
      }
    } else if items != [] {
      forall i | 0 <= i < |r| ensures r[i] == r[|r| - 1 - i] {
        if i < |items| {
          assert r[|r| - 1 - i] == Seqs.Reverse(items)[|items| - 1 - i];
        } else {
          assert r[i] == Seqs.Reverse(items)[i - |items|];
        }
      }
    }
  }

  // ---------------------------------------------------------------- the dialog

  class PasteDialog {
    /** result_orientations */
    var resultOrientations: seq<int>
    var accepted: bool

    constructor()
      ensures resultOrientations == [] && !accepted
    {
      resultOrientations := [];
      accepted := false;
    }

    /**
     * _on_accept_clicked with the pasted text and the two check boxes; the
     * centre box is only read while the symmetric box is checked.
     */
    method AcceptClicked(text: string, symmetric: bool, lastLayerCenter: bool) returns (ok: bool)
      modifies this
      ensures ok <==> Parsed(text) != []
      ensures !ok ==> resultOrientations == old(resultOrientations) && accepted == old(accepted)
      ensures ok ==> accepted
      ensures ok && symmetric ==> resultOrientations == SymmetricSequence(Parsed(text), lastLayerCenter)
      ensures ok && !symmetric ==> resultOrientations == Parsed(text)
    {
      var base := ParseOrientations(text);
      if base == [] {
        return false;
      }
      if symmetric {
        resultOrientations := SymmetricSequence(base, lastLayerCenter);
      } else {
        resultOrientations := base;
      }
      accepted := true;
      return true;
    }
  }
}

=== FILE: project_manager.dfy ===
// gridlamedit/core/project_manager.py: the JSON form of a GridModel
// (_serialize_model / _deserialize_model) and the ProjectManager that holds
// the captured snapshot, the dirty flag and the project path.
//
// A JSON object is modelled by a record with one field per key the loader
// reads. A key the loader reads with `.get(key, default)` and whose absence
// matters is an Option (None: the key is absent); a key whose absence and a
// null value are read alike is a Value (VNone), or a string where the loader
// only ever reads text ("" for an absent key).
module Projects {
  import opened Wrappers
  import opened Text
  import opened PyValues
  import opened OrderedMaps
  import opened GridModels

  datatype JsonLayer = JsonLayer(
    idx: Option<int>,
    material: string,
    orientacao: Value,
    ativo: Option<Value>,
    simetria: Option<Value>,
    plyType: Value,
    naoEstrutural: Option<Value>,
    plyLabel: string,
    sequence: string,
    rosette: string)

  datatype JsonLaminate = JsonLaminate(
    nome: string,
    colorIndex: Value,
    colorHex: Value,
    /** The legacy `cor_hex` key, read only when `color_index` is absent. */
    corHex: Value,
    tipo: string,
    tag: string,
    celulas: seq<string>,
    camadas: seq<JsonLayer>,
    autoRenameEnabled: Option<Value>)

  datatype JsonGrid = JsonGrid(
    celulasOrdenadas: seq<string>,
    cellToLaminate: OMap<string, string>,
    laminados: seq<JsonLaminate>,
    sourceExcelPath: Option<string>)

  /** The (color_index, color_hex) pair written for a colour. */
  datatype WrittenColor = WrittenColor(index: int, hex: Option<string>)

  /** A value read from the file, with the compatibility warnings reading it recorded. */
  datatype Read<T> = Read(value: T, warnings: seq<string>)

  /** The grid an empty JSON object stands for: every key at its default. */
  function EmptyGrid(): (g: JsonGrid)
    ensures g.laminados == [] && g.celulasOrdenadas == [] && g.sourceExcelPath.None?
  {
    JsonGrid([], Empty(), [], None)
  }

  // ---------------------------------------------------------------- shared conversions

  /** int(x) of a float: the integer part, rounding toward zero. */
  function Truncate(x: real): (r: int)
    ensures 0.0 <= x ==> r as real <= x < r as real + 1.0
    ensures x < 0.0 ==> r as real - 1.0 < x <= r as real
  {
    if 0.0 <= x then x.Floor else -((-x).Floor)
  }

  /** int(float(v)), or None where Python raises TypeError or ValueError. */
  function IntOfFloat(v: Value): (r: Option<int>)
    ensures v.VInt? ==> r == Some(v.i)
    ensures v.VNone? ==> r.None?
  {
    match v
    case VNone => None
    case VBool(b) => Some(if b then 1 else 0)
    case VInt(i) => Some(i)
    case VFloat(f) => if f.NaN? then None else Some(Truncate(f.r))
    case VText(s) =>
      match ParseDecimal(Trim(s))
      case None => None
      case Some(x) => Some(Truncate(x))
  }

  /** bool(d.get(key, default)) */
  predicate TruthyOr(v: Option<Value>, default: bool)
  {
    match v
    case None => default
    case Some(x) => Truthy(x)
  }

  /** f"{prefix}{index + 1}" */
  function NumberedLabel(prefix: string, index: nat): (r: string)
    ensures |r| > |prefix| && r[..|prefix|] == prefix
  {
    prefix + NatToString(index + 1)
  }

  /** str(v) as an f-string writes it, for the values a JSON file can hold. */
  function ValueText(v: Value): string
  {
    match v
    case VNone => "None"
    case VBool(b) => if b then "True" else "False"
    case VInt(i) => IntToString(i)
    case VFloat(f) =>
      if f.NaN? then "nan"
      else if IsWhole(f.r) then IntToString(f.r.Floor) + ".0"
      else "float"
    case VText(s) => s
  }

  // ---------------------------------------------------------------- colours

  /** The (color_index, color_hex) pair _serialize_model writes for a laminate colour. */
  function SerializedColor(c: Color): WrittenColor
  {
    match c
    case ColorText(s) =>
      (match NormalizeHexColor(VText(s))
       case Some(h) => WrittenColor(DefaultColorIndex, Some(h))
       case None => WrittenColor(if IntOfFloat(VText(s)).Some? then IntOfFloat(VText(s)).value else DefaultColorIndex, None))
    case ColorIndex(i) => WrittenColor(if i == 0 then DefaultColorIndex else i, None)
  }

  function ShownName(name: string): string
  {
    if name == "" then "(sem nome)" else name
  }

  function LegacyHexWarning(name: string, legacy: Value): string
  {
    "Laminado '" + ShownName(name) + "' traz cor hexadecimal '" + ValueText(legacy)
      + "'; convertendo para indice " + IntToString(DefaultColorIndex) + "."
  }

  function InvalidIndexWarning(name: string, raw: Value, used: int): string
  {
    "Laminado '" + ShownName(name) + "' possui indice de cor invalido '" + ValueText(raw)
      + "'; usando " + IntToString(used) + "."
  }

  /** The colour _deserialize_model gives a laminate record, with the compatibility warnings it records. */
  function DeserializedColor(l: JsonLaminate): (r: Read<Color>)
    ensures r.value.ColorText? ==> IsHexColorText(r.value.s) && r.value.s[0] == '#' && r.warnings == []
    ensures r.value.ColorIndex? ==> InColorRange(r.value.i)
    ensures |r.warnings| <= 1
  {
    var hex := if Truthy(l.colorHex) then NormalizeHexColor(l.colorHex) else None;
    if hex.Some? then Read(ColorText(hex.value), [])
    else if l.colorIndex.VNone? then
      Read(ColorIndex(DefaultColorIndex), if Truthy(l.corHex) then [LegacyHexWarning(l.nome, l.corHex)] else [])
    else
      var used := NormalizeColorIndex(l.colorIndex, DefaultColorIndex);
      var parsed := IntOfFloat(l.colorIndex);
      Read(ColorIndex(used), if parsed != Some(used) then [InvalidIndexWarning(l.nome, l.colorIndex, used)] else [])
  }

  /** A valid color_hex wins over any color_index. */
  lemma HexWins(l: JsonLaminate)
    requires Truthy(l.colorHex) && NormalizeHexColor(l.colorHex).Some?
    ensures DeserializedColor(l) == Read(ColorText(NormalizeHexColor(l.colorHex).value), [])
  {
  }

  /**
   * Without a usable color_hex, color_index is normalised; a warning is
   * recorded exactly when int(float(raw)) fails or differs from the index used.
   */
  lemma IndexNormalised(l: JsonLaminate)
    requires !(Truthy(l.colorHex) && NormalizeHexColor(l.colorHex).Some?) && !l.colorIndex.VNone?
    ensures DeserializedColor(l).value == ColorIndex(NormalizeColorIndex(l.colorIndex, DefaultColorIndex))
    ensures DeserializedColor(l).warnings != [] <==> IntOfFloat(l.colorIndex) != Some(NormalizeColorIndex(l.colorIndex, DefaultColorIndex))
  {
  }

  /** Without color_hex and color_index the colour is the default; only a truthy legacy cor_hex is reported. */
  lemma MissingIndexDefaults(l: JsonLaminate)
    requires !(Truthy(l.colorHex) && NormalizeHexColor(l.colorHex).Some?) && l.colorIndex.VNone?
    ensures DeserializedColor(l).value == ColorIndex(DefaultColorIndex)
    ensures DeserializedColor(l).warnings != [] <==> Truthy(l.corHex)
  {
  }

  /** A colour as the editor keeps it: an index in range or a normalised "#RRGGBB". */
  predicate NormalisedColor(c: Color)
  {
    match c
    case ColorIndex(i) => InColorRange(i)
    case ColorText(s) => NormalizeHexColor(VText(s)) == Some(s)
  }

  /** The color_hex key as written: present only for a hex colour. */
  function HexField(w: WrittenColor): Value
  {
    if w.hex.Some? then VText(w.hex.value) else VNone
  }

  /** The record _serialize_model writes carries the colour; reading it back gives the same colour and no warning. */
  lemma ColorRoundTrip(c: Color, l: JsonLaminate)
    requires NormalisedColor(c)
    requires l.colorIndex == VInt(SerializedColor(c).index) && l.colorHex == HexField(SerializedColor(c))
    ensures DeserializedColor(l) == Read(c, [])
  {
    if c.ColorIndex? {
      ColorIndexRoundTrip(c.i, DefaultColorIndex);
    }
  }

  /** Any colour survives serialisation as a colour the loader accepts without a range warning. */
  lemma SerializedColorReadable(c: Color, l: JsonLaminate)
    requires l.colorIndex == VInt(SerializedColor(c).index) && l.colorHex == HexField(SerializedColor(c))
    ensures var w := SerializedColor(c);
      w.hex.Some? ==> DeserializedColor(l) == Read(ColorText(w.hex.value), [])
    ensures var w := SerializedColor(c);
      w.hex.None? && InColorRange(w.index) ==> DeserializedColor(l) == Read(ColorIndex(w.index), [])
  {
    var index, hex := SerializedColor(c).index, SerializedColor(c).hex;
    if hex.Some? {
      HexNormalised(c.s);
    } else if InColorRange(index) {
      ColorIndexRoundTrip(index, DefaultColorIndex);
    }
  }

  /** What normalize_hex_color returns normalises to itself. */
  lemma HexNormalised(s: string)
    requires NormalizeHexColor(VText(s)).Some?
    ensures var h := NormalizeHexColor(VText(s)).value; NormalizeHexColor(VText(h)) == Some(h)
  {
    var candidate := Trim(RemoveChar(Trim(s), '#'));
    assert NormalizeHexColor(VText(s)) == HexOfText(s) == HexOfCandidate(candidate);
    assert |candidate| == 6 && AllHex(candidate);
    UpperOfHexCandidate(candidate);
    assert NormalizeHexColor(VText("#" + Upper(candidate))) == HexOfText("#" + Upper(candidate));
  }

  // ---------------------------------------------------------------- layers

  /** The ply type of a layer record: a known option is kept, otherwise the legacy nao_estrutural flag decides. */
  function DeserializedPlyType(l: JsonLayer): (r: string)
    ensures r == Structural || r == NonStructural
    ensures l.plyType == VText(Structural) || l.plyType == VText(NonStructural) ==> VText(r) == l.plyType
    ensures !(l.plyType == VText(Structural) || l.plyType == VText(NonStructural)) ==>
      (r == NonStructural <==> TruthyOr(l.naoEstrutural, false))
  {
    if l.plyType == VText(Structural) || l.plyType == VText(NonStructural) then l.plyType.s
    else if TruthyOr(l.naoEstrutural, false) then NonStructural
    else DefaultPlyType
  }

  /** str(v or "").strip(), falling back to the default when that is empty. */
  function TextOr(s: string, default: string): (r: string)
    ensures Trim(s) != [] ==> r == Trim(s)
    ensures Trim(s) == [] ==> r == default
  {
    var t := Trim(s);
    if t == [] then default else t
  }

  /** The Camada _deserialize_model builds from the layer record at position `index`. */
  function DeserializedLayer(l: JsonLayer, index: nat): (c: Camada)
    ensures c.orientacao.Some? ==> InOrientationRange(c.orientacao.value)
    ensures c.plyType == Structural || c.plyType == NonStructural
    ensures c.sequence != [] && c.plyLabel != [] && c.rosette != []
    ensures c.symmetryBackup.None?
  {
    Camada(
      idx := if l.idx.Some? then l.idx.value else index,
      material := l.material,
      orientacao := NormalizeAngle(l.orientacao),
      ativo := TruthyOr(l.ativo, true),
      simetria := TruthyOr(l.simetria, false),
      plyType := DeserializedPlyType(l),
      plyLabel := TextOr(l.plyLabel, NumberedLabel("Ply.", index)),
      sequence := TextOr(l.sequence, NumberedLabel("Seq.", index)),
      rosette := TextOr(l.rosette, DefaultRosette),
      symmetryBackup := None)
  }

  /** Blank labels get the positional defaults, an orientation the normaliser rejects becomes None. */
  lemma LayerDefaults(l: JsonLayer, index: nat)
    ensures IsBlank(l.sequence) ==> DeserializedLayer(l, index).sequence == "Seq." + NatToString(index + 1)
    ensures IsBlank(l.plyLabel) ==> DeserializedLayer(l, index).plyLabel == "Ply." + NatToString(index + 1)
    ensures IsBlank(l.rosette) ==> DeserializedLayer(l, index).rosette == DefaultRosette
    ensures NormalizeAngle(l.orientacao).None? ==> DeserializedLayer(l, index).orientacao.None?
    ensures l.idx.None? ==> DeserializedLayer(l, index).idx == index
  {
  }

  /** The layers read from the records, each numbered by its position. */
  function DeserializedLayers(ls: seq<JsonLayer>): (r: seq<Camada>)
    ensures |r| == |ls|
  {
    if ls == [] then [] else DeserializedLayers(ls[..|ls| - 1]) + [DeserializedLayer(ls[|ls| - 1], |ls| - 1)]
  }

  lemma LayersSnoc(ls: seq<JsonLayer>, front: seq<Camada>, last: Camada)
    requires ls != [] && DeserializedLayers(ls[..|ls| - 1]) == front
    requires DeserializedLayer(ls[|ls| - 1], |ls| - 1) == last
    ensures DeserializedLayers(ls) == front + [last]
  {
  }

  /** The layer record _serialize_model writes. */
  function SerializedLayer(c: Camada): JsonLayer
  {
    JsonLayer(
      idx := Some(c.idx),
      material := c.material,
      orientacao := if c.orientacao.Some? then VInt(c.orientacao.value) else VNone,
      ativo := Some(VBool(c.ativo)),
      simetria := Some(VBool(c.simetria)),
      plyType := VText(c.plyType),
      naoEstrutural := None,
      plyLabel := c.plyLabel,
      sequence := c.sequence,
      rosette := c.rosette)
  }

  function SerializedLayers(cs: seq<Camada>): (r: seq<JsonLayer>)
    ensures |r| == |cs|
    ensures forall i :: 0 <= i < |cs| ==> r[i] == SerializedLayer(cs[i])
  {
    if cs == [] then [] else SerializedLayers(cs[..|cs| - 1]) + [SerializedLayer(cs[|cs| - 1])]
  }

  predicate Settled(s: string)
  {
    s != [] && IsTrimmed(s)
  }

  /** A layer in the form the editor keeps: a known ply type, stripped non-empty labels, an orientation in range. */
  predicate NormalisedLayer(c: Camada)
  {
    (c.plyType == Structural || c.plyType == NonStructural)
    && Settled(c.plyLabel) && Settled(c.sequence) && Settled(c.rosette)
    && (c.orientacao.Some? ==> InOrientationRange(c.orientacao.value))
    && c.symmetryBackup.None?
  }

  /** A normalised layer is read back field for field, wherever it sits. */
  lemma LayerRoundTrip(c: Camada, index: nat)
    requires NormalisedLayer(c)
    ensures DeserializedLayer(SerializedLayer(c), index) == c
  {
    TrimOfTrimmed(c.plyLabel);
    TrimOfTrimmed(c.sequence);
    TrimOfTrimmed(c.rosette);
  }

  lemma {:induction false} LayersRoundTrip(cs: seq<Camada>)
    requires forall i :: 0 <= i < |cs| ==> NormalisedLayer(cs[i])
    ensures DeserializedLayers(SerializedLayers(cs)) == cs
  {
    if cs != [] {
      var n := |cs| - 1;
      var ls := SerializedLayers(cs);
      LayersRoundTrip(cs[..n]);
      assert ls[..n] == SerializedLayers(cs[..n]);
      LayerRoundTrip(cs[n], n);
      LayersSnoc(ls, cs[..n], cs[n]);
      assert cs[..n] + [cs[n]] == cs;
    }
  }

  // ---------------------------------------------------------------- laminates

  /** The Laminado built from a laminate record, with the warnings its colour gave. */
  function DeserializedLaminate(l: JsonLaminate): (r: Read<Laminado>)
    ensures r.value.nome == l.nome && r.value.celulas == l.celulas && |r.value.camadas| == |l.camadas|
  {
    var color := DeserializedColor(l);
    Read(Laminado(
      nome := l.nome,
      tipo := l.tipo,
      color := color.value,
      tag := l.tag,
      celulas := l.celulas,
      camadas := DeserializedLayers(l.camadas),
      autoRenameEnabled := TruthyOr(l.autoRenameEnabled, true)),
      color.warnings)
  }

  function SerializedLaminate(l: Laminado): JsonLaminate
  {
    var written := SerializedColor(l.color);
    JsonLaminate(
      nome := l.nome,
      colorIndex := VInt(written.index),
      colorHex := HexField(written),
      corHex := VNone,
      tipo := l.tipo,
      tag := l.tag,
      celulas := l.celulas,
      camadas := SerializedLayers(l.camadas),
      autoRenameEnabled := Some(VBool(l.autoRenameEnabled)))
  }

  predicate NormalisedLaminate(l: Laminado)
  {
    NormalisedColor(l.color) && forall i :: 0 <= i < |l.camadas| ==> NormalisedLayer(l.camadas[i])
  }

  lemma LaminateRoundTrip(l: Laminado)
    requires NormalisedLaminate(l)
    ensures DeserializedLaminate(SerializedLaminate(l)) == Read(l, [])
  {
    ColorRoundTrip(l.color, SerializedLaminate(l));
    LayersRoundTrip(l.camadas);
  }

  // ---------------------------------------------------------------- grids

  /** The laminates read from the records, in file order. */
  function ReadLaminates(ls: seq<JsonLaminate>): (r: seq<Read<Laminado>>)
    ensures |r| == |ls|
  {
    if ls == [] then [] else ReadLaminates(ls[..|ls| - 1]) + [DeserializedLaminate(ls[|ls| - 1])]
  }

  /**
   * `laminates[laminate.nome] = laminate` over the laminates read, with
   * their warnings in order: a later laminate with the same name replaces
   * the earlier one in its place.
   */
  function ByName(rs: seq<Read<Laminado>>): (r: Read<OMap<string, Laminado>>)
    ensures r.value.Valid()
    ensures forall k :: k in r.value.items ==> r.value.items[k].nome == k
  {
    if rs == [] then Read(Empty(), [])
    else
      var front := ByName(rs[..|rs| - 1]);
      var last := rs[|rs| - 1];
      Read(front.value.Put(last.value.nome, last.value), front.warnings + last.warnings)
  }

  function DeserializedLaminados(ls: seq<JsonLaminate>): (r: Read<OMap<string, Laminado>>)
    ensures r.value.Valid()
  {
    ByName(ReadLaminates(ls))
  }

  /** _deserialize_model, on the fields a GridModel keeps. */
  function DeserializedGrid(data: JsonGrid): (s: GridState)
    ensures s.laminados.Valid() && s.cellToLaminate == data.cellToLaminate
    ensures s.celulasOrdenadas == data.celulasOrdenadas && s.sourceExcelPath == data.sourceExcelPath
    ensures !s.dirty
  {
    var read := DeserializedLaminados(data.laminados);
    GridState(read.value, data.celulasOrdenadas, data.cellToLaminate, read.warnings, data.sourceExcelPath, false)
  }

  /** The laminate records for the keys ks, in that order. */
  function Records(items: map<string, Laminado>, ks: seq<string>): (r: seq<JsonLaminate>)
    requires forall i :: 0 <= i < |ks| ==> ks[i] in items
    ensures |r| == |ks|
    ensures forall i :: 0 <= i < |ks| ==> r[i] == SerializedLaminate(items[ks[i]])
  {
    if ks == [] then [] else Records(items, ks[..|ks| - 1]) + [SerializedLaminate(items[ks[|ks| - 1]])]
  }

  /** _serialize_model: the laminates in map order. */
  function SerializedGrid(s: GridState): (g: JsonGrid)
    requires s.laminados.Valid()
    ensures |g.laminados| == |s.laminados.keys|
    ensures g.cellToLaminate == s.cellToLaminate && g.sourceExcelPath == s.sourceExcelPath
  {
    JsonGrid(s.celulasOrdenadas, s.cellToLaminate, Records(s.laminados.items, s.laminados.keys), s.sourceExcelPath)
  }

  /** A model whose laminates are keyed by their names and kept in normalised form. */
  ghost predicate NormalisedState(s: GridState)
  {
    s.laminados.Valid() && s.cellToLaminate.Valid()
    && forall k :: k in s.laminados.items ==>
      s.laminados.items[k].nome == k && NormalisedLaminate(s.laminados.items[k])
  }

  /** The part of the map on the keys ks. */
  function Restrict(items: map<string, Laminado>, ks: seq<string>): (r: map<string, Laminado>)
    requires forall i :: 0 <= i < |ks| ==> ks[i] in items
  {
    map k | k in ks :: items[k]
  }

  /** What reading back the records of the keys ks should give: each laminate, without warnings. */
  function Clean(items: map<string, Laminado>, ks: seq<string>): (r: seq<Read<Laminado>>)
    requires forall i :: 0 <= i < |ks| ==> ks[i] in items
    ensures |r| == |ks|
  {
    if ks == [] then [] else Clean(items, ks[..|ks| - 1]) + [Read(items[ks[|ks| - 1]], [])]
  }

  lemma {:induction false} ReadRecords(items: map<string, Laminado>, ks: seq<string>)
    requires forall i :: 0 <= i < |ks| ==> ks[i] in items
    requires forall k :: k in items ==> NormalisedLaminate(items[k])
    ensures ReadLaminates(Records(items, ks)) == Clean(items, ks)
  {
    if ks != [] {
      var n := |ks| - 1;
      var records := Records(items, ks);
      ReadRecords(items, ks[..n]);
      assert records[..n] == Records(items, ks[..n]);
      LaminateRoundTrip(items[ks[n]]);
    }
  }

  /** Keying the laminates of distinct keys by their names rebuilds the map on those keys, in their order. */
  lemma {:induction false} ByNameClean(items: map<string, Laminado>, ks: seq<string>)
    requires Seqs.NoDup(ks) && forall i :: 0 <= i < |ks| ==> ks[i] in items
    requires forall k :: k in items ==> items[k].nome == k
    ensures ByName(Clean(items, ks)) == Read(OMap(ks, Restrict(items, ks)), [])
  {
    if ks != [] {
      var n := |ks| - 1;
      var k := ks[n];
      var front := ks[..n];
      ByNameClean(items, front);
      ByNameSnoc(Clean(items, front), Read(items[k], []));
      assert Clean(items, ks) == Clean(items, front) + [Read(items[k], [])];
      RestrictSnoc(items, ks);
    }
  }

  lemma ByNameSnoc(rs: seq<Read<Laminado>>, last: Read<Laminado>)
    ensures ByName(rs + [last]) ==
      Read(ByName(rs).value.Put(last.value.nome, last.value), ByName(rs).warnings + last.warnings)
  {
    assert (rs + [last])[..|rs|] == rs;
  }

  lemma RestrictSnoc(items: map<string, Laminado>, ks: seq<string>)
    requires ks != [] && Seqs.NoDup(ks) && forall i :: 0 <= i < |ks| ==> ks[i] in items
    ensures var n := |ks| - 1;
      OMap(ks[..n], Restrict(items, ks[..n])).Put(ks[n], items[ks[n]]) == OMap(ks, Restrict(items, ks))
  {
    var n := |ks| - 1;
    assert ks[n] !in ks[..n];
    assert ks[..n] + [ks[n]] == ks;
    assert Restrict(items, ks) == Restrict(items, ks[..n])[ks[n] := items[ks[n]]];
  }

  /**
   * Saving a normalised model and loading it back restores its cells, its
   * cell-to-laminate map and its laminates (keys, order and fields), with
   * no compatibility warning; the loaded model starts clean.
   */
  lemma GridRoundTrip(s: GridState)
    requires NormalisedState(s)
    ensures DeserializedGrid(SerializedGrid(s)) == s.(compatWarnings := [], dirty := false)
  {
    var m := s.laminados;
    ReadRecords(m.items, m.keys);
    ByNameClean(m.items, m.keys);
    assert Restrict(m.items, m.keys) == m.items;
  }

  // ---------------------------------------------------------------- the loops

  /** _serialize_model */
  method SerializeModel(model: GridModel) returns (data: JsonGrid)
    requires model.Valid()
    ensures data == SerializedGrid(model.State())
  {
    var keys := model.laminados.keys;
    var written: seq<JsonLaminate> := [];
    var i := 0;
    while i < |keys|
      invariant 0 <= i <= |keys|
      invariant |written| == i
      invariant written == Records(model.laminados.items, keys[..i])
    {
      assert keys[..i + 1][..i] == keys[..i];
      var record := SerializeLaminate(model.laminados.items[keys[i]]);
      written := written + [record];
      i := i + 1;
    }
    assert keys[..i] == keys;
    data := JsonGrid(model.celulasOrdenadas, model.cellToLaminate, written, model.sourceExcelPath);
  }

  /** The body of the laminate loop of _serialize_model, with its list comprehension over the layers. */
  method SerializeLaminate(l: Laminado) returns (record: JsonLaminate)
    ensures record == SerializedLaminate(l)
  {
    var layers: seq<JsonLayer> := [];
    var i := 0;
    while i < |l.camadas|
      invariant 0 <= i <= |l.camadas|
      invariant layers == SerializedLayers(l.camadas[..i])
    {
      assert l.camadas[..i + 1][..i] == l.camadas[..i];
      layers := layers + [SerializedLayer(l.camadas[i])];
      i := i + 1;
    }
    assert l.camadas[..i] == l.camadas;
    var written := SerializedColor(l.color);
    record := JsonLaminate(l.nome, VInt(written.index), HexField(written), VNone,
      l.tipo, l.tag, l.celulas, layers, Some(VBool(l.autoRenameEnabled)));
  }

  /** The layer loop of _deserialize_model: one Camada per record, numbered by position. */
  method DeserializeLayers(ls: seq<JsonLayer>) returns (layers: seq<Camada>)
    ensures layers == DeserializedLayers(ls)
  {
    layers := [];
    var index := 0;
    while index < |ls|
      invariant 0 <= index <= |ls|
      invariant layers == DeserializedLayers(ls[..index])
    {
      assert ls[..index + 1][..index] == ls[..index];
      layers := layers + [DeserializedLayer(ls[index], index)];
      index := index + 1;
    }
    assert ls[..index] == ls;
  }

  /** The laminate loop of _deserialize_model. */
  method DeserializeLaminados(ls: seq<JsonLaminate>) returns (laminados: OMap<string, Laminado>, warnings: seq<string>)
    ensures Read(laminados, warnings) == DeserializedLaminados(ls)
  {
    laminados := Empty();
    warnings := [];
    var i := 0;
    while i < |ls|
      invariant 0 <= i <= |ls|
      invariant Read(laminados, warnings) == ByName(ReadLaminates(ls[..i]))
    {
      ghost var before := ReadLaminates(ls[..i]);
      var laminate := DeserializeLaminate(ls[i]);
      ReadLaminatesSnoc(ls, i, laminate);
      assert ReadLaminates(ls[..i + 1]) == before + [laminate];
      assert (before + [laminate])[..i] == before;
      laminados := laminados.Put(laminate.value.nome, laminate.value);
      warnings := warnings + laminate.warnings;
      i := i + 1;
    }
    assert ls[..i] == ls;
  }

  lemma ReadLaminatesSnoc(ls: seq<JsonLaminate>, i: nat, laminate: Read<Laminado>)
    requires i < |ls| && laminate == DeserializedLaminate(ls[i])
    ensures ReadLaminates(ls[..i + 1]) == ReadLaminates(ls[..i]) + [laminate]
  {
    assert ls[..i + 1][..i] == ls[..i];
  }

  /** One pass of the laminate loop of _deserialize_model. */
  method DeserializeLaminate(l: JsonLaminate) returns (r: Read<Laminado>)
    ensures r == DeserializedLaminate(l)
  {
    var color := DeserializedColor(l);
    var layers := DeserializeLayers(l.camadas);
    r := Read(Laminado(l.nome, l.tipo, color.value, l.tag, l.celulas, layers, TruthyOr(l.autoRenameEnabled, true)),
      color.warnings);
  }

  /** _deserialize_model: a new GridModel holding the records' data. */
  method DeserializeModel(data: JsonGrid) returns (model: GridModel)
    requires data.cellToLaminate.Valid()
    ensures fresh(model) && model.Valid()
    ensures model.State() == DeserializedGrid(data)
  {
    var laminados, warnings := DeserializeLaminados(data.laminados);
    model := new GridModel.FromState(
      GridState(laminados, data.celulasOrdenadas, data.cellToLaminate, warnings, data.sourceExcelPath, false));
  }

  // ---------------------------------------------------------------- the project file

  const ProjectVersion := "1.0"

  /**
   * The project snapshot: NoSnapshot is the empty dict a new manager starts
   * with; Captured holds the "grid" entry, None standing for an empty grid dict.
   */
  datatype Snapshot = NoSnapshot | Captured(grid: Option<JsonGrid>)

  /** The JSON object save writes (its ui_state entry aside). */
  datatype ProjectFile = ProjectFile(
    version: string,
    savedAtUtc: string,
    sourceExcelPath: Option<string>,
    grid: Option<JsonGrid>)

  /**
   * The JSON object load reads: the grid entry (None: absent or empty) and
   * the source_excel_path entry (outer None: the key is absent).
   */
  datatype LoadedProject = LoadedProject(
    version: Value,
    grid: Option<JsonGrid>,
    sourceExcelPath: Option<Option<string>>)

  /** A grid object as JSON can hold it: its cell map has one entry per key. */
  ghost predicate WellFormedGrid(g: Option<JsonGrid>)
  {
    g.Some? ==> g.value.cellToLaminate.Valid()
  }

  /** The file save writes for a captured snapshot at the time savedAt. */
  function SavedFile(grid: Option<JsonGrid>, savedAt: string): (f: ProjectFile)
    ensures f.version == ProjectVersion && f.savedAtUtc == savedAt && f.grid == grid
    ensures f.sourceExcelPath == (if grid.Some? then grid.value.sourceExcelPath else None)
  {
    ProjectFile(ProjectVersion, savedAt, if grid.Some? then grid.value.sourceExcelPath else None, grid)
  }

  /** What load reads back from a file save wrote: every key is present. */
  function Reread(f: ProjectFile): (d: LoadedProject)
    ensures d.grid == f.grid && d.sourceExcelPath == Some(f.sourceExcelPath)
  {
    LoadedProject(VText(f.version), f.grid, Some(f.sourceExcelPath))
  }

  /** The grid entry load puts in the snapshot: a present source_excel_path overrides the grid's. */
  function LoadedGrid(d: LoadedProject): (g: Option<JsonGrid>)
    ensures d.sourceExcelPath.None? ==> g == d.grid
    ensures d.sourceExcelPath.Some? ==> g.Some? && g.value.sourceExcelPath == d.sourceExcelPath.value
    ensures d.sourceExcelPath.Some? && d.grid.Some? ==>
      g == Some(d.grid.value.(sourceExcelPath := d.sourceExcelPath.value))
    ensures d.sourceExcelPath.Some? && d.grid.None? ==>
      g == Some(EmptyGrid().(sourceExcelPath := d.sourceExcelPath.value))
  {
    match d.sourceExcelPath
    case None => d.grid
    case Some(p) => Some((if d.grid.Some? then d.grid.value else EmptyGrid()).(sourceExcelPath := p))
  }

  /** The state build_model gives for a snapshot and dirty flag, None where it raises. */
  function BuiltState(snapshot: Snapshot, dirty: bool): (r: Option<GridState>)
    requires snapshot.Captured? ==> WellFormedGrid(snapshot.grid)
    ensures r.Some? <==> snapshot.Captured? && snapshot.grid.Some?
    ensures r.Some? ==> r.value.dirty == dirty && r.value.laminados.Valid()
    ensures r.Some? ==> r.value.cellToLaminate == snapshot.grid.value.cellToLaminate
  {
    if snapshot.Captured? && snapshot.grid.Some? then
      Some(DeserializedGrid(snapshot.grid.value).(dirty := dirty))
    else None
  }

  /** Building from a captured model gives that model back, warnings cleared and the manager's dirty flag. */
  lemma CaptureThenBuild(s: GridState, dirty: bool)
    requires NormalisedState(s)
    ensures WellFormedGrid(Some(SerializedGrid(s)))
    ensures BuiltState(Captured(Some(SerializedGrid(s))), dirty) == Some(s.(compatWarnings := [], dirty := dirty))
  {
    GridRoundTrip(s);
  }

  /**
   * Loading a saved file restores the snapshot's grid, except that an empty
   * grid comes back as a grid holding only a null source_excel_path, which
   * build_model then accepts.
   */
  lemma SaveThenLoad(grid: Option<JsonGrid>, savedAt: string)
    ensures grid.Some? ==> LoadedGrid(Reread(SavedFile(grid, savedAt))) == grid
    ensures grid.None? ==> LoadedGrid(Reread(SavedFile(grid, savedAt))) == Some(EmptyGrid())
    ensures WellFormedGrid(grid) ==>
      BuiltState(Captured(LoadedGrid(Reread(SavedFile(grid, savedAt)))), false).Some?
  {
  }

  class ProjectManager {
    var currentPath: Option<string>
    var snapshot: Snapshot
    var isDirty: bool
    /** Whether a dirty callback was given to the constructor. */
    const hasCallback: bool
    /** The values passed to the dirty callback, in order. */
    var notifications: seq<bool>

    ghost predicate Valid()
      reads this
    {
      snapshot.Captured? ==> WellFormedGrid(snapshot.grid)
    }

    constructor(hasCallback: bool)
      ensures Valid() && this.hasCallback == hasCallback
      ensures currentPath.None? && snapshot == NoSnapshot && !isDirty && notifications == []
    {
      this.hasCallback := hasCallback;
      currentPath := None;
      snapshot := NoSnapshot;
      isDirty := false;
      notifications := [];
    }

    /** capture_from_model */
    method CaptureFromModel(model: GridModel)
      requires model.Valid()
      modifies this`snapshot
      ensures Valid()
      ensures snapshot == Captured(Some(SerializedGrid(model.State())))
    {
      var grid := SerializeModel(model);
      snapshot := Captured(Some(grid));
    }

    /** build_model */
    method BuildModel() returns (r: Result<GridModel, string>)
      requires Valid()
      ensures r.Success? <==> BuiltState(snapshot, isDirty).Some?
      ensures r.Success? ==> fresh(r.value) && r.value.Valid()
      ensures r.Success? ==> r.value.State() == BuiltState(snapshot, isDirty).value
      ensures r.Failure? ==> r.error == "Project snapshot is empty."
    {
      if snapshot.NoSnapshot? || snapshot.grid.None? {
        return Failure("Project snapshot is empty.");
      }
      var model := DeserializeModel(snapshot.grid.value);
      model.MarkDirty(isDirty);
      return Success(model);
    }

    /** mark_dirty: the callback hears only of changes. */
    method MarkDirty(value: bool)
      modifies this`isDirty, this`notifications
      ensures isDirty == value
      ensures notifications == old(notifications)
        + (if old(isDirty) != value && hasCallback then [value] else [])
    {
      if isDirty == value {
        return;
      }
      isDirty := value;
      if hasCallback {
        notifications := notifications + [isDirty];
      }
    }

    /** save: the clock's reading is the parameter savedAt; writing the file is the returned value. */
    method Save(path: Option<string>, savedAt: string) returns (r: Result<ProjectFile, string>)
      modifies this`currentPath, this`isDirty, this`notifications
      ensures currentPath == (if path.Some? then path else old(currentPath))
      ensures r.Failure? <==> currentPath.None? || snapshot.NoSnapshot?
      ensures currentPath.None? ==> r == Failure("Nenhum arquivo de projeto informado para salvar.")
      ensures currentPath.Some? && snapshot.NoSnapshot? ==> r == Failure("Nenhum estado capturado para salvar.")
      ensures r.Failure? ==> isDirty == old(isDirty) && notifications == old(notifications)
      ensures r.Success? ==> r.value == SavedFile(snapshot.grid, savedAt) && !isDirty
      ensures r.Success? ==>
        notifications == old(notifications) + (if old(isDirty) && hasCallback then [false] else [])
    {
      if path.Some? {
        currentPath := path;
      }
      if currentPath.None? {
        return Failure("Nenhum arquivo de projeto informado para salvar.");
      }
      if snapshot.NoSnapshot? {
        return Failure("Nenhum estado capturado para salvar.");
      }
      var file := ProjectFile(ProjectVersion, savedAt,
        if snapshot.grid.Some? then snapshot.grid.value.sourceExcelPath else None, snapshot.grid);
      MarkDirty(false);
      return Success(file);
    }

    /** load: reading and parsing the file is the parameter data. */
    method Load(path: string, data: LoadedProject)
      requires WellFormedGrid(data.grid)
      modifies this`snapshot, this`currentPath, this`isDirty, this`notifications
      ensures Valid()
      ensures snapshot == Captured(LoadedGrid(data)) && currentPath == Some(path) && !isDirty
      ensures notifications == old(notifications) + (if old(isDirty) && hasCallback then [false] else [])
    {
      var grid := data.grid;
      if data.sourceExcelPath.Some? {
        var g := if grid.Some? then grid.value else EmptyGrid();
        grid := Some(g.(sourceExcelPath := data.sourceExcelPath.value));
      }
      snapshot := Captured(grid);
      currentPath := Some(path);
      MarkDirty(false);
    }
  }
}

=== FILE: project_query.dfy ===
// gridlamedit/services/project_query.py: read-only queries over every layer
// of every laminate of a project (the materials and orientations in use and
// the most used material).
module ProjectQueries {
  import opened Wrappers
  import opened Text
  import opened PyValues
  import opened OrderedMaps
  import opened GridModels
  import opened Sorting
  import Seqs

  /** What the `laminados` attribute of the object passed as the project is. */
  datatype Project =
    | NoProject
      /** The attribute is missing, None, or neither a dict nor iterable. */
    | NoLaminados
    | LaminateMap(laminados: OMap<string, Laminado>)
      /** Any other iterable of laminates. */
    | LaminateList(items: seq<Laminado>)

  /** _iter_laminates */
  function IterLaminates(p: Project): (r: seq<Laminado>)
    requires p.LaminateMap? ==> p.laminados.Valid()
  {
    match p
    case NoProject => []
    case NoLaminados => []
    case LaminateMap(m) => m.Values()
    case LaminateList(items) => items
  }

  // ---------------------------------------------------------------- collecting

  /** What f picks from each layer, in order, skipping the layers it gives None for. */
  function Collect<U>(cs: seq<Camada>, f: Camada -> Option<U>): (r: seq<U>)
  {
    if cs == [] then []
    else
      var n := |cs| - 1;
      Collect(cs[..n], f) + (if f(cs[n]).Some? then [f(cs[n]).value] else [])
  }

  /** Collect over the layers of every laminate, laminate by laminate. */
  function CollectAll<U>(ls: seq<Laminado>, f: Camada -> Option<U>): (r: seq<U>)
  {
    if ls == [] then [] else CollectAll(ls[..|ls| - 1], f) + Collect(ls[|ls| - 1].camadas, f)
  }

  /** Some layer of some laminate gives x. */
  ghost predicate SomeLayerGives<U>(ls: seq<Laminado>, f: Camada -> Option<U>, x: U)
  {
    exists i, j :: 0 <= i < |ls| && 0 <= j < |ls[i].camadas| && f(ls[i].camadas[j]) == Some(x)
  }

  lemma {:induction false} CollectMembers<U>(cs: seq<Camada>, f: Camada -> Option<U>, x: U)
    ensures x in Collect(cs, f) <==> exists j :: 0 <= j < |cs| && f(cs[j]) == Some(x)
  {
    if cs != [] {
      var n := |cs| - 1;
      CollectMembers(cs[..n], f, x);
      if exists j :: 0 <= j < |cs| && f(cs[j]) == Some(x) {
        var j :| 0 <= j < |cs| && f(cs[j]) == Some(x);
        if j < n {
          assert cs[..n][j] == cs[j];
        }
      }
    }
  }

  /** The collected values are exactly those some layer gives. */
  lemma {:induction false} CollectAllMembers<U>(ls: seq<Laminado>, f: Camada -> Option<U>, x: U)
    ensures x in CollectAll(ls, f) <==> SomeLayerGives(ls, f, x)
  {
    if ls != [] {
      var n := |ls| - 1;
      var front, last := ls[..n], ls[n].camadas;
      CollectAllMembers(front, f, x);
      CollectMembers(last, f, x);
      assert CollectAll(ls, f) == CollectAll(front, f) + Collect(last, f);
      if x in CollectAll(front, f) {
        var i, j :| 0 <= i < |front| && 0 <= j < |front[i].camadas| && f(front[i].camadas[j]) == Some(x);
        assert front[i] == ls[i];
        assert 0 <= i < |ls| && 0 <= j < |ls[i].camadas| && f(ls[i].camadas[j]) == Some(x);
      } else if x in Collect(last, f) {
        var j :| 0 <= j < |last| && f(last[j]) == Some(x);
        assert 0 <= n < |ls| && 0 <= j < |ls[n].camadas| && f(ls[n].camadas[j]) == Some(x);
      }
      if SomeLayerGives(ls, f, x) {
        var i, j :| 0 <= i < |ls| && 0 <= j < |ls[i].camadas| && f(ls[i].camadas[j]) == Some(x);
        if i < n {
          assert front[i] == ls[i];
          assert 0 <= i < |front| && 0 <= j < |front[i].camadas| && f(front[i].camadas[j]) == Some(x);
        } else {
          assert 0 <= j < |last| && f(last[j]) == Some(x);
        }
      }
    }
  }

  lemma CollectSnoc<U>(cs: seq<Camada>, f: Camada -> Option<U>, j: nat)
    requires j < |cs|
    ensures Collect(cs[..j + 1], f) == Collect(cs[..j], f) + (if f(cs[j]).Some? then [f(cs[j]).value] else [])
  {
    assert cs[..j + 1][..j] == cs[..j];
  }

  lemma CollectAllSnoc<U>(ls: seq<Laminado>, f: Camada -> Option<U>, i: nat)
    requires i < |ls|
    ensures CollectAll(ls[..i + 1], f) == CollectAll(ls[..i], f) + Collect(ls[i].camadas, f)
  {
    assert ls[..i + 1][..i] == ls[..i];
  }

  lemma DistinctSnoc<T(!new)>(s: seq<T>, x: T)
    ensures Seqs.Distinct(s + [x]) == if x in Seqs.Distinct(s) then Seqs.Distinct(s) else Seqs.Distinct(s) + [x]
  {
    assert (s + [x])[..|s|] == s;
  }

  /** The distinct values f gives for the layers of one laminate, added to those already found. */
  method AddDistinct<U(==,!new)>(found: seq<U>, cs: seq<Camada>, f: Camada -> Option<U>, ghost before: seq<U>)
    returns (r: seq<U>)
    requires found == Seqs.Distinct(before)
    ensures r == Seqs.Distinct(before + Collect(cs, f))
  {
    r := found;
    ghost var met := before;
    assert before + Collect(cs[..0], f) == before;
    var j := 0;
    while j < |cs|
      invariant j <= |cs|
      invariant met == before + Collect(cs[..j], f)
      invariant r == Seqs.Distinct(met)
    {
      CollectSnoc(cs, f, j);
      var v := f(cs[j]);
      if v.Some? {
        assert before + (Collect(cs[..j], f) + [v.value]) == met + [v.value];
        DistinctSnoc(met, v.value);
        if v.value !in r {
          r := r + [v.value];
        }
        met := met + [v.value];
      }
      j := j + 1;
    }
    assert cs[..j] == cs;
  }

  /** The distinct values f gives over the whole project, in first-seen order (a Python set). */
  method GatherDistinct<U(==,!new)>(ls: seq<Laminado>, f: Camada -> Option<U>) returns (found: seq<U>)
    ensures found == Seqs.Distinct(CollectAll(ls, f))
  {
    found := [];
    var i := 0;
    while i < |ls|
      invariant i <= |ls|
      invariant found == Seqs.Distinct(CollectAll(ls[..i], f))
    {
      CollectAllSnoc(ls, f, i);
      found := AddDistinct(found, ls[i].camadas, f, CollectAll(ls[..i], f));
      i := i + 1;
    }
    assert ls[..i] == ls;
  }

  // ---------------------------------------------------------------- materials

  /** The stripped material of a layer that has an orientation, unless it is blank. */
  function OrientedMaterial(c: Camada): (r: Option<string>)
    ensures r.Some? ==> r.value != ""
  {
    if c.orientacao.Some? && Trim(c.material) != "" then Some(Trim(c.material)) else None
  }

  function OrientedMaterials(ls: seq<Laminado>): seq<string>
  {
    CollectAll(ls, OrientedMaterial)
  }

  /** An oriented layer has the stripped material m, which is not blank. */
  ghost predicate UsesMaterial(ls: seq<Laminado>, m: string)
  {
    m != "" && exists i, j ::
      0 <= i < |ls| && 0 <= j < |ls[i].camadas|
      && ls[i].camadas[j].orientacao.Some? && Trim(ls[i].camadas[j].material) == m
  }

  lemma OrientedMaterialsMembers(ls: seq<Laminado>, m: string)
    ensures m in OrientedMaterials(ls) <==> UsesMaterial(ls, m)
  {
    CollectAllMembers(ls, OrientedMaterial, m);
  }

  /** project_distinct_materials, with entries equal up to case kept in the order first met. */
  function DistinctMaterials(ls: seq<Laminado>): (r: seq<string>)
  {
    SortFolded(Seqs.Distinct(OrientedMaterials(ls)))
  }

  /** Every material in use appears once, and the list is in case-folded order. */
  lemma DistinctMaterialsSpec(ls: seq<Laminado>)
    ensures var r := DistinctMaterials(ls);
      (forall m :: m in r <==> UsesMaterial(ls, m)) && Seqs.NoDup(r) && SortedBy(r, FoldedLe)
  {
    var d := Seqs.Distinct(OrientedMaterials(ls));
    var r := DistinctMaterials(ls);
    Seqs.NoDupPermutation(d, r);
    forall m ensures m in r <==> UsesMaterial(ls, m) {
      OrientedMaterialsMembers(ls, m);
      assert m in r <==> m in multiset(r);
      assert m in d <==> m in multiset(d);
    }
  }

  method ProjectDistinctMaterials(p: Project) returns (r: seq<string>)
    requires p.LaminateMap? ==> p.laminados.Valid()
    ensures r == DistinctMaterials(IterLaminates(p))
  {
    var found := GatherDistinct(IterLaminates(p), OrientedMaterial);
    r := SortFolded(found);
  }

  // ---------------------------------------------------------------- orientations

  /** normalize_angle of the layer's orientation, where it does not raise. */
  function NormalizedOrientation(c: Camada): (r: Option<int>)
    ensures r.Some? ==> c.orientacao == r && InOrientationRange(r.value)
  {
    NormalizeAngle(if c.orientacao.Some? then VInt(c.orientacao.value) else VNone)
  }

  function AllOrientations(ls: seq<Laminado>): seq<int>
  {
    CollectAll(ls, NormalizedOrientation)
  }

  /** Some layer holds the orientation a, and normalize_angle accepts it. */
  ghost predicate UsesOrientation(ls: seq<Laminado>, a: int)
  {
    InOrientationRange(a) && exists i, j ::
      0 <= i < |ls| && 0 <= j < |ls[i].camadas| && ls[i].camadas[j].orientacao == Some(a)
  }

  lemma AllOrientationsMembers(ls: seq<Laminado>, a: int)
    ensures a in AllOrientations(ls) <==> UsesOrientation(ls, a)
  {
    CollectAllMembers(ls, NormalizedOrientation, a);
    if UsesOrientation(ls, a) {
      var i, j :| 0 <= i < |ls| && 0 <= j < |ls[i].camadas| && ls[i].camadas[j].orientacao == Some(a);
      assert NormalizedOrientation(ls[i].camadas[j]) == Some(a);
    }
  }

  /** project_distinct_orientations */
  function DistinctOrientations(ls: seq<Laminado>): (r: seq<int>)
  {
    SortInts(Seqs.Distinct(AllOrientations(ls)))
  }

  /** The orientations in use, each once, in increasing order. */
  lemma DistinctOrientationsSpec(ls: seq<Laminado>)
    ensures var r := DistinctOrientations(ls);
      (forall a :: a in r <==> UsesOrientation(ls, a))
      && (forall i, j :: 0 <= i < j < |r| ==> r[i] < r[j])
  {
    var d := Seqs.Distinct(AllOrientations(ls));
    var r := DistinctOrientations(ls);
    Seqs.NoDupPermutation(d, r);
    forall a ensures a in r <==> UsesOrientation(ls, a) {
      AllOrientationsMembers(ls, a);
      assert a in r <==> a in multiset(r);
      assert a in d <==> a in multiset(d);
    }
    forall i, j | 0 <= i < j < |r| ensures r[i] < r[j] {
      assert IntLe(r[i], r[j]);
    }
  }

  method ProjectDistinctOrientations(p: Project) returns (r: seq<int>)
    requires p.LaminateMap? ==> p.laminados.Valid()
    ensures r == DistinctOrientations(IterLaminates(p))
  {
    var found := GatherDistinct(IterLaminates(p), NormalizedOrientation);
    r := SortInts(found);
  }

  // ---------------------------------------------------------------- most used

  /**
   * Counter.most_common(1) over the keys ks in insertion order: a key
   * replaces the best so far only with a strictly larger count.
   */
  function Best<T>(ks: seq<T>, counts: multiset<T>): (r: Option<T>)
    ensures r.None? <==> ks == []
    ensures r.Some? ==> r.value in ks
  {
    if ks == [] then None
    else
      var n := |ks| - 1;
      var b := Best(ks[..n], counts);
      if b.None? || counts[ks[n]] > counts[b.value] then Some(ks[n]) else b
  }

  /** The best key has the largest count. */
  lemma {:induction false} BestIsMaximum<T>(ks: seq<T>, counts: multiset<T>, k: T)
    requires k in ks
    ensures counts[k] <= counts[Best(ks, counts).value]
  {
    var n := |ks| - 1;
    if k != ks[n] {
      assert k in ks[..n];
      BestIsMaximum(ks[..n], counts, k);
    }
  }

  /** Every key before the best one has a strictly smaller count. */
  lemma {:induction false} BestIsFirst<T>(ks: seq<T>, counts: multiset<T>, i: nat)
    requires ks != [] && i < Seqs.FirstIndex(ks, Best(ks, counts).value)
    ensures counts[ks[i]] < counts[Best(ks, counts).value]
  {
    var n := |ks| - 1;
    var b := Best(ks, counts).value;
    if n > 0 {
      var front := ks[..n];
      assert ks[i] == front[i];
      var fb := Best(front, counts).value;
      if counts[ks[n]] > counts[fb] {
        BestIsMaximum(front, counts, front[i]);
      } else {
        Seqs.FirstIndexIs(ks, b, Seqs.FirstIndex(front, b));
        BestIsFirst(front, counts, i);
      }
    }
  }

  /** project_most_used_material */
  function MostUsed(ls: seq<Laminado>): (r: Option<string>)
  {
    var occ := OrientedMaterials(ls);
    Best(Seqs.Distinct(occ), multiset(occ))
  }

  /** No element of a non-empty list is met more often than its most common one. */
  lemma BestOfDistinctIsMax<T(!new)>(occ: seq<T>, m: T)
    requires occ != []
    ensures multiset(occ)[m] <= multiset(occ)[Best(Seqs.Distinct(occ), multiset(occ)).value]
  {
    var ks := Seqs.Distinct(occ);
    assert occ[0] in ks;
    if m in occ {
      BestIsMaximum(ks, multiset(occ), m);
    }
  }

  /** Every element met before the first occurrence of the most common one is met less often. */
  lemma BestOfDistinctIsFirst<T(!new)>(occ: seq<T>, i: nat)
    requires occ != []
    requires i < Seqs.FirstIndex(occ, Best(Seqs.Distinct(occ), multiset(occ)).value)
    ensures multiset(occ)[occ[i]] < multiset(occ)[Best(Seqs.Distinct(occ), multiset(occ)).value]
  {
    var ks := Seqs.Distinct(occ);
    assert occ[0] in ks;
    var b := Best(ks, multiset(occ)).value;
    FirstOccurrence(occ, b, i);
    var j := Seqs.FirstIndex(ks, occ[i]);
    BestIsFirst(ks, multiset(occ), j);
  }

  /**
   * None exactly when no oriented layer has a material; otherwise a material
   * used at least as often as any other, and the first met among those.
   */
  lemma MostUsedSpec(ls: seq<Laminado>)
    ensures MostUsed(ls).None? <==> forall m :: !UsesMaterial(ls, m)
    ensures MostUsed(ls).Some? ==> UsesMaterial(ls, MostUsed(ls).value)
    ensures MostUsed(ls).Some? ==>
      var occ := OrientedMaterials(ls);
      var b := MostUsed(ls).value;
      b in occ
      && (forall m :: multiset(occ)[m] <= multiset(occ)[b])
      && forall i :: 0 <= i < Seqs.FirstIndex(occ, b) ==> multiset(occ)[occ[i]] < multiset(occ)[b]
  {
    var occ := OrientedMaterials(ls);
    if occ == [] {
      forall m ensures !UsesMaterial(ls, m) {
        OrientedMaterialsMembers(ls, m);
      }
    } else {
      assert occ[0] in Seqs.Distinct(occ);
      OrientedMaterialsMembers(ls, MostUsed(ls).value);
      forall m ensures multiset(occ)[m] <= multiset(occ)[MostUsed(ls).value] {
        BestOfDistinctIsMax(occ, m);
      }
      forall i | 0 <= i < Seqs.FirstIndex(occ, MostUsed(ls).value)
        ensures multiset(occ)[occ[i]] < multiset(occ)[MostUsed(ls).value]
      {
        BestOfDistinctIsFirst(occ, i);
      }
    }
  }

  /**
   * An element met before the first occurrence of b was first met before b,
   * so it comes before b among the distinct elements.
   */
  lemma {:induction false} FirstOccurrence<T(!new)>(occ: seq<T>, b: T, i: nat)
    requires b in occ && i < Seqs.FirstIndex(occ, b)
    ensures Seqs.FirstIndex(Seqs.Distinct(occ), occ[i]) < Seqs.FirstIndex(Seqs.Distinct(occ), b)
  {
    var n := |occ| - 1;
    var front := occ[..n];
    var d := Seqs.Distinct(front);
    assert occ == front + [occ[n]];
    assert occ[i] == front[i] && occ[i] in d;
    var dOcc := Seqs.Distinct(occ);
    assert dOcc[..|d|] == d;
    Seqs.FirstIndexIs(dOcc, occ[i], Seqs.FirstIndex(d, occ[i]));
    if b in front {
      Seqs.FirstIndexIs(occ, b, Seqs.FirstIndex(front, b));
      FirstOccurrence(front, b, i);
      Seqs.FirstIndexIs(dOcc, b, Seqs.FirstIndex(d, b));
    } else {
      assert b !in d && dOcc == d + [b];
      Seqs.FirstIndexIs(dOcc, b, |d|);
    }
  }

  /** The Counter c holds, in first-seen key order, how often each material of met was met. */
  ghost predicate Tallies<T(!new)>(c: OMap<T, nat>, met: seq<T>)
  {
    c.Valid() && c.keys == Seqs.Distinct(met) && forall k :: k in c.items ==> c.items[k] == multiset(met)[k]
  }

  /** counts[t] += 1 on a Counter: a new key goes last with count 1. */
  function Bump<T(!new)>(c: OMap<T, nat>, t: T): (r: OMap<T, nat>)
  {
    if t in c.items then OMap(c.keys, c.items[t := c.items[t] + 1])
    else OMap(c.keys + [t], c.items[t := 1])
  }

  /** Bump is the dict assignment d[t] = d.get(t, 0) + 1. */
  lemma BumpIsPut<T(!new)>(c: OMap<T, nat>, t: T)
    requires c.Valid()
    ensures Bump(c, t) == c.Put(t, c.GetOr(t, 0) + 1) && Bump(c, t).Valid()
  {
  }

  /** The Counter c after counts[x] += 1 for each x of met in turn. */
  ghost function Count<T(!new)>(c: OMap<T, nat>, met: seq<T>): (r: OMap<T, nat>)
  {
    if met == [] then c else var n := |met| - 1; Bump(Count(c, met[..n]), met[n])
  }

  lemma CountSnoc<T(!new)>(c: OMap<T, nat>, met: seq<T>, t: T)
    ensures Count(c, met + [t]) == Bump(Count(c, met), t)
  {
    assert (met + [t])[..|met|] == met;
  }

  /** Counting a then b is counting a + b. */
  lemma {:induction false} CountAppend<T(!new)>(c: OMap<T, nat>, a: seq<T>, b: seq<T>)
    ensures Count(Count(c, a), b) == Count(c, a + b)
  {
    if b != [] {
      var n := |b| - 1;
      CountAppend(c, a, b[..n]);
      assert a + b == (a + b[..n]) + [b[n]];
      assert b == b[..n] + [b[n]];
      CountSnoc(c, a + b[..n], b[n]);
      CountSnoc(Count(c, a), b[..n], b[n]);
    } else {
      assert a + b == a;
    }
  }

  /** counts[text] += 1 keeps the Counter in step with the materials met. */
  lemma TallyStep<T(!new)>(c: OMap<T, nat>, met: seq<T>, t: T)
    requires Tallies(c, met)
    ensures Tallies(Bump(c, t), met + [t])
  {
    DistinctSnoc(met, t);
    BumpIsPut(c, t);
    assert multiset(met + [t]) == multiset(met) + multiset{t};
    var d := Bump(c, t);
    forall k | k in d.items ensures d.items[k] == multiset(met + [t])[k] {
      if k != t {
        assert k in c.items;
      } else if t !in c.items {
        assert t !in Seqs.Distinct(met);
      }
    }
  }

  /** The Counter holds every element met, in first-seen order, with its number of occurrences. */
  lemma {:induction false} TallyCounts<T(!new)>(met: seq<T>)
    ensures Tallies(Count(Empty(), met), met)
  {
    if met != [] {
      var n := |met| - 1;
      TallyCounts(met[..n]);
      TallyStep(Count(Empty(), met[..n]), met[..n], met[n]);
      assert met[..n] + [met[n]] == met;
    }
  }

  /**
   * Counter.most_common(1) over the first n keys of the Counter: a key
   * replaces the best so far only with a strictly larger count.
   */
  function MostCommon<T(!new)>(c: OMap<T, nat>, n: nat): (r: Option<T>)
    requires c.Valid() && n <= |c.keys|
    ensures r.Some? ==> r.value in c.keys[..n]
  {
    if n == 0 then None
    else
      var b := MostCommon(c, n - 1);
      var k := c.keys[n - 1];
      assert c.keys[..n] == c.keys[..n - 1] + [k];
      if b.None? || c.items[k] > c.items[b.value] then Some(k) else b
  }

  /** On a Counter of met, most_common(1) is the first key of largest count. */
  lemma {:induction false} MostCommonIsBest<T(!new)>(c: OMap<T, nat>, met: seq<T>, n: nat)
    requires Tallies(c, met) && n <= |c.keys|
    ensures MostCommon(c, n) == Best(c.keys[..n], multiset(met))
  {
    if n > 0 {
      MostCommonIsBest(c, met, n - 1);
      assert c.keys[..n][..n - 1] == c.keys[..n - 1];
      var b := MostCommon(c, n - 1);
      if b.Some? {
        assert b.value in c.keys[..n - 1];
      }
    }
  }

  method ProjectMostUsedMaterial(p: Project) returns (r: Option<string>)
    requires p.LaminateMap? ==> p.laminados.Valid()
    ensures r == MostUsed(IterLaminates(p))
  {
    var ls := IterLaminates(p);
    var counts: OMap<string, nat> := Empty();
    var i := 0;
    while i < |ls|
      invariant i <= |ls|
      invariant counts == Count(Empty(), OrientedMaterials(ls[..i]))
    {
      CollectAllSnoc(ls, OrientedMaterial, i);
      CountAppend(Empty(), OrientedMaterials(ls[..i]), Collect(ls[i].camadas, OrientedMaterial));
      TallyCounts(OrientedMaterials(ls[..i]));
      counts := CountLayers(counts, ls[i].camadas, OrientedMaterial);
      i := i + 1;
    }
    assert ls[..i] == ls;
    ghost var occ := OrientedMaterials(ls);
    TallyCounts(occ);
    MostCommonIsBest(counts, occ, |counts.keys|);
    assert counts.keys[..|counts.keys|] == counts.keys;
    r := MostCommon(counts, |counts.keys|);
  }

  /** counts[text] += 1 for the value f gives for each layer of one laminate. */
  method CountLayers<U(==,!new)>(counts: OMap<U, nat>, cs: seq<Camada>, f: Camada -> Option<U>)
    returns (r: OMap<U, nat>)
    requires counts.Valid()
    ensures r == Count(counts, Collect(cs, f))
  {
    r := counts;
    ghost var met: seq<U> := [];
    var j := 0;
    while j < |cs|
      invariant j <= |cs|
      invariant met == Collect(cs[..j], f)
      invariant r == Count(counts, met) && r.Valid()
    {
      CollectSnoc(cs, f, j);
      var v := f(cs[j]);
      if v.Some? {
        CountSnoc(counts, met, v.value);
        BumpIsPut(r, v.value);
        r := r.Put(v.value, r.GetOr(v.value, 0) + 1);
        met := met + [v.value];
      }
      j := j + 1;
    }
    assert cs[..j] == cs;
  }
}

=== FILE: py_values.dfy ===
// Untyped Python values as they reach the normalisers (cells read from a
// spreadsheet, JSON values, editor text), and the orientation normaliser
// every module shares (spreadsheet.normalize_angle).
module PyValues {
  import opened Wrappers
  import opened Text

  datatype PyFloat = NaN | Num(r: real)

  datatype Value = VNone | VBool(b: bool) | VInt(i: int) | VFloat(f: PyFloat) | VText(s: string)

  const OrientationMin: int := -100
  const OrientationMax: int := 100

  predicate InOrientationRange(a: int)
  {
    OrientationMin <= a <= OrientationMax
  }

  predicate IsWhole(r: real)
  {
    r == r.Floor as real
  }

  /** spreadsheet._is_blank: None, a blank str or NaN. */
  predicate IsBlankValue(v: Value)
  {
    match v
    case VNone => true
    case VText(s) => IsBlank(s)
    case VFloat(f) => f.NaN?
    case _ => false
  }

  function Pow10(n: nat): (p: nat)
    ensures p >= 1
  {
    if n == 0 then 1 else 10 * Pow10(n - 1)
  }

  function IndexOf(s: string, c: char): (r: Option<nat>)
    ensures r.Some? ==> r.value < |s| && s[r.value] == c
    ensures r.Some? ==> forall i :: 0 <= i < r.value ==> s[i] != c
    ensures r.None? ==> forall i :: 0 <= i < |s| ==> s[i] != c
  {
    if s == [] then None
    else if s[0] == c then Some(0)
    else match IndexOf(s[1..], c)
      case None => None
      case Some(k) => Some(k + 1)
  }

  /** Magnitude of "digits" or "digits.digits". */
  function UnsignedDecimal(s: string): Option<real>
  {
    match IndexOf(s, '.')
    case None =>
      if s != [] && AllDigits(s) then Some(ParseNat(s) as real) else None
    case Some(k) =>
      var whole, frac := s[..k], s[k + 1..];
      if whole != [] && frac != [] && AllDigits(whole) && AllDigits(frac)
      then Some(ParseNat(whole) as real + (ParseNat(frac) as real) / (Pow10(|frac|) as real))
      else None
  }

  /** float(text) for text of the shape [+-]?digits(.digits)? */
  function ParseDecimal(s: string): Option<real>
  {
    if s != [] && (s[0] == '+' || s[0] == '-') then
      match UnsignedDecimal(s[1..])
      case None => None
      case Some(m) => Some(if s[0] == '-' then -m else m)
    else UnsignedDecimal(s)
  }

  lemma ParseDecimalOfNat(n: nat)
    ensures ParseDecimal(NatToString(n)) == Some(n as real)
  {
    var t := NatToString(n);
    ParseNatToString(n);
    assert t[0] != '+' && t[0] != '-' by { assert IsDigit(t[0]); }
    assert IndexOf(t, '.') == None by {
      forall i | 0 <= i < |t| ensures t[i] != '.' { assert IsDigit(t[i]); }
    }
  }

  /** s.replace(pat, "") */
  function RemoveAll(s: string, pat: string): string
    requires pat != []
    decreases |s|
  {
    if s == [] then []
    else if StartsWith(s, pat) then RemoveAll(s[|pat|..], pat)
    else [s[0]] + RemoveAll(s[1..], pat)
  }

  /** s.replace(",", ".") */
  function CommaToDot(s: string): (r: string)
    ensures |r| == |s|
  {
    MapChars(c => if c == ',' then '.' else c, s)
  }

  function WholeInRange(r: real): Option<int>
  {
    if IsWhole(r) && InOrientationRange(r.Floor) then Some(r.Floor) else None
  }

  /**
   * spreadsheet.normalize_angle: the orientation in degrees, or None where
   * the Python function raises ValueError (missing, bool, NaN, unparsable
   * text, outside [-100, 100]).
   */
  function NormalizeAngle(v: Value): (r: Option<int>)
    ensures r.Some? ==> InOrientationRange(r.value)
  {
    match v
    case VNone => None
    case VBool(_) => None
    case VInt(i) => if InOrientationRange(i) then Some(i) else None
    case VFloat(f) => if f.NaN? then None else WholeInRange(f.r)
    case VText(s) =>
      var text := Trim(s);
      if text == [] then None
      else
        var noDegree := RemoveChar(RemoveChar(text, '°'), 'º');
        var cleaned := CommaToDot(Trim(RemoveAll(RemoveAll(noDegree, "deg"), "DEG")));
        match ParseDecimal(cleaned)
        case None => None
        case Some(x) => WholeInRange(x)
  }

  /** Every orientation in range is accepted as a number and as its decimal text. */
  lemma NormalizeAngleAccepts(a: int)
    requires InOrientationRange(a)
    ensures NormalizeAngle(VInt(a)) == Some(a)
    ensures NormalizeAngle(VFloat(Num(a as real))) == Some(a)
  {
  }

  lemma NormalizeAngleRejectsOutOfRange(a: int)
    requires !InOrientationRange(a)
    ensures NormalizeAngle(VInt(a)).None?
    ensures NormalizeAngle(VFloat(Num(a as real))).None?
  {
  }

  /** Python truthiness of the value (`bool(value)`). */
  predicate Truthy(v: Value)
  {
    match v
    case VNone => false
    case VBool(b) => b
    case VInt(i) => i != 0
    case VFloat(f) => f.NaN? || f.r != 0.0
    case VText(s) => s != []
  }
}

=== FILE: reassociation.dfy ===
// Reassociating laminates when a grid is reloaded with new cell ids
// (gridlamedit/services/laminate_reassociation.py): every old cell's
// contour tokens form a signature, and an old cell's laminate moves to the
// one new cell with the same signature.
module Reassociation {
  import opened Wrappers
  import opened Text
  import opened Seqs
  import opened OrderedMaps
  import opened GridModels

  const MaxContourSides: nat := 30

  // ---------------------------------------------------------------- signatures

  /** _normalize_contour_token: stripped, whitespace runs collapsed, case-folded. */
  function NormalizeContourToken(value: string): string
  {
    var text := Trim(value);
    if text == [] then "" else Lower(Collapse(text))
  }

  /** Normalising a token twice changes nothing more. */
  lemma NormalizeContourTokenIdempotent(value: string)
    ensures NormalizeContourToken(NormalizeContourToken(value)) == NormalizeContourToken(value)
  {
    var text := Trim(value);
    if text != [] {
      var n := Lower(Collapse(text));
      CollapseTrimmed(text);
      assert IsTrimmed(n);
      TrimOfTrimmed(n);
      LowerKeepsSpaces();
      CollapseMap(LowerChar, Collapse(text));
      CollapseIdempotent(text);
      LowerIdempotent(Collapse(text));
    }
  }

  /** A normalised token has no whitespace at its ends and no upper-case letter. */
  lemma NormalizedTokenShape(value: string)
    ensures IsTrimmed(NormalizeContourToken(value))
    ensures Lower(NormalizeContourToken(value)) == NormalizeContourToken(value)
  {
    var text := Trim(value);
    if text != [] {
      CollapseTrimmed(text);
      LowerIdempotent(Collapse(text));
    }
  }

  function NormalizedTokens(values: seq<string>): seq<string>
  {
    seq(|values|, i requires 0 <= i < |values| => NormalizeContourToken(values[i]))
  }

  /** The longest prefix that does not end with an empty token. */
  function DropTrailingEmpty(s: seq<string>): (r: seq<string>)
    ensures |r| <= |s| && r == s[..|r|]
    ensures r == [] || r[|r| - 1] != ""
    ensures forall k :: |r| <= k < |s| ==> s[k] == ""
  {
    if s != [] && s[|s| - 1] == "" then DropTrailingEmpty(s[..|s| - 1]) else s
  }

  /** normalized[:MAX_CONTOUR_SIDES] */
  function Truncated(s: seq<string>): (r: seq<string>)
  {
    if |s| > MaxContourSides then s[..MaxContourSides] else s
  }

  /** _contour_signature, as a value. */
  function Signature(values: seq<string>): seq<string>
  {
    DropTrailingEmpty(Truncated(NormalizedTokens(values)))
  }

  /** The truncated token list: the first (at most) thirty normalised tokens. */
  lemma TruncatedTokens(values: seq<string>)
    ensures var t := Truncated(NormalizedTokens(values));
      && |t| == (if |values| > MaxContourSides then MaxContourSides else |values|)
      && forall k :: 0 <= k < |t| ==> t[k] == NormalizeContourToken(values[k])
  {
  }

  /**
   * The signature is a prefix of at most 30 normalised tokens that does not
   * end with an empty token.
   */
  lemma SignatureShape(values: seq<string>)
    ensures var r := Signature(values);
      && |r| <= MaxContourSides && |r| <= |values|
      && (r == [] || r[|r| - 1] != "")
      && (forall k :: 0 <= k < |r| ==> r[k] == NormalizeContourToken(values[k]))
  {
    var t := Truncated(NormalizedTokens(values));
    TruncatedTokens(values);
    var r := DropTrailingEmpty(t);
    assert Signature(values) == r;
    assert |r| <= |t| && r == t[..|r|];
    forall k | 0 <= k < |r| ensures r[k] == NormalizeContourToken(values[k]) {
      assert r[k] == t[k];
    }
  }

  /** It is the longest such prefix: every token it drops within the first 30 is empty. */
  lemma SignatureDropsOnlyEmpty(values: seq<string>, k: nat)
    requires |Signature(values)| <= k < |values| && k < MaxContourSides
    ensures NormalizeContourToken(values[k]) == ""
  {
    var t := Truncated(NormalizedTokens(values));
    TruncatedTokens(values);
    assert t[k] == "";
  }

  /** _contour_signature: normalise, keep the first sides, pop empty tokens off the end. */
  method ContourSignature(values: seq<string>) returns (signature: seq<string>)
    ensures signature == Signature(values)
  {
    var normalized := NormalizedTokens(values);
    if |normalized| > MaxContourSides {
      normalized := normalized[..MaxContourSides];
    }
    assert normalized == Truncated(NormalizedTokens(values));
    while normalized != [] && normalized[|normalized| - 1] == ""
      invariant DropTrailingEmpty(normalized) == Signature(values)
      decreases |normalized|
    {
      normalized := normalized[..|normalized| - 1];
    }
    signature := normalized;
  }

  /** any(signature) */
  predicate AnyNonEmpty(signature: seq<string>)
  {
    exists k :: 0 <= k < |signature| && signature[k] != ""
  }

  /** A signature holds a non-empty token exactly when it is not empty at all. */
  lemma AnyIffNotEmpty(values: seq<string>)
    ensures AnyNonEmpty(Signature(values)) <==> Signature(values) != []
  {
    var r := Signature(values);
    SignatureShape(values);
    if r != [] {
      assert r[|r| - 1] != "";
    }
  }

  // ---------------------------------------------------------------- contour index

  /** Each new cell's signature. */
  function CellSignatures(contours: OMap<string, seq<string>>): (r: map<string, seq<string>>)
    ensures r.Keys == contours.items.Keys
  {
    map c | c in contours.items :: Signature(contours.items[c])
  }

  /** The grouping of cells under their signatures, skipping signatures without a side. */
  function IndexOf(cells: seq<string>, signatures: map<string, seq<string>>): (r: OMap<seq<string>, seq<string>>)
    requires forall c <- cells :: c in signatures
    ensures r.Valid()
  {
    var sigs := seq(|cells|, i requires 0 <= i < |cells| => signatures[cells[i]]);
    GroupBy(sigs, cells, seq(|cells|, i requires 0 <= i < |cells| => AnyNonEmpty(sigs[i])))
  }

  /** _build_contour_index: the new cells listed under each non-empty signature, in map order. */
  function ContourIndex(contours: OMap<string, seq<string>>): (r: OMap<seq<string>, seq<string>>)
    requires contours.Valid()
    ensures r.Valid()
  {
    IndexOf(contours.keys, CellSignatures(contours))
  }

  /** A cell is listed under a signature exactly when it has that signature and the signature has a side. */
  lemma IndexOfHolds(cells: seq<string>, signatures: map<string, seq<string>>, signature: seq<string>, cell: string)
    requires forall c <- cells :: c in signatures
    ensures signature in IndexOf(cells, signatures).items <==>
      AnyNonEmpty(signature) && exists c :: c in cells && signatures[c] == signature
    ensures signature in IndexOf(cells, signatures).items ==>
      (cell in IndexOf(cells, signatures).items[signature] <==> cell in cells && signatures[cell] == signature)
  {
    var sigs := seq(|cells|, i requires 0 <= i < |cells| => signatures[cells[i]]);
    var keep := seq(|cells|, i requires 0 <= i < |cells| => AnyNonEmpty(sigs[i]));
    GroupByKeys(sigs, cells, keep, signature);
    if exists c :: c in cells && signatures[c] == signature {
      var c :| c in cells && signatures[c] == signature;
      var i :| 0 <= i < |cells| && cells[i] == c;
      assert sigs[i] == signature;
    }
    if signature in IndexOf(cells, signatures).items {
      GroupByValues(sigs, cells, keep, signature, cell);
      if cell in cells && signatures[cell] == signature {
        var i :| 0 <= i < |cells| && cells[i] == cell;
        assert keep[i] && sigs[i] == signature;
      }
    }
  }

  /**
   * In the contour index a cell is listed under a signature exactly when its own
   * contours give that signature, and only signatures with a non-empty token are
   * listed.
   */
  lemma ContourIndexHolds(contours: OMap<string, seq<string>>, signature: seq<string>, cell: string)
    requires contours.Valid()
    ensures signature in ContourIndex(contours).items ==>
      (signature != [] &&
       (cell in ContourIndex(contours).items[signature] <==>
        cell in contours.items && Signature(contours.items[cell]) == signature))
  {
    var sigs := CellSignatures(contours);
    IndexOfHolds(contours.keys, sigs, signature, cell);
    if signature in ContourIndex(contours).items {
      assert signature != [];
    }
  }

  /** _build_contour_index, with its loop. */
  method BuildContourIndex(contours: OMap<string, seq<string>>) returns (index: OMap<seq<string>, seq<string>>)
    requires contours.Valid()
    ensures index == ContourIndex(contours)
  {
    ghost var signatures := CellSignatures(contours);
    ghost var cells := contours.keys;
    ghost var sigs := seq(|cells|, i requires 0 <= i < |cells| => signatures[cells[i]]);
    ghost var keep := seq(|cells|, i requires 0 <= i < |cells| => AnyNonEmpty(sigs[i]));
    index := Empty();
    for i := 0 to |contours.keys|
      invariant index == GroupBy(sigs[..i], cells[..i], keep[..i])
    {
      var cellId := contours.keys[i];
      var signature := ContourSignature(contours.items[cellId]);
      assert signature == sigs[i];
      GroupByStep(sigs, cells, keep, i);
      if AnyNonEmpty(signature) {
        index := index.Put(signature, index.GetOr(signature, []) + [cellId]);
      }
    }
    assert sigs[..|sigs|] == sigs && keep[..|keep|] == keep && cells[..|cells|] == cells;
  }

  // ---------------------------------------------------------------- report

  datatype Entry = Entry(laminate: string, oldCell: string, newCell: string, contours: seq<string>)

  datatype Issue = Issue(laminate: string, oldCell: string, details: string, contours: seq<string>)

  datatype Report = Report(
    reassociated: seq<Entry>,
    conflicts: seq<Issue>,
    missingContours: seq<Issue>,
    notFound: seq<Issue>,
    unmappedNewCells: seq<string>)

  const EmptyReport: Report := Report([], [], [], [], [])

  const NoContoursDetails: string := "Contornos nao encontrados na base atual."
  const EmptyContoursDetails: string := "Contornos vazios ou invalidos."
  const NotFoundDetails: string := "Nenhuma celula equivalente encontrada na nova planilha."

  function AmbiguousDetails(candidates: seq<string>): string
  {
    "Contorno ambiguo em " + NatToString(|candidates|) + " celulas: " + JoinWith(", ", candidates) + "."
  }

  function TakenDetails(target: string, current: string): string
  {
    "Celula " + target + " ja associada ao laminado '" + current + "'."
  }

  /** Number of issues and entries in the report's four lists. */
  function Total(r: Report): nat
  {
    |r.reassociated| + |r.conflicts| + |r.missingContours| + |r.notFound|
  }

  /** What happens to one (old cell, laminate) pair. */
  datatype Outcome =
    | Skip                                                    // no laminate name
    | NoContours                                              // no contour list for the old cell
    | EmptyContours(signature: seq<string>)                   // every token empty
    | NotFound(signature: seq<string>)
    | Ambiguous(signature: seq<string>, candidates: seq<string>)
    | Taken(signature: seq<string>, target: string, current: string)
    | Reassign(signature: seq<string>, target: string)
    | AlreadyThere                                            // target already holds this laminate

  /** The old cell's signature, None when it has no contour list or an empty one. */
  function SignatureOf(oldContours: Option<seq<string>>): Option<seq<string>>
  {
    if oldContours.None? || oldContours.value == [] then None else Some(Signature(oldContours.value))
  }

  /** Each old pair's signature. */
  function OldSignatures(oldMap: map<string, string>, oldContours: OMap<string, seq<string>>): (r: map<string, Option<seq<string>>>)
    ensures r.Keys == oldMap.Keys
  {
    map k | k in oldMap :: SignatureOf(oldContours.Get(k))
  }

  /** A target cell the map leaves free: absent, or bound to the empty name. */
  predicate Free(cellMap: OMap<string, string>, target: string)
  {
    target !in cellMap.items || cellMap.items[target] == ""
  }

  /** The branches of the loop body for one old pair. */
  function Decide(laminate: string, signature: Option<seq<string>>,
                  index: OMap<seq<string>, seq<string>>, cellMap: OMap<string, string>): Outcome
  {
    if laminate == "" then Skip
    else if signature.None? then NoContours
    else DecideSignature(laminate, signature.value, index, cellMap)
  }

  /** The branches taken once the old cell has a signature. */
  function DecideSignature(laminate: string, signature: seq<string>,
                           index: OMap<seq<string>, seq<string>>, cellMap: OMap<string, string>): Outcome
  {
    if !AnyNonEmpty(signature) then EmptyContours(signature)
    else
      var candidates := index.GetOr(signature, []);
      if candidates == [] then NotFound(signature)
      else if |candidates| > 1 then Ambiguous(signature, candidates)
      else
        var target := candidates[0];
        var current := cellMap.Get(target);
        if current.Some? && current.value != "" && current.value != laminate then Taken(signature, target, current.value)
        else if current != Some(laminate) then Reassign(signature, target)
        else AlreadyThere
  }

  datatype Pass = Pass(report: Report, cellMap: OMap<string, string>)

  /** The effect of one outcome on the report and on the map being built. */
  function Apply(p: Pass, oldCell: string, laminate: string, o: Outcome): Pass
    requires p.cellMap.Valid()
  {
    var r := p.report;
    match o
    case Skip => p
    case AlreadyThere => p
    case NoContours =>
      p.(report := r.(missingContours := r.missingContours + [Issue(laminate, oldCell, NoContoursDetails, [])]))
    case EmptyContours(sig) =>
      p.(report := r.(missingContours := r.missingContours + [Issue(laminate, oldCell, EmptyContoursDetails, sig)]))
    case NotFound(sig) =>
      p.(report := r.(notFound := r.notFound + [Issue(laminate, oldCell, NotFoundDetails, sig)]))
    case Ambiguous(sig, candidates) =>
      p.(report := r.(conflicts := r.conflicts + [Issue(laminate, oldCell, AmbiguousDetails(candidates), sig)]))
    case Taken(sig, target, current) =>
      p.(report := r.(conflicts := r.conflicts + [Issue(laminate, oldCell, TakenDetails(target, current), sig)]))
    case Reassign(sig, target) =>
      Pass(r.(reassociated := r.reassociated + [Entry(laminate, oldCell, target, sig)]),
           p.cellMap.Put(target, laminate))
  }

  /** The main loop over the old model's cell -> laminate map, in its order. */
  function Run(keys: seq<string>, oldMap: map<string, string>, sigs: map<string, Option<seq<string>>>,
               index: OMap<seq<string>, seq<string>>, init: Pass): (r: Pass)
    requires forall k <- keys :: k in oldMap && k in sigs
    requires init.cellMap.Valid()
    ensures r.cellMap.Valid()
  {
    if keys == [] then init
    else
      var n := |keys| - 1;
      var p := Run(keys[..n], oldMap, sigs, index, init);
      Apply(p, keys[n], oldMap[keys[n]], Decide(oldMap[keys[n]], sigs[keys[n]], index, p.cellMap))
  }

  lemma RunStep(keys: seq<string>, oldMap: map<string, string>, sigs: map<string, Option<seq<string>>>,
                index: OMap<seq<string>, seq<string>>, init: Pass, i: nat)
    requires forall k <- keys :: k in oldMap && k in sigs
    requires init.cellMap.Valid() && i < |keys|
    ensures var p := Run(keys[..i], oldMap, sigs, index, init);
      Run(keys[..i + 1], oldMap, sigs, index, init) ==
        Apply(p, keys[i], oldMap[keys[i]], Decide(oldMap[keys[i]], sigs[keys[i]], index, p.cellMap))
  {
    assert keys[..i + 1][..i] == keys[..i];
  }

  // ---------------------------------------------------------------- properties of one step

  /**
   * Each pair with a laminate lands in exactly one of the four lists, unless
   * its one candidate already holds that laminate; a pair without a laminate
   * adds nothing.
   */
  lemma OneBucketPerPair(p: Pass, oldCell: string, laminate: string, signature: Option<seq<string>>,
                         index: OMap<seq<string>, seq<string>>)
    requires p.cellMap.Valid()
    ensures var o := Decide(laminate, signature, index, p.cellMap);
      Total(Apply(p, oldCell, laminate, o).report) ==
        Total(p.report) + (if laminate == "" || o.AlreadyThere? then 0 else 1)
  {
    var o := Decide(laminate, signature, index, p.cellMap);
    var r := p.report;
    match o
    case Skip =>
    case AlreadyThere =>
    case NoContours =>
    case EmptyContours(_) =>
    case NotFound(_) =>
    case Ambiguous(_, _) =>
    case Taken(_, _, _) =>
    case Reassign(_, _) =>
  }

  /**
   * A pair is reassociated exactly when it has a laminate, its signature has a
   * side and exactly one candidate cell, and that cell is free; a signature
   * with several candidates, or a candidate bound to another laminate, is a
   * conflict.
   */
  lemma DecideRules(laminate: string, signature: Option<seq<string>>,
                    index: OMap<seq<string>, seq<string>>, cellMap: OMap<string, string>)
    ensures var o := Decide(laminate, signature, index, cellMap);
      && (o.Reassign? ==> laminate != "" && signature == Some(o.signature) &&
                          index.GetOr(o.signature, []) == [o.target] && Free(cellMap, o.target))
      && (laminate != "" && signature.Some? && AnyNonEmpty(signature.value) &&
          |index.GetOr(signature.value, [])| == 1 && Free(cellMap, index.GetOr(signature.value, [])[0]) ==>
            o == Reassign(signature.value, index.GetOr(signature.value, [])[0]))
      && (o.Ambiguous? ==> |index.GetOr(o.signature, [])| > 1)
      && (o.Taken? ==> !Free(cellMap, o.target) && cellMap.items[o.target] != laminate)
  {
  }

  // ---------------------------------------------------------------- properties of the loop

  /** A cell bound to a laminate keeps that laminate to the end of the loop: conflicts never overwrite. */
  lemma {:induction false} RunKeepsBound(keys: seq<string>, oldMap: map<string, string>,
                                         sigs: map<string, Option<seq<string>>>,
                                         index: OMap<seq<string>, seq<string>>, init: Pass, t: string)
    requires forall k <- keys :: k in oldMap && k in sigs
    requires init.cellMap.Valid()
    requires !Free(init.cellMap, t)
    ensures var r := Run(keys, oldMap, sigs, index, init);
      t in r.cellMap.items && r.cellMap.items[t] == init.cellMap.items[t]
  {
    if keys != [] {
      var n := |keys| - 1;
      RunKeepsBound(keys[..n], oldMap, sigs, index, init, t);
      var p := Run(keys[..n], oldMap, sigs, index, init);
      DecideRules(oldMap[keys[n]], sigs[keys[n]], index, p.cellMap);
    }
  }

  /** What makes an entry well founded: its old pair, its unique candidate, and its binding. */
  predicate EntryHolds(e: Entry, oldMap: map<string, string>, sigs: map<string, Option<seq<string>>>,
                       index: OMap<seq<string>, seq<string>>, cellMap: OMap<string, string>)
  {
    && e.oldCell in oldMap && oldMap[e.oldCell] == e.laminate && e.laminate != ""
    && e.oldCell in sigs && sigs[e.oldCell] == Some(e.contours)
    && index.GetOr(e.contours, []) == [e.newCell]
    && e.newCell in cellMap.items && cellMap.items[e.newCell] == e.laminate
  }

  /**
   * Every reassociated entry comes from a pair of the old map, its new cell is
   * the only cell with the old cell's signature, and the final map binds that
   * cell to the entry's laminate.
   */
  lemma {:induction false} ReassociatedSound(keys: seq<string>, oldMap: map<string, string>,
                                             sigs: map<string, Option<seq<string>>>,
                                             index: OMap<seq<string>, seq<string>>, init: Pass)
    requires forall k <- keys :: k in oldMap && k in sigs
    requires init.cellMap.Valid() && init.report.reassociated == []
    ensures var r := Run(keys, oldMap, sigs, index, init);
      forall e <- r.report.reassociated :: EntryHolds(e, oldMap, sigs, index, r.cellMap)
  {
    if keys != [] {
      var n := |keys| - 1;
      ReassociatedSound(keys[..n], oldMap, sigs, index, init);
      var p := Run(keys[..n], oldMap, sigs, index, init);
      assert p == Run(keys[..n], oldMap, sigs, index, init);
      assert forall e :: e in Run(keys[..n], oldMap, sigs, index, init).report.reassociated ==>
        EntryHolds(e, oldMap, sigs, index, Run(keys[..n], oldMap, sigs, index, init).cellMap);
      var lam := oldMap[keys[n]];
      var o := Decide(lam, sigs[keys[n]], index, p.cellMap);
      DecideRules(lam, sigs[keys[n]], index, p.cellMap);
      var r := Apply(p, keys[n], lam, o);
      forall e <- r.report.reassociated ensures EntryHolds(e, oldMap, sigs, index, r.cellMap) {
        if e in p.report.reassociated {
          assert EntryHolds(e, oldMap, sigs, index, p.cellMap);
        }
      }
    }
  }

  /** An issue is about a pair of the old map that has a laminate. */
  predicate IssueHolds(i: Issue, keys: seq<string>, oldMap: map<string, string>)
  {
    i.oldCell in keys && i.oldCell in oldMap && oldMap[i.oldCell] == i.laminate && i.laminate != ""
  }

  /** Every issue names a pair of the old map with a laminate. */
  lemma {:induction false} IssuesSound(keys: seq<string>, oldMap: map<string, string>,
                                       sigs: map<string, Option<seq<string>>>,
                                       index: OMap<seq<string>, seq<string>>, init: Pass)
    requires forall k <- keys :: k in oldMap && k in sigs
    requires init.cellMap.Valid()
    requires init.report.conflicts == init.report.missingContours == init.report.notFound == []
    ensures var r := Run(keys, oldMap, sigs, index, init).report;
      && (forall i <- r.conflicts :: IssueHolds(i, keys, oldMap))
      && (forall i <- r.missingContours :: IssueHolds(i, keys, oldMap))
      && (forall i <- r.notFound :: IssueHolds(i, keys, oldMap))
  {
    if keys != [] {
      var n := |keys| - 1;
      IssuesSound(keys[..n], oldMap, sigs, index, init);
      var p := Run(keys[..n], oldMap, sigs, index, init);
      var q := p.report;
      assert forall i :: IssueHolds(i, keys[..n], oldMap) ==> IssueHolds(i, keys, oldMap);
      assert forall i <- q.conflicts :: IssueHolds(i, keys, oldMap);
      assert forall i <- q.missingContours :: IssueHolds(i, keys, oldMap);
      assert forall i <- q.notFound :: IssueHolds(i, keys, oldMap);
      assert keys[n] in keys;
    }
  }

  // ---------------------------------------------------------------- laminate cells

  /** The cells, in grid order, that the map binds to laminate `name`. */
  function CellsOf(cells: seq<string>, cellMap: map<string, string>, name: string): seq<string>
  {
    if cells == [] then []
    else
      var n := |cells| - 1;
      var c := cells[n];
      CellsOf(cells[..n], cellMap, name) + (if c in cellMap && cellMap[c] == name && name != "" then [c] else [])
  }

  lemma CellsOfStep(cells: seq<string>, cellMap: map<string, string>, name: string, j: nat)
    requires j < |cells|
    ensures CellsOf(cells[..j + 1], cellMap, name) ==
      CellsOf(cells[..j], cellMap, name) + (if cells[j] in cellMap && cellMap[cells[j]] == name && name != "" then [cells[j]] else [])
  {
    assert cells[..j + 1][..j] == cells[..j];
  }

  /** A cell is listed for a laminate exactly when it is in the grid and bound to that (non-empty) name. */
  lemma {:induction false} CellsOfMembers(cells: seq<string>, cellMap: map<string, string>, name: string, c: string)
    ensures c in CellsOf(cells, cellMap, name) <==> c in cells && c in cellMap && cellMap[c] == name && name != ""
  {
    if cells != [] {
      var n := |cells| - 1;
      CellsOfMembers(cells[..n], cellMap, name, c);
      assert cells == cells[..n] + [cells[n]];
    }
  }

  /**
   * _rebuild_laminate_cells, as a value: each laminate's cells recomputed from
   * the map over (a prefix of) the grid's cells.
   */
  function Rebuilt(laminados: OMap<string, Laminado>, cells: seq<string>, cellMap: map<string, string>): (r: OMap<string, Laminado>)
    ensures r.keys == laminados.keys && r.items.Keys == laminados.items.Keys
    ensures forall name <- r.items ::
      r.items[name] == laminados.items[name].(celulas := CellsOf(cells, cellMap, name))
  {
    OMap(laminados.keys, map name | name in laminados.items :: laminados.items[name].(celulas := CellsOf(cells, cellMap, name)))
  }

  /**
   * After the rebuild the cell lists agree with the map: a laminate lists a
   * cell exactly when the cell is in the grid and bound to that laminate.
   */
  lemma RebuiltAgrees(laminados: OMap<string, Laminado>, cells: seq<string>, cellMap: map<string, string>,
                      name: string, c: string)
    requires name in laminados.items && name != ""
    ensures c in Rebuilt(laminados, cells, cellMap).items[name].celulas <==>
      c in cells && c in cellMap && cellMap[c] == name
  {
    CellsOfMembers(cells, cellMap, name, c);
  }

  /** Every laminate with its cell list emptied. */
  function Cleared(laminados: OMap<string, Laminado>): (r: OMap<string, Laminado>)
  {
    OMap(laminados.keys, map name | name in laminados.items :: laminados.items[name].(celulas := []))
  }

  /** The first loop of _rebuild_laminate_cells: laminate.celulas = [] for every laminate. */
  method ClearCells(model: GridModel)
    requires model.Valid()
    modifies model`laminados
    ensures model.Valid() && model.laminados == Cleared(old(model.laminados))
  {
    ghost var original := model.laminados;
    var keys := model.laminados.keys;
    for i := 0 to |keys|
      invariant model.Valid() && model.laminados.keys == keys && model.laminados.items.Keys == original.items.Keys
      invariant forall name <- model.laminados.items ::
        model.laminados.items[name] == original.items[name].(celulas := if name in keys[..i] then [] else original.items[name].celulas)
    {
      assert keys[..i + 1] == keys[..i] + [keys[i]];
      var name := keys[i];
      model.laminados := model.laminados.Put(name, model.laminados.items[name].(celulas := []));
    }
    assert keys[..|keys|] == keys;
  }

  /** Appending one more grid cell to the laminate it is bound to extends the rebuild of the prefix by that cell. */
  lemma RebuiltStep(laminados: OMap<string, Laminado>, cells: seq<string>, cellMap: map<string, string>, j: nat)
    requires j < |cells|
    ensures var q := Rebuilt(laminados, cells[..j], cellMap);
      var c := cells[j];
      Rebuilt(laminados, cells[..j + 1], cellMap) ==
        if c in cellMap && cellMap[c] != "" && cellMap[c] in q.items
        then OMap(q.keys, q.items[cellMap[c] := q.items[cellMap[c]].(celulas := q.items[cellMap[c]].celulas + [c])])
        else q
  {
    var q := Rebuilt(laminados, cells[..j], cellMap);
    var r := Rebuilt(laminados, cells[..j + 1], cellMap);
    var c := cells[j];
    if c in cellMap && cellMap[c] != "" && cellMap[c] in q.items {
      var t := OMap(q.keys, q.items[cellMap[c] := q.items[cellMap[c]].(celulas := q.items[cellMap[c]].celulas + [c])]);
      forall name | name in r.items ensures r.items[name] == t.items[name] {
        CellsOfStep(cells, cellMap, name, j);
      }
      assert r.items == t.items;
    } else {
      forall name | name in r.items ensures r.items[name] == q.items[name] {
        CellsOfStep(cells, cellMap, name, j);
      }
      assert r.items == q.items;
    }
  }

  /** _rebuild_laminate_cells: clear every laminate's cells, then append each mapped cell in grid order. */
  method RebuildLaminateCells(model: GridModel)
    requires model.Valid()
    modifies model`laminados
    ensures model.Valid()
    ensures model.laminados == Rebuilt(old(model.laminados), model.celulasOrdenadas, model.cellToLaminate.items)
  {
    ghost var original := model.laminados;
    ClearCells(model);
    var cells := model.celulasOrdenadas;
    ghost var m := model.cellToLaminate.items;
    assert model.laminados == Rebuilt(original, cells[..0], m);
    for j := 0 to |cells|
      invariant model.Valid() && model.laminados == Rebuilt(original, cells[..j], m)
    {
      var cellId := cells[j];
      RebuiltStep(original, cells, m, j);
      var laminateName := model.cellToLaminate.Get(cellId);
      if laminateName.Some? && laminateName.value != "" && laminateName.value in model.laminados.items {
        var name := laminateName.value;
        var laminate := model.laminados.items[name];
        model.laminados := model.laminados.Put(name, laminate.(celulas := laminate.celulas + [cellId]));
      }
    }
    assert cells[..|cells|] == cells;
  }

  // ---------------------------------------------------------------- the whole operation

  /** report.unmapped_new_cells: the grid's cells, in order, that the final map leaves out. */
  function Unmapped(cells: seq<string>, cellMap: OMap<string, string>): (r: seq<string>)
    ensures forall c :: c in r <==> c in cells && c !in cellMap.items
    ensures |r| <= |cells|
  {
    Filter(cells, (c: string) => c !in cellMap.items)
  }

  /** The pass of reassociate_laminates_by_contours over the old model's pairs. */
  function ReassociationPass(oldMap: OMap<string, string>, oldContours: OMap<string, seq<string>>,
                             newContours: OMap<string, seq<string>>, newMap: OMap<string, string>,
                             apply: bool): (r: Pass)
    requires oldMap.Valid() && newContours.Valid() && newMap.Valid()
    ensures r.cellMap.Valid()
  {
    Run(oldMap.keys, oldMap.items, OldSignatures(oldMap.items, oldContours), ContourIndex(newContours),
        Pass(EmptyReport, if apply then Empty() else newMap))
  }

  lemma ApplyTaken(p: Pass, oldCell: string, laminate: string, signature: seq<string>, target: string, current: string)
    requires p.cellMap.Valid()
    ensures Apply(p, oldCell, laminate, Taken(signature, target, current)) ==
      p.(report := p.report.(conflicts := p.report.conflicts + [Issue(laminate, oldCell, TakenDetails(target, current), signature)]))
  {
  }

  /** The loop body of reassociate_laminates_by_contours for one old pair. */
  method HandlePair(report: Report, cellMap: OMap<string, string>, oldCell: string, laminateName: string,
                    found: Option<seq<string>>, index: OMap<seq<string>, seq<string>>)
    returns (report': Report, cellMap': OMap<string, string>)
    requires cellMap.Valid()
    ensures Pass(report', cellMap') ==
      Apply(Pass(report, cellMap), oldCell, laminateName, Decide(laminateName, SignatureOf(found), index, cellMap))
  {
    report', cellMap' := report, cellMap;
    if laminateName == "" {
      return;
    }
    if found.None? || found.value == [] {
      report' := report.(missingContours := report.missingContours + [Issue(laminateName, oldCell, NoContoursDetails, [])]);
      return;
    }
    var signature := ContourSignature(found.value);
    report', cellMap' := HandleSignature(report, cellMap, oldCell, laminateName, signature, index);
  }

  /** The loop body once the old cell's signature is known. */
  method HandleSignature(report: Report, cellMap: OMap<string, string>, oldCell: string, laminateName: string,
                         signature: seq<string>, index: OMap<seq<string>, seq<string>>)
    returns (report': Report, cellMap': OMap<string, string>)
    requires cellMap.Valid()
    ensures Pass(report', cellMap') ==
      Apply(Pass(report, cellMap), oldCell, laminateName, DecideSignature(laminateName, signature, index, cellMap))
  {
    ghost var o := DecideSignature(laminateName, signature, index, cellMap);
    report', cellMap' := report, cellMap;
    if !AnyNonEmpty(signature) {
      assert o == EmptyContours(signature);
      report' := report.(missingContours := report.missingContours + [Issue(laminateName, oldCell, EmptyContoursDetails, signature)]);
      assert Pass(report', cellMap') == Apply(Pass(report, cellMap), oldCell, laminateName, o);
      return;
    }
    var candidates := index.GetOr(signature, []);
    if candidates == [] {
      assert o == NotFound(signature);
      report' := report.(notFound := report.notFound + [Issue(laminateName, oldCell, NotFoundDetails, signature)]);
      assert Pass(report', cellMap') == Apply(Pass(report, cellMap), oldCell, laminateName, o);
      return;
    }
    if |candidates| > 1 {
      assert o == Ambiguous(signature, candidates);
      report' := report.(conflicts := report.conflicts + [Issue(laminateName, oldCell, AmbiguousDetails(candidates), signature)]);
      assert Pass(report', cellMap') == Apply(Pass(report, cellMap), oldCell, laminateName, o);
      return;
    }
    var target := candidates[0];
    var current := cellMap.Get(target);
    if current.Some? && current.value != "" && current.value != laminateName {
      assert o == Taken(signature, target, current.value);
      report' := report.(conflicts := report.conflicts + [Issue(laminateName, oldCell, TakenDetails(target, current.value), signature)]);
      ApplyTaken(Pass(report, cellMap), oldCell, laminateName, signature, target, current.value);
      return;
    }
    if current != Some(laminateName) {
      assert o == Reassign(signature, target);
      cellMap' := cellMap.Put(target, laminateName);
      report' := report.(reassociated := report.reassociated + [Entry(laminateName, oldCell, target, signature)]);
      assert Pass(report', cellMap') == Apply(Pass(report, cellMap), oldCell, laminateName, o);
    } else {
      assert o == AlreadyThere;
    }
  }

  /**
   * reassociate_laminates_by_contours. With `apply` the new model takes the
   * built map and its laminates' cell lists are rebuilt from it; without it
   * the new model is left as it was.
   */
  method ReassociateByContours(oldModel: GridModel, newModel: GridModel, apply: bool) returns (report: Report)
    requires oldModel.Valid() && newModel.Valid()
    modifies newModel
    ensures var p := ReassociationPass(old(oldModel.cellToLaminate), old(oldModel.cellContours),
                                       old(newModel.cellContours), old(newModel.cellToLaminate), apply);
      && report == p.report.(unmappedNewCells := Unmapped(old(newModel.celulasOrdenadas), p.cellMap))
      && (apply ==> newModel.cellToLaminate == p.cellMap &&
                    newModel.laminados == Rebuilt(old(newModel.laminados), old(newModel.celulasOrdenadas), p.cellMap.items))
    ensures !apply ==> unchanged(newModel)
    ensures newModel.celulasOrdenadas == old(newModel.celulasOrdenadas) && newModel.cellContours == old(newModel.cellContours)
    ensures newModel.Valid()
  {
    var index := BuildContourIndex(newModel.cellContours);
    var cellMap: OMap<string, string> := if apply then Empty() else newModel.cellToLaminate;
    var oldMap := oldModel.cellToLaminate;
    var oldContours := oldModel.cellContours;
    ghost var init := Pass(EmptyReport, cellMap);
    ghost var sigs := OldSignatures(oldMap.items, oldContours);
    var pass := EmptyReport;
    for i := 0 to |oldMap.keys|
      invariant cellMap.Valid() && unchanged(newModel) && newModel.Valid()
      invariant Pass(pass, cellMap) == Run(oldMap.keys[..i], oldMap.items, sigs, index, init)
    {
      var oldCell := oldMap.keys[i];
      RunStep(oldMap.keys, oldMap.items, sigs, index, init, i);
      pass, cellMap := HandlePair(pass, cellMap, oldCell, oldMap.items[oldCell], oldContours.Get(oldCell), index);
    }
    assert oldMap.keys[..|oldMap.keys|] == oldMap.keys;
    if apply {
      newModel.cellToLaminate := cellMap;
      RebuildLaminateCells(newModel);
    }
    report := pass.(unmappedNewCells := Unmapped(newModel.celulasOrdenadas, cellMap));
  }
}

=== FILE: seqs.dfy ===
// Python list operations used by the editing models (insert, pop, pop +
// insert, deleting a set of rows) and where each element ends up.
module Seqs {
  predicate NoDup<T(==)>(s: seq<T>)
  {
    forall i, j :: 0 <= i < j < |s| ==> s[i] != s[j]
  }

  /** [x for x in s if p(x)] */
  function Filter<T(!new)>(s: seq<T>, p: T -> bool): (r: seq<T>)
    ensures |r| <= |s|
    ensures forall x :: x in r <==> x in s && p(x)
    ensures forall k :: 0 <= k < |r| ==> p(r[k])
  {
    if s == [] then [] else (if p(s[0]) then [s[0]] else []) + Filter(s[1..], p)
  }

  /** Filtering keeps a list free of duplicates. */
  lemma {:induction false} FilterNoDup<T(!new)>(s: seq<T>, p: T -> bool)
    requires NoDup(s)
    ensures NoDup(Filter(s, p))
  {
    if s != [] {
      assert NoDup(s[1..]) by {
        forall i, j | 0 <= i < j < |s[1..]| ensures s[1..][i] != s[1..][j] {
          assert s[1..][i] == s[i + 1] && s[1..][j] == s[j + 1];
        }
      }
      FilterNoDup(s[1..], p);
      assert s[0] !in s[1..] by {
        forall k | 0 <= k < |s[1..]| ensures s[1..][k] != s[0] {
          assert s[1..][k] == s[k + 1];
        }
      }
    }
  }

  /** Filtering a concatenation filters each part. */
  lemma {:induction false} FilterAppend<T(!new)>(a: seq<T>, b: seq<T>, p: T -> bool)
    ensures Filter(a + b, p) == Filter(a, p) + Filter(b, p)
  {
    if a != [] {
      assert (a + b)[1..] == a[1..] + b;
      FilterAppend(a[1..], b, p);
    } else {
      assert a + b == b;
    }
  }

  /** Filtering a reversed list is reversing the filtered list. */
  lemma {:induction false} FilterReverse<T(!new)>(s: seq<T>, p: T -> bool)
    ensures Filter(Reverse(s), p) == Reverse(Filter(s, p))
  {
    if s != [] {
      var rest := s[1..];
      FilterReverse(rest, p);
      assert s == [s[0]] + rest;
      ReverseAppend([s[0]], rest);
      assert Reverse([s[0]]) == [s[0]];
      FilterAppend(Reverse(rest), [s[0]], p);
      var head := Filter([s[0]], p);
      assert [s[0]][1..] == [];
      assert head == if p(s[0]) then [s[0]] else [];
      assert Filter(s, p) == head + Filter(rest, p);
      ReverseAppend(head, Filter(rest, p));
      ShortPalindrome(head);
    }
  }

  /** Reversing a concatenation reverses and swaps the parts. */
  lemma ReverseAppend<T>(a: seq<T>, b: seq<T>)
    ensures Reverse(a + b) == Reverse(b) + Reverse(a)
  {
    var l, r := Reverse(a + b), Reverse(b) + Reverse(a);
    forall i | 0 <= i < |l| ensures l[i] == r[i] {
      if i < |b| {
        assert l[i] == (a + b)[|a| + |b| - 1 - i] == b[|b| - 1 - i];
      } else {
        assert l[i] == (a + b)[|a| + |b| - 1 - i] == a[|a| - 1 - (i - |b|)];
      }
    }
  }

  /** A list of at most one element is its own reverse. */
  lemma ShortPalindrome<T>(s: seq<T>)
    requires |s| <= 1
    ensures Reverse(s) == s
  {
    if |s| == 1 {
      assert Reverse(s)[0] == s[0];
    }
  }

  /** The elements in first-seen order, each once (what a set keeps of a list). */
  function Distinct<T(==,!new)>(s: seq<T>): (r: seq<T>)
    ensures NoDup(r)
    ensures forall x :: x in r <==> x in s
  {
    if s == [] then []
    else
      var n := |s| - 1;
      var d := Distinct(s[..n]);
      assert forall x :: x in s <==> x in s[..n] || x == s[n];
      if s[n] in d then d else d + [s[n]]
  }

  /** A list is free of duplicates exactly when no element occurs twice in its multiset. */
  lemma {:induction false} NoDupMultiset<T>(s: seq<T>)
    ensures NoDup(s) <==> forall x :: multiset(s)[x] <= 1
  {
    if s != [] {
      var n := |s| - 1;
      var init := s[..n];
      NoDupMultiset(init);
      assert s == init + [s[n]];
      assert multiset(s) == multiset(init) + multiset{s[n]};
      if NoDup(s) {
        assert NoDup(init);
        assert s[n] !in init by {
          forall k | 0 <= k < n ensures init[k] != s[n] {
            assert s[k] != s[n];
          }
        }
      } else {
        var i, j :| 0 <= i < j < |s| && s[i] == s[j];
        if j < n {
          assert init[i] == init[j];
          assert !NoDup(init);
          var x :| multiset(init)[x] > 1;
          assert multiset(s)[x] > 1;
        } else {
          assert s[i] in init;
          assert multiset(s)[s[n]] >= 2;
        }
      }
    }
  }

  /** Reordering keeps a list free of duplicates. */
  lemma NoDupPermutation<T>(a: seq<T>, b: seq<T>)
    requires multiset(a) == multiset(b) && NoDup(a)
    ensures NoDup(b)
  {
    NoDupMultiset(a);
    NoDupMultiset(b);
  }

  /** list.insert(p, x) with 0 <= p <= len(list). */
  function InsertAt<T>(s: seq<T>, p: nat, x: T): (r: seq<T>)
    requires p <= |s|
    ensures |r| == |s| + 1 && r[p] == x
  {
    s[..p] + [x] + s[p..]
  }

  /** del list[p] (or list.pop(p)) with 0 <= p < len(list). */
  function RemoveAt<T>(s: seq<T>, p: nat): (r: seq<T>)
    requires p < |s|
    ensures |r| == |s| - 1
  {
    s[..p] + s[p + 1..]
  }

  /** item = list.pop(a); list.insert(b, item) */
  function MoveTo<T>(s: seq<T>, a: nat, b: nat): (r: seq<T>)
    requires a < |s| && b < |s|
    ensures |r| == |s|
  {
    InsertAt(RemoveAt(s, a), b, s[a])
  }

  /** Where row i goes when a row is inserted at p. */
  function ShiftIndex(i: int, p: int): int
  {
    if i >= p then i + 1 else i
  }

  /** Where row i goes when the row at a is moved to b. */
  function MovedIndex(i: int, a: int, b: int): int
  {
    if i == a then b
    else if a < b && a < i <= b then i - 1
    else if a > b && b <= i < a then i + 1
    else i
  }

  lemma InsertAtFollows<T>(s: seq<T>, p: nat, x: T, i: nat)
    requires p <= |s| && i < |s|
    ensures InsertAt(s, p, x)[ShiftIndex(i, p)] == s[i]
  {
  }

  lemma RemoveAfterInsert<T>(s: seq<T>, p: nat, x: T)
    requires p <= |s|
    ensures RemoveAt(InsertAt(s, p, x), p) == s
  {
    assert InsertAt(s, p, x)[..p] == s[..p];
    assert InsertAt(s, p, x)[p + 1..] == s[p..];
  }

  lemma InsertAtMultiset<T>(s: seq<T>, p: nat, x: T)
    requires p <= |s|
    ensures multiset(InsertAt(s, p, x)) == multiset(s) + multiset{x}
  {
    assert s == s[..p] + s[p..];
  }

  lemma RemoveAtMultiset<T>(s: seq<T>, p: nat)
    requires p < |s|
    ensures multiset(RemoveAt(s, p)) == multiset(s) - multiset{s[p]}
  {
    assert s == s[..p] + [s[p]] + s[p + 1..];
  }

  lemma MoveToFollows<T>(s: seq<T>, a: nat, b: nat, i: nat)
    requires a < |s| && b < |s| && i < |s|
    ensures 0 <= MovedIndex(i, a, b) < |s|
    ensures MoveTo(s, a, b)[MovedIndex(i, a, b)] == s[i]
  {
    var rem := RemoveAt(s, a);
    if i != a {
      var j := if i < a then i else i - 1;
      assert rem[j] == s[i];
      InsertAtFollows(rem, b, s[a], j);
    }
  }

  /** A move is undone by the move in the opposite direction. */
  lemma MoveBack<T>(s: seq<T>, a: nat, b: nat)
    requires a < |s| && b < |s|
    ensures MoveTo(MoveTo(s, a, b), b, a) == s
  {
    var m := MoveTo(s, a, b);
    var back := MoveTo(m, b, a);
    forall i | 0 <= i < |s|
      ensures back[i] == s[i]
    {
      MoveToFollows(s, a, b, i);
      var j := MovedIndex(i, a, b);
      MoveToFollows(m, b, a, j);
      assert MovedIndex(j, b, a) == i;
    }
  }

  lemma MoveToMultiset<T>(s: seq<T>, a: nat, b: nat)
    requires a < |s| && b < |s|
    ensures multiset(MoveTo(s, a, b)) == multiset(s)
  {
    RemoveAtMultiset(s, a);
    InsertAtMultiset(RemoveAt(s, a), b, s[a]);
  }

  // ---------------------------------------------------------------- deleting a set of rows

  /** The elements whose positions are not in `d`, in their order. */
  function Survivors<T>(s: seq<T>, d: set<int>): (r: seq<T>)
    ensures |r| <= |s|
  {
    if s == [] then []
    else Survivors(s[..|s| - 1], d) + (if |s| - 1 in d then [] else [s[|s| - 1]])
  }

  /** How many positions of `d` lie below `r`. */
  function CountBelow(d: set<int>, r: int): nat
  {
    |set q | q in d && q < r|
  }

  lemma {:induction false} SurvivorsPrefix<T>(s: seq<T>, d: set<int>, k: nat)
    requires k <= |s|
    ensures |Survivors(s[..k], d)| <= |Survivors(s, d)|
    ensures Survivors(s, d)[..|Survivors(s[..k], d)|] == Survivors(s[..k], d)
    decreases |s| - k
  {
    if k < |s| {
      var t := s[..|s| - 1];
      assert t[..k] == s[..k];
      SurvivorsPrefix(t, d, k);
    } else {
      assert s[..k] == s;
    }
  }

  lemma {:induction false} SurvivorsCount<T>(s: seq<T>, d: set<int>, r: nat)
    requires r <= |s|
    requires forall q :: q in d ==> q >= 0
    ensures |Survivors(s[..r], d)| == r - CountBelow(d, r)
    decreases r
  {
    if r > 0 {
      SurvivorsCount(s, d, r - 1);
      assert s[..r][..r - 1] == s[..r - 1];
      var below := set q | q in d && q < r - 1;
      var upTo := set q | q in d && q < r;
      if r - 1 in d {
        assert upTo == below + {r - 1};
      } else {
        assert upTo == below;
      }
    }
  }

  /** A surviving row moves up by the number of deleted rows above it. */
  lemma SurvivorFollows<T>(s: seq<T>, d: set<int>, r: nat)
    requires r < |s| && r !in d
    requires forall q :: q in d ==> q >= 0
    ensures 0 <= r - CountBelow(d, r) < |Survivors(s, d)|
    ensures Survivors(s, d)[r - CountBelow(d, r)] == s[r]
  {
    SurvivorsCount(s, d, r);
    SurvivorsPrefix(s, d, r + 1);
    assert s[..r + 1][..r] == s[..r];
    assert Survivors(s[..r + 1], d) == Survivors(s[..r], d) + [s[r]];
  }

  lemma {:induction false} SurvivorsEmpty<T>(s: seq<T>, d: set<int>)
    requires forall q :: q in d ==> q < 0 || q >= |s|
    ensures Survivors(s, d) == s
    decreases |s|
  {
    if s != [] {
      SurvivorsEmpty(s[..|s| - 1], d);
    }
  }

  /** Deleting row r, which lies below every row already deleted, extends the deleted set. */
  lemma {:induction false} SurvivorsStep<T>(s: seq<T>, d: set<int>, r: nat)
    requires r < |s| && r !in d
    requires forall q :: q in d ==> q > r
    ensures r < |Survivors(s, d)|
    ensures RemoveAt(Survivors(s, d), r) == Survivors(s, d + {r})
    decreases |s|
  {
    var t := s[..|s| - 1];
    if r < |s| - 1 {
      SurvivorsStep(t, d, r);
    } else {
      SurvivorsEmpty(t, d);
      SurvivorsEmpty(t, d + {r});
    }
  }

  /** The positions of the true flags, in increasing order. */
  function TrueIndices(flags: seq<bool>): (r: seq<int>)
    ensures forall i :: i in r <==> 0 <= i < |flags| && flags[i]
    ensures forall a, b :: 0 <= a < b < |r| ==> r[a] < r[b]
  {
    if flags == [] then []
    else
      var last := |flags| - 1;
      var init := flags[..last];
      var r := TrueIndices(init);
      var tail := if flags[last] then [last] else [];
      assert forall i :: 0 <= i < |init| ==> init[i] == flags[i];
      assert forall a :: 0 <= a < |r| ==> r[a] in r && r[a] < last;
      assert forall i :: i in r + tail <==> i in r || i in tail;
      r + tail
  }

  /** s[::-1] */
  function Reverse<T>(s: seq<T>): (r: seq<T>)
    ensures |r| == |s| && forall i :: 0 <= i < |s| ==> r[i] == s[|s| - 1 - i]
  {
    seq(|s|, i requires 0 <= i < |s| => s[|s| - 1 - i])
  }

  /** Reversing keeps every element, as often as it occurs. */
  lemma {:induction false} ReverseMultiset<T>(s: seq<T>)
    ensures multiset(Reverse(s)) == multiset(s)
  {
    if s != [] {
      var n := |s| - 1;
      ReverseMultiset(s[..n]);
      assert Reverse(s) == [s[n]] + Reverse(s[..n]);
      assert s == s[..n] + [s[n]];
    }
  }

  /** list.index(x): the position of the first occurrence of x. */
  function FirstIndex<T(==)>(s: seq<T>, x: T): (i: nat)
    requires x in s
    ensures i < |s| && s[i] == x
    ensures forall j :: 0 <= j < i ==> s[j] != x
  {
    if s[0] == x then 0 else 1 + FirstIndex(s[1..], x)
  }

  /** A position holding x with no x before it is the first index of x. */
  lemma FirstIndexIs<T>(s: seq<T>, x: T, i: nat)
    requires i < |s| && s[i] == x && forall j :: 0 <= j < i ==> s[j] != x
    ensures FirstIndex(s, x) == i
  {
  }

  /** if x in list: list.remove(x) -- the first occurrence goes. */
  function RemoveFirst<T(==)>(s: seq<T>, x: T): (r: seq<T>)
    ensures x !in s ==> r == s
    ensures x in s ==> |r| == |s| - 1 && multiset(r) == multiset(s) - multiset{x}
  {
    if s == [] then []
    else
      assert s == [s[0]] + s[1..];
      if s[0] == x then s[1..] else [s[0]] + RemoveFirst(s[1..], x)
  }

  /** In a list without duplicates, removing x removes exactly x and keeps the list duplicate-free. */
  lemma RemoveFirstNoDup<T>(s: seq<T>, x: T, y: T)
    requires NoDup(s)
    ensures NoDup(RemoveFirst(s, x))
    ensures y in RemoveFirst(s, x) <==> y in s && y != x
  {
    var r := RemoveFirst(s, x);
    NoDupMultiset(s);
    if x in s {
      assert multiset(r) <= multiset(s);
      forall z ensures multiset(r)[z] <= 1 { }
      NoDupMultiset(r);
      assert multiset(s)[x] == 1;
      assert y in r <==> y in multiset(r);
    }
  }
}

=== FILE: sorting.dfy ===
// Python's sorted(): a stable insertion sort under a total preorder, and
// the orders the program sorts by (code-point order on str, ints).
module Sorting {
  import Text

  /** Python's `a <= b` on str: lexicographic by code point. */
  predicate LexLe(a: string, b: string)
    decreases |a|
  {
    a == [] || (b != [] && (a[0] < b[0] || (a[0] == b[0] && LexLe(a[1..], b[1..]))))
  }

  lemma {:induction false} LexLeTotal(a: string, b: string)
    ensures LexLe(a, b) || LexLe(b, a)
    decreases |a|
  {
    if a != [] && b != [] && a[0] == b[0] {
      LexLeTotal(a[1..], b[1..]);
    }
  }

  lemma {:induction false} LexLeTrans(a: string, b: string, c: string)
    requires LexLe(a, b) && LexLe(b, c)
    ensures LexLe(a, c)
    decreases |a|
  {
    if a != [] && b != [] && c != [] && a[0] == b[0] && b[0] == c[0] {
      LexLeTrans(a[1..], b[1..], c[1..]);
    }
  }

  lemma {:induction false} LexLeAntisym(a: string, b: string)
    requires LexLe(a, b) && LexLe(b, a)
    ensures a == b
    decreases |a|
  {
    if a != [] {
      LexLeAntisym(a[1..], b[1..]);
    }
  }

  ghost predicate TotalPreorder<T(!new)>(le: (T, T) -> bool)
  {
    (forall a, b :: le(a, b) || le(b, a)) &&
    (forall a, b, c :: le(a, b) && le(b, c) ==> le(a, c))
  }

  predicate SortedBy<T>(s: seq<T>, le: (T, T) -> bool)
  {
    forall i, j :: 0 <= i < j < |s| ==> le(s[i], s[j])
  }

  /** Inserts x before the first element it sorts before (keeps equal keys in order). */
  function InsertSorted<T(!new)>(x: T, s: seq<T>, le: (T, T) -> bool): (r: seq<T>)
    requires TotalPreorder(le) && SortedBy(s, le)
    ensures SortedBy(r, le)
    ensures multiset(r) == multiset(s) + multiset{x}
  {
    if s == [] then [x]
    else if le(x, s[0]) then [x] + s
    else
      var rest := InsertSorted(x, s[1..], le);
      assert s == [s[0]] + s[1..];
      assert forall k :: 0 <= k < |rest| ==> le(s[0], rest[k]) by {
        forall k | 0 <= k < |rest| ensures le(s[0], rest[k]) {
          assert rest[k] in multiset(rest);
          assert rest[k] == x || rest[k] in multiset(s[1..]);
        }
      }
      [s[0]] + rest
  }

  /** sorted(s, key=...): a sorted permutation of s. */
  function SortBy<T(!new)>(s: seq<T>, le: (T, T) -> bool): (r: seq<T>)
    requires TotalPreorder(le)
    ensures SortedBy(r, le)
    ensures multiset(r) == multiset(s)
  {
    if s == [] then []
    else
      assert s == [s[0]] + s[1..];
      InsertSorted(s[0], SortBy(s[1..], le), le)
  }

  function StrLe(a: string, b: string): bool { LexLe(a, b) }

  /** Order by the case-folded text: sorted(..., key=str.casefold). */
  function FoldedLe(a: string, b: string): bool { LexLe(Text.Lower(a), Text.Lower(b)) }

  function IntLe(a: int, b: int): bool { a <= b }

  lemma StrLeIsPreorder()
    ensures TotalPreorder(StrLe)
  {
    forall a, b ensures StrLe(a, b) || StrLe(b, a) { LexLeTotal(a, b); }
    forall a, b, c | StrLe(a, b) && StrLe(b, c) ensures StrLe(a, c) { LexLeTrans(a, b, c); }
  }

  lemma FoldedLeIsPreorder()
    ensures TotalPreorder(FoldedLe)
  {
    forall a, b ensures FoldedLe(a, b) || FoldedLe(b, a) {
      LexLeTotal(Text.Lower(a), Text.Lower(b));
    }
    forall a, b, c | FoldedLe(a, b) && FoldedLe(b, c) ensures FoldedLe(a, c) {
      LexLeTrans(Text.Lower(a), Text.Lower(b), Text.Lower(c));
    }
  }

  lemma IntLeIsPreorder()
    ensures TotalPreorder(IntLe)
  {
  }

  /** sorted(strings) */
  function SortStrings(s: seq<string>): (r: seq<string>)
    ensures SortedBy(r, StrLe) && multiset(r) == multiset(s)
  {
    StrLeIsPreorder();
    SortBy(s, StrLe)
  }

  /** sorted(strings, key=str.casefold) */
  function SortFolded(s: seq<string>): (r: seq<string>)
    ensures SortedBy(r, FoldedLe) && multiset(r) == multiset(s)
  {
    FoldedLeIsPreorder();
    SortBy(s, FoldedLe)
  }

  /** sorted(ints) */
  function SortInts(s: seq<int>): (r: seq<int>)
    ensures SortedBy(r, IntLe) && multiset(r) == multiset(s)
  {
    IntLeIsPreorder();
    SortBy(s, IntLe)
  }
}

=== FILE: stacking_changes.dfy ===
// What StackingTableModel.setData (gridlamedit/io/spreadsheet.py) asks for
// when a cell is edited: nothing, or a change from the old to the new field
// value that _apply_or_record_change then applies or records as a
// _LayerFieldEditCommand; and what replaying such a change, and undoing it,
// does to the layer list.
module StackingChanges {
  import opened Wrappers
  import opened Text
  import opened PyValues
  import opened GridModels
  import opened StackingLabels
  import opened StackingRows
  import opened StackingEdits

  /** The Qt item roles setData distinguishes; a check-state edit carries whether the value is Qt.Checked. */
  datatype Role = EditRole | DisplayRole | CheckStateRole(checked: bool) | OtherRole

  /** The old and new field values of a recorded edit. */
  datatype Change = Change(oldValue: FieldInput, newValue: FieldInput)

  /** _apply_field_value on the whole list: the edited row replaced, or the list as it was when the edit is refused. */
  function Edited(cs: seq<Camada>, row: int, column: int, v: FieldInput, defaults: RowDefaults, suggestion: string): (r: seq<Camada>)
    ensures |r| == |cs|
    ensures forall k :: 0 <= k < |cs| && k != row ==> r[k] == cs[k]
    ensures 0 <= row < |cs| ==> r[row] == EditRow(cs[row], column, v, defaults, suggestion).GetOr(cs[row])
  {
    if !(0 <= row < |cs|) then cs
    else match EditRow(cs[row], column, v, defaults, suggestion)
      case None => cs
      case Some(c) => cs[row := c]
  }

  // ---------------------------------------------------------------- what setData asks for

  /** The ply-type column: the normalised label, when it differs from the current one. */
  function PlyTypeChange(c: Camada, v: FieldInput): Option<Change>
  {
    var t := NormalizePlyTypeLabel(PlyTypeText(v));
    if c.plyType == t then None else Some(Change(TextInput(c.plyType), TextInput(t)))
  }

  /** The label columns: the normalised label (the row's default for a blank text), when it is valid and differs. */
  function LabelChange(current: string, v: FieldInput, default: string): Option<Change>
  {
    match NormalizeLabelInput(StrOrEmpty(v), default)
    case None => None
    case Some(l) => if current == l then None else Some(Change(TextInput(current), TextInput(l)))
  }

  /** The material column: str(value).strip(), when it differs (None gives the text "None"). */
  function MaterialChange(c: Camada, v: FieldInput): Option<Change>
  {
    var m := Trim(PyStr(v));
    if m == c.material then None else Some(Change(TextInput(c.material), TextInput(m)))
  }

  /**
   * The orientation setData asks for: Some(None) to clear it (for None, a
   * blank text, "x" or "empty"), Some(Some(a)) for a value that
   * normalises to the angle a, and None when the value does not normalise.
   */
  function OrientationRequest(v: FieldInput): (r: Option<Option<int>>)
    ensures r.Some? && r.value.Some? ==> InOrientationRange(r.value.value)
  {
    if v.NoInput? then Some(None)
    else
      var text := Trim(PyStr(v));
      if text == [] || Lower(text) in {"x", "empty"} then Some(None)
      else match AngleOfInput(v)
        case None => None
        case Some(a) => Some(Some(a))
  }

  /** The orientation column: the requested orientation, when there is one and it differs from the current one. */
  function OrientationChange(prev: Option<int>, v: FieldInput): Option<Change>
  {
    OrientationChangeTo(prev, OrientationRequest(v))
  }

  function OrientationChangeTo(prev: Option<int>, request: Option<Option<int>>): Option<Change>
  {
    match request
    case None => None
    case Some(o) => if o == prev then None else Some(Change(OrientationInput(prev), OrientationInput(o)))
  }

  /** setData with an edit or display role on column `column` of a layer whose row has the default labels `defaults`. */
  function ColumnChange(c: Camada, column: int, v: FieldInput, defaults: RowDefaults): Option<Change>
  {
    if column == ColPlyType then PlyTypeChange(c, v)
    else if column == ColSequence then LabelChange(c.sequence, v, defaults.sequence)
    else if column == ColPly then LabelChange(c.plyLabel, v, defaults.ply)
    else if column == ColMaterial then MaterialChange(c, v)
    else if column == ColOrientation then OrientationChange(c.orientacao, v)
    else None
  }

  // ---------------------------------------------------------------- replaying a change

  /** A label setData asks for is accepted again by the label normalisation, whatever the default. */
  lemma LabelChangeStable(current: string, v: FieldInput, default: string, st: LabelStyle, n: nat, default2: string)
    requires WellFormedStyle(st) && n >= 1 && default == LabelFor(st, n)
    requires LabelChange(current, v, default).Some?
    ensures var l := LabelChange(current, v, default).value.newValue;
      l.TextInput? && l.s != current && NormalizeLabelInput(l.s, default2) == Some(l.s) &&
      NormalizeLabelInput(StrOrEmpty(v), default) == Some(l.s)
  {
    if Trim(StrOrEmpty(v)) == [] {
      LabelRoundTrip(st, n, default2);
    } else {
      NormalizeLabelIdempotent(StrOrEmpty(v), default, default2);
    }
  }

  /** An orientation field value read back gives the orientation it stands for. */
  lemma OrientationInputRoundTrip(o: Option<int>)
    requires o.Some? ==> InOrientationRange(o.value)
    ensures OrientationFromInput(OrientationInput(o)) == Some(o)
  {
    if o.Some? {
      AngleInputAccepted(o.value);
    }
  }

  /** A recorded orientation change holds the requested orientation as its new value and the current one as its old value. */
  lemma OrientationChangeValues(prev: Option<int>, request: Option<Option<int>>)
    requires OrientationChangeTo(prev, request).Some?
    requires request.Some? && request.value.Some? ==> InOrientationRange(request.value.value)
    requires prev.Some? ==> InOrientationRange(prev.value)
    ensures var ch := OrientationChangeTo(prev, request).value;
      request.Some? && request.value != prev &&
      OrientationFromInput(ch.newValue) == Some(request.value) &&
      OrientationFromInput(ch.oldValue) == Some(prev)
  {
    OrientationInputRoundTrip(request.value);
    OrientationInputRoundTrip(prev);
  }

  /** A recorded material change holds the trimmed text, so redoing it sets exactly that material. */
  lemma MaterialChangeValues(c: Camada, v: FieldInput)
    requires MaterialChange(c, v).Some?
    ensures var ch := MaterialChange(c, v).value;
      ch.newValue == TextInput(Trim(PyStr(v))) && ch.newValue.s != c.material &&
      EditMaterial(c, ch.newValue) == ApplyMaterial(c, Trim(PyStr(v)))
  {
    TrimIdempotent(PyStr(v));
  }

  // Redoing a recorded change (_LayerFieldEditCommand.redo applies its new
  // value through _apply_field_value) does what setData asked for.

  lemma PlyTypeRedo(c: Camada, v: FieldInput)
    requires PlyTypeChange(c, v).Some?
    ensures var ch := PlyTypeChange(c, v).value;
      ch.oldValue == TextInput(c.plyType) && ch.newValue != ch.oldValue &&
      EditPlyType(c, ch.newValue) == EditPlyType(c, v)
  {
    CanonicalPlyTypesFixed();
    var t := NormalizePlyTypeLabel(PlyTypeText(v));
    assert PlyTypeText(TextInput(t)) == t;
  }

  /** A label change redone is the edit itself, for a default label in a well-formed style. */
  lemma SequenceRedo(c: Camada, v: FieldInput, d: string, st: LabelStyle, n: nat)
    requires WellFormedStyle(st) && n >= 1 && d == LabelFor(st, n)
    requires LabelChange(c.sequence, v, d).Some?
    ensures var ch := LabelChange(c.sequence, v, d).value;
      EditSequence(c, ch.newValue, d) == EditSequence(c, v, d)
  {
    LabelChangeStable(c.sequence, v, d, st, n, d);
  }


  lemma PlyRedo(c: Camada, v: FieldInput, d: string, st: LabelStyle, n: nat)
    requires WellFormedStyle(st) && n >= 1 && d == LabelFor(st, n)
    requires LabelChange(c.plyLabel, v, d).Some?
    ensures var ch := LabelChange(c.plyLabel, v, d).value;
      EditPly(c, ch.newValue, d) == EditPly(c, v, d)
  {
    LabelChangeStable(c.plyLabel, v, d, st, n, d);
  }


  /**
   * For a text value a material change redone is the edit itself (a None
   * value is recorded as the text "None", where the edit reads it as a
   * blank material).
   */
  lemma MaterialRedo(c: Camada, v: FieldInput)
    requires MaterialChange(c, v).Some? && v.TextInput?
    ensures var ch := MaterialChange(c, v).value;
      ch.oldValue == TextInput(c.material) && EditMaterial(c, ch.newValue) == EditMaterial(c, v)
  {
    MaterialChangeValues(c, v);
  }

  /** An orientation change redone sets the requested orientation ("empty" clears it here, where the edit itself refuses it). */
  lemma OrientationRedo(c: Camada, v: FieldInput, suggestion: string)
    requires c.orientacao.Some? ==> InOrientationRange(c.orientacao.value)
    requires OrientationChange(c.orientacao, v).Some?
    ensures var ch := OrientationChange(c.orientacao, v).value;
      var request := OrientationRequest(v);
      request.Some? && request.value != c.orientacao &&
      EditOrientation(c, ch.newValue, suggestion) == Some(ApplyOrientation(c, request.value, suggestion)) &&
      EditOrientation(c, ch.oldValue, suggestion) == Some(ApplyOrientation(c, c.orientacao, suggestion))
  {
    OrientationChangeValues(c.orientacao, OrientationRequest(v));
  }

  // ---------------------------------------------------------------- undoing a change

  /** Undoing a ply-type change on a layer without a foil material gives the layer back. */
  lemma PlyTypeChangeUndone(c: Camada, v: FieldInput)
    requires PlyTypeChange(c, v).Some?
    requires c.plyType == Structural || c.plyType == NonStructural
    requires !IsFoil(c.material)
    ensures var ch := PlyTypeChange(c, v).value;
      EditPlyType(EditPlyType(c, ch.newValue), ch.oldValue) == c
  {
    PlyTypeEditUndo(c, PlyTypeChange(c, v).value.newValue);
  }

  /**
   * A label change is accepted when redone, and undone by the old label
   * when that was already in normal form; the change was computed with the
   * row's default label number n in the column's style, and `default2`,
   * `default3` are the defaults in force when redoing and undoing.
   */
  lemma SequenceChangeUndone(c: Camada, v: FieldInput, st: LabelStyle, n: nat, default2: string, default3: string)
    requires WellFormedStyle(st) && n >= 1 && LabelChange(c.sequence, v, LabelFor(st, n)).Some?
    requires c.sequence != "" && NormalizeLabelInput(c.sequence, "") == Some(c.sequence)
    ensures var ch := LabelChange(c.sequence, v, LabelFor(st, n)).value;
      var r := EditSequence(c, ch.newValue, default2);
      r == Some(c.(sequence := ch.newValue.s)) &&
      EditSequence(r.value, ch.oldValue, default3) == Some(c)
  {
    LabelChangeStable(c.sequence, v, LabelFor(st, n), st, n, default2);
    NormalizedLabelAnyDefault(c.sequence, default3);
  }

  lemma PlyChangeUndone(c: Camada, v: FieldInput, st: LabelStyle, n: nat, default2: string, default3: string)
    requires WellFormedStyle(st) && n >= 1 && LabelChange(c.plyLabel, v, LabelFor(st, n)).Some?
    requires c.plyLabel != "" && NormalizeLabelInput(c.plyLabel, "") == Some(c.plyLabel)
    ensures var ch := LabelChange(c.plyLabel, v, LabelFor(st, n)).value;
      var r := EditPly(c, ch.newValue, default2);
      r == Some(c.(plyLabel := ch.newValue.s)) &&
      EditPly(r.value, ch.oldValue, default3) == Some(c)
  {
    LabelChangeStable(c.plyLabel, v, LabelFor(st, n), st, n, default2);
    NormalizedLabelAnyDefault(c.plyLabel, default3);
  }

  /**
   * Undoing a material change gives the layer back when neither material
   * is a foil and no ply type is remembered (a refused change leaves the
   * layer as it was, and its undo does too).
   */
  lemma MaterialChangeUndone(c: Camada, m: string)
    requires c.symmetryBackup.None? && !IsFoil(c.material) && !IsFoil(m)
    requires c.orientacao.None? ==> c.material == ""
    ensures var r := ApplyMaterial(c, m);
      (r.Some? ==> ApplyMaterial(r.value, c.material) == Some(c)) &&
      (r.None? ==> ApplyMaterial(c, c.material) == Some(c))
  {
  }

  /** Undoing a change from one angle to another gives the layer back when it has a material. */
  lemma OrientationChangeUndone(c: Camada, b: int, suggestion: string)
    requires c.orientacao.Some? && c.material != ""
    ensures ApplyOrientation(ApplyOrientation(c, Some(b), suggestion), c.orientacao, suggestion) == c
  {
  }

  /**
   * Giving an orientation to a layer without one and undoing it leaves the
   * layer structural when no material was suggested, where it was
   * non-structural before.
   */
  lemma OrientationSetUndone(c: Camada, b: int)
    requires c.orientacao.None? && c.material == "" && c.plyType == NonStructural
    ensures ApplyOrientation(ApplyOrientation(c, Some(b), ""), None, "") == c.(plyType := Structural)
  {
  }

  /**
   * Undoing the clearing of an orientation does not give the material
   * back: the layer gets the suggested material (if any) and becomes
   * structural, whatever it was before.
   */
  lemma OrientationClearUndone(c: Camada, suggestion: string)
    requires c.orientacao.Some? && c.material != ""
    ensures ApplyOrientation(ApplyOrientation(c, None, suggestion), c.orientacao, suggestion) ==
      c.(material := suggestion, plyType := Structural)
  {
  }
}

=== FILE: stacking_edits.dfy ===
// One cell edit of the stacking table (gridlamedit/io/spreadsheet.py,
// StackingTableModel._apply_field_value): what each column does to the
// layer in that row, including the foil rule (a foil material forces the
// non-structural ply type and remembers the previous one) and the
// orientation rule (no orientation, no material).
module StackingEdits {
  import opened Wrappers
  import opened Text
  import opened PyValues
  import opened GridModels
  import opened StackingLabels
  import opened StackingRows

  const ColNumber: int := 0
  const ColSelect: int := 1
  const ColSequence: int := 2
  const ColPly: int := 3
  const ColPlyType: int := 4
  const ColMaterial: int := 5
  const ColOrientation: int := 6

  /** The Python values an edit carries: None, a text, or an orientation (a float with no fraction). */
  datatype FieldInput = NoInput | TextInput(s: string) | AngleInput(a: int)

  /** str(value) */
  function PyStr(v: FieldInput): string
  {
    match v
    case NoInput => "None"
    case TextInput(s) => s
    case AngleInput(a) => IntToString(a) + ".0"
  }

  /** str(value or ""): None, "" and 0.0 are falsy and give "". */
  function StrOrEmpty(v: FieldInput): (r: string)
    ensures v.TextInput? ==> r == v.s
    ensures v.NoInput? ==> r == ""
  {
    match v
    case NoInput => ""
    case TextInput(s) => s
    case AngleInput(a) => if a == 0 then "" else PyStr(v)
  }

  function AsValue(v: FieldInput): Value
  {
    match v
    case NoInput => VNone
    case TextInput(s) => VText(s)
    case AngleInput(a) => VFloat(Num(a as real))
  }

  /** The text _normalize_ply_type_token starts from: "" for None, str(value) otherwise. */
  function PlyTypeText(v: FieldInput): string
  {
    if v.NoInput? then "" else PyStr(v)
  }

  /** The edit value that stands for an orientation field (None or the angle). */
  function OrientationInput(o: Option<int>): FieldInput
  {
    if o.None? then NoInput else AngleInput(o.value)
  }

  predicate IsFoil(material: string)
  {
    material != "" && Contains(Lower(material), "foil")
  }

  /**
   * The orientation an edit asks for: None for None, blank or "x"; the
   * normalised angle of the value, or else of its text; no result when
   * neither normalises (the edit is refused).
   */
  function OrientationFromInput(v: FieldInput): (r: Option<Option<int>>)
    ensures r.Some? && r.value.Some? ==> InOrientationRange(r.value.value)
  {
    if v.NoInput? then Some(None)
    else
      var text := Trim(PyStr(v));
      if text == [] || Lower(text) == "x" then Some(None)
      else match AngleOfInput(v)
        case Some(a) => Some(Some(a))
        case None => None
  }

  /** normalize_angle(value), falling back to normalize_angle(str(value).strip()). */
  function AngleOfInput(v: FieldInput): (r: Option<int>)
    ensures r.Some? ==> InOrientationRange(r.value)
  {
    match NormalizeAngle(AsValue(v))
    case Some(a) => Some(a)
    case None => NormalizeAngle(VText(Trim(PyStr(v))))
  }

  /** An orientation in range, given as a number, is taken as it is. */
  lemma AngleInputAccepted(a: int)
    requires InOrientationRange(a)
    ensures OrientationFromInput(AngleInput(a)) == Some(Some(a))
  {
    AngleTextShown(a);
    AngleOfNumber(a);
  }

  lemma AngleTextShown(a: int)
    ensures var text := Trim(PyStr(AngleInput(a))); text != [] && Lower(text) != "x"
  {
    AngleTextTrimmed(a);
    TrimmedLength(PyStr(AngleInput(a)));
    LongTextNotX(Trim(PyStr(AngleInput(a))));
  }

  lemma LongTextNotX(t: string)
    requires |t| >= 3
    ensures t != [] && Lower(t) != "x"
  {
    assert |Lower(t)| == |t|;
  }

  lemma AngleOfNumber(a: int)
    requires InOrientationRange(a)
    ensures AngleOfInput(AngleInput(a)) == Some(a)
  {
    NormalizeAngleAccepts(a);
    assert AsValue(AngleInput(a)) == VFloat(Num(a as real));
  }

  lemma AngleTextTrimmed(a: int)
    ensures |PyStr(AngleInput(a))| >= 3 && IsTrimmed(PyStr(AngleInput(a)))
  {
    var digits := NatToString(if a < 0 then -a else a);
    var s := IntToString(a) + ".0";
    assert IsDigit(digits[0]);
    assert s[0] == (if a < 0 then '-' else digits[0]);
    assert s[|s| - 1] == '0';
  }

  /** The ply-type column: normalised label; a foil layer's remembered type follows the edit. */
  function EditPlyType(c: Camada, v: FieldInput): (r: Camada)
    ensures r.plyType == Structural || r.plyType == NonStructural
  {
    ApplyPlyType(c, NormalizePlyTypeLabel(PlyTypeText(v)))
  }

  /** Setting the (already normalised) ply type `t`. */
  function ApplyPlyType(c: Camada, t: string): (r: Camada)
    ensures r.plyType == t
  {
    var c1 := c.(plyType := t);
    if IsFoil(c.material) && c.symmetryBackup.Some? then c1.(symmetryBackup := Some(t)) else c1
  }

  /** The material column: the trimmed text of the value, applied by ApplyMaterial. */
  function EditMaterial(c: Camada, v: FieldInput): (r: Option<Camada>)
  {
    ApplyMaterial(c, Trim(StrOrEmpty(v)))
  }

  /**
   * Setting the (trimmed) material `m`: refused when a material is given
   * to a layer without orientation; a foil material saves the ply type and
   * forces the non-structural one; any other material restores a saved type.
   */
  function ApplyMaterial(c: Camada, m: string): (r: Option<Camada>)
    ensures r.None? <==> m != "" && c.orientacao.None?
    ensures r.Some? ==> r.value.material == m
  {
    if m != "" && c.orientacao.None? then None
    else
      var c1 := c.(material := m);
      if IsFoil(m) then Some(c1.(symmetryBackup := Some(c.plyType), plyType := NonStructural))
      else if c.symmetryBackup.Some? then Some(c1.(plyType := c.symmetryBackup.value, symmetryBackup := None))
      else Some(c1)
  }

  /** The orientation column: refused when the value gives no orientation, else ApplyOrientation. */
  function EditOrientation(c: Camada, v: FieldInput, suggestion: string): (r: Option<Camada>)
    ensures r.None? <==> OrientationFromInput(v).None?
  {
    match OrientationFromInput(v)
    case None => None
    case Some(o) => Some(ApplyOrientation(c, o, suggestion))
  }

  /**
   * Setting orientation `o`: clearing it clears the material and makes the
   * layer non-structural; giving one to a layer without material fills in
   * the suggestion, and a layer that had no orientation and was
   * non-structural becomes structural.
   */
  function ApplyOrientation(c: Camada, o: Option<int>, suggestion: string): (r: Camada)
    ensures r.orientacao == o
  {
    var c1 := c.(orientacao := o);
    if o.None? && c1.material != "" then c1.(material := "", plyType := NonStructural)
    else if o.Some? && c1.material == "" then
      var c2 := if suggestion != "" then c1.(material := suggestion) else c1;
      if c.orientacao.None? && c2.plyType == NonStructural then c2.(plyType := Structural) else c2
    else c1
  }

  /** The default labels of a row: the number row + 1 in the style of each label column. */
  datatype RowDefaults = RowDefaults(sequence: string, ply: string)

  function DefaultsFor(cs: seq<Camada>, row: nat): RowDefaults
  {
    RowDefaults(DefaultLabel(SequenceLabels(cs), "Seq", row), DefaultLabel(PlyLabels(cs), "Ply", row))
  }

  /**
   * _apply_field_value on one layer: the edited layer, or no result when
   * the column or the value is refused; `defaults` are the row's default
   * labels and `suggestion` the most used material.
   */
  function EditRow(c: Camada, column: int, v: FieldInput, defaults: RowDefaults, suggestion: string): (r: Option<Camada>)
    ensures r.Some? ==> ColSequence <= column <= ColOrientation
  {
    if column == ColSequence then EditSequence(c, v, defaults.sequence)
    else if column == ColPly then EditPly(c, v, defaults.ply)
    else if column == ColPlyType then Some(EditPlyType(c, v))
    else if column == ColMaterial then EditMaterial(c, v)
    else if column == ColOrientation then EditOrientation(c, v, suggestion)
    else None
  }

  /** The sequence column: the normalised label, the row's default for a blank one; refused when it does not match. */
  function EditSequence(c: Camada, v: FieldInput, default: string): (r: Option<Camada>)
  {
    match NormalizeLabelInput(StrOrEmpty(v), default)
    case None => None
    case Some(l) => Some(c.(sequence := l))
  }

  /** The ply column, likewise. */
  function EditPly(c: Camada, v: FieldInput, default: string): (r: Option<Camada>)
  {
    match NormalizeLabelInput(StrOrEmpty(v), default)
    case None => None
    case Some(l) => Some(c.(plyLabel := l))
  }

  // ---------------------------------------------------------------- properties of one edit

  /** Clearing the orientation always succeeds, clears the material, and a layer that had one becomes non-structural. */
  lemma ClearOrientation(c: Camada, defaults: RowDefaults, suggestion: string)
    ensures var r := EditRow(c, ColOrientation, NoInput, defaults, suggestion);
      r.Some? && r.value.orientacao.None? && r.value.material == "" &&
      (c.material != "" ==> r.value.plyType == NonStructural) &&
      (c.material == "" ==> r.value == c.(orientacao := None))
  {
  }

  /** A material is accepted exactly when it is blank or the layer has an orientation. */
  lemma MaterialNeedsOrientation(c: Camada, v: FieldInput, defaults: RowDefaults, suggestion: string)
    ensures EditRow(c, ColMaterial, v, defaults, suggestion).Some? <==>
            Trim(StrOrEmpty(v)) == "" || c.orientacao.Some?
  {
  }

  /** The label columns change only their label. */
  lemma LabelKeeps(c: Camada, v: FieldInput, default: string)
    ensures EditSequence(c, v, default).Some? ==> EditSequence(c, v, default).value == c.(sequence := EditSequence(c, v, default).value.sequence)
    ensures EditPly(c, v, default).Some? ==> EditPly(c, v, default).value == c.(plyLabel := EditPly(c, v, default).value.plyLabel)
  {
  }

  /** The material column changes only the material, the ply type and the remembered ply type. */
  lemma MaterialKeeps(c: Camada, m: string)
    requires ApplyMaterial(c, m).Some?
    ensures var r := ApplyMaterial(c, m).value;
      r == c.(material := m, plyType := r.plyType, symmetryBackup := r.symmetryBackup)
  {
  }

  /** A foil material remembers the ply type and forces non-structural; the ply type of any other comes from the memory, if there is one. */
  lemma MaterialPlyType(c: Camada, m: string)
    requires ApplyMaterial(c, m).Some?
    ensures var r := ApplyMaterial(c, m).value;
      (IsFoil(m) ==> r.plyType == NonStructural && r.symmetryBackup == Some(c.plyType)) &&
      (!IsFoil(m) ==> r.symmetryBackup.None? && r.plyType == c.symmetryBackup.GetOr(c.plyType))
  {
  }

  /** The orientation column changes only the orientation, the material and the ply type. */
  lemma OrientationKeeps(c: Camada, o: Option<int>, suggestion: string)
    ensures var r := ApplyOrientation(c, o, suggestion);
      r == c.(orientacao := o, material := r.material, plyType := r.plyType)
  {
  }

  /** A layer left without orientation has no material; one given an orientation keeps its material or gets the suggestion. */
  lemma OrientationMaterial(c: Camada, o: Option<int>, suggestion: string)
    ensures var r := ApplyOrientation(c, o, suggestion);
      (o.None? ==> r.material == "" && (c.material != "" ==> r.plyType == NonStructural)) &&
      (o.Some? ==> r.material == (if c.material == "" then suggestion else c.material))
  {
  }

  /** Setting a foil material and then a plain one gives the layer back its ply type. */
  lemma FoilRestoresPlyType(c: Camada, foil: string, plain: string)
    requires c.orientacao.Some? && c.symmetryBackup.None?
    requires IsFoil(foil) && !IsFoil(plain)
    ensures var f := ApplyMaterial(c, foil);
      f.Some? && f.value.plyType == NonStructural &&
      ApplyMaterial(f.value, plain) == Some(c.(material := plain))
  {
  }

  /** A second foil material overwrites the remembered ply type: the type before the first is lost. */
  lemma SecondFoilForgets(c: Camada, foil1: string, foil2: string, plain: string)
    requires c.orientacao.Some? && c.symmetryBackup.None? && c.plyType == Structural
    requires IsFoil(foil1) && IsFoil(foil2) && !IsFoil(plain)
    ensures var r := ApplyMaterial(ApplyMaterial(ApplyMaterial(c, foil1).value, foil2).value, plain);
      r.Some? && r.value.plyType == NonStructural
  {
    assert Structural != NonStructural by {
      assert |Structural| != |NonStructural|;
    }
  }

  /** A label edit followed by the edit back to the old, normalised label restores the layer. */
  lemma SequenceEditUndo(c: Camada, v: FieldInput, default: string, default2: string)
    requires c.sequence != "" && NormalizeLabelInput(c.sequence, "") == Some(c.sequence)
    requires EditSequence(c, v, default).Some?
    ensures EditSequence(EditSequence(c, v, default).value, TextInput(c.sequence), default2) == Some(c)
  {
    NormalizedLabelAnyDefault(c.sequence, default2);
  }

  lemma PlyEditUndo(c: Camada, v: FieldInput, default: string, default2: string)
    requires c.plyLabel != "" && NormalizeLabelInput(c.plyLabel, "") == Some(c.plyLabel)
    requires EditPly(c, v, default).Some?
    ensures EditPly(EditPly(c, v, default).value, TextInput(c.plyLabel), default2) == Some(c)
  {
    NormalizedLabelAnyDefault(c.plyLabel, default2);
  }

  /** A label the normalisation keeps is kept whatever the column's default. */
  lemma NormalizedLabelAnyDefault(t: string, default: string)
    requires t != "" && NormalizeLabelInput(t, "") == Some(t)
    ensures NormalizeLabelInput(t, default) == Some(t)
  {
    assert Trim(t) != [];
  }

  /** A ply-type edit on a non-foil layer is undone by the edit back to its old (canonical) type. */
  lemma PlyTypeEditUndo(c: Camada, v: FieldInput)
    requires c.plyType == Structural || c.plyType == NonStructural
    requires !IsFoil(c.material)
    ensures EditPlyType(EditPlyType(c, v), TextInput(c.plyType)) == c
  {
    CanonicalPlyTypesFixed();
    assert PlyTypeText(TextInput(c.plyType)) == c.plyType;
  }

  lemma CanonicalPlyTypesFixed()
    ensures NormalizePlyTypeLabel(Structural) == Structural
    ensures NormalizePlyTypeLabel(NonStructural) == NonStructural
  {
    StructuralIsCanonical();
    NonStructuralIsCanonical();
  }
}

=== FILE: stacking_rows.dfy ===
// Row bookkeeping of the stacking table (gridlamedit/io/spreadsheet.py,
// StackingTableModel): layer defaults, renumbering of idx / sequence /
// ply labels, and how the red and green highlight row sets follow the
// layers when rows are inserted, removed or moved.
module StackingRows {
  import opened Wrappers
  import opened Text
  import opened Seqs
  import opened GridModels
  import opened StackingLabels

  // ---------------------------------------------------------------- layer defaults

  /**
   * _ensure_layer_defaults: the ply type normalised, the rosette stripped
   * (or the default), and a layer without orientation loses its material
   * and becomes non-structural.
   */
  function EnsureLayerDefaults(c: Camada): (r: Camada)
    ensures r.plyType == Structural || r.plyType == NonStructural
    ensures r.orientacao == c.orientacao && r.idx == c.idx && r.sequence == c.sequence && r.plyLabel == c.plyLabel
    ensures r.orientacao.None? ==> r.material == "" && r.plyType == NonStructural
    ensures r.orientacao.Some? ==> r.material == c.material && r.plyType == NormalizePlyTypeLabel(c.plyType)
    ensures r.rosette != [] && IsTrimmed(r.rosette)
    ensures Trim(c.rosette) != [] ==> r.rosette == Trim(c.rosette)
  {
    var withRosette := c.(plyType := NormalizePlyTypeLabel(c.plyType), rosette := RosetteOrDefault(c.rosette));
    if c.orientacao.None? then withRosette.(material := "", plyType := NonStructural) else withRosette
  }

  /** The stripped rosette text, or the default label when it is blank. */
  function RosetteOrDefault(rosette: string): (r: string)
    ensures r != [] && IsTrimmed(r)
    ensures Trim(rosette) != [] ==> r == Trim(rosette)
  {
    var t := Trim(rosette);
    if t == [] then
      DefaultRosetteTrimmed();
      DefaultRosette
    else t
  }

  lemma DefaultRosetteTrimmed()
    ensures DefaultRosette != [] && IsTrimmed(DefaultRosette)
  {
    assert DefaultRosette[0] == 'R' && DefaultRosette[8] == '1';
  }

  lemma EnsureLayerDefaultsIdempotent(c: Camada)
    ensures EnsureLayerDefaults(EnsureLayerDefaults(c)) == EnsureLayerDefaults(c)
  {
    var d := EnsureLayerDefaults(c);
    TrimOfTrimmed(d.rosette);
    NormalizePlyTypeIdempotent(c.plyType);
    TokenOfNonStructural();
    assert NormalizePlyTypeLabel(d.plyType) == d.plyType;
  }

  /** The most-used material offered for an oriented layer without one (blank when there is none). */
  function SuggestionOf(provided: Option<string>): string
  {
    Trim(provided.GetOr(""))
  }

  /** insert_layer's fill-in: an oriented layer without material takes the suggestion. */
  function FillMaterial(c: Camada, suggestion: string): (r: Camada)
    ensures r == c || (c.orientacao.Some? && c.material == "" && r == c.(material := suggestion))
  {
    if c.orientacao.Some? && c.material == "" && suggestion != "" then c.(material := suggestion) else c
  }

  // ---------------------------------------------------------------- renumbering

  /** _sync_indices: every layer's idx becomes its row. */
  function Reindexed(cs: seq<Camada>): (r: seq<Camada>)
    ensures |r| == |cs|
    ensures forall i :: 0 <= i < |cs| ==> r[i] == cs[i].(idx := i)
  {
    seq(|cs|, i requires 0 <= i < |cs| => cs[i].(idx := i))
  }

  function SequenceLabels(cs: seq<Camada>): (r: seq<string>)
    ensures |r| == |cs| && forall i :: 0 <= i < |cs| ==> r[i] == cs[i].sequence
  {
    seq(|cs|, i requires 0 <= i < |cs| => cs[i].sequence)
  }

  function PlyLabels(cs: seq<Camada>): (r: seq<string>)
    ensures |r| == |cs| && forall i :: 0 <= i < |cs| ==> r[i] == cs[i].plyLabel
  {
    seq(|cs|, i requires 0 <= i < |cs| => cs[i].plyLabel)
  }

  function SequenceStyle(cs: seq<Camada>): (st: LabelStyle)
    ensures WellFormedStyle(st)
  {
    assert ValidPrefix("Seq") && !IsDigit("Seq"[2]);
    LabelStyleOf(SequenceLabels(cs), "Seq")
  }

  function PlyStyle(cs: seq<Camada>): (st: LabelStyle)
    ensures WellFormedStyle(st)
  {
    assert ValidPrefix("Ply") && !IsDigit("Ply"[2]);
    LabelStyleOf(PlyLabels(cs), "Ply")
  }

  /** Row i's sequence label becomes `st`'s label number i + 1. */
  function SequenceNumbered(cs: seq<Camada>, st: LabelStyle): (r: seq<Camada>)
    ensures |r| == |cs|
    ensures forall i :: 0 <= i < |cs| ==> r[i] == cs[i].(sequence := LabelFor(st, i + 1))
  {
    seq(|cs|, i requires 0 <= i < |cs| => cs[i].(sequence := LabelFor(st, i + 1)))
  }

  /** Row i's ply label becomes `st`'s label number i + 1. */
  function PlyNumbered(cs: seq<Camada>, st: LabelStyle): (r: seq<Camada>)
    ensures |r| == |cs|
    ensures forall i :: 0 <= i < |cs| ==> r[i] == cs[i].(plyLabel := LabelFor(st, i + 1))
  {
    seq(|cs|, i requires 0 <= i < |cs| => cs[i].(plyLabel := LabelFor(st, i + 1)))
  }

  /** _force_sequence_sync: every row is labelled in the column's style with number row + 1. */
  function SequenceSynced(cs: seq<Camada>): seq<Camada>
  {
    SequenceNumbered(cs, SequenceStyle(cs))
  }

  /** _force_ply_sync */
  function PlySynced(cs: seq<Camada>): seq<Camada>
  {
    PlyNumbered(cs, PlyStyle(cs))
  }

  /** What every structural edit ends with: indices, then sequence labels, then ply labels. */
  function Resynced(cs: seq<Camada>): (r: seq<Camada>)
    ensures |r| == |cs|
  {
    PlySynced(SequenceSynced(Reindexed(cs)))
  }

  /** After renumbering, row i has idx i and labels numbered i + 1, and nothing else changed. */
  /** Row i of r is row i of cs with idx i and labels number i + 1 in the styles `sst` and `pst`. */
  predicate Renumbered(cs: seq<Camada>, r: seq<Camada>, sst: LabelStyle, pst: LabelStyle)
  {
    |r| == |cs| &&
    forall i :: 0 <= i < |cs| ==>
      r[i] == cs[i].(idx := i, sequence := LabelFor(sst, i + 1), plyLabel := LabelFor(pst, i + 1))
  }

  lemma ResyncedRows(cs: seq<Camada>)
    ensures Renumbered(cs, Resynced(cs), SequenceStyle(cs), PlyStyle(cs))
  {
    var a := Reindexed(cs);
    assert SequenceLabels(a) == SequenceLabels(cs);
    var b := SequenceSynced(a);
    assert PlyLabels(b) == PlyLabels(cs);
  }

  /** Each renumbered label is one the label normalisation keeps as it is. */
  lemma ResyncedLabelsNormalize(cs: seq<Camada>, i: nat, default: string)
    requires i < |cs|
    ensures NormalizeLabelInput(Resynced(cs)[i].sequence, default) == Some(Resynced(cs)[i].sequence)
    ensures NormalizeLabelInput(Resynced(cs)[i].plyLabel, default) == Some(Resynced(cs)[i].plyLabel)
  {
    ResyncedRows(cs);
    NumberedLabelNormalizes(Resynced(cs)[i].sequence, SequenceStyle(cs), i + 1, default);
    NumberedLabelNormalizes(Resynced(cs)[i].plyLabel, PlyStyle(cs), i + 1, default);
  }

  lemma NumberedLabelNormalizes(t: string, st: LabelStyle, n: nat, default: string)
    requires WellFormedStyle(st) && n >= 1 && t == LabelFor(st, n)
    ensures NormalizeLabelInput(t, default) == Some(t)
  {
    LabelRoundTrip(st, n, default);
  }

  /** The style read back from a label written in a well-formed style is that style. */
  lemma StyleOfLabelFor(st: LabelStyle, n: nat, rest: seq<string>, defaultPrefix: string)
    requires WellFormedStyle(st)
    ensures LabelStyleOf([LabelFor(st, n)] + rest, defaultPrefix) == st
  {
    var t := LabelFor(st, n);
    assert ([t] + rest)[0] == t;
    LabelForTrimmed(st, n);
    MatchOfLabelFor(st, n);
    MatchStyleOfLabelFor(st, n);
  }

  /** A label list whose first entry is written in a well-formed style has that style. */
  lemma StyleOfNumbered(labels: seq<string>, st: LabelStyle, defaultPrefix: string)
    requires WellFormedStyle(st) && labels != [] && labels[0] == LabelFor(st, 1)
    ensures LabelStyleOf(labels, defaultPrefix) == st
  {
    assert labels == [labels[0]] + labels[1..];
    StyleOfLabelFor(st, 1, labels[1..], defaultPrefix);
  }

  lemma StylesOfResynced(cs: seq<Camada>)
    ensures SequenceStyle(Resynced(cs)) == SequenceStyle(cs)
    ensures PlyStyle(Resynced(cs)) == PlyStyle(cs)
  {
    var r := Resynced(cs);
    ResyncedRows(cs);
    if cs != [] {
      StyleOfNumbered(SequenceLabels(r), SequenceStyle(cs), "Seq");
      StyleOfNumbered(PlyLabels(r), PlyStyle(cs), "Ply");
    }
  }

  /** Renumbering twice is renumbering once. */
  lemma ResyncedIdempotent(cs: seq<Camada>)
    ensures Resynced(Resynced(cs)) == Resynced(cs)
  {
    var r := Resynced(cs);
    ResyncedRows(cs);
    ResyncedRows(r);
    StylesOfResynced(cs);
    RenumberedTwice(cs, r, Resynced(r), SequenceStyle(cs), PlyStyle(cs));
  }

  lemma RenumberedTwice(cs: seq<Camada>, r: seq<Camada>, rr: seq<Camada>, sst: LabelStyle, pst: LabelStyle)
    requires Renumbered(cs, r, sst, pst) && Renumbered(r, rr, sst, pst)
    ensures rr == r
  {
    assert forall i :: 0 <= i < |r| ==> rr[i] == r[i];
  }

  // ---------------------------------------------------------------- highlight rows

  /** _shift_highlights_on_insert */
  function ShiftOnInsert(rows: set<int>, p: int): set<int>
  {
    set r | r in rows :: ShiftIndex(r, p)
  }

  /** _adjust_highlights_on_remove: removed rows vanish, the others move up past the removed rows above them. */
  function AdjustOnRemove(rows: set<int>, removed: set<int>): set<int>
  {
    var d := set q | q in removed && q >= 0;
    set r | r in rows && r !in d :: r - CountBelow(d, r)
  }

  /** _update_highlights_on_move */
  function MoveHighlights(rows: set<int>, source: int, target: int): set<int>
  {
    set r | r in rows :: MovedIndex(r, source, target)
  }

  /** A highlighted row still points at the same layer after an insertion. */
  lemma HighlightFollowsInsert<T>(s: seq<T>, rows: set<int>, p: nat, x: T, r: int)
    requires p <= |s| && r in rows && 0 <= r < |s|
    ensures ShiftIndex(r, p) in ShiftOnInsert(rows, p)
    ensures InsertAt(s, p, x)[ShiftIndex(r, p)] == s[r]
  {
    InsertAtFollows(s, p, x, r);
  }

  /** A highlighted row that survives a deletion still points at the same layer; deleted rows lose their highlight. */
  lemma HighlightFollowsRemove<T>(s: seq<T>, rows: set<int>, d: set<int>, r: int)
    requires r in rows && 0 <= r < |s| && r !in d
    requires forall q :: q in d ==> q >= 0
    ensures r - CountBelow(d, r) in AdjustOnRemove(rows, d)
    ensures 0 <= r - CountBelow(d, r) < |Survivors(s, d)|
    ensures Survivors(s, d)[r - CountBelow(d, r)] == s[r]
  {
    assert (set q | q in d && q >= 0) == d;
    SurvivorFollows(s, d, r);
  }

  /** A highlighted row still points at the same layer after a move. */
  lemma HighlightFollowsMove<T>(s: seq<T>, rows: set<int>, a: nat, b: nat, r: int)
    requires a < |s| && b < |s| && r in rows && 0 <= r < |s|
    ensures MovedIndex(r, a, b) in MoveHighlights(rows, a, b)
    ensures MoveTo(s, a, b)[MovedIndex(r, a, b)] == s[r]
  {
    MoveToFollows(s, a, b, r);
  }

  /** Moving back puts every highlight where it was. */
  lemma MoveHighlightsBack(rows: set<int>, a: int, b: int)
    ensures MoveHighlights(MoveHighlights(rows, a, b), b, a) == rows
  {
    var m := MoveHighlights(rows, a, b);
    forall r | r in rows ensures r in MoveHighlights(m, b, a) {
      MovedIndexBack(r, a, b);
    }
    forall x | x in MoveHighlights(m, b, a) ensures x in rows {
      var y :| y in m && x == MovedIndex(y, b, a);
      var r :| r in rows && y == MovedIndex(r, a, b);
      MovedIndexBack(r, a, b);
    }
  }

  lemma MovedIndexBack(r: int, a: int, b: int)
    ensures MovedIndex(MovedIndex(r, a, b), b, a) == r
  {
  }
}

=== FILE: stacking_table.dfy ===
// StackingTableModel (gridlamedit/io/spreadsheet.py): the editable table of
// a laminate's layers. It owns the layer list, the selection check boxes
// and the red and green highlight rows, renumbers the layers after every
// structural change, and routes cell edits either straight to the layer or
// through the undo stack as a recorded field edit.
module StackingTables {
  import opened Wrappers
  import opened Text
  import opened Seqs
  import opened GridModels
  import opened StackingLabels
  import opened StackingRows
  import opened StackingEdits
  import opened StackingChanges
  import opened Sorting

  /** len(HEADERS): the table's seven columns. */
  const ColumnCount: int := 7

  /** max(0, n) */
  function AtLeastZero(n: int): (r: nat)
    ensures r >= n && (r == 0 || r == n)
  {
    if n < 0 then 0 else n
  }

  /** The two label columns _prefix_and_separator reads. */
  datatype LabelColumn = SequenceColumn | PlyColumn

  function LabelOf(c: Camada, column: LabelColumn): string
  {
    if column == SequenceColumn then c.sequence else c.plyLabel
  }

  function ColumnLabels(cs: seq<Camada>, column: LabelColumn): (r: seq<string>)
    ensures column == SequenceColumn ==> r == SequenceLabels(cs)
    ensures column == PlyColumn ==> r == PlyLabels(cs)
  {
    if column == SequenceColumn then SequenceLabels(cs) else PlyLabels(cs)
  }

  /** A _LayerFieldEditCommand: the cell it edits and the values redo and undo write. */
  datatype FieldEdit = FieldEdit(row: int, column: int, oldValue: FieldInput, newValue: FieldInput)

  /** The list comprehension of update_layers: every layer given its defaults. */
  function Defaulted(cs: seq<Camada>): (r: seq<Camada>)
    ensures |r| == |cs|
  {
    seq(|cs|, i requires 0 <= i < |cs| => EnsureLayerDefaults(cs[i]))
  }

  /** [value] * n */
  function Repeated(value: bool, n: nat): (r: seq<bool>)
    ensures |r| == n && forall i :: 0 <= i < n ==> r[i] == value
  {
    if n == 0 then [] else [value] + Repeated(value, n - 1)
  }

  /** The rows of `rows` that index one of n layers. */
  function InRange(rows: set<int>, n: int): (r: set<int>)
    ensures forall q :: q in r <==> q in rows && 0 <= q < n
  {
    set q | q in rows && 0 <= q < n
  }

  /** Asking for one more row adds it to the in-range rows when it indexes a layer. */
  lemma InRangeAdd(rows: set<int>, x: int, n: int)
    ensures InRange(rows + {x}, n) == InRange(rows, n) + (if 0 <= x < n then {x} else {})
  {
  }

  /** Every row of `rows` indexes one of n layers. */
  predicate RowsIn(rows: set<int>, n: int)
  {
    forall r :: r in rows ==> 0 <= r < n
  }

  /** insert_layer's position: max(0, min(position, n)). */
  function Clamped(position: int, n: nat): (p: nat)
    ensures p <= n
    ensures 0 <= position <= n ==> p == position
  {
    if position < 0 then 0 else if position > n then n else position
  }

  /** A non-empty set has a member. */
  lemma HasMember(s: set<int>)
    requires s != {}
    ensures exists x :: x in s
  {
    if !exists x :: x in s {
      assert false;
    }
  }

  /** The `shift` closure of _shift_highlights_on_insert: every row at or after p moves down one. */
  method ShiftRows(rows: set<int>, p: int) returns (updated: set<int>)
    ensures updated == ShiftOnInsert(rows, p)
  {
    updated := {};
    var pending := rows;
    while pending != {}
      invariant pending <= rows
      invariant updated == ShiftOnInsert(rows - pending, p)
      decreases |pending|
    {
      HasMember(pending);
      var row :| row in pending;
      updated := updated + {ShiftIndex(row, p)};
      pending := pending - {row};
      assert ShiftOnInsert(rows - pending, p) == ShiftOnInsert(rows - (pending + {row}), p) + {ShiftIndex(row, p)};
    }
    assert rows - pending == rows;
  }

  lemma AdjustOneMore(done: set<int>, row: int, d: set<int>)
    requires forall q :: q in d ==> q >= 0
    ensures AdjustOnRemove(done + {row}, d) ==
      AdjustOnRemove(done, d) + (if row in d then {} else {row - CountBelow(d, row)})
  {
    assert (set q | q in d && q >= 0) == d;
  }

  /** The `adjust` closure of _adjust_highlights_on_remove, for the non-negative removed rows `d`. */
  method AdjustRows(rows: set<int>, d: set<int>) returns (updated: set<int>)
    requires forall q :: q in d ==> q >= 0
    ensures updated == AdjustOnRemove(rows, d)
  {
    assert (set q | q in d && q >= 0) == d;
    updated := {};
    var pending := rows;
    while pending != {}
      invariant pending <= rows
      invariant updated == AdjustOnRemove(rows - pending, d)
      decreases |pending|
    {
      HasMember(pending);
      var row :| row in pending;
      if row !in d {
        updated := updated + {row - CountBelow(d, row)};
      }
      AdjustOneMore(rows - pending, row, d);
      assert rows - (pending - {row}) == (rows - pending) + {row};
      pending := pending - {row};
    }
    assert rows - pending == rows;
  }

  /** The `adjust` closure of _update_highlights_on_move. */
  method MoveRows(rows: set<int>, source: int, target: int) returns (updated: set<int>)
    ensures updated == MoveHighlights(rows, source, target)
  {
    updated := {};
    var pending := rows;
    while pending != {}
      invariant pending <= rows
      invariant updated == MoveHighlights(rows - pending, source, target)
      decreases |pending|
    {
      HasMember(pending);
      var row :| row in pending;
      updated := updated + {MovedIndex(row, source, target)};
      pending := pending - {row};
      assert MoveHighlights(rows - pending, source, target) ==
        MoveHighlights(rows - (pending + {row}), source, target) + {MovedIndex(row, source, target)};
    }
    assert rows - pending == rows;
  }

  /** set(s) */
  function Values(s: seq<int>): (r: set<int>)
    ensures forall q :: q in r <==> q in s
  {
    set q | q in s
  }

  /** set(s[i:]) */
  function ValuesFrom(s: seq<int>, i: nat): set<int>
    decreases |s| - i
  {
    if i >= |s| then {} else {s[i]} + ValuesFrom(s, i + 1)
  }

  lemma {:induction false} ValuesFromMembers(s: seq<int>, i: nat)
    ensures forall q :: q in ValuesFrom(s, i) <==> exists k :: i <= k < |s| && s[k] == q
    decreases |s| - i
  {
    if i < |s| {
      ValuesFromMembers(s, i + 1);
    }
  }

  lemma ValuesFromAll(s: seq<int>)
    ensures ValuesFrom(s, 0) == Values(s)
  {
    ValuesFromMembers(s, 0);
    forall q | q in Values(s)
      ensures q in ValuesFrom(s, 0)
    {
      var k :| 0 <= k < |s| && s[k] == q;
    }
    forall q | q in ValuesFrom(s, 0)
      ensures q in Values(s)
    {
      var k :| 0 <= k < |s| && s[k] == q;
      assert s[k] in s;
    }
  }

  /** After an insertion at p the highlighted rows still index layers. */
  lemma ShiftedRowsIn(rows: set<int>, p: nat, n: nat)
    requires RowsIn(rows, n) && p <= n
    ensures RowsIn(ShiftOnInsert(rows, p), n + 1)
  {
  }

  /** After a move the highlighted rows still index layers. */
  lemma MovedRowsIn(rows: set<int>, a: int, b: int, n: nat)
    requires RowsIn(rows, n) && 0 <= a < n && 0 <= b < n
    ensures RowsIn(MoveHighlights(rows, a, b), n)
  {
  }

  /** After a deletion the surviving highlighted rows still index layers. */
  lemma AdjustedRowsIn<T>(s: seq<T>, rows: set<int>, d: set<int>)
    requires RowsIn(rows, |s|)
    requires forall q :: q in d ==> q >= 0
    ensures RowsIn(AdjustOnRemove(rows, d), |Survivors(s, d)|)
  {
    assert (set q | q in d && q >= 0) == d;
    forall x | x in AdjustOnRemove(rows, d)
      ensures 0 <= x < |Survivors(s, d)|
    {
      var r :| r in rows && r !in d && x == r - CountBelow(d, r);
      HighlightFollowsRemove(s, rows, d, r);
    }
  }

  /** With no non-negative row removed, the highlights stay where they are. */
  lemma AdjustNothing(rows: set<int>, removed: set<int>)
    requires forall q :: q in removed ==> q < 0
    ensures AdjustOnRemove(rows, removed) == rows
  {
    var d := set q | q in removed && q >= 0;
    assert d == {};
    forall r | r in rows
      ensures CountBelow(d, r) == 0
    {
      assert (set q | q in d && q < r) == {};
    }
    forall x | x in rows
      ensures x in AdjustOnRemove(rows, removed)
    {
      assert x == x - CountBelow(d, x);
    }
  }

  /** Deleting the same rows from two lists of one length leaves two lists of one length. */
  lemma SurvivorsSameLength<S, T>(s: seq<S>, t: seq<T>, d: set<int>)
    requires |s| == |t|
    requires forall q :: q in d ==> q >= 0
    ensures |Survivors(s, d)| == |Survivors(t, d)|
  {
    assert s[..|s|] == s;
    assert t[..|t|] == t;
    SurvivorsCount(s, d, |s|);
    SurvivorsCount(t, d, |t|);
  }

  /** Each element is at most the next one. */
  predicate Ascending(s: seq<int>)
  {
    forall i :: 0 <= i < |s| - 1 ==> s[i] <= s[i + 1]
  }

  lemma SortedAscending(s: seq<int>)
    requires SortedBy(s, IntLe)
    ensures Ascending(s)
  {
    forall i | 0 <= i < |s| - 1
      ensures s[i] <= s[i + 1]
    {
      assert IntLe(s[i], s[i + 1]);
    }
  }

  /** sorted(set(rows)) read in increasing order; repeats are passed over by DeleteRows. */
  method RowOrder(rows: seq<int>) returns (order: seq<int>)
    ensures Ascending(order)
    ensures Values(order) == Values(rows)
  {
    order := SortInts(rows);
    IntLeIsPreorder();
    SortedAscending(order);
    assert forall q :: q in order <==> q in multiset(order);
  }

  /**
   * One step of the descending walk over `order`: the rows in range met so
   * far grow by order[i] unless it repeats the entry after it, and every one
   * of them is at least order[i].
   */
  lemma DeleteStepRows(order: seq<int>, i: nat, n: nat, done: set<int>)
    requires Ascending(order) && i < |order|
    requires done == InRange(ValuesFrom(order, i + 1), n)
    requires forall q :: q in done ==> i + 1 < |order| && order[i + 1] <= q
    ensures i + 1 < |order| && order[i + 1] == order[i] ==> InRange(ValuesFrom(order, i), n) == done
    ensures !(i + 1 < |order| && order[i + 1] == order[i]) ==>
      (forall q :: q in done ==> q > order[i]) &&
      InRange(ValuesFrom(order, i), n) == done + (if 0 <= order[i] < n then {order[i]} else {})
    ensures forall q :: q in InRange(ValuesFrom(order, i), n) ==> order[i] <= q
  {
    var seen := ValuesFrom(order, i + 1);
    assert ValuesFrom(order, i) == {order[i]} + seen;
    InRangeAdd(seen, order[i], n);
    if i + 1 < |order| {
      assert order[i] <= order[i + 1];
      if order[i + 1] == order[i] {
        assert order[i] in seen;
        assert seen + {order[i]} == seen;
      }
    }
  }

  /**
   * The loop of remove_rows over sorted(set(rows), reverse=True): `order`
   * holds the requested rows in increasing order and is visited from the
   * end; an entry equal to the one after it is the same member of the set
   * and is passed over. Each visited row that still indexes a layer is
   * deleted from the layers and from their check flags.
   */
  method DeleteRows(layers: seq<Camada>, flags: seq<bool>, order: seq<int>)
      returns (kept: seq<Camada>, keptFlags: seq<bool>, removed: nat, removedRows: set<int>)
    requires Ascending(order) && |flags| == |layers|
    ensures removedRows == InRange(Values(order), |layers|)
    ensures removed == |removedRows|
    ensures kept == Survivors(layers, removedRows) && keptFlags == Survivors(flags, removedRows)
  {
    var n := |layers|;
    kept, keptFlags := layers, flags;
    removed := 0;
    removedRows := {};
    SurvivorsEmpty(layers, {});
    SurvivorsEmpty(flags, {});
    var i := |order|;
    while i > 0
      invariant 0 <= i <= |order|
      invariant removedRows == InRange(ValuesFrom(order, i), n)
      invariant forall q :: q in removedRows ==> i < |order| && order[i] <= q
      invariant removed == |removedRows|
      invariant kept == Survivors(layers, removedRows) && keptFlags == Survivors(flags, removedRows)
    {
      i := i - 1;
      var row := order[i];
      DeleteStepRows(order, i, n, removedRows);
      if i + 1 < |order| && order[i + 1] == row {
      } else {
        if 0 <= row < n {
          SurvivorsStep(layers, removedRows, row);
          SurvivorsStep(flags, removedRows, row);
        }
        if 0 <= row < |kept| {
          kept := RemoveAt(kept, row);
          keptFlags := RemoveAt(keptFlags, row);
          removed := removed + 1;
          removedRows := removedRows + {row};
        }
      }
    }
    ValuesFromAll(order);
  }

  class StackingTableModel {
    var camadas: seq<Camada>
    /** _checked: one selection flag per layer. */
    var checked: seq<bool>
    var rowsRed: set<int>
    var rowsGreen: set<int>
    /** Whether an undo stack is attached. */
    var hasUndoStack: bool
    var undoSuppressed: nat
    /** What the most-used-material provider answers. */
    var mostUsed: Option<string>
    var unbalancedWarning: bool
    /** The commands pushed on the undo stack, oldest first. */
    var pushed: seq<FieldEdit>

    /** One flag per layer, and every highlighted row is a layer's. */
    ghost predicate Valid()
      reads this
    {
      |checked| == |camadas| && RowsIn(rowsRed, |camadas|) && RowsIn(rowsGreen, |camadas|)
    }

    /**
     * The fields __init__ sets before it calls update_layers, which callers
     * follow with UpdateLayers(camadas).
     */
    constructor (undoStack: bool, provided: Option<string>)
      ensures Valid()
      ensures camadas == [] && checked == [] && rowsRed == {} && rowsGreen == {}
      ensures hasUndoStack == undoStack && undoSuppressed == 0 && mostUsed == provided
      ensures !unbalancedWarning && pushed == []
    {
      camadas := [];
      checked := [];
      rowsRed := {};
      rowsGreen := {};
      hasUndoStack := undoStack;
      undoSuppressed := 0;
      mostUsed := provided;
      unbalancedWarning := false;
      pushed := [];
    }

    /** set_undo_stack */
    method SetUndoStack(undoStack: bool)
      modifies this`hasUndoStack
      ensures hasUndoStack == undoStack
    {
      hasUndoStack := undoStack;
    }

    /** _should_record_undo */
    predicate ShouldRecordUndo()
      reads this
    {
      hasUndoStack && undoSuppressed == 0
    }

    // ---------------------------------------------------------------- renumbering

    /** _prefix_and_separator: the style of the first label in the column that matches the label pattern. */
    method PrefixAndSeparator(column: LabelColumn, defaultPrefix: string) returns (st: LabelStyle)
      ensures st == LabelStyleOf(ColumnLabels(camadas, column), defaultPrefix)
    {
      ghost var labels := ColumnLabels(camadas, column);
      var i := 0;
      while i < |camadas|
        invariant 0 <= i <= |camadas|
        invariant LabelStyleOf(labels[i..], defaultPrefix) == LabelStyleOf(labels, defaultPrefix)
      {
        var t := Trim(LabelOf(camadas[i], column));
        assert labels[i..][0] == labels[i] && labels[i..][1..] == labels[i + 1..];
        match MatchLabel(t) {
          case Some(m) =>
            return MatchStyle(t, m);
          case None =>
        }
        i := i + 1;
      }
      return LabelStyle(defaultPrefix, ".");
    }

    /** _sync_indices */
    method SyncIndices()
      modifies this`camadas
      ensures camadas == Reindexed(old(camadas))
    {
      var idx := 0;
      while idx < |camadas|
        invariant 0 <= idx <= |camadas| == |old(camadas)|
        invariant forall k :: 0 <= k < idx ==> camadas[k] == old(camadas)[k].(idx := k)
        invariant forall k :: idx <= k < |camadas| ==> camadas[k] == old(camadas)[k]
      {
        camadas := camadas[idx := camadas[idx].(idx := idx)];
        idx := idx + 1;
      }
    }

    /** _force_sequence_sync: every sequence label becomes the column's style with number row + 1. */
    method ForceSequenceSync()
      modifies this`camadas
      ensures camadas == SequenceSynced(old(camadas))
    {
      if |camadas| == 0 {
        return;
      }
      var st := PrefixAndSeparator(SequenceColumn, "Seq");
      RelabelSequences(st);
    }

    /** The loop of _force_sequence_sync: row idx gets label number idx + 1 in style `st`. */
    method RelabelSequences(st: LabelStyle)
      modifies this`camadas
      ensures camadas == SequenceNumbered(old(camadas), st)
    {
      var idx := 0;
      while idx < |camadas|
        invariant 0 <= idx <= |camadas| == |old(camadas)|
        invariant forall k :: 0 <= k < idx ==> camadas[k] == old(camadas)[k].(sequence := LabelFor(st, k + 1))
        invariant forall k :: idx <= k < |camadas| ==> camadas[k] == old(camadas)[k]
      {
        var expected := LabelFor(st, idx + 1);
        if camadas[idx].sequence != expected {
          camadas := camadas[idx := camadas[idx].(sequence := expected)];
        }
        idx := idx + 1;
      }
    }

    /** _force_ply_sync */
    method ForcePlySync()
      modifies this`camadas
      ensures camadas == PlySynced(old(camadas))
    {
      if |camadas| == 0 {
        return;
      }
      var st := PrefixAndSeparator(PlyColumn, "Ply");
      RelabelPlies(st);
    }

    /** The loop of _force_ply_sync. */
    method RelabelPlies(st: LabelStyle)
      modifies this`camadas
      ensures camadas == PlyNumbered(old(camadas), st)
    {
      var idx := 0;
      while idx < |camadas|
        invariant 0 <= idx <= |camadas| == |old(camadas)|
        invariant forall k :: 0 <= k < idx ==> camadas[k] == old(camadas)[k].(plyLabel := LabelFor(st, k + 1))
        invariant forall k :: idx <= k < |camadas| ==> camadas[k] == old(camadas)[k]
      {
        var expected := LabelFor(st, idx + 1);
        if camadas[idx].plyLabel != expected {
          camadas := camadas[idx := camadas[idx].(plyLabel := expected)];
        }
        idx := idx + 1;
      }
    }

    /** What every structural change ends with. */
    method Resync()
      modifies this`camadas
      ensures camadas == Resynced(old(camadas))
    {
      SyncIndices();
      ForceSequenceSync();
      ForcePlySync();
    }

    /** update_layers: the layers given their defaults and renumbered, nothing checked, no highlights. */
    method UpdateLayers(cs: seq<Camada>)
      modifies this`camadas, this`checked, this`rowsRed, this`rowsGreen
      ensures camadas == Resynced(Defaulted(cs))
      ensures checked == Repeated(false, |cs|) && rowsRed == {} && rowsGreen == {}
      ensures Valid()
    {
      var defaulted := Defaulted(cs);
      camadas := defaulted;
      checked := Repeated(false, |camadas|);
      rowsRed := {};
      rowsGreen := {};
      ghost var before := camadas;
      assert before == defaulted;
      Resync();
      assert camadas == Resynced(before);
    }

    // ---------------------------------------------------------------- rows

    /** insert_layer: the layer, given its defaults and the suggested material, goes in at the clamped position. */
    method InsertLayer(position: int, c: Camada)
      requires Valid()
      modifies this`camadas, this`checked, this`rowsRed, this`rowsGreen
      ensures Valid()
      ensures camadas == Resynced(InsertAt(old(camadas), Clamped(position, |old(camadas)|), FillMaterial(EnsureLayerDefaults(c), SuggestionOf(mostUsed))))
      ensures checked == InsertAt(old(checked), Clamped(position, |old(camadas)|), false)
      ensures rowsRed == ShiftOnInsert(old(rowsRed), Clamped(position, |old(camadas)|))
      ensures rowsGreen == ShiftOnInsert(old(rowsGreen), Clamped(position, |old(camadas)|))
    {
      var suggestion := SuggestionOf(mostUsed);
      var inserted := FillMaterial(EnsureLayerDefaults(c), suggestion);
      InsertRow(Clamped(position, |camadas|), inserted);
      assert suggestion == SuggestionOf(mostUsed);
    }

    /** The rest of insert_layer, once the inserted layer is ready: the row goes in at p, unchecked, and the highlights below it move down. */
    method InsertRow(p: nat, inserted: Camada)
      requires Valid() && p <= |camadas|
      modifies this`camadas, this`checked, this`rowsRed, this`rowsGreen
      ensures Valid()
      ensures camadas == Resynced(InsertAt(old(camadas), p, inserted))
      ensures checked == InsertAt(old(checked), p, false)
      ensures rowsRed == ShiftOnInsert(old(rowsRed), p) && rowsGreen == ShiftOnInsert(old(rowsGreen), p)
    {
      ShiftedRowsIn(rowsRed, p, |camadas|);
      ShiftedRowsIn(rowsGreen, p, |camadas|);
      var grown := InsertAt(camadas, p, inserted);
      camadas := grown;
      checked := InsertAt(checked, p, false);
      ShiftHighlights(p);
      ghost var before := camadas;
      assert before == grown;
      Resync();
      assert camadas == Resynced(before);
    }

    /** remove_rows: the in-range rows asked for are deleted; the number deleted is returned. */
    method RemoveRows(rows: seq<int>) returns (removed: nat)
      requires Valid()
      modifies this`camadas, this`checked, this`rowsRed, this`rowsGreen
      ensures Valid()
      ensures var d := InRange(Values(rows), |old(camadas)|);
        removed == |d| && checked == Survivors(old(checked), d) &&
        camadas == (if d == {} then old(camadas) else Resynced(Survivors(old(camadas), d))) &&
        rowsRed == (if d == {} then old(rowsRed) else AdjustOnRemove(old(rowsRed), d)) &&
        rowsGreen == (if d == {} then old(rowsGreen) else AdjustOnRemove(old(rowsGreen), d))
    {
      ghost var layers0, flags0 := camadas, checked;
      var order := RowOrder(rows);
      var removedRows;
      camadas, checked, removed, removedRows := DeleteRows(camadas, checked, order);
      SurvivorsSameLength(layers0, flags0, removedRows);
      if removed == 0 {
        SurvivorsEmpty(layers0, removedRows);
        return;
      }
      AdjustedRowsIn(layers0, rowsRed, removedRows);
      AdjustedRowsIn(layers0, rowsGreen, removedRows);
      AdjustHighlights(removedRows);
      ghost var before := camadas;
      Resync();
      assert camadas == Resynced(before);
    }

    /** move_row: refused for equal or out-of-range rows; otherwise the layer and its flag move from source to target. */
    method MoveRow(source: int, target: int) returns (ok: bool)
      requires Valid()
      modifies this`camadas, this`checked, this`rowsRed, this`rowsGreen
      ensures Valid()
      ensures ok <==> source != target && 0 <= source < |old(camadas)| && 0 <= target < |old(camadas)|
      ensures ok ==> camadas == Resynced(MoveTo(old(camadas), source, target))
      ensures ok ==> checked == MoveTo(old(checked), source, target)
      ensures ok ==> rowsRed == MoveHighlights(old(rowsRed), source, target)
      ensures ok ==> rowsGreen == MoveHighlights(old(rowsGreen), source, target)
      ensures !ok ==> camadas == old(camadas) && checked == old(checked) && rowsRed == old(rowsRed) && rowsGreen == old(rowsGreen)
    {
      if source == target || !(0 <= source < |camadas|) {
        return false;
      }
      if !(0 <= target < |camadas|) {
        return false;
      }
      MovedRowsIn(rowsRed, source, target, |camadas|);
      MovedRowsIn(rowsGreen, source, target, |camadas|);
      var moved := MoveTo(camadas, source, target);
      camadas := moved;
      checked := MoveTo(checked, source, target);
      MoveHighlightRows(source, target);
      ghost var before := camadas;
      assert before == moved;
      Resync();
      assert camadas == Resynced(before);
      return true;
    }

    // ---------------------------------------------------------------- highlights

    /** _shift_highlights_on_insert */
    method ShiftHighlights(p: int)
      modifies this`rowsRed, this`rowsGreen
      ensures rowsRed == ShiftOnInsert(old(rowsRed), p) && rowsGreen == ShiftOnInsert(old(rowsGreen), p)
    {
      if rowsRed == {} && rowsGreen == {} {
        return;
      }
      rowsRed := ShiftRows(rowsRed, p);
      rowsGreen := ShiftRows(rowsGreen, p);
    }

    /** _adjust_highlights_on_remove: only the non-negative removed rows count. */
    method AdjustHighlights(removedRows: set<int>)
      modifies this`rowsRed, this`rowsGreen
      ensures rowsRed == AdjustOnRemove(old(rowsRed), removedRows)
      ensures rowsGreen == AdjustOnRemove(old(rowsGreen), removedRows)
    {
      var d := set q | q in removedRows && q >= 0;
      assert (set q | q in d && q >= 0) == d;
      if d == {} {
        assert forall q :: q in removedRows && q >= 0 ==> q in d;
        AdjustNothing(rowsRed, removedRows);
        AdjustNothing(rowsGreen, removedRows);
        return;
      }
      rowsRed := AdjustRows(rowsRed, d);
      rowsGreen := AdjustRows(rowsGreen, d);
    }

    /** _update_highlights_on_move */
    method MoveHighlightRows(source: int, target: int)
      modifies this`rowsRed, this`rowsGreen
      ensures rowsRed == MoveHighlights(old(rowsRed), source, target)
      ensures rowsGreen == MoveHighlights(old(rowsGreen), source, target)
    {
      if rowsRed == {} && rowsGreen == {} {
        return;
      }
      rowsRed := MoveRows(rowsRed, source, target);
      rowsGreen := MoveRows(rowsGreen, source, target);
    }

    /** clear_all_highlights */
    method ClearAllHighlights()
      modifies this`rowsRed, this`rowsGreen
      ensures rowsRed == {} && rowsGreen == {}
    {
      if rowsRed == {} && rowsGreen == {} {
        return;
      }
      rowsRed := {};
      rowsGreen := {};
    }

    /** set_red_rows: the red rows become the requested rows that index a layer. */
    method SetRedRows(rows: set<int>)
      modifies this`rowsRed
      ensures rowsRed == InRange(rows, |camadas|)
    {
      var valid := InRange(rows, |camadas|);
      if rowsRed == valid {
        return;
      }
      rowsRed := valid;
    }

    /** add_red_rows: the requested rows that index a layer join the red rows. */
    method AddRedRows(rows: set<int>)
      modifies this`rowsRed
      ensures rowsRed == old(rowsRed) + InRange(rows, |camadas|)
    {
      var added := InRange(rows, |camadas|);
      if added == {} {
        return;
      }
      rowsRed := rowsRed + added;
    }

    /** set_green_rows */
    method SetGreenRows(rows: set<int>)
      modifies this`rowsGreen
      ensures rowsGreen == InRange(rows, |camadas|)
    {
      var valid := InRange(rows, |camadas|);
      if rowsGreen == valid {
        return;
      }
      rowsGreen := valid;
    }

    /** add_green_rows */
    method AddGreenRows(rows: set<int>)
      modifies this`rowsGreen
      ensures rowsGreen == old(rowsGreen) + InRange(rows, |camadas|)
    {
      var added := InRange(rows, |camadas|);
      if added == {} {
        return;
      }
      rowsGreen := rowsGreen + added;
    }

    // ---------------------------------------------------------------- cell edits

    /** _default_sequence_label(row) and _default_ply_label(row). */
    method RowDefaultsAt(row: nat) returns (d: RowDefaults)
      ensures d == DefaultsFor(camadas, row)
    {
      var sst := PrefixAndSeparator(SequenceColumn, "Seq");
      var pst := PrefixAndSeparator(PlyColumn, "Ply");
      d := RowDefaults(LabelFor(sst, row + 1), LabelFor(pst, row + 1));
    }

    /**
     * _apply_field_value: refused for a row that is not a layer's, and for a
     * column or value EditRow refuses; otherwise the edited layer replaces
     * the row's layer.
     */
    method ApplyFieldValueCore(row: int, column: int, v: FieldInput) returns (ok: bool)
      requires Valid()
      modifies this`camadas
      ensures Valid()
      ensures ok <==> (0 <= row < |old(camadas)| &&
        EditRow(old(camadas)[row], column, v, DefaultsFor(old(camadas), row), SuggestionOf(mostUsed)).Some?)
      ensures camadas == Edited(old(camadas), row, column, v,
        if 0 <= row then DefaultsFor(old(camadas), row) else RowDefaults("", ""), SuggestionOf(mostUsed))
    {
      if !(0 <= row < |camadas|) {
        return false;
      }
      var defaults := RowDefaultsAt(row);
      var suggestion := SuggestionOf(mostUsed);
      match EditRow(camadas[row], column, v, defaults, suggestion) {
        case None =>
          return false;
        case Some(c) =>
          camadas := camadas[row := c];
          return true;
      }
    }

    /** apply_field_value: _apply_field_value with undo recording suspended for its duration. */
    method ApplyFieldValue(row: int, column: int, v: FieldInput) returns (ok: bool)
      requires Valid()
      modifies this`camadas, this`undoSuppressed
      ensures Valid()
      ensures undoSuppressed == old(undoSuppressed)
      ensures ok <==> (0 <= row < |old(camadas)| &&
        EditRow(old(camadas)[row], column, v, DefaultsFor(old(camadas), row), SuggestionOf(mostUsed)).Some?)
      ensures camadas == Edited(old(camadas), row, column, v,
        if 0 <= row then DefaultsFor(old(camadas), row) else RowDefaults("", ""), SuggestionOf(mostUsed))
    {
      undoSuppressed := undoSuppressed + 1;
      ok := ApplyFieldValueCore(row, column, v);
      undoSuppressed := AtLeastZero(undoSuppressed - 1);
    }

    /** _LayerFieldEditCommand.redo: the new value, applied with recording suspended. */
    method RedoEdit(e: FieldEdit)
      requires Valid()
      modifies this`camadas, this`undoSuppressed
      ensures Valid()
      ensures undoSuppressed == old(undoSuppressed)
      ensures camadas == Edited(old(camadas), e.row, e.column, e.newValue,
        if 0 <= e.row then DefaultsFor(old(camadas), e.row) else RowDefaults("", ""), SuggestionOf(mostUsed))
    {
      var _ := ApplyFieldValue(e.row, e.column, e.newValue);
    }

    /** _LayerFieldEditCommand.undo: the old value, applied with recording suspended. */
    method UndoEdit(e: FieldEdit)
      requires Valid()
      modifies this`camadas, this`undoSuppressed
      ensures Valid()
      ensures undoSuppressed == old(undoSuppressed)
      ensures camadas == Edited(old(camadas), e.row, e.column, e.oldValue,
        if 0 <= e.row then DefaultsFor(old(camadas), e.row) else RowDefaults("", ""), SuggestionOf(mostUsed))
    {
      var _ := ApplyFieldValue(e.row, e.column, e.oldValue);
    }

    /**
     * _apply_or_record_change: with recording on, the edit is pushed as a
     * command, which the undo stack runs at once (its redo), and the answer
     * is True whatever the edit did; otherwise the edit is applied directly.
     */
    method ApplyOrRecordChange(row: int, column: int, oldValue: FieldInput, newValue: FieldInput) returns (ok: bool)
      requires Valid()
      modifies this`camadas, this`undoSuppressed, this`pushed
      ensures Valid()
      ensures undoSuppressed == old(undoSuppressed)
      ensures pushed == old(pushed) + (if old(ShouldRecordUndo()) then [FieldEdit(row, column, oldValue, newValue)] else [])
      ensures camadas == Edited(old(camadas), row, column, newValue,
        if 0 <= row then DefaultsFor(old(camadas), row) else RowDefaults("", ""), SuggestionOf(mostUsed))
      ensures ok <==> (old(ShouldRecordUndo()) || (0 <= row < |old(camadas)| &&
        EditRow(old(camadas)[row], column, newValue, DefaultsFor(old(camadas), row), SuggestionOf(mostUsed)).Some?))
    {
      if ShouldRecordUndo() {
        var e := FieldEdit(row, column, oldValue, newValue);
        pushed := pushed + [e];
        RedoEdit(e);
        return true;
      }
      ok := ApplyFieldValue(row, column, newValue);
    }

    /**
     * setData: an index outside the table is refused; a check-state edit of
     * the selection column sets the row's flag when it changes; an edit or
     * display edit of a data column goes through _apply_or_record_change
     * when ColumnChange finds something to change; anything else is refused.
     */
    method SetData(row: int, column: int, v: FieldInput, role: Role) returns (ok: bool)
      requires Valid()
      modifies this`camadas, this`checked, this`undoSuppressed, this`pushed
      ensures Valid()
      ensures undoSuppressed == old(undoSuppressed)
      ensures !(0 <= row < |old(camadas)| && 0 <= column < ColumnCount) ==>
        !ok && camadas == old(camadas) && checked == old(checked) && pushed == old(pushed)
      ensures 0 <= row < |old(camadas)| && column == ColSelect && role.CheckStateRole? ==>
        (ok <==> old(checked)[row] != role.checked) &&
        checked == old(checked)[row := role.checked] && camadas == old(camadas) && pushed == old(pushed)
      ensures 0 <= row < |old(camadas)| && 0 <= column < ColumnCount && (role.EditRole? || role.DisplayRole?) ==>
        checked == old(checked) &&
        match ColumnChange(old(camadas)[row], column, v, DefaultsFor(old(camadas), row))
        case None => !ok && camadas == old(camadas) && pushed == old(pushed)
        case Some(ch) =>
          pushed == old(pushed) + (if old(ShouldRecordUndo()) then [FieldEdit(row, column, ch.oldValue, ch.newValue)] else []) &&
          camadas == Edited(old(camadas), row, column, ch.newValue, DefaultsFor(old(camadas), row), SuggestionOf(mostUsed)) &&
          (ok <==> (old(ShouldRecordUndo()) ||
            EditRow(old(camadas)[row], column, ch.newValue, DefaultsFor(old(camadas), row), SuggestionOf(mostUsed)).Some?))
      ensures role.OtherRole? || (role.CheckStateRole? && column != ColSelect) ==>
        !ok && camadas == old(camadas) && checked == old(checked) && pushed == old(pushed)
    {
      if !(0 <= row < |camadas| && 0 <= column < ColumnCount) {
        return false;
      }
      if column == ColSelect && role.CheckStateRole? {
        if checked[row] == role.checked {
          return false;
        }
        checked := checked[row := role.checked];
        return true;
      }
      if !(role.EditRole? || role.DisplayRole?) {
        return false;
      }
      var defaults := RowDefaultsAt(row);
      match ColumnChange(camadas[row], column, v, defaults) {
        case None =>
          return false;
        case Some(ch) =>
          ok := ApplyOrRecordChange(row, column, ch.oldValue, ch.newValue);
      }
    }

    // ---------------------------------------------------------------- check boxes

    /** checked_rows */
    function CheckedRows(): (r: seq<int>)
      reads this
      ensures forall i :: i in r <==> 0 <= i < |checked| && checked[i]
    {
      TrueIndices(checked)
    }

    /** any_checked */
    predicate AnyChecked()
      reads this
    {
      exists i :: 0 <= i < |checked| && checked[i]
    }

    /** all_checked: there is a layer and every one is checked. */
    predicate AllChecked()
      reads this
    {
      |checked| > 0 && forall i :: 0 <= i < |checked| ==> checked[i]
    }

    /** set_all_checked */
    method SetAllChecked(value: bool)
      modifies this`checked
      ensures checked == Repeated(value, |old(checked)|)
      ensures value && |checked| > 0 ==> AllChecked()
      ensures !value ==> !AnyChecked()
    {
      if |checked| == 0 {
        return;
      }
      var newState := Repeated(value, |checked|);
      if checked == newState {
        return;
      }
      checked := newState;
    }

    /** clear_checks */
    method ClearChecks()
      modifies this`checked
      ensures checked == Repeated(false, |old(checked)|)
      ensures !AnyChecked()
    {
      if !AnyChecked() {
        assert checked == Repeated(false, |checked|);
        return;
      }
      SetAllChecked(false);
    }

    /** toggle_check: the row's flag is flipped through setData; refused for a row that is not a layer's. */
    method ToggleCheck(row: int) returns (ok: bool)
      requires Valid()
      modifies this`camadas, this`checked, this`undoSuppressed, this`pushed
      ensures Valid()
      ensures ok <==> 0 <= row < |old(checked)|
      ensures ok ==> checked == old(checked)[row := !old(checked)[row]]
      ensures !ok ==> checked == old(checked)
      ensures camadas == old(camadas) && pushed == old(pushed) && undoSuppressed == old(undoSuppressed)
    {
      if !(0 <= row < |camadas|) {
        return false;
      }
      ok := SetData(row, ColSelect, NoInput, CheckStateRole(!checked[row]));
    }

    /** set_unbalanced_warning */
    method SetUnbalancedWarning(enabled: bool)
      modifies this`unbalancedWarning
      ensures unbalancedWarning == enabled
    {
      if unbalancedWarning == enabled {
        return;
      }
      unbalancedWarning := enabled;
    }
  }
}

=== FILE: symmetry_binding.dfy ===
// The symmetry and balance checks of _GridUiBinding
// (gridlamedit/io/spreadsheet.py): which layers form the structural
// stack, whether it reads the same from both ends, where its centre
// lies, and whether the +45 and -45 plies above the centre differ in
// number.
module GridUiBinding {
  import opened Wrappers
  import opened Text
  import opened Seqs
  import opened PyValues
  import opened GridModels

  /** _orientation_token on a stored orientation: normalize_angle's value, None where it raises. */
  function OrientationToken(o: Option<int>): (r: Option<int>)
    ensures r.Some? ==> o == r && InOrientationRange(r.value)
  {
    match o
    case None => None
    case Some(a) => if InOrientationRange(a) then Some(a) else None
  }

  /** The token is what normalize_angle makes of the stored number. */
  lemma OrientationTokenNormalizes(a: int)
    ensures OrientationToken(Some(a)) == NormalizeAngle(VInt(a))
  {
  }

  /** A row _structural_rows keeps: it has an orientation and a structural ply type. */
  predicate IsStructuralRow(c: Camada)
  {
    c.orientacao.Some? && IsStructuralPlyLabel(c.plyType)
  }

  /** _structural_rows */
  function StructuralRows(layers: seq<Camada>): (r: seq<int>)
    ensures forall i {:trigger i in r} :: i in r <==> 0 <= i < |layers| && IsStructuralRow(layers[i])
    ensures RowsOf(layers, r)
  {
    var r := TrueIndices(seq(|layers|, i requires 0 <= i < |layers| => IsStructuralRow(layers[i])));
    assert forall k :: 0 <= k < |r| ==> r[k] in r;
    r
  }

  /** What two mirrored rows must share: trimmed lower-cased material and orientation token. */
  datatype MirrorKey = MirrorKey(material: string, orientation: Option<int>)

  function KeyOf(c: Camada): MirrorKey
  {
    MirrorKey(Lower(Trim(c.material)), OrientationToken(c.orientacao))
  }

  predicate RowsOf(layers: seq<Camada>, rows: seq<int>)
  {
    forall k :: 0 <= k < |rows| ==> 0 <= rows[k] < |layers|
  }

  /** The keys of the given rows, in row order. */
  function KeysOf(layers: seq<Camada>, rows: seq<int>): (r: seq<MirrorKey>)
    requires RowsOf(layers, rows)
    ensures |r| == |rows| && forall k {:trigger r[k]} :: 0 <= k < |rows| ==> r[k] == KeyOf(layers[rows[k]])
  {
    seq(|rows|, k requires 0 <= k < |rows| && RowsOf(layers, rows) => KeyOf(layers[rows[k]]))
  }

  /** Key k agrees with its mirror image. */
  predicate MatchesMirror<T(==)>(keys: seq<T>, k: int)
    requires 0 <= k < |keys|
  {
    keys[k] == keys[|keys| - 1 - k]
  }

  /** The first i keys agree with their mirror images. */
  predicate MirroredUpTo<T(==)>(keys: seq<T>, i: int)
  {
    forall k :: 0 <= k < i && k < |keys| ==> MatchesMirror(keys, k)
  }

  /** The middle row for an odd count, the two middle rows for an even one. */
  function Centers(rows: seq<int>): (r: seq<int>)
    requires |rows| > 0
    ensures 1 <= |r| <= 2
  {
    var n := |rows|;
    if n % 2 == 1 then [rows[n / 2]] else [rows[n / 2 - 1], rows[n / 2]]
  }

  /** Where the centres start among the structural rows. */
  function CenterStart(n: nat): nat
  {
    if n % 2 == 1 then n / 2 else if n == 0 then 0 else n / 2 - 1
  }

  datatype Symmetry = Symmetry(symmetric: bool, centers: seq<int>)

  /**
   * What _detect_symmetry_centers answers, given the structural rows: none
   * is not symmetric; one is symmetric about itself; more are symmetric
   * when every row agrees with its mirror image, about the middle row or
   * rows.
   */
  function SymmetryOfRows(layers: seq<Camada>, rows: seq<int>): Symmetry
    requires RowsOf(layers, rows)
  {
    if |rows| == 0 then Symmetry(false, [])
    else if |rows| == 1 then Symmetry(true, [rows[0]])
    else if MirroredUpTo(KeysOf(layers, rows), |rows|) then Symmetry(true, Centers(rows))
    else Symmetry(false, [])
  }

  function SymmetryOf(layers: seq<Camada>): Symmetry
  {
    SymmetryOfRows(layers, StructuralRows(layers))
  }

  /** _detect_symmetry_centers */
  method DetectSymmetryCenters(layers: seq<Camada>) returns (symmetric: bool, centers: seq<int>)
    ensures Symmetry(symmetric, centers) == SymmetryOf(layers)
  {
    var rows := StructuralRows(layers);
    symmetric, centers := DetectOnRows(layers, rows);
  }

  /** The body of _detect_symmetry_centers after _structural_rows: the two-pointer walk from both ends. */
  method DetectOnRows(layers: seq<Camada>, rows: seq<int>) returns (symmetric: bool, centers: seq<int>)
    requires RowsOf(layers, rows)
    ensures Symmetry(symmetric, centers) == SymmetryOfRows(layers, rows)
  {
    var count := |rows|;
    if count == 0 {
      return false, [];
    }
    if count == 1 {
      return true, [rows[0]];
    }
    var mirrored := MirrorWalk(KeysOf(layers, rows));
    if !mirrored {
      return false, [];
    }
    if count % 2 == 1 {
      centers := [rows[count / 2]];
    } else {
      centers := [rows[count / 2 - 1], rows[count / 2]];
    }
    return true, centers;
  }

  /**
   * The while loop of _detect_symmetry_centers: i and j walk in from both
   * ends, comparing the keys of the rows they point at, and the walk stops
   * at the first pair that differs.
   */
  method MirrorWalk<T(==)>(keys: seq<T>) returns (mirrored: bool)
    ensures mirrored <==> MirroredUpTo(keys, |keys|)
  {
    var count := |keys|;
    var i, j := 0, count - 1;
    while i < j
      invariant 0 <= i && j == count - 1 - i && i <= count / 2 + 1
      invariant MirroredUpTo(keys, i)
    {
      if keys[i] != keys[j] {
        assert !MatchesMirror(keys, i);
        return false;
      }
      assert MatchesMirror(keys, i);
      i, j := i + 1, j - 1;
    }
    MirroredHalf(keys, i);
    return true;
  }

  /** Agreement of the first half with the second is agreement of every key with its mirror image. */
  lemma MirroredHalf<T>(keys: seq<T>, i: int)
    requires 0 <= i && |keys| - 1 - i <= i
    requires MirroredUpTo(keys, i)
    ensures MirroredUpTo(keys, |keys|)
  {
    var n := |keys|;
    forall k | 0 <= k < n
      ensures MatchesMirror(keys, k)
    {
      var m := n - 1 - k;
      if k >= i && m != k {
        assert 0 <= m < i;
        assert MatchesMirror(keys, m);
      }
    }
  }

  /** Agreement with the mirror image is being one's own reverse. */
  lemma MirroredIffReversed<T>(keys: seq<T>)
    ensures MirroredUpTo(keys, |keys|) <==> keys == Reverse(keys)
  {
    if !MirroredUpTo(keys, |keys|) {
      var k :| 0 <= k < |keys| && !MatchesMirror(keys, k);
      assert keys[k] != Reverse(keys)[k];
    } else {
      forall k | 0 <= k < |keys|
        ensures keys[k] == Reverse(keys)[k]
      {
        assert MatchesMirror(keys, k);
      }
    }
  }

  /** The structural stack is symmetric exactly when it is not empty and its keys read the same reversed. */
  lemma SymmetricIffPalindrome(layers: seq<Camada>)
    ensures var rows := StructuralRows(layers);
      SymmetryOf(layers).symmetric <==>
        |rows| > 0 && KeysOf(layers, rows) == Reverse(KeysOf(layers, rows))
  {
    var rows := StructuralRows(layers);
    MirroredIffReversed(KeysOf(layers, rows));
  }

  /**
   * The centres of a symmetric stack are among the structural rows, and as
   * many structural rows lie before the first centre as after the last one.
   */
  lemma CentersSplitEvenly(layers: seq<Camada>, rows: seq<int>)
    requires RowsOf(layers, rows) && SymmetryOfRows(layers, rows).symmetric
    ensures var cs := SymmetryOfRows(layers, rows).centers;
      var a := CenterStart(|rows|);
      1 <= |cs| <= 2 && a + |cs| <= |rows| && rows[a..a + |cs|] == cs && a == |rows| - (a + |cs|)
  {
    var cs := Centers(rows);
    var a := CenterStart(|rows|);
    assert rows[a..a + |cs|] == cs;
  }

  // ---------------------------------------------------------------- balance

  /** How many of `rows` lie before row `below` and have the orientation token `angle`. */
  function CountAngleBefore(layers: seq<Camada>, rows: seq<int>, below: int, angle: int): (n: nat)
    requires RowsOf(layers, rows)
    ensures n <= |rows|
  {
    if rows == [] then 0
    else
      var last := rows[|rows| - 1];
      CountAngleBefore(layers, rows[..|rows| - 1], below, angle) +
        (if last < below && OrientationToken(layers[last].orientacao) == Some(angle) then 1 else 0)
  }

  /** min() of a non-empty list. */
  function MinOf(s: seq<int>): (m: int)
    requires s != []
    ensures m in s && forall x :: x in s ==> m <= x
  {
    if |s| == 1 then s[0]
    else
      var rest := MinOf(s[1..]);
      assert forall x :: x in s ==> x == s[0] || x in s[1..];
      if s[0] <= rest then s[0] else rest
  }

  /**
   * What _is_unbalanced answers: a symmetric stack is unbalanced when the
   * structural rows before its first centre hold different numbers of +45
   * and -45 plies.
   */
  predicate UnbalancedRows(layers: seq<Camada>, rows: seq<int>)
    requires RowsOf(layers, rows)
  {
    var s := SymmetryOfRows(layers, rows);
    s.symmetric && s.centers != [] &&
      CountAngleBefore(layers, rows, MinOf(s.centers), 45) != CountAngleBefore(layers, rows, MinOf(s.centers), -45)
  }

  predicate Unbalanced(layers: seq<Camada>)
  {
    UnbalancedRows(layers, StructuralRows(layers))
  }

  /** _is_unbalanced */
  method IsUnbalanced(layers: seq<Camada>) returns (unbalanced: bool)
    ensures unbalanced == Unbalanced(layers)
  {
    var rows := StructuralRows(layers);
    var symmetric, centers := DetectOnRows(layers, rows);
    if !symmetric || centers == [] {
      return false;
    }
    unbalanced := CountDiagonals(layers, rows, MinOf(centers), centers);
  }

  /** The loop of _is_unbalanced: +45 and -45 counted over the structural rows, skipping the centres and the rows after the first one. */
  method CountDiagonals(layers: seq<Camada>, rows: seq<int>, centerMin: int, centers: seq<int>) returns (unbalanced: bool)
    requires RowsOf(layers, rows) && centerMin in centers
    requires forall c :: c in centers ==> centerMin <= c
    ensures unbalanced <==> CountAngleBefore(layers, rows, centerMin, 45) != CountAngleBefore(layers, rows, centerMin, -45)
  {
    var pos45, neg45 := 0, 0;
    var i := 0;
    while i < |rows|
      invariant 0 <= i <= |rows|
      invariant pos45 == CountAngleBefore(layers, rows[..i], centerMin, 45)
      invariant neg45 == CountAngleBefore(layers, rows[..i], centerMin, -45)
    {
      var row := rows[i];
      assert rows[..i + 1][..i] == rows[..i];
      if row in centers || row > centerMin {
        assert !(row < centerMin);
      } else {
        assert row < centerMin;
        var orientation := OrientationToken(layers[row].orientacao);
        if orientation == Some(45) {
          pos45 := pos45 + 1;
        } else if orientation == Some(-45) {
          neg45 := neg45 + 1;
        }
      }
      i := i + 1;
    }
    assert rows[..i] == rows;
    return pos45 != neg45;
  }

  /** No +45 and no -45 ply before the centre: nothing to count, so balanced. */
  lemma {:induction false} NoDiagonalsNoCount(layers: seq<Camada>, rows: seq<int>, below: int, angle: int)
    requires RowsOf(layers, rows)
    requires forall k :: 0 <= k < |rows| ==> OrientationToken(layers[rows[k]].orientacao) != Some(angle)
    ensures CountAngleBefore(layers, rows, below, angle) == 0
  {
    if rows != [] {
      NoDiagonalsNoCount(layers, rows[..|rows| - 1], below, angle);
    }
  }

  lemma NoDiagonalsBalanced(layers: seq<Camada>)
    requires forall i :: 0 <= i < |layers| ==> layers[i].orientacao != Some(45) && layers[i].orientacao != Some(-45)
    ensures !Unbalanced(layers)
  {
    var rows := StructuralRows(layers);
    var sym := SymmetryOfRows(layers, rows);
    if sym.symmetric && sym.centers != [] {
      var c := MinOf(sym.centers);
      NoDiagonalsNoCount(layers, rows, c, 45);
      NoDiagonalsNoCount(layers, rows, c, -45);
    }
  }
}

=== FILE: text.dfy ===
// String helpers standing in for Python's str methods. Characters are
// treated as ASCII: lower()/upper()/casefold() change only A-Z / a-z, and
// strip()/split() use the ASCII whitespace characters Python recognises.
module Text {
  import opened Wrappers

  // ---------------------------------------------------------------- chars

  predicate IsSpace(c: char)
  {
    c == ' ' || ('\t' <= c <= '\r') || ('\U{1C}' <= c <= '\U{1F}')
  }

  predicate IsDigit(c: char) { '0' <= c <= '9' }

  predicate IsLetter(c: char) { ('A' <= c <= 'Z') || ('a' <= c <= 'z') }

  predicate IsLowerAlnum(c: char) { ('a' <= c <= 'z') || IsDigit(c) }

  predicate AllDigits(s: string)
  {
    forall i :: 0 <= i < |s| ==> IsDigit(s[i])
  }

  function LowerChar(c: char): char
  {
    if 'A' <= c <= 'Z' then (c as int + 32) as char else c
  }

  function UpperChar(c: char): char
  {
    if 'a' <= c <= 'z' then (c as int - 32) as char else c
  }

  /** Applies `f` to every character of `s`. */
  function MapChars(f: char -> char, s: string): (r: string)
    ensures |r| == |s|
    ensures forall i :: 0 <= i < |s| ==> r[i] == f(s[i])
  {
    seq(|s|, i requires 0 <= i < |s| => f(s[i]))
  }

  /** str.lower() (and str.casefold()) on ASCII text. */
  function Lower(s: string): string { MapChars(LowerChar, s) }

  /** str.upper() on ASCII text. */
  function Upper(s: string): string { MapChars(UpperChar, s) }

  lemma LowerIdempotent(s: string)
    ensures Lower(Lower(s)) == Lower(s)
  {
  }

  lemma UpperIdempotent(s: string)
    ensures Upper(Upper(s)) == Upper(s)
  {
  }

  // ---------------------------------------------------------------- strip

  function TrimLeft(s: string): (r: string)
    ensures |r| <= |s|
    ensures r == [] || (!IsSpace(r[0]) && r[0] == s[|s| - |r|])
    ensures forall i :: 0 <= i < |s| - |r| ==> IsSpace(s[i])
  {
    if s != [] && IsSpace(s[0]) then TrimLeft(s[1..]) else s
  }

  function TrimRight(s: string): (r: string)
    ensures |r| <= |s| && r == s[..|r|]
    ensures r == [] || !IsSpace(r[|r| - 1])
    ensures forall i :: |r| <= i < |s| ==> IsSpace(s[i])
  {
    if s != [] && IsSpace(s[|s| - 1]) then TrimRight(s[..|s| - 1]) else s
  }

  /** str.strip(): the text without leading and trailing whitespace. */
  function Trim(s: string): (r: string)
    ensures |r| <= |s|
    ensures r == [] || (!IsSpace(r[0]) && !IsSpace(r[|r| - 1]))
  {
    TrimRight(TrimLeft(s))
  }

  predicate IsTrimmed(s: string)
  {
    s == [] || (!IsSpace(s[0]) && !IsSpace(s[|s| - 1]))
  }

  lemma TrimOfTrimmed(s: string)
    requires IsTrimmed(s)
    ensures Trim(s) == s
  {
  }

  lemma TrimmedLength(s: string)
    requires IsTrimmed(s)
    ensures |Trim(s)| == |s|
  {
    TrimOfTrimmed(s);
  }

  lemma TrimIdempotent(s: string)
    ensures Trim(Trim(s)) == Trim(s)
  {
    TrimOfTrimmed(Trim(s));
  }

  /** Whether the text is empty once stripped (`not str(x).strip()`). */
  predicate IsBlank(s: string)
  {
    Trim(s) == []
  }

  lemma BlankIffAllSpace(s: string)
    ensures IsBlank(s) <==> forall i :: 0 <= i < |s| ==> IsSpace(s[i])
  {
    if !IsBlank(s) {
      var t := TrimLeft(s);
      assert t != [] && !IsSpace(t[0]) && t[0] == s[|s| - |t|];
    }
  }

  // ---------------------------------------------------------------- split / join

  /** Length of the run of non-space characters at the start of `s`. */
  function WordLen(s: string): (n: nat)
    ensures n <= |s|
    ensures forall i :: 0 <= i < n ==> !IsSpace(s[i])
    ensures n == |s| || IsSpace(s[n])
  {
    if s == [] || IsSpace(s[0]) then 0 else 1 + WordLen(s[1..])
  }

  /** str.split() with no separator: the maximal runs of non-space characters. */
  function Words(s: string): seq<string>
    decreases |s|
  {
    if s == [] then []
    else if IsSpace(s[0]) then Words(s[1..])
    else var n := WordLen(s); [s[..n]] + Words(s[n..])
  }

  predicate IsWord(w: string)
  {
    w != [] && forall i :: 0 <= i < |w| ==> !IsSpace(w[i])
  }

  /** " ".join(words) */
  function JoinSpace(ws: seq<string>): string
  {
    if ws == [] then "" else if |ws| == 1 then ws[0] else ws[0] + " " + JoinSpace(ws[1..])
  }

  /** " ".join(text.split()): runs of whitespace become one space, ends are stripped. */
  function Collapse(s: string): string
  {
    JoinSpace(Words(s))
  }

  lemma {:induction false} WordsAreWords(s: string)
    ensures forall k :: 0 <= k < |Words(s)| ==> IsWord(Words(s)[k])
    decreases |s|
  {
    if s == [] {
    } else if IsSpace(s[0]) {
      WordsAreWords(s[1..]);
    } else {
      var n := WordLen(s);
      WordsAreWords(s[n..]);
    }
  }

  lemma {:induction false} WordLenOfWord(w: string, rest: string)
    requires IsWord(w)
    requires rest == [] || IsSpace(rest[0])
    ensures WordLen(w + rest) == |w|
    decreases |w|
  {
    if |w| > 1 {
      assert (w + rest)[1..] == w[1..] + rest;
      WordLenOfWord(w[1..], rest);
    } else {
      assert (w + rest)[1..] == rest;
    }
  }

  lemma {:induction false} WordsOfJoin(ws: seq<string>)
    requires forall k :: 0 <= k < |ws| ==> IsWord(ws[k])
    ensures Words(JoinSpace(ws)) == ws
    decreases |ws|
  {
    if ws == [] {
    } else if |ws| == 1 {
      WordLenOfWord(ws[0], "");
      assert ws[0] + "" == ws[0];
      assert ws[0][|ws[0]|..] == [];
    } else {
      var rest := JoinSpace(ws[1..]);
      var s := ws[0] + " " + rest;
      assert s == ws[0] + (" " + rest);
      WordLenOfWord(ws[0], " " + rest);
      assert s[..|ws[0]|] == ws[0];
      assert s[|ws[0]|..] == " " + rest;
      assert (" " + rest)[1..] == rest;
      WordsOfJoin(ws[1..]);
      assert [ws[0]] + ws[1..] == ws;
    }
  }

  lemma CollapseIdempotent(s: string)
    ensures Collapse(Collapse(s)) == Collapse(s)
  {
    WordsAreWords(s);
    WordsOfJoin(Words(s));
  }

  /** Words joined by single spaces start and end with a word character. */
  lemma {:induction false} JoinSpaceEnds(ws: seq<string>)
    requires forall k :: 0 <= k < |ws| ==> IsWord(ws[k])
    ensures ws != [] ==> JoinSpace(ws) != [] && IsTrimmed(JoinSpace(ws))
  {
    if ws != [] {
      assert IsWord(ws[0]);
    }
    if |ws| > 1 {
      JoinSpaceEnds(ws[1..]);
      var j := JoinSpace(ws);
      assert j == ws[0] + (" " + JoinSpace(ws[1..]));
      assert j[0] == ws[0][0];
      assert j[|j| - 1] == JoinSpace(ws[1..])[|JoinSpace(ws[1..])| - 1];
    }
  }

  /** Collapsed text has no whitespace at either end. */
  lemma CollapseTrimmed(s: string)
    ensures IsTrimmed(Collapse(s))
  {
    WordsAreWords(s);
    JoinSpaceEnds(Words(s));
  }

  /** A character map that keeps whitespace and non-whitespace apart. */
  ghost predicate KeepsSpaces(f: char -> char)
  {
    forall c :: IsSpace(f(c)) <==> IsSpace(c)
  }

  function MapWords(f: char -> char, ws: seq<string>): (r: seq<string>)
    ensures |r| == |ws|
    ensures forall k :: 0 <= k < |ws| ==> r[k] == MapChars(f, ws[k])
  {
    seq(|ws|, k requires 0 <= k < |ws| => MapChars(f, ws[k]))
  }

  lemma {:induction false} WordLenMap(f: char -> char, s: string)
    requires KeepsSpaces(f)
    ensures WordLen(MapChars(f, s)) == WordLen(s)
    decreases |s|
  {
    if s != [] && !IsSpace(s[0]) {
      assert MapChars(f, s)[1..] == MapChars(f, s[1..]);
      WordLenMap(f, s[1..]);
    }
  }

  lemma {:induction false} WordsMap(f: char -> char, s: string)
    requires KeepsSpaces(f)
    ensures Words(MapChars(f, s)) == MapWords(f, Words(s))
    decreases |s|
  {
    var m := MapChars(f, s);
    if s == [] {
    } else if IsSpace(s[0]) {
      assert m[1..] == MapChars(f, s[1..]);
      WordsMap(f, s[1..]);
    } else {
      var n := WordLen(s);
      WordLenMap(f, s);
      assert m[..n] == MapChars(f, s[..n]);
      assert m[n..] == MapChars(f, s[n..]);
      WordsMap(f, s[n..]);
    }
  }

  lemma {:induction false} JoinMap(f: char -> char, ws: seq<string>)
    requires f(' ') == ' '
    ensures JoinSpace(MapWords(f, ws)) == MapChars(f, JoinSpace(ws))
    decreases |ws|
  {
    if |ws| > 1 {
      assert MapWords(f, ws)[1..] == MapWords(f, ws[1..]);
      JoinMap(f, ws[1..]);
    }
  }

  /** Collapsing whitespace commutes with a space-preserving character map. */
  lemma CollapseMap(f: char -> char, s: string)
    requires KeepsSpaces(f) && f(' ') == ' '
    ensures Collapse(MapChars(f, s)) == MapChars(f, Collapse(s))
  {
    WordsMap(f, s);
    JoinMap(f, Words(s));
  }

  lemma LowerKeepsSpaces()
    ensures KeepsSpaces(LowerChar) && LowerChar(' ') == ' '
  {
  }

  lemma UpperKeepsSpaces()
    ensures KeepsSpaces(UpperChar) && UpperChar(' ') == ' '
  {
  }

  // ---------------------------------------------------------------- search

  predicate StartsWith(s: string, p: string)
  {
    |p| <= |s| && s[..|p|] == p
  }

  predicate EndsWith(s: string, p: string)
  {
    |p| <= |s| && s[|s| - |p|..] == p
  }

  /** `sub in s` */
  predicate Contains(s: string, sub: string)
    decreases |s|
  {
    StartsWith(s, sub) || (s != [] && Contains(s[1..], sub))
  }

  /** `c in s` for one character. */
  predicate HasChar(s: string, c: char)
  {
    exists i :: 0 <= i < |s| && s[i] == c
  }

  /** s.rfind(c) for one character: the last position that holds it. */
  function LastIndexOf(s: string, c: char): (r: Option<nat>)
    ensures r.Some? ==> r.value < |s| && s[r.value] == c && forall k :: r.value < k < |s| ==> s[k] != c
    ensures r.None? <==> !HasChar(s, c)
  {
    if s == [] then None
    else if s[|s| - 1] == c then Some(|s| - 1)
    else
      var r := LastIndexOf(s[..|s| - 1], c);
      assert HasChar(s, c) <==> HasChar(s[..|s| - 1], c) by {
        if HasChar(s, c) {
          var i :| 0 <= i < |s| && s[i] == c;
          assert s[..|s| - 1][i] == c;
        }
      }
      r
  }

  /** sep.join(parts) */
  function JoinWith(sep: string, parts: seq<string>): (r: string)
    ensures parts != [] ==> StartsWith(r, parts[0])
  {
    if parts == [] then "" else if |parts| == 1 then parts[0] else parts[0] + sep + JoinWith(sep, parts[1..])
  }

  /** s.split(c) for one separator character: the pieces between the separators, always at least one. */
  function Split(s: string, c: char): (r: seq<string>)
    ensures |r| >= 1
    decreases |s|
  {
    if s == [] then [""]
    else
      var rest := Split(s[1..], c);
      if s[0] == c then [""] + rest else [[s[0]] + rest[0]] + rest[1..]
  }

  /** Joining the pieces with the separator gives the text back, and no piece holds the separator. */
  lemma {:induction false} SplitJoin(s: string, c: char)
    ensures JoinWith([c], Split(s, c)) == s
    ensures forall i :: 0 <= i < |Split(s, c)| ==> !HasChar(Split(s, c)[i], c)
  {
    SplitJoinBack(s, c);
    SplitPiecesClean(s, c);
  }

  lemma {:induction false} SplitJoinBack(s: string, c: char)
    ensures JoinWith([c], Split(s, c)) == s
    decreases |s|
  {
    if s != [] {
      var rest := Split(s[1..], c);
      SplitJoinBack(s[1..], c);
      if s[0] == c {
        JoinEmptyFirst([c], rest);
      } else {
        JoinPrepend([c], s[0], rest);
      }
      assert s == [s[0]] + s[1..];
    }
  }

  lemma JoinEmptyFirst(sep: string, rest: seq<string>)
    requires rest != []
    ensures JoinWith(sep, [""] + rest) == sep + JoinWith(sep, rest)
  {
    assert ([""] + rest)[1..] == rest;
  }

  lemma JoinPrepend(sep: string, a: char, rest: seq<string>)
    requires rest != []
    ensures JoinWith(sep, [[a] + rest[0]] + rest[1..]) == [a] + JoinWith(sep, rest)
  {
    var r := [[a] + rest[0]] + rest[1..];
    if |rest| > 1 {
      assert r[1..] == rest[1..];
    }
  }

  lemma {:induction false} SplitPiecesClean(s: string, c: char)
    ensures forall i :: 0 <= i < |Split(s, c)| ==> !HasChar(Split(s, c)[i], c)
    decreases |s|
  {
    if s != [] {
      var rest := Split(s[1..], c);
      SplitPiecesClean(s[1..], c);
      if s[0] == c {
        assert !HasChar("", c);
        assert ([""] + rest)[1..] == rest;
      } else {
        var r := Split(s, c);
        assert !HasChar([s[0]] + rest[0], c) by {
          assert !HasChar(rest[0], c);
          forall i | 0 <= i < |[s[0]] + rest[0]| ensures ([s[0]] + rest[0])[i] != c {
            if i > 0 { assert ([s[0]] + rest[0])[i] == rest[0][i - 1]; }
          }
        }
        forall i | 0 <= i < |r| ensures !HasChar(r[i], c) {
          if i > 0 { assert r[i] == rest[i]; }
        }
      }
    }
  }

  /** Text without the separator splits into itself alone. */
  lemma {:induction false} SplitWhole(a: string, c: char)
    requires !HasChar(a, c)
    ensures Split(a, c) == [a]
    decreases |a|
  {
    if a != [] {
      assert !HasChar(a[1..], c) by {
        forall i | 0 <= i < |a[1..]| ensures a[1..][i] != c {
          assert a[1..][i] == a[i + 1];
        }
      }
      SplitWhole(a[1..], c);
      assert [a[0]] + a[1..] == a;
    }
  }

  /** A first piece without the separator, then the separator, splits off as one piece. */
  lemma {:induction false} SplitAfter(a: string, b: string, c: char)
    requires !HasChar(a, c)
    ensures Split(a + [c] + b, c) == [a] + Split(b, c)
    decreases |a|
  {
    var s := a + [c] + b;
    if a == [] {
      assert s[1..] == b;
    } else {
      assert s[1..] == a[1..] + [c] + b;
      assert !HasChar(a[1..], c) by {
        forall i | 0 <= i < |a[1..]| ensures a[1..][i] != c {
          assert a[1..][i] == a[i + 1];
        }
      }
      SplitAfter(a[1..], b, c);
      assert [a[0]] + a[1..] == a;
    }
  }

  /** s.replace(c, "") for one character. */
  function RemoveChar(s: string, c: char): (r: string)
    ensures !HasChar(r, c)
    ensures |r| <= |s|
  {
    if s == [] then [] else (if s[0] == c then [] else [s[0]]) + RemoveChar(s[1..], c)
  }

  // ---------------------------------------------------------------- numbers

  function DigitChar(d: nat): (c: char)
    requires d < 10
    ensures IsDigit(c)
  {
    "0123456789"[d]
  }

  function DigitValue(c: char): (d: nat)
    requires IsDigit(c)
    ensures d < 10
  {
    c as int - '0' as int
  }

  /** str(n) for a non-negative integer. */
  function NatToString(n: nat): (r: string)
    ensures r != [] && AllDigits(r)
  {
    if n < 10 then [DigitChar(n)] else NatToString(n / 10) + [DigitChar(n % 10)]
  }

  /** int(s) for a non-empty run of decimal digits. */
  function ParseNat(s: string): nat
    requires AllDigits(s)
  {
    if s == [] then 0 else ParseNat(s[..|s| - 1]) * 10 + DigitValue(s[|s| - 1])
  }

  lemma {:induction false} ParseNatToString(n: nat)
    ensures ParseNat(NatToString(n)) == n
  {
    var r := NatToString(n);
    if n >= 10 {
      ParseNatToString(n / 10);
      assert r[..|r| - 1] == NatToString(n / 10);
    }
  }

  lemma NatToStringInjective(a: nat, b: nat)
    requires NatToString(a) == NatToString(b)
    ensures a == b
  {
    ParseNatToString(a);
    ParseNatToString(b);
  }

  /** str(i) for any integer. */
  function IntToString(i: int): string
  {
    if i < 0 then "-" + NatToString(-i) else NatToString(i)
  }

  /** f"{i:+d}": the sign is always written. */
  function SignedToString(i: int): string
  {
    if i < 0 then "-" + NatToString(-i) else "+" + NatToString(i)
  }

  /** int(text) for "[+-]?digits"; None for anything else. */
  function ParseSigned(s: string): (r: Option<int>)
  {
    if s != [] && (s[0] == '+' || s[0] == '-') && s[1..] != [] && AllDigits(s[1..]) then
      Some(if s[0] == '-' then 0 - ParseNat(s[1..]) as int else ParseNat(s[1..]) as int)
    else if s != [] && AllDigits(s) then Some(ParseNat(s) as int)
    else None
  }

  lemma SignedRoundTrip(i: int)
    ensures ParseSigned(SignedToString(i)) == Some(i)
  {
    var d := if i < 0 then NatToString(-i) else NatToString(i);
    assert SignedToString(i)[1..] == d;
    ParseNatToString(if i < 0 then -i else i);
  }

  /** int() of a digit run, with or without a minus sign. */
  lemma ParseSignedDigits(d: string)
    requires d != [] && AllDigits(d)
    ensures ParseSigned(d) == Some(ParseNat(d) as int)
    ensures ParseSigned("-" + d) == Some(0 - ParseNat(d) as int)
  {
    assert IsDigit(d[0]);
    assert ("-" + d)[1..] == d;
  }

  lemma IntRoundTrip(i: int)
    ensures ParseSigned(IntToString(i)) == Some(i)
  {
    var n: nat := if i < 0 then -i else i;
    ParseSignedDigits(NatToString(n));
    ParseNatToString(n);
  }
}

=== FILE: virtual_export.dfy ===
// gridlamedit/services/virtual_stacking_export.py: the rows of the
// spreadsheet the Virtual Stacking view is exported to, in the layout of the
// CATIA template. Two header rows, one row per layer with one orientation
// column per cell, and a terminator row.
//
// The workbook writer (openpyxl) is not modelled: the export ends with the
// rows and the path they would be written to.
module VirtualExport {
  import opened Wrappers
  import opened Text
  import opened GridModels
  import opened StackingRows
  import opened GridExport

  /** A layer descriptor of the view: sequence label, material, rosette. */
  datatype ExportLayer = ExportLayer(sequenceLabel: string, material: string, rosette: string)

  /**
   * A cell descriptor: its id, when it has one, and the layers of its
   * laminate (none when the cell has no laminate).
   */
  datatype ExportCell = ExportCell(cellId: Option<string>, camadas: seq<Camada>)

  /** A spreadsheet entry: text, or an orientation written as a number. */
  datatype Entry = Text(s: string) | Angle(deg: int)

  const FixedColumns: nat := 4

  /** ["Sequence", "Cell"] padded with "#" to the full width. */
  function HeaderZero(total: nat): seq<Entry>
  {
    [Text("Sequence"), Text("Cell")] + seq(if total >= 2 then total - 2 else 0, _ => Text("#"))
  }

  /** The header of a cell's column: its id, or C1, C2, ... by position. */
  function CellHeader(cell: ExportCell, idx: nat): Entry
  {
    Text(cell.cellId.GetOr("C" + NatToString(idx + 1)))
  }

  function FixedHeaders(): seq<Entry>
  {
    [Text("Virtual Sequence"), Text("Sequence"), Text("Material"), Text("Rosette")]
  }

  function HeaderOne(cells: seq<ExportCell>): seq<Entry>
  {
    FixedHeaders() + seq(|cells|, idx requires 0 <= idx < |cells| => CellHeader(cells[idx], idx))
  }

  /**
   * The orientation of a cell's laminate at layer row `rowIdx` (counted
   * from 1), or an empty entry when the laminate has no such layer or the
   * layer has no orientation.
   */
  function OrientationEntry(cell: ExportCell, rowIdx: nat): Entry
    requires rowIdx >= 1
  {
    if rowIdx - 1 < |cell.camadas| && cell.camadas[rowIdx - 1].orientacao.Some? then
      Angle(cell.camadas[rowIdx - 1].orientacao.value)
    else Text("")
  }

  /** The label of layer row `rowIdx`, "Seq.<rowIdx>" when the layer has none. */
  function RowLabel(layer: ExportLayer, rowIdx: nat): string
  {
    if layer.sequenceLabel != "" then layer.sequenceLabel else "Seq." + NatToString(rowIdx)
  }

  function LayerRow(layer: ExportLayer, rowIdx: nat, cells: seq<ExportCell>): seq<Entry>
    requires rowIdx >= 1
  {
    [Text(RowLabel(layer, rowIdx)), Text(""), Text(layer.material), Text(RosetteOrDefault(layer.rosette))]
      + seq(|cells|, j requires 0 <= j < |cells| => OrientationEntry(cells[j], rowIdx))
  }

  /** "##" in the first column, the rest empty. */
  function Terminator(total: nat): seq<Entry>
  {
    if total == 0 then [Text("##")] else [Text("##")] + seq(total - 1, _ => Text(""))
  }

  /** The exported rows, as _build_virtual_stacking_rows lays them out. */
  function VirtualStackingRows(layers: seq<ExportLayer>, cells: seq<ExportCell>): seq<seq<Entry>>
  {
    var total := FixedColumns + |cells|;
    [HeaderZero(total), HeaderOne(cells)]
      + seq(|layers|, i requires 0 <= i < |layers| => LayerRow(layers[i], i + 1, cells))
      + [Terminator(total)]
  }

  /** The orientations of one layer row, one per cell, built column by column. */
  method LayerRowEntries(layer: ExportLayer, rowIdx: nat, cells: seq<ExportCell>) returns (row: seq<Entry>)
    requires rowIdx >= 1
    ensures row == LayerRow(layer, rowIdx, cells)
  {
    var name := if layer.sequenceLabel != "" then layer.sequenceLabel else "Seq." + NatToString(rowIdx);
    row := [Text(name), Text(""), Text(layer.material), Text(RosetteOrDefault(layer.rosette))];
    for j := 0 to |cells|
      invariant row == LayerRow(layer, rowIdx, cells[..j])
    {
      LayerRowSnoc(layer, rowIdx, cells, j);
      var cell := cells[j];
      var value: Option<int> := None;
      if rowIdx - 1 < |cell.camadas| {
        value := cell.camadas[rowIdx - 1].orientacao;
      }
      if value.None? {
        row := row + [Text("")];
      } else {
        row := row + [Angle(value.value)];
      }
    }
    assert cells[..|cells|] == cells;
  }

  lemma LayerRowSnoc(layer: ExportLayer, rowIdx: nat, cells: seq<ExportCell>, j: nat)
    requires rowIdx >= 1 && j < |cells|
    ensures LayerRow(layer, rowIdx, cells[..j + 1]) == LayerRow(layer, rowIdx, cells[..j]) + [OrientationEntry(cells[j], rowIdx)]
  {
    assert cells[..j + 1][..j] == cells[..j];
  }

  lemma RowsSnoc(layers: seq<ExportLayer>, cells: seq<ExportCell>, rowIdx: nat)
    requires 1 <= rowIdx <= |layers|
    ensures VirtualStackingRows(layers, cells)[..rowIdx + 2]
      == VirtualStackingRows(layers, cells)[..rowIdx + 1] + [LayerRow(layers[rowIdx - 1], rowIdx, cells)]
  {
  }

  /** _build_virtual_stacking_rows: appends the header rows, one row per layer, then the terminator. */
  method BuildVirtualStackingRows(layers: seq<ExportLayer>, cells: seq<ExportCell>) returns (rows: seq<seq<Entry>>)
    ensures rows == VirtualStackingRows(layers, cells)
  {
    var total := FixedColumns + |cells|;
    var headerOne := FixedHeaders();
    for idx := 0 to |cells|
      invariant headerOne == HeaderOne(cells[..idx])
    {
      assert cells[..idx + 1][..idx] == cells[..idx];
      headerOne := headerOne + [CellHeader(cells[idx], idx)];
    }
    assert cells[..|cells|] == cells;
    rows := [HeaderZero(total), headerOne];
    for rowIdx := 1 to |layers| + 1
      invariant |rows| == rowIdx + 1
      invariant rows == VirtualStackingRows(layers, cells)[..rowIdx + 1]
    {
      RowsSnoc(layers, cells, rowIdx);
      var row := LayerRowEntries(layers[rowIdx - 1], rowIdx, cells);
      rows := rows + [row];
    }
    var terminator := TerminatorRow(total);
    assert VirtualStackingRows(layers, cells) == VirtualStackingRows(layers, cells)[..|layers| + 2] + [Terminator(total)];
    rows := rows + [terminator];
  }

  /** [""] * total with "##" written into its first entry, or ["##"] when the row is empty. */
  method TerminatorRow(total: nat) returns (row: seq<Entry>)
    ensures row == Terminator(total)
  {
    row := seq(total, _ => Text(""));
    if row != [] {
      row := row[0 := Text("##")];
    } else {
      row := [Text("##")];
    }
  }

  /** What export_virtual_stacking produces before writing: the file path and the rows. */
  datatype VirtualStackingExport = VirtualStackingExport(path: FilePath, rows: seq<seq<Entry>>)

  /**
   * export_virtual_stacking: refused without cells; otherwise the path is
   * forced to .xlsx and the rows are built.
   */
  method ExportVirtualStacking(layers: seq<ExportLayer>, cells: seq<ExportCell>, path: FilePath)
    returns (r: Result<VirtualStackingExport, ExportError>)
    ensures cells == [] ==> r == Failure(NoVirtualStackingColumns)
    ensures cells != [] && XlsxPath(path).Failure? ==> r == Failure(XlsxPath(path).error)
    ensures cells != [] && XlsxPath(path).Success? ==>
      r == Success(VirtualStackingExport(XlsxPath(path).value, VirtualStackingRows(layers, cells)))
  {
    if cells == [] {
      return Failure(NoVirtualStackingColumns);
    }
    var output := XlsxPath(path);
    if output.Failure? {
      return Failure(output.error);
    }
    var rows := BuildVirtualStackingRows(layers, cells);
    return Success(VirtualStackingExport(output.value, rows));
  }

  // ------------------------------------------------------------ properties of the layout

  /** Two header rows, one row per layer, one terminator row; every row is 4 + |cells| wide. */
  lemma RowsShape(layers: seq<ExportLayer>, cells: seq<ExportCell>)
    ensures |VirtualStackingRows(layers, cells)| == |layers| + 3
    ensures forall i :: 0 <= i < |VirtualStackingRows(layers, cells)| ==>
      |VirtualStackingRows(layers, cells)[i]| == FixedColumns + |cells|
  {
  }

  /** The orientation read back from an entry: a number is an orientation, anything else none. */
  function EntryOrientation(e: Entry): Option<int>
  {
    match e
    case Angle(d) => Some(d)
    case Text(_) => None
  }

  /**
   * Column 4 + j, rows 2 .. 2 + |layers|, carries cell j's orientations: the
   * orientation of its laminate's layer i read back from row 2 + i, none past
   * the end of the laminate.
   */
  lemma CellColumnReadsBack(layers: seq<ExportLayer>, cells: seq<ExportCell>, i: nat, j: nat)
    requires i < |layers| && j < |cells|
    ensures EntryOrientation(VirtualStackingRows(layers, cells)[2 + i][FixedColumns + j])
      == if i < |cells[j].camadas| then cells[j].camadas[i].orientacao else None
  {
  }

  /**
   * The second header names each cell's column; each layer row begins with
   * its label (or Seq.i), an empty column, the material and a non-blank
   * rosette; the terminator begins with "##".
   */
  lemma RowsLabelled(layers: seq<ExportLayer>, cells: seq<ExportCell>)
    ensures forall j :: 0 <= j < |cells| ==>
      VirtualStackingRows(layers, cells)[1][FixedColumns + j] == Text(cells[j].cellId.GetOr("C" + NatToString(j + 1)))
    ensures forall i :: 0 <= i < |layers| ==>
      VirtualStackingRows(layers, cells)[2 + i][..FixedColumns]
        == [Text(RowLabel(layers[i], i + 1)), Text(""), Text(layers[i].material), Text(RosetteOrDefault(layers[i].rosette))]
    ensures forall i :: 0 <= i < |layers| ==> Trim(RosetteOrDefault(layers[i].rosette)) != ""
    ensures VirtualStackingRows(layers, cells)[|layers| + 2][0] == Text("##")
  {
  }
}

=== FILE: virtual_stacking.dfy ===
// The virtual stacking view (gridlamedit/app/virtualstacking.py): one
// column per grid cell that resolves to a laminate, one row per layer
// position, and the edits the view makes to the laminates of the project.
// A cell refers to its laminate by the laminate's key in the project, so an
// edit through one cell is seen through every cell of the same laminate.
module VirtualStacking {
  import opened Wrappers
  import opened Text
  import opened Seqs
  import opened PyValues
  import opened OrderedMaps
  import opened GridModels
  import opened StackingRows
  import opened StackingEdits
  import opened StackingChanges
  import opened StackingTables
  import opened Sorting

  /** VirtualStackingLayer */
  datatype VLayer = VLayer(sequenceLabel: string, material: string)

  /** VirtualStackingCell: the cell id and the key of its laminate in the project. */
  datatype VCell = VCell(cellId: string, laminate: string)

  // ---------------------------------------------------------------- _laminate_for_cell

  /** The laminate under key k exists and lists the cell. */
  predicate Lists(laminados: OMap<string, Laminado>, k: string, cellId: string)
  {
    k in laminados.items && cellId in laminados.items[k].celulas
  }

  /** The first key of ks whose laminate lists the cell. */
  function FirstListing(laminados: OMap<string, Laminado>, ks: seq<string>, cellId: string): (r: Option<string>)
    ensures r.Some? ==> r.value in ks && Lists(laminados, r.value, cellId)
  {
    if ks == [] then None
    else if Lists(laminados, ks[0], cellId) then Some(ks[0])
    else FirstListing(laminados, ks[1..], cellId)
  }

  /** No key lists the cell exactly when there is no listing; otherwise the listing found comes before every other one. */
  lemma {:induction false} FirstListingIsFirst(laminados: OMap<string, Laminado>, ks: seq<string>, cellId: string)
    ensures FirstListing(laminados, ks, cellId).None? <==> forall i :: 0 <= i < |ks| ==> !Lists(laminados, ks[i], cellId)
    ensures FirstListing(laminados, ks, cellId).Some? ==>
      exists j :: 0 <= j < |ks| && ks[j] == FirstListing(laminados, ks, cellId).value &&
        forall i :: 0 <= i < j ==> !Lists(laminados, ks[i], cellId)
  {
    if ks != [] && !Lists(laminados, ks[0], cellId) {
      var rest := ks[1..];
      FirstListingIsFirst(laminados, rest, cellId);
      if FirstListing(laminados, rest, cellId).None? {
        forall i | 0 <= i < |ks| ensures !Lists(laminados, ks[i], cellId) {
          if i > 0 {
            assert ks[i] == rest[i - 1];
          }
        }
      } else {
        var j :| 0 <= j < |rest| && rest[j] == FirstListing(laminados, rest, cellId).value &&
          forall i :: 0 <= i < j ==> !Lists(laminados, rest[i], cellId);
        forall i | 0 <= i < j + 1 ensures !Lists(laminados, ks[i], cellId) {
          if i > 0 {
            assert ks[i] == rest[i - 1];
          }
        }
        assert ks[j + 1] == rest[j];
      }
    } else if ks != [] {
      assert ks[0] == FirstListing(laminados, ks, cellId).value;
    }
  }

  /** _laminate_for_cell: the mapped laminate when it exists, else the first laminate listing the cell. */
  function LaminateForCell(laminados: OMap<string, Laminado>, cellToLaminate: OMap<string, string>, cellId: string): (r: Option<string>)
    ensures r.Some? ==> r.value in laminados.items
  {
    var name := cellToLaminate.GetOr(cellId, "");
    if name != "" && name in laminados.items then Some(name)
    else FirstListing(laminados, laminados.keys, cellId)
  }

  /**
   * The cell resolves to its mapped laminate whenever that laminate
   * exists; otherwise it resolves exactly when some laminate lists it, to
   * the first such laminate in map order.
   */
  lemma LaminateForCellCases(laminados: OMap<string, Laminado>, cellToLaminate: OMap<string, string>, cellId: string)
    ensures var name := cellToLaminate.GetOr(cellId, "");
      name != "" && name in laminados.items ==> LaminateForCell(laminados, cellToLaminate, cellId) == Some(name)
    ensures var name := cellToLaminate.GetOr(cellId, "");
      !(name != "" && name in laminados.items) ==>
        (LaminateForCell(laminados, cellToLaminate, cellId).None? <==>
          forall i :: 0 <= i < |laminados.keys| ==> !Lists(laminados, laminados.keys[i], cellId))
    ensures var name := cellToLaminate.GetOr(cellId, "");
      !(name != "" && name in laminados.items) && LaminateForCell(laminados, cellToLaminate, cellId).Some? ==>
        exists j :: 0 <= j < |laminados.keys| && laminados.keys[j] == LaminateForCell(laminados, cellToLaminate, cellId).value &&
          Lists(laminados, laminados.keys[j], cellId) &&
          forall i :: 0 <= i < j ==> !Lists(laminados, laminados.keys[i], cellId)
  {
    FirstListingIsFirst(laminados, laminados.keys, cellId);
  }

  /** _laminate_for_cell, with its early returns. */
  method ResolveCell(project: GridModel, cellId: string) returns (r: Option<string>)
    requires project.Valid()
    ensures r == LaminateForCell(project.laminados, project.cellToLaminate, cellId)
  {
    var name := project.cellToLaminate.GetOr(cellId, "");
    if name != "" && name in project.laminados.items {
      return Some(name);
    }
    var ks := project.laminados.keys;
    var i := 0;
    while i < |ks|
      invariant 0 <= i <= |ks|
      invariant FirstListing(project.laminados, ks[i..], cellId) == FirstListing(project.laminados, ks, cellId)
    {
      assert ks[i..][1..] == ks[i + 1..];
      var lam := project.laminados.items[ks[i]];
      if cellId in lam.celulas {
        return Some(ks[i]);
      }
      assert !Lists(project.laminados, ks[i], cellId);
      assert FirstListing(project.laminados, ks[i..], cellId) == FirstListing(project.laminados, ks[i + 1..], cellId);
      i := i + 1;
    }
    return None;
  }

  // ---------------------------------------------------------------- _collect_virtual_data

  /** The cells of ids that resolve to a laminate, in order, each with its laminate. */
  function VirtualCells(laminados: OMap<string, Laminado>, cellToLaminate: OMap<string, string>, ids: seq<string>): (r: seq<VCell>)
    ensures |r| <= |ids|
    ensures forall k :: 0 <= k < |r| ==>
      r[k].cellId in ids && LaminateForCell(laminados, cellToLaminate, r[k].cellId) == Some(r[k].laminate)
  {
    if ids == [] then []
    else
      var n := |ids| - 1;
      var prefix := VirtualCells(laminados, cellToLaminate, ids[..n]);
      match LaminateForCell(laminados, cellToLaminate, ids[n])
      case None => prefix
      case Some(k) => prefix + [VCell(ids[n], k)]
  }

  /** Every id that resolves to a laminate has a column. */
  lemma {:induction false} VirtualCellsComplete(laminados: OMap<string, Laminado>, cellToLaminate: OMap<string, string>, ids: seq<string>, i: nat)
    requires i < |ids| && LaminateForCell(laminados, cellToLaminate, ids[i]).Some?
    ensures exists k :: (0 <= k < |VirtualCells(laminados, cellToLaminate, ids)| &&
      VirtualCells(laminados, cellToLaminate, ids)[k].cellId == ids[i])
  {
    var n := |ids| - 1;
    var r := VirtualCells(laminados, cellToLaminate, ids);
    if i == n {
      assert r[|r| - 1].cellId == ids[i];
    } else {
      VirtualCellsComplete(laminados, cellToLaminate, ids[..n], i);
      var prefix := VirtualCells(laminados, cellToLaminate, ids[..n]);
      var k :| 0 <= k < |prefix| && prefix[k].cellId == ids[..n][i];
      assert r[k] == prefix[k];
    }
  }

  /** Every cell names a laminate of the project. */
  predicate Resolved(laminados: OMap<string, Laminado>, cells: seq<VCell>)
  {
    forall k :: 0 <= k < |cells| ==> cells[k].laminate in laminados.items
  }

  lemma VirtualCellsResolved(laminados: OMap<string, Laminado>, cellToLaminate: OMap<string, string>, ids: seq<string>)
    ensures Resolved(laminados, VirtualCells(laminados, cellToLaminate, ids))
  {
  }

  /** The layer lists of the cells' laminates, one per cell. */
  function Stacks(laminados: OMap<string, Laminado>, cells: seq<VCell>): (r: seq<seq<Camada>>)
    requires Resolved(laminados, cells)
    ensures |r| == |cells|
  {
    seq(|cells|, k requires 0 <= k < |cells| => laminados.items[cells[k].laminate].camadas)
  }

  /** max(len(camadas)), 0 when there are none. */
  function MaxLayers(stacks: seq<seq<Camada>>): (m: nat)
    ensures forall i :: 0 <= i < |stacks| ==> |stacks[i]| <= m
    ensures stacks == [] ==> m == 0
    ensures stacks != [] ==> exists i :: 0 <= i < |stacks| && |stacks[i]| == m
  {
    if stacks == [] then 0
    else
      var n := |stacks| - 1;
      var p := MaxLayers(stacks[..n]);
      assert forall i :: 0 <= i < n ==> stacks[..n][i] == stacks[i];
      if |stacks[n]| > p then |stacks[n]| else p
  }

  /** The two layer fields the view collects per row. */
  datatype Field = MaterialField | SequenceField

  function FieldOf(c: Camada, f: Field): string
  {
    match f
    case MaterialField => c.material
    case SequenceField => c.sequence
  }

  /** The field at row idx holds a value in the stack. */
  predicate HasAt(stack: seq<Camada>, idx: nat, f: Field)
  {
    idx < |stack| && FieldOf(stack[idx], f) != ""
  }

  /** The first non-empty value of the field at row idx among the stacks that have that row, "" if none. */
  function FirstAt(stacks: seq<seq<Camada>>, idx: nat, f: Field): (r: string)
  {
    if stacks == [] then ""
    else
      var n := |stacks| - 1;
      var p := FirstAt(stacks[..n], idx, f);
      if p != "" then p
      else if idx < |stacks[n]| then FieldOf(stacks[n][idx], f)
      else ""
  }

  /** FirstAt is empty exactly when no stack has a value there, and otherwise is the value of the first stack that has one. */
  lemma {:induction false} FirstAtHolds(stacks: seq<seq<Camada>>, idx: nat, f: Field)
    ensures FirstAt(stacks, idx, f) == "" <==> forall i :: 0 <= i < |stacks| ==> !HasAt(stacks[i], idx, f)
    ensures FirstAt(stacks, idx, f) != "" ==>
      exists i :: 0 <= i < |stacks| && HasAt(stacks[i], idx, f) && FieldOf(stacks[i][idx], f) == FirstAt(stacks, idx, f) &&
        forall j :: 0 <= j < i ==> !HasAt(stacks[j], idx, f)
  {
    if stacks != [] {
      var n := |stacks| - 1;
      var prefix := stacks[..n];
      FirstAtHolds(prefix, idx, f);
      assert forall i :: 0 <= i < n ==> prefix[i] == stacks[i];
      if FirstAt(prefix, idx, f) != "" {
        var i :| 0 <= i < n && HasAt(prefix[i], idx, f) && FieldOf(prefix[i][idx], f) == FirstAt(prefix, idx, f) &&
          forall j :: 0 <= j < i ==> !HasAt(prefix[j], idx, f);
        assert HasAt(stacks[i], idx, f);
      }
    }
  }

  /** Once a prefix of the stacks has a value, the stacks after it do not change FirstAt (the loop's `break`). */
  lemma {:induction false} FirstAtSettles(stacks: seq<seq<Camada>>, idx: nat, f: Field, k: nat)
    requires k <= |stacks| && FirstAt(stacks[..k], idx, f) != ""
    ensures FirstAt(stacks, idx, f) == FirstAt(stacks[..k], idx, f)
    decreases |stacks|
  {
    if k < |stacks| {
      var n := |stacks| - 1;
      assert stacks[..n][..k] == stacks[..k];
      FirstAtSettles(stacks[..n], idx, f, k);
    } else {
      assert stacks[..k] == stacks;
    }
  }

  /** The label the view shows for a row without one: Seq.<row + 1>. */
  function DefaultSequenceLabel(idx: nat): string
  {
    "Seq." + NatToString(idx + 1)
  }

  /** Row idx of the view: the first sequence label and material found there, the label defaulted. */
  function VirtualRow(stacks: seq<seq<Camada>>, idx: nat): (r: VLayer)
    ensures r.sequenceLabel != ""
  {
    var seqLabel := FirstAt(stacks, idx, SequenceField);
    VLayer(if seqLabel != "" then seqLabel else DefaultSequenceLabel(idx), FirstAt(stacks, idx, MaterialField))
  }

  /** One row per layer position of the deepest laminate. */
  function VirtualLayers(stacks: seq<seq<Camada>>): (r: seq<VLayer>)
    ensures |r| == MaxLayers(stacks)
  {
    seq(MaxLayers(stacks), idx requires 0 <= idx => VirtualRow(stacks, idx))
  }

  /** Some laminate has a layer at row idx marked as the symmetry layer. */
  predicate SymmetryAt(stacks: seq<seq<Camada>>, idx: nat)
  {
    exists i :: 0 <= i < |stacks| && idx < |stacks[i]| && stacks[i][idx].simetria
  }

  /** The smallest row in [idx, count) where SymmetryAt holds. */
  function SymmetryFrom(stacks: seq<seq<Camada>>, idx: nat, count: nat): (r: Option<nat>)
    ensures r.Some? ==> (idx <= r.value < count && SymmetryAt(stacks, r.value) &&
      forall k :: idx <= k < r.value ==> !SymmetryAt(stacks, k))
    ensures r.None? ==> forall k :: idx <= k < count ==> !SymmetryAt(stacks, k)
    decreases count - idx
  {
    if idx >= count then None
    else if SymmetryAt(stacks, idx) then Some(idx)
    else SymmetryFrom(stacks, idx + 1, count)
  }

  /** _detect_symmetry_row */
  method DetectSymmetryRow(stacks: seq<seq<Camada>>, count: nat) returns (r: Option<nat>)
    ensures r == SymmetryFrom(stacks, 0, count)
  {
    var idx := 0;
    while idx < count
      invariant 0 <= idx <= count
      invariant SymmetryFrom(stacks, idx, count) == SymmetryFrom(stacks, 0, count)
    {
      var i := 0;
      while i < |stacks|
        invariant 0 <= i <= |stacks|
        invariant forall j :: 0 <= j < i ==> !(idx < |stacks[j]| && stacks[j][idx].simetria)
      {
        if idx < |stacks[i]| && stacks[i][idx].simetria {
          return Some(idx);
        }
        i := i + 1;
      }
      idx := idx + 1;
    }
    return None;
  }

  /** The inner loop of _collect_virtual_data for row idx, with its early `break`. */
  method CollectRow(stacks: seq<seq<Camada>>, idx: nat) returns (layer: VLayer)
    ensures layer == VirtualRow(stacks, idx)
  {
    var material := "";
    var seqLabel := "";
    var i := 0;
    while i < |stacks|
      invariant 0 <= i <= |stacks|
      invariant material == FirstAt(stacks[..i], idx, MaterialField)
      invariant seqLabel == FirstAt(stacks[..i], idx, SequenceField)
    {
      assert stacks[..i + 1][..i] == stacks[..i];
      if idx < |stacks[i]| {
        var camada := stacks[i][idx];
        if material == "" && camada.material != "" {
          material := camada.material;
        }
        if seqLabel == "" && camada.sequence != "" {
          seqLabel := camada.sequence;
        }
        if material != "" && seqLabel != "" {
          FirstAtSettles(stacks, idx, MaterialField, i + 1);
          FirstAtSettles(stacks, idx, SequenceField, i + 1);
          break;
        }
      }
      i := i + 1;
    }
    if i == |stacks| {
      assert stacks[..i] == stacks;
    }
    if seqLabel == "" {
      seqLabel := DefaultSequenceLabel(idx);
    }
    layer := VLayer(seqLabel, material);
  }

  /** The first loop of _collect_virtual_data: the cells that resolve, and their laminates' layers. */
  method CollectCells(project: GridModel) returns (cells: seq<VCell>, stacks: seq<seq<Camada>>)
    requires project.Valid()
    ensures cells == VirtualCells(project.laminados, project.cellToLaminate, project.celulasOrdenadas)
    ensures Resolved(project.laminados, cells) && stacks == Stacks(project.laminados, cells)
  {
    var ids := project.celulasOrdenadas;
    cells := [];
    stacks := [];
    var i := 0;
    while i < |ids|
      invariant 0 <= i <= |ids|
      invariant cells == VirtualCells(project.laminados, project.cellToLaminate, ids[..i])
      invariant Resolved(project.laminados, cells) && stacks == Stacks(project.laminados, cells)
    {
      assert ids[..i + 1][..i] == ids[..i];
      var found := ResolveCell(project, ids[i]);
      if found.Some? {
        cells := cells + [VCell(ids[i], found.value)];
        stacks := stacks + [project.laminados.items[found.value].camadas];
      }
      i := i + 1;
    }
    assert ids[..i] == ids;
  }

  /** _collect_virtual_data */
  method CollectVirtualData(project: GridModel) returns (layers: seq<VLayer>, cells: seq<VCell>, symmetry: Option<nat>)
    requires project.Valid()
    ensures cells == VirtualCells(project.laminados, project.cellToLaminate, project.celulasOrdenadas)
    ensures Resolved(project.laminados, cells)
    ensures layers == VirtualLayers(Stacks(project.laminados, cells))
    ensures symmetry == SymmetryFrom(Stacks(project.laminados, cells), 0, MaxLayers(Stacks(project.laminados, cells)))
  {
    var stacks;
    cells, stacks := CollectCells(project);
    var maxLayers := MaxLayers(stacks);
    layers := CollectLayers(stacks, maxLayers);
    symmetry := DetectSymmetryRow(stacks, maxLayers);
  }

  /** The second loop of _collect_virtual_data: one row per layer position. */
  method CollectLayers(stacks: seq<seq<Camada>>, maxLayers: nat) returns (layers: seq<VLayer>)
    requires maxLayers == MaxLayers(stacks)
    ensures layers == VirtualLayers(stacks)
  {
    ghost var all := VirtualLayers(stacks);
    layers := [];
    var idx := 0;
    while idx < maxLayers
      invariant 0 <= idx <= maxLayers
      invariant |layers| == idx
      invariant forall k :: 0 <= k < idx ==> layers[k] == all[k]
    {
      var row := CollectRow(stacks, idx);
      assert row == all[idx];
      layers := layers + [row];
      idx := idx + 1;
    }
  }

  // ---------------------------------------------------------------- setData

  /** The edited text: stripped, then a trailing "?" and the blanks before it dropped. */
  function EditedText(value: string): (r: string)
    ensures IsTrimmed(r)
  {
    var text := Trim(value);
    if text != [] && text[|text| - 1] == '?' then Trim(text[..|text| - 1]) else text
  }

  /**
   * The orientation an edit asks for: Some(None) for an empty text,
   * Some(Some(a)) for a text normalising to a (after "," becomes "."),
   * None when it does not normalise and the edit is refused.
   */
  function RequestedAngle(value: string): (r: Option<Option<int>>)
    ensures r.Some? && r.value.Some? ==> InOrientationRange(r.value.value)
    ensures EditedText(value) == "" ==> r == Some(None)
  {
    var text := EditedText(value);
    if text == [] then Some(None)
    else match NormalizeAngle(VText(CommaToDot(text)))
      case None => None
      case Some(a) => Some(Some(a))
  }

  /**
   * What a fresh StackingTableModel (no most-used-material provider) holds
   * after taking the layers cs and applying the value v to the field
   * `column` of `row` through apply_field_value.
   */
  function FreshEdit(cs: seq<Camada>, row: nat, column: int, v: FieldInput): seq<Camada>
  {
    var table := Resynced(Defaulted(cs));
    Edited(table, row, column, v, DefaultsFor(table, row), SuggestionOf(None))
  }

  /** Whether that apply_field_value accepts the value. */
  predicate FreshAccepts(cs: seq<Camada>, row: nat, column: int, v: FieldInput)
  {
    var table := Resynced(Defaulted(cs));
    row < |table| && EditRow(table[row], column, v, DefaultsFor(table, row), SuggestionOf(None)).Some?
  }

  /**
   * What setData does to a laminate's layers: the layers renumbered as a
   * fresh table holds them, with the orientation of the row set (and the
   * material and ply type following it as ApplyOrientation says).
   */
  function WithOrientation(cs: seq<Camada>, row: nat, o: Option<int>): seq<Camada>
  {
    var table := Resynced(Defaulted(cs));
    if row < |table| then table[row := ApplyOrientation(table[row], o, SuggestionOf(None))] else table
  }

  /** The edited row holds the requested orientation; every other row is the renumbered row it was. */
  lemma WithOrientationHolds(cs: seq<Camada>, row: nat, o: Option<int>)
    requires row < |cs|
    requires o.Some? ==> InOrientationRange(o.value)
    ensures |WithOrientation(cs, row, o)| == |cs|
    ensures WithOrientation(cs, row, o)[row].orientacao == o
    ensures forall k :: 0 <= k < |cs| && k != row ==> WithOrientation(cs, row, o)[k] == Resynced(Defaulted(cs))[k]
  {
  }

  /** Applying an orientation in range through a fresh table is accepted and gives WithOrientation. */
  lemma FreshOrientationIs(cs: seq<Camada>, row: nat, o: Option<int>)
    requires row < |cs|
    requires o.Some? ==> InOrientationRange(o.value)
    ensures FreshAccepts(cs, row, ColOrientation, OrientationInput(o))
    ensures FreshEdit(cs, row, ColOrientation, OrientationInput(o)) == WithOrientation(cs, row, o)
  {
    var table := Resynced(Defaulted(cs));
    EditRowOrientation(table[row], o, DefaultsFor(table, row), SuggestionOf(None));
  }

  /** Editing the orientation column with an orientation field value applies that orientation. */
  lemma EditRowOrientation(c: Camada, o: Option<int>, defaults: RowDefaults, suggestion: string)
    requires o.Some? ==> InOrientationRange(o.value)
    ensures EditRow(c, ColOrientation, OrientationInput(o), defaults, suggestion) == Some(ApplyOrientation(c, o, suggestion))
  {
    OrientationInputRoundTrip(o);
  }

  /** The edit text of an orientation: "" for none, the whole number otherwise. */
  function OrientationText(o: Option<int>): string
  {
    match o
    case None => ""
    case Some(a) => IntToString(a)
  }

  /** A blank-looking row of the insert actions: orientation 0, no material, structural. */
  function BlankLayer(): Camada
  {
    NewCamada(0, "", Some(0), true, false)
  }

  /** One insertion of the insert actions: below inserts at row + 1, above at row, clamped into the list. */
  function InsertBlank(cs: seq<Camada>, row: int, below: bool): (r: seq<Camada>)
    ensures |r| == |cs| + 1
  {
    var at := Clamped(if below then row + 1 else row, |cs|);
    Resynced(InsertAt(cs, at, FillMaterial(EnsureLayerDefaults(BlankLayer()), SuggestionOf(None))))
  }

  /** The insertions at the rows of `order`, first to last. */
  function InsertBlanks(cs: seq<Camada>, order: seq<int>, below: bool): (r: seq<Camada>)
    ensures |r| == |cs| + |order|
  {
    if order == [] then cs
    else
      var n := |order| - 1;
      InsertBlank(InsertBlanks(cs, order[..n], below), order[n], below)
  }

  /** sorted(rows, reverse=below) */
  function InsertionOrder(rows: seq<int>, below: bool): (r: seq<int>)
  {
    if below then Reverse(SortInts(rows)) else SortInts(rows)
  }

  /** Below, the rows are taken from the bottom up; above, from the top down; every row is taken once. */
  lemma InsertionOrderHolds(rows: seq<int>, below: bool)
    ensures multiset(InsertionOrder(rows, below)) == multiset(rows)
    ensures var order := InsertionOrder(rows, below);
      forall i :: 0 <= i < |order| - 1 ==> (if below then order[i] >= order[i + 1] else order[i] <= order[i + 1])
  {
    var s := SortInts(rows);
    SortedAscending(s);
    if below {
      ReverseMultiset(s);
    }
  }

  /** Every inserted layer is the blank layer: orientation 0, no material, structural. */
  lemma InsertedLayerBlank()
    ensures var c := FillMaterial(EnsureLayerDefaults(BlankLayer()), SuggestionOf(None));
      c.orientacao == Some(0) && c.material == "" && c.plyType == Structural && c.ativo && !c.simetria
  {
    StructuralIsCanonical();
  }

  /** The per-laminate part of _insert_layer: a fresh table takes the layers, then one blank layer per row in order. */
  method InsertBlankLayers(cs: seq<Camada>, rows: seq<int>, below: bool) returns (r: seq<Camada>)
    ensures r == InsertBlanks(Resynced(Defaulted(cs)), InsertionOrder(rows, below), below)
  {
    var table := FreshTable(cs);
    ghost var start := table.camadas;
    var order := if below then Reverse(SortInts(rows)) else SortInts(rows);
    var i := 0;
    assert order[..0] == [];
    while i < |order|
      invariant 0 <= i <= |order|
      invariant table.Valid() && table.mostUsed == None
      invariant table.camadas == InsertBlanks(start, order[..i], below)
    {
      ghost var prev := table.camadas;
      InsertBlanksStep(start, order, i, below);
      InsertOneBlank(table, order[i], below);
      assert table.camadas == InsertBlank(prev, order[i], below);
      i := i + 1;
    }
    assert order[..i] == order;
    r := table.camadas;
  }

  lemma InsertBlanksStep(cs: seq<Camada>, order: seq<int>, i: nat, below: bool)
    requires i < |order|
    ensures InsertBlanks(cs, order[..i + 1], below) == InsertBlank(InsertBlanks(cs, order[..i], below), order[i], below)
  {
    assert order[..i + 1][..i] == order[..i];
  }

  /** One pass of the loop of _insert_layer: the clamped position, then insert_layer with the blank layer. */
  method InsertOneBlank(table: StackingTableModel, row: int, below: bool)
    requires table.Valid() && table.mostUsed == None
    modifies table`camadas, table`checked, table`rowsRed, table`rowsGreen
    ensures table.Valid() && table.mostUsed == None
    ensures table.camadas == InsertBlank(old(table.camadas), row, below)
  {
    var insertAt := if below then row + 1 else row;
    insertAt := Clamped(insertAt, |table.camadas|);
    table.InsertLayer(insertAt, BlankLayer());
  }

  /** The StackingTableModel part of setData: a fresh table takes the layers and applies the field value. */
  method ApplyToFresh(cs: seq<Camada>, row: nat, column: int, v: FieldInput) returns (accepted: bool, r: seq<Camada>)
    ensures accepted == FreshAccepts(cs, row, column, v)
    ensures r == FreshEdit(cs, row, column, v)
  {
    var table := FreshTable(cs);
    accepted := table.ApplyFieldValue(row, column, v);
    r := table.camadas;
  }

  /** A stacking table created without an undo stack and loaded with cs, as the virtual view does before an edit. */
  method FreshTable(cs: seq<Camada>) returns (table: StackingTableModel)
    ensures fresh(table) && table.Valid() && table.mostUsed == None
    ensures table.camadas == Resynced(Defaulted(cs))
  {
    table := new StackingTableModel(false, None);
    table.UpdateLayers(cs);
  }

  /** ApplyToFresh on the orientation column, which always accepts an orientation in range. */
  method FreshOrientation(cs: seq<Camada>, row: nat, o: Option<int>) returns (accepted: bool, r: seq<Camada>)
    requires row < |cs| && (o.Some? ==> InOrientationRange(o.value))
    ensures accepted && r == WithOrientation(cs, row, o)
  {
    accepted, r := ApplyToFresh(cs, row, ColOrientation, OrientationInput(o));
    FreshOrientationIs(cs, row, o);
  }

  // ---------------------------------------------------------------- _selected_targets

  /** A selected index of the view: whether it is valid, its row and its column. */
  datatype SelectedIndex = SelectedIndex(valid: bool, row: int, column: int)

  /** A valid index in one of the cell columns, which start at column 2. */
  predicate OnCell(ix: SelectedIndex, cellCount: nat)
  {
    ix.valid && 2 <= ix.column && ix.column - 2 < cellCount
  }

  /** The i-th selected index lies on a cell of laminate k. */
  predicate Picks(sel: seq<SelectedIndex>, cells: seq<VCell>, i: int, k: string)
  {
    0 <= i < |sel| && OnCell(sel[i], |cells|) && cells[sel[i].column - 2].laminate == k
  }

  /**
   * _selected_targets as written: the first index on a cell makes
   * `targets.setdefault(laminate, set())` hash a Laminado, a dataclass with
   * eq=True and no __hash__, which raises TypeError; with no such index the
   * result is empty.
   */
  function SelectedTargetsAsWritten(sel: seq<SelectedIndex>, cells: seq<VCell>): (r: Result<OMap<string, seq<int>>, string>)
    ensures r.Success? ==> r.value.Valid() && r.value.keys == []
  {
    if sel == [] then Success(Empty())
    else if OnCell(sel[0], |cells|) then Failure("TypeError: unhashable type: 'Laminado'")
    else SelectedTargetsAsWritten(sel[1..], cells)
  }

  /**
   * The corrected grouping: the rows selected in each laminate's cells, keyed
   * by the laminate, laminates in the order first selected, each row once.
   */
  function SelectedTargets(sel: seq<SelectedIndex>, cells: seq<VCell>): (r: OMap<string, seq<int>>)
    ensures r.Valid()
    ensures forall k :: k in r.items ==> NoDup(r.items[k])
  {
    if sel == [] then Empty()
    else
      var n := |sel| - 1;
      var g := SelectedTargets(sel[..n], cells);
      var ix := sel[n];
      if OnCell(ix, |cells|) then
        var k := cells[ix.column - 2].laminate;
        var rows := g.GetOr(k, []);
        g.Put(k, if ix.row in rows then rows else rows + [ix.row])
      else g
  }

  /** A laminate is a target exactly when some index lies on one of its cells, with exactly the rows of those indexes. */
  lemma {:induction false} SelectedTargetsHold(sel: seq<SelectedIndex>, cells: seq<VCell>, k: string, row: int)
    ensures var r := SelectedTargets(sel, cells);
      (k in r.items <==> exists i :: Picks(sel, cells, i, k)) &&
      (k in r.items ==> (row in r.items[k] <==> exists i :: Picks(sel, cells, i, k) && sel[i].row == row))
  {
    if sel != [] {
      var n := |sel| - 1;
      SelectedTargetsHold(sel[..n], cells, k, row);
      assert forall i :: 0 <= i < n ==> sel[..n][i] == sel[i];
      assert forall i :: Picks(sel[..n], cells, i, k) <==> Picks(sel, cells, i, k) && i < n;
      if Picks(sel, cells, n, k) {
        assert k in SelectedTargets(sel, cells).items;
      } else if exists i :: Picks(sel, cells, i, k) {
        var i :| Picks(sel, cells, i, k);
        assert Picks(sel[..n], cells, i, k);
      }
    }
  }

  /** As written, the selection fails exactly when the corrected grouping finds a target. */
  lemma {:induction false} AsWrittenSelectionRaises(sel: seq<SelectedIndex>, cells: seq<VCell>)
    ensures SelectedTargetsAsWritten(sel, cells).Failure? <==> exists i :: 0 <= i < |sel| && OnCell(sel[i], |cells|)
    ensures SelectedTargetsAsWritten(sel, cells).Failure? <==> SelectedTargets(sel, cells).keys != []
  {
    if sel != [] && !OnCell(sel[0], |cells|) {
      AsWrittenSelectionRaises(sel[1..], cells);
      assert forall i :: 1 <= i < |sel| ==> sel[1..][i - 1] == sel[i];
    }
    var r := SelectedTargets(sel, cells);
    if exists i :: 0 <= i < |sel| && OnCell(sel[i], |cells|) {
      var i :| 0 <= i < |sel| && OnCell(sel[i], |cells|);
      var k := cells[sel[i].column - 2].laminate;
      SelectedTargetsHold(sel, cells, k, 0);
      assert Picks(sel, cells, i, k);
      assert k in r.keys;
    } else if r.keys != [] {
      var k := r.keys[0];
      SelectedTargetsHold(sel, cells, k, 0);
    }
  }

  // ---------------------------------------------------------------- the table model

  class VirtualStackingModel {
    /** The project whose laminates the cells show. */
    const project: GridModel
    var layers: seq<VLayer>
    var cells: seq<VCell>
    var symmetryRow: Option<nat>

    /** Every cell shows a laminate of the project. */
    ghost predicate Valid()
      reads this, project
    {
      project.Valid() && Resolved(project.laminados, cells)
    }

    /** __init__: nothing to show yet. */
    constructor (p: GridModel)
      requires p.Valid()
      ensures Valid() && project == p
      ensures layers == [] && cells == [] && symmetryRow == None
    {
      project := p;
      layers := [];
      cells := [];
      symmetryRow := None;
    }

    /** set_virtual_stacking */
    method SetVirtualStacking(newLayers: seq<VLayer>, newCells: seq<VCell>, symmetry: Option<nat>)
      requires project.Valid() && Resolved(project.laminados, newCells)
      modifies this`layers, this`cells, this`symmetryRow
      ensures Valid()
      ensures layers == newLayers && cells == newCells && symmetryRow == symmetry
    {
      layers := newLayers;
      cells := newCells;
      symmetryRow := symmetry;
    }

    /** _rebuild_view with a project: the view shows what _collect_virtual_data collects. */
    method Rebuild()
      requires project.Valid()
      modifies this`layers, this`cells, this`symmetryRow
      ensures Valid()
      ensures cells == VirtualCells(project.laminados, project.cellToLaminate, project.celulasOrdenadas)
      ensures layers == VirtualLayers(Stacks(project.laminados, cells))
      ensures symmetryRow == SymmetryFrom(Stacks(project.laminados, cells), 0, MaxLayers(Stacks(project.laminados, cells)))
    {
      var l, c, s := CollectVirtualData(project);
      SetVirtualStacking(l, c, s);
    }

    /** rowCount */
    function RowCount(): nat
      reads this
    {
      |layers|
    }

    /** columnCount: the sequence and material columns, then one per cell. */
    function ColumnCount(): nat
      reads this
    {
      2 + |cells|
    }

    /**
     * data() in the edit role: the row's label (defaulted) and material in
     * the first two columns, then the orientation of each cell's laminate
     * at that row, "" when the laminate has no such row or no orientation;
     * None outside the table.
     */
    function EditText(row: int, column: int): (r: Option<string>)
      requires Valid()
      reads this, project
      ensures r.Some? <==> 0 <= row < RowCount() && 0 <= column < ColumnCount()
      ensures (0 <= row < RowCount() && 2 <= column < ColumnCount() &&
        row >= |project.laminados.items[cells[column - 2].laminate].camadas|) ==> r == Some("")
    {
      if !(0 <= row < |layers|) then None
      else if column == 0 then
        Some(if layers[row].sequenceLabel != "" then layers[row].sequenceLabel else DefaultSequenceLabel(row))
      else if column == 1 then Some(layers[row].material)
      else if 2 <= column < 2 + |cells| then
        var cs := project.laminados.items[cells[column - 2].laminate].camadas;
        if row < |cs| then Some(OrientationText(cs[row].orientacao)) else Some("")
      else None
    }

    /**
     * setData: only edits of a cell column at a row both the view and the
     * cell's laminate have, with a text that normalises; the laminate's
     * layers are replaced by the edited ones.
     */
    method SetData(row: int, column: int, value: string, isEdit: bool) returns (ok: bool)
      requires Valid()
      modifies project`laminados
      ensures Valid()
      ensures ok <==> (isEdit && 0 <= row < |layers| && 2 <= column < 2 + |cells| &&
        row < |old(project.laminados.items[cells[column - 2].laminate].camadas)| && RequestedAngle(value).Some?)
      ensures !ok ==> project.laminados == old(project.laminados)
      ensures ok ==>
        var key := cells[column - 2].laminate;
        var lam := old(project.laminados.items[key]);
        project.laminados == old(project.laminados).Put(key, lam.(camadas := WithOrientation(lam.camadas, row, RequestedAngle(value).value)))
    {
      if !isEdit {
        return false;
      }
      if row < 0 || row >= |layers| || column < 2 {
        return false;
      }
      var cellIndex := column - 2;
      if cellIndex >= |cells| {
        return false;
      }
      ok := EditCell(row, cells[cellIndex].laminate, value);
    }

    /** The rest of setData once the cell is known: the laminate must have the row and the text must normalise. */
    method EditCell(row: nat, key: string, value: string) returns (ok: bool)
      requires Valid() && key in project.laminados.items
      modifies project`laminados
      ensures Valid()
      ensures ok <==> row < |old(project.laminados.items[key].camadas)| && RequestedAngle(value).Some?
      ensures !ok ==> project.laminados == old(project.laminados)
      ensures ok ==>
        var lam := old(project.laminados.items[key]);
        project.laminados == old(project.laminados).Put(key, lam.(camadas := WithOrientation(lam.camadas, row, RequestedAngle(value).value)))
    {
      if row >= |project.laminados.items[key].camadas| {
        return false;
      }
      var angle := RequestedAngle(value);
      if angle.None? {
        return false;
      }
      ok := SetOrientation(key, row, angle.value);
    }

    /** The end of setData: the laminate under key gets its layers with the row's orientation set. */
    method SetOrientation(key: string, row: nat, o: Option<int>) returns (ok: bool)
      requires Valid() && key in project.laminados.items && row < |project.laminados.items[key].camadas|
      requires o.Some? ==> InOrientationRange(o.value)
      modifies project`laminados
      ensures Valid() && ok
      ensures var lam := old(project.laminados.items[key]);
        project.laminados == old(project.laminados).Put(key, lam.(camadas := WithOrientation(lam.camadas, row, o)))
    {
      var lam := project.laminados.items[key];
      var accepted, edited := FreshOrientation(lam.camadas, row, o);
      if !accepted {
        return false;
      }
      project.laminados := project.laminados.Put(key, lam.(camadas := edited));
      return true;
    }
  }

  /** After a successful setData, the edited cell reads back the orientation that was written. */
  lemma SetDataReadsBack(m: VirtualStackingModel, row: int, column: int, cs: seq<Camada>, o: Option<int>)
    requires m.Valid() && 0 <= row < |m.layers| && 2 <= column < 2 + |m.cells|
    requires row < |cs| && (o.Some? ==> InOrientationRange(o.value))
    requires m.project.laminados.items[m.cells[column - 2].laminate].camadas == WithOrientation(cs, row, o)
    ensures m.EditText(row, column) == Some(OrientationText(o))
  {
    WithOrientationHolds(cs, row, o);
  }
}

=== FILE: wrappers.dfy ===
// Option and Result: the two shapes the Python code uses for "no value"
// (None) and for a raised exception.
module Wrappers {
  datatype Option<T> = None | Some(value: T)
  {
    function GetOr(default: T): T
    {
      if Some? then value else default
    }
  }

  datatype Result<T, E> = Success(value: T) | Failure(error: E)
}
